=== FILE: README.md ===
# Yandex Music for Stream Deck, modelled in Dafny

This project models the two halves of the Yandex Music Stream Deck integration and proves properties of them.

**The Ynison bridge (`api_for_plugin/`)** is a small web service. It holds one Ynison session per user token. The model covers:
- the pydantic models of the Ynison protocol, with their decoding and defaults;
- the socket handshake, with its JSON blob in the `Sec-WebSocket-Protocol` header;
- the player: redirect, first state, frame processing, the progress clock, and the command payloads;
- the session manager: start, enrichment, like/dislike, and the session registry;
- the HTTP/WebSocket endpoints that fan state out to plugin clients.

**The Stream Deck plugin (`com.judd1.yandex_music.sdPlugin/`)** has two control paths. In "local" mode it drives the Yandex Music desktop app through the Chrome DevTools protocol and a script injected into the page. In "ynison" mode it follows the bridge. The model covers:
- the client of the bridge;
- the DevTools controller and the injected page script (`deepDiff`, the observation loop, volume);
- the state schemas, the key settings and their proxy;
- the image cache, the progress renderer's arithmetic and the named background tasks;
- the base key: health, render, settings and registration;
- the property-inspector messages;
- the plugin's event router and its own handlers: new keys, global settings, "apply settings to all", the Ynison start/stop decision and the reconnect loop.

**How the model is built.** JSON documents are `Json.Value` trees. Objects are ordered association lists, so key order and Python `dict` assignment semantics are kept. Everything is a pure function over immutable datatypes. Clocks, random identifiers, sockets and HTTP answers are parameters. Python exceptions the source catches become `Option`/`Result` outcomes.

Where the code and its documentation disagree, the model follows the code:
- `plugin.py` says the reconnect loop gives up after five failed attempts, but the code stops after three (`max_retries = 3`).
- `toggle_play_pause` never updates the stored state, so two toggles in a row send the same flag twice.

Module layout, one module per source component:
- `wrappers.dfy`, `text.dfy`, `json.dfy`, `json_text.dfy`, `validation.dfy`: shared Python/JSON semantics (`str()`, `dict` lookup and update, `json.dumps` escaping, pydantic field rules).
- `models_*.dfy`: `api_for_plugin/ynison/models/*.py`.
- `ynison_client.dfy`, `ynison_player.dfy`, `session_manager.dfy`, `bridge_api.dfy`: `client.py`, `player.py`, `manager.py`, `main.py`.
- `music_client.dfy`, `cdp.dfy`, `injected_api.dfy`, `plugin_states.dfy`, `settings.dfy`, `image_cache.dfy`, `progress_renderer.dfy`, `task_map.dfy`, `actions_base.dfy`, `plugin_router.dfy`: the plugin's `core/ynison.py`, `cdp.py`, `injected_api.js`, `schemas/states.py`, `schemas/settings.py` with `settings_manager.py`, `cache.py`, `renderers/progress.py`, `mixins/task.py`, `actions/base.py` with `actions/mixins.py` and `pi_communicator.py`, and `plugin.py` with `mixins/router.py`.

## Model

| member | source | states |
|---|---|---|
| ModelsCommon.ParseEntityTypeIff | api_for_plugin/ynison/models/common.py:12-30 | a text resolves to a member through `_missing_` exactly when its `str.upper()` equals the member's value; besides ASCII letters that covers the dotless i, long s, sharp s and Latin ligatures, whose upper case is ASCII |
| ModelsCommon.DotlessIResolves | api_for_plugin/ynison/models/common.py:25-30 | "art\u0131st" resolves to the artist type, because the dotless i upper-cases to `I` |
| ModelsCommon.LigatureResolves | api_for_plugin/ynison/models/common.py:25-30 | "arti\ufb06" resolves to the artist type, because the ligature upper-cases to `ST` |
| ModelsCommon.ParseEntityTypeSound | api_for_plugin/ynison/models/common.py:25-30 | whatever the fallback returns is the member whose value equals the input's `str.upper()` |
| ModelsCommon.EntityTypeOfName | api_for_plugin/ynison/models/common.py:12-23 | every entity type's stored value validates back to that entity type |
| ModelsCommon.EntityContextOfName | api_for_plugin/ynison/models/common.py:33-42 | every entity context's stored value validates back to it |
| ModelsCommon.PlayableItemTypeOfName | api_for_plugin/ynison/models/common.py:45-53 | every playable item type's stored value validates back to it |
| ModelsCommon.KeepAliveParamsRoundTrip | api_for_plugin/ynison/models/common.py:56-58 | dumped keep-alive parameters validate back to themselves |
| ModelsCommon.DecodeVersion | api_for_plugin/ynison/models/common.py:61-72 | a version needs a device id; a missing tag becomes the current time in ms as text and a missing timestamp the current time |
| ModelsCommon.VersionRoundTrip | api_for_plugin/ynison/models/common.py:69-72 | a dumped version validates back to itself |
| ModelsCommon.TrackInfoRoundTrip | api_for_plugin/ynison/models/common.py:75-76 | dumped track info validates back to itself |
| ModelsCommon.PlayableItemOf | api_for_plugin/ynison/models/common.py:79-88 | `from`, `playable_id` and `playable_type` are required and every other field defaults to `None` |
| ModelsCommon.PlayableItemRoundTrip | api_for_plugin/ynison/models/common.py:79-88 | a playable item dumped with `None` fields kept, by alias or by field name, validates back to itself |
| ModelsCommon.YnisonIdRoundTrip | api_for_plugin/ynison/models/common.py:8-9 | a dumped id validates back to itself |
| ModelsCommon.PlayableListRoundTrip | api_for_plugin/ynison/models/queue.py:51 | a dumped list of playable items validates back element by element |
| ModelsDevice.DeviceInfoFromDict | api_for_plugin/ynison/models/device.py:6-11 | all five identity strings are required |
| ModelsDevice.DeviceInfoRoundTrip | api_for_plugin/ynison/models/device.py:6-11 | dumped device info validates back to itself |
| ModelsDevice.DeviceCapabilitiesFromDict | api_for_plugin/ynison/models/device.py:14-17 | all three capability fields are required |
| ModelsDevice.DeviceCapabilitiesRoundTrip | api_for_plugin/ynison/models/device.py:14-17 | dumped capabilities validate back to themselves |
| ModelsDevice.VolumeInfoFromDict | api_for_plugin/ynison/models/device.py:20-22 | the volume is required, its version defaults to `None` |
| ModelsDevice.VolumeInfoRoundTrip | api_for_plugin/ynison/models/device.py:20-22 | dumped volume info validates back to itself |
| ModelsDevice.DeviceFromDict | api_for_plugin/ynison/models/device.py:25-29 | the device info is required; capabilities, volume info and `is_shadow` take their declared defaults |
| ModelsDevice.DeviceRoundTrip | api_for_plugin/ynison/models/device.py:25-29 | a dumped device validates back to itself |
| ModelsDevice.DeviceFullFromDict | api_for_plugin/ynison/models/device.py:32-39 | a full device has a device's fields plus an optional session, a required volume and an optional offline flag |
| ModelsDevice.DeviceFullRoundTrip | api_for_plugin/ynison/models/device.py:36-39 | a dumped full device validates back to itself |
| ModelsDevice.DeviceFullListRoundTrip | api_for_plugin/ynison/models/state.py:8 | a dumped device list validates back element by element |
| ModelsMessages.ErrorDetailsFromDict | api_for_plugin/ynison/models/messages.py:17-19 | both error-detail fields default to `None` |
| ModelsMessages.ErrorDetailsRoundTrip | api_for_plugin/ynison/models/messages.py:17-19 | dumped error details validate back to themselves |
| ModelsMessages.ErrorFromDict | api_for_plugin/ynison/models/messages.py:22-27 | the gRPC code, HTTP code and HTTP status are required; details and message default to `None` |
| ModelsMessages.ErrorRoundTrip | api_for_plugin/ynison/models/messages.py:22-27 | a dumped server error validates back to itself |
| ModelsMessages.ErrorMessageFromDict | api_for_plugin/ynison/models/messages.py:30-31 | an error message requires its error |
| ModelsMessages.ErrorMessageRoundTrip | api_for_plugin/ynison/models/messages.py:30-31 | a dumped error message validates back to itself |
| ModelsMessages.PlainIsNotFull | api_for_plugin/ynison/models/messages.py:53 | a dumped plain device has no `volume`, so the union tries the full device first and falls back to the plain one |
| ModelsMessages.AnyDeviceRoundTrip | api_for_plugin/ynison/models/messages.py:53 | either side of the device union validates back to itself |
| ModelsMessages.FullStateFromDict | api_for_plugin/ynison/models/messages.py:51-54 | player state, device and activity flag are all required |
| ModelsMessages.FullStateRoundTrip | api_for_plugin/ynison/models/messages.py:51-54 | a dumped full state validates back to itself |
| ModelsMessages.UpdatePlayerStateMessageFromDict | api_for_plugin/ynison/models/messages.py:34-48 | the request id defaults to a fresh uuid, the interception type to its constant and the action timestamp to now; the player state is required |
| ModelsMessages.UpdatePlayerStateMessageRoundTrip | api_for_plugin/ynison/models/messages.py:47-48 | a dumped player-state update validates back to itself |
| ModelsMessages.UpdateFullStateMessageFromDict | api_for_plugin/ynison/models/messages.py:42-58 | the message defaults as a player-state update does; the full state is required |
| ModelsMessages.UpdateFullStateMessageRoundTrip | api_for_plugin/ynison/models/messages.py:57-58 | a dumped full-state update validates back to itself |
| ModelsPlayerState.StatusFromDict | api_for_plugin/ynison/models/player_state.py:7-12 | duration and progress are required, `paused` defaults to true, the speed to 1, the version to `None` |
| ModelsPlayerState.StatusRoundTrip | api_for_plugin/ynison/models/player_state.py:7-12 | a dumped status validates back to itself |
| ModelsPlayerState.PlayerStateFromDict | api_for_plugin/ynison/models/player_state.py:15-17 | the queue and the status are both required |
| ModelsPlayerState.PlayerStateRoundTrip | api_for_plugin/ynison/models/player_state.py:15-17 | a dumped player state validates back to itself |
| ModelsQueue.WaveSourceRoundTrip | api_for_plugin/ynison/models/queue.py:6-7 | a dumped wave source validates back to itself |
| ModelsQueue.PhonotekaSourceFromDict | api_for_plugin/ynison/models/queue.py:10-13 | the entity context is required, the album and playlist ids default to `None` |
| ModelsQueue.PhonotekaSourceRoundTrip | api_for_plugin/ynison/models/queue.py:10-13 | a dumped phonoteka source validates back to itself |
| ModelsQueue.TrackSourceFromDict | api_for_plugin/ynison/models/queue.py:16-19 | the integer key is required, both sources default to `None` |
| ModelsQueue.TrackSourceRoundTrip | api_for_plugin/ynison/models/queue.py:16-19 | a dumped track source validates back to itself |
| ModelsQueue.TrackSourceListRoundTrip | api_for_plugin/ynison/models/queue.py:27 | a dumped list of track sources validates back element by element |
| ModelsQueue.WaveEntityOptionalFromDict | api_for_plugin/ynison/models/queue.py:22-23 | the session id is required |
| ModelsQueue.WaveEntityOptionalRoundTrip | api_for_plugin/ynison/models/queue.py:22-23 | a dumped wave entity validates back to itself |
| ModelsQueue.EntityOptionsFromDict | api_for_plugin/ynison/models/queue.py:26-28 | both entity options default to `None` |
| ModelsQueue.EntityOptionsRoundTrip | api_for_plugin/ynison/models/queue.py:26-28 | dumped entity options validate back to themselves |
| ModelsQueue.WaveQueueFromDict | api_for_plugin/ynison/models/queue.py:31-34 | `live_playable_index` defaults to 0, the other fields to `None` |
| ModelsQueue.WaveQueueRoundTrip | api_for_plugin/ynison/models/queue.py:31-34 | a dumped wave queue validates back to itself |
| ModelsQueue.QueueFromDict | api_for_plugin/ynison/models/queue.py:37-38 | the wave queue is optional |
| ModelsQueue.QueueRoundTrip | api_for_plugin/ynison/models/queue.py:37-38 | a dumped queue validates back to itself |
| ModelsQueue.QueueOptionsFromDict | api_for_plugin/ynison/models/queue.py:41-42 | the repeat mode defaults to "NONE" |
| ModelsQueue.QueueOptionsRoundTrip | api_for_plugin/ynison/models/queue.py:41-42 | dumped queue options validate back to themselves |
| ModelsQueue.PlayerQueueFromDict | api_for_plugin/ynison/models/queue.py:45-54 | every player-queue field has its declared default (index -1, `VARIOUS`, `BASED_ON_ENTITY_BY_DEFAULT`, repeat mode "NONE", empty list) or is optional |
| ModelsQueue.PlayerQueueRoundTrip | api_for_plugin/ynison/models/queue.py:45-54 | a dumped player queue validates back to itself |
| ModelsRedirect.RedirectFromDict | api_for_plugin/ynison/models/redirect.py:6-10 | host, ticket and session id are required, keep-alive parameters default to `None` |
| ModelsRedirect.RedirectRoundTrip | api_for_plugin/ynison/models/redirect.py:6-10 | a dumped redirect validates back to itself |
| ModelsState.StateFromDict | api_for_plugin/ynison/models/state.py:7-10 | the request id defaults to a fresh uuid; devices, player state and timestamp are required |
| ModelsState.StateRoundTrip | api_for_plugin/ynison/models/state.py:7-10 | a dumped state validates back to itself |
| YnisonClient.DefaultStorage | api_for_plugin/utils/auth.py:5-8 | a socket's credentials default to user "0" and device "python" |
| YnisonClient.DeviceInfoIsCompact | api_for_plugin/ynison/client.py:28-34 | the device-info text is what compact `json.dumps` writes for the app name, version and type |
| YnisonClient.ProtocolKeys | api_for_plugin/ynison/client.py:27-51 | the blob's keys are in source order, the optional ticket and session sit between the device id and the fixed tail |
| YnisonClient.ProtocolEntriesDistinct | api_for_plugin/ynison/client.py:27-51 | every blob key is one of the six names and none occurs twice |
| YnisonClient.ProtocolValues | api_for_plugin/ynison/client.py:27-51 | each key carries its value, and the ticket and session keys are present exactly when given non-empty |
| YnisonClient.ProtocolDataStartsWithDeviceId | api_for_plugin/ynison/client.py:27-51 | the blob opens with the device id, which reads back unchanged from its escaped form |
| YnisonClient.HeadersSpec | api_for_plugin/ynison/client.py:53-91 | the protocol header lists the offered sub-protocols joined by ", " and the authorisation header carries the OAuth token |
| YnisonClient.ConnectSpec | api_for_plugin/ynison/client.py:53-91 | the last offered sub-protocol is the blob, which names the storage's device |
| JsonText.UnescapeEscape | api_for_plugin/ynison/client.py:34-51 | the escaping `json.dumps` applies to the device info and the blob reads back as the text it escaped |
| JsonText.EscapeDel | api_for_plugin/ynison/client.py:34-51 | DEL is written as `\u007f`, like every other control character under `ensure_ascii` |
| YnisonPlayer.CleanHostBare | api_for_plugin/ynison/player.py:109-110 | a bare host, or one behind `wss://` or `https://`, cleans to the bare host |
| YnisonPlayer.StateUrl | api_for_plugin/ynison/player.py:110-111 | the state address is `wss://`, the cleaned host and the state-service path, and the host part reads back as the cleaned host |
| YnisonPlayer.DefaultStateMessage | api_for_plugin/ynison/player.py:51-74 | as intended: the first message announces the configured device, as a plain device, inactive, with no current track |
| YnisonPlayer.SessionPlayerConfig | api_for_plugin/manager.py:53-63 | a bridge session's player uses the default device info, is a remote controller but not a player, and is a shadow device |
| YnisonPlayer.Redirected | api_for_plugin/ynison/player.py:77-107 | the redirect succeeds only when the redirector answers with a document that is not an error and validates as a redirect |
| YnisonPlayer.Connect | api_for_plugin/ynison/player.py:77-126 | as intended: the state socket opens with the redirect's ticket and session at the cleaned host, and the first payload is the default full state |
| YnisonPlayer.ConnectAsWritten | api_for_plugin/ynison/player.py:51-74 | as written: building the first payload needs a class the module never imports, so an open state socket still fails |
| YnisonPlayer.ConnectAsWrittenNeverConnects | api_for_plugin/ynison/player.py:115-123 | as written no input connects, and exactly the inputs the intended version accepts fail late |
| YnisonPlayer.DefaultStateValidates | api_for_plugin/ynison/player.py:51-74 | as intended: the first full-state message validates back to itself once dumped |
| YnisonPlayer.TrackOf | api_for_plugin/ynison/player.py:175-190 | the current track is the list entry at the current index, and none when the index is out of range |
| YnisonPlayer.DeviceDataValidates | api_for_plugin/ynison/player.py:204-209 | revalidating a device's data as a full device always succeeds; a plain device takes its volume from `volume_info` |
| YnisonPlayer.UpsertDeviceKeeps | api_for_plugin/ynison/player.py:221-228 | replace-or-append keeps device ids unique, holds the new device, keeps every other device, and grows only for a new id |
| YnisonPlayer.UpsertDeviceSpec | api_for_plugin/ynison/player.py:221-228 | a device with a known id replaces the first device with that id in place; a new id is appended |
| YnisonPlayer.MergeFullState | api_for_plugin/ynison/player.py:211-231 | as intended: the first full state creates the state; later ones replace the player state and upsert the device |
| YnisonPlayer.ProcessFrame | api_for_plugin/ynison/player.py:192-259 | as intended: a non-JSON frame changes nothing; any other stamps the update time; a number, boolean or null raises at the key test and ends the receive loop, exactly those frames do, and nothing else changes for them |
| YnisonPlayer.TextOrListFrameIsQuiet | api_for_plugin/ynison/player.py:196-259 | a text or list document, even one containing a key name, only stamps the time; the errors it causes are caught inside the handler |
| YnisonPlayer.ProcessFrameAgreesOffFullState | api_for_plugin/ynison/player.py:192-259 | as written and as intended differ only on frames carrying `update_full_state` |
| YnisonPlayer.ProcessFrameAsWritten | api_for_plugin/ynison/player.py:197-239 | as written: a full-state frame raises on the missing class and only stamps the time |
| YnisonPlayer.FullStateFrameLostAsWritten | api_for_plugin/ynison/player.py:197-199 | a valid full-state frame is lost as written but installs a state as intended |
| YnisonPlayer.ProcessFrameKeepsTrack | api_for_plugin/ynison/player.py:233 | after every frame the cached track is the one the state designates |
| YnisonPlayer.FirstFullState | api_for_plugin/ynison/player.py:211-218 | as intended: the first full-state frame creates a state holding exactly the announced device |
| YnisonPlayer.LaterFullState | api_for_plugin/ynison/player.py:219-231 | as intended: a later full state replaces the player state, upserts the device in place, keeps the request id, and moves the timestamp only for a nonzero action timestamp |
| YnisonPlayer.BarePlayerStateFrame | api_for_plugin/ynison/player.py:241-255 | a frame that is not a whole state but carries a valid player state replaces only the player state, and only when a state exists |
| YnisonPlayer.CurrentProgress | api_for_plugin/ynison/player.py:386-399 | a paused status reports its progress; a playing one extrapolates at its speed, truncated, never below 0 |
| YnisonPlayer.ProgressMonotone | api_for_plugin/ynison/player.py:386-399 | with a non-negative speed a later reading never reports less progress |
| YnisonPlayer.TogglePayloadSpec | api_for_plugin/ynison/player.py:271-340 | the toggle flips the paused flag, keeps the index and the list, and extrapolates progress only when pausing |
| YnisonPlayer.NextPrevSpec | api_for_plugin/ynison/player.py:401-518 | `next` asks for the following index, `prev` the preceding one but never below zero; both restart playback at zero |
| YnisonPlayer.UpdateStatePayloadSpec | api_for_plugin/ynison/player.py:520-584 | `update_state` re-sends the flag, progress, index and list it holds, with the items' navigation and action ids removed |
| YnisonPlayer.PlayTrackPayloadSpec | api_for_plugin/ynison/player.py:342-384 | the single listed item is the requested track at index 0, and playback starts unpaused at zero |
| YnisonPlayer.OneOffFollowsConnect | api_for_plugin/ynison/player.py:136-173 | whenever the player's own connection reaches the state service, a one-off command reaches the same address |
| YnisonPlayer.OneOffCommand | api_for_plugin/ynison/player.py:136-173 | the payload is sent exactly when the redirector answers with a valid redirect and the state socket opens, and it goes to that redirect's state address |
| SessionManager.StartTwice | api_for_plugin/manager.py:25-49 | starting a running session spawns no second loop and changes nothing |
| SessionManager.Start | api_for_plugin/manager.py:25-49 | a rejected token stops the session and re-raises; any other failure still starts the loop |
| SessionManager.Reconnect | api_for_plugin/manager.py:53-63 | each attempt builds a new player, keeping nothing of the previous connection, configured as a shadow remote controller under the device id drawn for the attempt |
| SessionManager.ReconnectAnnouncesDevice | api_for_plugin/manager.py:54-66 | as intended: the first message of an attempt announces the device id drawn for that attempt |
| SessionManager.ReceiveFrame | api_for_plugin/ynison/client.py:97-108 | a frame that ends the receive loop reaches `handle_close` and leaves the session disconnected; any other frame keeps the connection flag |
| SessionManager.HandleClose | api_for_plugin/manager.py:120-121 | a closed socket only marks the session disconnected |
| SessionManager.CurrentItem | api_for_plugin/manager.py:97-103 | the current item exists exactly when the playable list is non-empty and the index, default 0, lies inside it |
| SessionManager.ReplaceCurrentSpec | api_for_plugin/manager.py:159-164 | the rewritten document has the same index over the same list, changed at that index only |
| SessionManager.CacheEntryOf | api_for_plugin/manager.py:145-155 | a cache entry is built exactly from a non-empty dictionary whose artists can be read; its artist text is the artists' names joined by ", ", and its cover is `coverUri`, or `cover_uri` when `coverUri` is falsy |
| SessionManager.Attach | api_for_plugin/manager.py:159-164 | the cached artist text and cover are copied onto the item only when truthy; every other key is kept |
| SessionManager.CacheEntryArtists | api_for_plugin/manager.py:145-155 | the cached artist text is empty exactly when no artist had a name |
| SessionManager.EnrichSpec | api_for_plugin/manager.py:123-166 | only the current item changes: it gets the like flags for its id and, when its id is cached afterwards, that entry's metadata attached; other items and top-level keys are untouched |
| SessionManager.Enrich | api_for_plugin/manager.py:123-166 | without a current id nothing changes; the catalog is asked exactly for an uncached id when a client exists; a usable answer is cached under the id as its cache entry, and otherwise the cache stays as it was |
| SessionManager.CachedNotRefetched | api_for_plugin/manager.py:135-140 | once an id is cached, enriching any document whose current item has that id never asks the catalog again |
| SessionManager.EnrichAndBroadcast | api_for_plugin/manager.py:94-118 | without a current item nothing is sent; otherwise the enriched document goes to the callback |
| SessionManager.LikeTwice | api_for_plugin/manager.py:177-193 | a like with a current track and a client flips the current id's membership, and two restore the session |
| SessionManager.Like | api_for_plugin/manager.py:177-193 | without a current track or a client nothing changes; otherwise the current id's membership in the liked set flips whatever the catalog answered, the state is handled again exactly when the player holds one, and nothing else changes |
| SessionManager.DislikeTwice | api_for_plugin/manager.py:195-211 | the same for dislikes |
| SessionManager.Dislike | api_for_plugin/manager.py:195-211 | the same on the disliked set: it flips whatever the catalog answered, and nothing else changes |
| SessionManager.GetSessionStable | api_for_plugin/manager.py:232-246 | after a successful lookup the token is known and asking again returns the same session |
| SessionManager.GetSession | api_for_plugin/manager.py:232-246 | an empty token is refused, a known token gets its session back, and a new session is stored unless starting it raised on a rejected token |
| SessionManager.NewSessionRunning | api_for_plugin/manager.py:240-245 | a newly stored session is running and has started its loop |
| SessionManager.Shutdown | api_for_plugin/manager.py:252-257 | every session is closed and the registry emptied |
| SessionManager.Close | api_for_plugin/manager.py:213-224 | a closed session stops running and keeps its token, like sets and track cache |
| BridgeApi.BroadcastAllDelivered | api_for_plugin/main.py:20-43 | a broadcast in which every send succeeds changes no registration |
| BridgeApi.Broadcast | api_for_plugin/main.py:20-43 | every socket of the token is tried; exactly the failing sockets of that token are dropped and no other token is touched |
| BridgeApi.BroadcastAllFailed | api_for_plugin/main.py:20-43 | when every send fails the token stays registered with no sockets |
| BridgeApi.BroadcastSettles | api_for_plugin/main.py:20-43 | a second broadcast to the same failing sockets drops nothing more |
| BridgeApi.RegisterUnregister | api_for_plugin/main.py:69-98 | registering and then unregistering a new socket restores the registry |
| BridgeApi.Register | api_for_plugin/main.py:69-71 | the socket joins the token's set, creating it when missing; other tokens are untouched |
| BridgeApi.Unregister | api_for_plugin/main.py:95-98 | the socket leaves the token's set, and the token goes when its set becomes empty |
| BridgeApi.RegistryKeepsNoEmptyEntries | api_for_plugin/main.py:69-98 | registering and unregistering never leave an empty entry |
| BridgeApi.WsConnect | api_for_plugin/main.py:60-91 | a missing or empty authorisation closes with 4003 before registering; otherwise the socket is registered first |
| BridgeApi.ConnectThenDisconnect | api_for_plugin/main.py:60-98 | a client that connects and later disconnects leaves no trace in the registry |
| BridgeApi.WsDisconnect | api_for_plugin/main.py:93-98 | after a disconnect the socket is no longer registered under its token and other tokens are untouched |
| BridgeApi.RejectedSessionStaysRegistered | api_for_plugin/main.py:74-80 | a socket closed with 4001 stays registered until a send to it fails |
| BridgeApi.BearerToken | api_for_plugin/main.py:103-108 | `Bearer <t>` yields `t` for a token without spaces |
| BridgeApi.RawToken | api_for_plugin/main.py:103-108 | a header without the `Bearer ` prefix is the token itself |
| BridgeApi.ControlToken | api_for_plugin/main.py:102-111 | a non-empty query token wins; otherwise the header decides; the request is refused exactly when neither yields a non-empty token |
| BridgeApi.ParseActionName | api_for_plugin/main.py:115-127 | the recognised actions are exactly the five action names |
| BridgeApi.ControlKeepsSession | api_for_plugin/main.py:101-128 | only like and dislike change the session's record, and every command keeps the token's session registered |
| BridgeApi.Control | api_for_plugin/main.py:101-128 | 401 exactly without a token; an unknown action is reported only after the session is obtained; a known action succeeds exactly when the session exists or can start |
| BridgeApi.CheckedTokenIsReused | api_for_plugin/main.py:131-142 | a token found valid is served from then on without starting anything new |
| BridgeApi.CheckToken | api_for_plugin/main.py:131-142 | a token is valid exactly when it has at least five characters and its session exists or can start; a valid token has a session afterwards |
| MusicClient.UpdateToken | com.judd1.yandex_music.sdPlugin/src/core/ynison.py:99-106 | an unchanged token is a no-op; otherwise it is stored and the token event is set exactly when the token is given |
| MusicClient.SetEnabled | com.judd1.yandex_music.sdPlugin/src/core/ynison.py:83-93 | disabling an open session also disconnects it |
| MusicClient.OnClosed | com.judd1.yandex_music.sdPlugin/src/core/ynison.py:149-164 | a closed connection leaves the client disconnected and not ready; a 4001 marks the token rejected and clears the token event |
| MusicClient.OnHandshakeRejected | com.judd1.yandex_music.sdPlugin/src/core/ynison.py:166-170 | a rejected handshake leaves the client disconnected, and status 401 or 4001 marks the token rejected and clears the token event |
| MusicClient.RejectionParksUntilNewToken | com.judd1.yandex_music.sdPlugin/src/core/ynison.py:135-136 | after a rejection the loop stays parked until a different non-empty token arrives |
| MusicClient.RegisterUnregisterCallback | com.judd1.yandex_music.sdPlugin/src/core/ynison.py:108-113 | registering a new uuid and unregistering it gives the client back |
| MusicClient.RegisterCallback | com.judd1.yandex_music.sdPlugin/src/core/ynison.py:108-109 | the uuid maps to the callback, a new uuid is placed last and a known one keeps its place, no other uuid or callback changes, and the insertion order stays a list of the registered uuids |
| MusicClient.UnregisterCallback | com.judd1.yandex_music.sdPlugin/src/core/ynison.py:111-113 | the uuid is gone, an unknown uuid changes nothing, no other uuid or callback changes, and the insertion order stays a list of the registered uuids |
| MusicClient.Notified | com.judd1.yandex_music.sdPlugin/src/core/ynison.py:115-124 | one call per registered uuid, so a callback held by two uuids is called twice; every uuid's callback is among them, in the dict's insertion order |
| MusicClient.NotifiedAfterNew | com.judd1.yandex_music.sdPlugin/src/core/ynison.py:108-124 | a callback registered under a new uuid is called after every earlier one |
| MusicClient.NotifiedAfterReplace | com.judd1.yandex_music.sdPlugin/src/core/ynison.py:108-124 | registering a known uuid again swaps its callback at the same place in the calling order |
| MusicClient.NotifiedAfterUnregister | com.judd1.yandex_music.sdPlugin/src/core/ynison.py:111-124 | unregistering a uuid drops exactly its call and keeps the others in order |
| MusicClient.PickAgreesWithBridge | com.judd1.yandex_music.sdPlugin/src/core/ynison.py:206-214 | whatever item the plugin picks is the item the bridge's enrichment guard designates |
| MusicClient.BridgeItemIsPicked | com.judd1.yandex_music.sdPlugin/src/core/ynison.py:206-214 | conversely, a non-empty item the bridge designates is always picked |
| MusicClient.PickOutOfRange | com.judd1.yandex_music.sdPlugin/src/core/ynison.py:206-214 | an index outside the list, or an empty list, is never dereferenced |
| MusicClient.CoverUrl | com.judd1.yandex_music.sdPlugin/src/core/ynison.py:251-252 | the cover URL has its size placeholder filled in and a scheme added when missing |
| MusicClient.FetchCover | com.judd1.yandex_music.sdPlugin/src/core/ynison.py:248-274 | with a session and a 200 response the bytes and the normalised URL are stored and the UI notified; anything else leaves the client alone |
| MusicClient.CoverRefetchedAsWritten | com.judd1.yandex_music.sdPlugin/src/core/ynison.py:230 | as written, a stored cover whose URI lacks the scheme is requested again on the next message |
| MusicClient.CoverNotRefetched | com.judd1.yandex_music.sdPlugin/src/core/ynison.py:229-231 | with the intended guard, a downloaded cover is not requested again |
| MusicClient.OnApiMessage | com.judd1.yandex_music.sdPlugin/src/core/ynison.py:182-196 | any frame clears the rejection; the first document becomes the state and later ones are deep-merged into it (the track step uses the intended cover guard) |
| Json.DeepUpdateSpec | com.judd1.yandex_music.sdPlugin/src/core/ynison.py:198-203 | after `deep_update` a key of the source reads as the merged value and every other key as before; the target keeps its keys, new keys are added, and keys stay distinct |
| MusicClient.NewClient | com.judd1.yandex_music.sdPlugin/src/core/ynison.py:23-57 | a new client is enabled, not ready, without state, rejection or callbacks |
| MusicClient.NewTrackReplaces | com.judd1.yandex_music.sdPlugin/src/core/ynison.py:216-233 | an item with a new id becomes the track, the old cover is forgotten, the client becomes ready, and the cover is requested exactly when the item has one |
| MusicClient.NextTrack | com.judd1.yandex_music.sdPlugin/src/core/ynison.py:218-227 | a new id always yields a track; there is none only for a repeated id with no stored track |
| MusicClient.TrackKeepsId | com.judd1.yandex_music.sdPlugin/src/core/ynison.py:218-227 | the next track is non-empty and its id reads as the item's |
| MusicClient.NoItemClearsTrack | com.judd1.yandex_music.sdPlugin/src/core/ynison.py:244-246 | without a current item a ready client drops its track and becomes not ready |
| MusicClient.FlagsFollowItem | com.judd1.yandex_music.sdPlugin/src/core/ynison.py:235-242 | the like flags of the current item decide its id's membership; other ids keep theirs |
| MusicClient.SameMessageNoRefetch | com.judd1.yandex_music.sdPlugin/src/core/ynison.py:229-231 | as intended: once a cover is downloaded, the same state asks for it no more (as written it asks again, see Findings) |
| MusicClient.MergeKeepsId | com.judd1.yandex_music.sdPlugin/src/core/ynison.py:222-224 | merging an item keeps the track non-empty and its id reads as the item's |
| MusicClient.IsPaused | com.judd1.yandex_music.sdPlugin/src/core/ynison.py:289-293 | paused without a state; otherwise the stored `paused` value; true when `player_state`, `status` or `paused` is missing; an error when a step of the path is not a dictionary |
| MusicClient.SendCommand | com.judd1.yandex_music.sdPlugin/src/core/ynison.py:276-287 | nothing is sent without a token or session; otherwise the call succeeds exactly on status 200 |
| MusicClient.SendCommandReachesBridge | com.judd1.yandex_music.sdPlugin/src/core/ynison.py:276-287 | the bridge reads the client's token from the bearer header and knows exactly the five playback and like commands |
| Cdp.RegisterObserver | com.judd1.yandex_music.sdPlugin/src/core/cdp.py:96-100 | the callback joins each requested event's list (only the connection event by default) unless already there; other lists are untouched |
| Cdp.RegisterKeepsNoDuplicates | com.judd1.yandex_music.sdPlugin/src/core/cdp.py:96-100 | registering never puts a callback twice into one list |
| Cdp.UnregisterRemovesEverywhere | com.judd1.yandex_music.sdPlugin/src/core/cdp.py:102-105 | after unregistering, the callback is in no list and every other callback stays in place |
| Cdp.UnregisterObserver | com.judd1.yandex_music.sdPlugin/src/core/cdp.py:102-105 | every event keeps its list, and a list without the callback is unchanged |
| Cdp.RegisterUnregisterObserver | com.judd1.yandex_music.sdPlugin/src/core/cdp.py:96-105 | registering a new callback and unregistering it leaves only the empty lists it created |
| Cdp.Notify | com.judd1.yandex_music.sdPlugin/src/core/cdp.py:113-122 | each callback of the event's list is called once, in order |
| Cdp.SetConnectionStatusIdempotent | com.judd1.yandex_music.sdPlugin/src/core/cdp.py:107-111 | observers hear only about a real change, so the same status twice notifies once |
| Cdp.SetConnectionStatus | com.judd1.yandex_music.sdPlugin/src/core/cdp.py:107-111 | the status is set; only a change notifies the connection observers, and nothing else changes |
| Cdp.FullStateCalls | com.judd1.yandex_music.sdPlugin/src/core/cdp.py:245-251 | a full announcement calls the observers of connection, track, playback, volume, like and dislike in that order, each with that part of the last state, after a "connected" |
| Cdp.FetchState | com.judd1.yandex_music.sdPlugin/src/core/cdp.py:408-419 | a successful dictionary answer is decoded from its `data`; any other answer gives the default state |
| Cdp.DefaultStateNotAdopted | com.judd1.yandex_music.sdPlugin/src/core/cdp.py:181-184 | a failed fetch never replaces the state, because the default state has an empty title |
| Cdp.AdoptInitialState | com.judd1.yandex_music.sdPlugin/src/core/cdp.py:181-184 | a fetched state with a truthy title replaces the state and is announced in full; otherwise nothing changes |
| Cdp.FlagsDelta | com.judd1.yandex_music.sdPlugin/src/core/cdp.py:274-286 | a state delta sets exactly the flags it carries and leaves the rest alone |
| Cdp.ApplyFlags | com.judd1.yandex_music.sdPlugin/src/core/cdp.py:274-286 | a state delta leaves the track and the volume alone |
| Cdp.TrackDeltaNotifiesOnChange | com.judd1.yandex_music.sdPlugin/src/core/cdp.py:259-272 | a track delta without changes notifies nobody; a change notifies each track observer once |
| Cdp.TrackDeltaIdempotent | com.judd1.yandex_music.sdPlugin/src/core/cdp.py:259-272 | applying the same track delta twice changes and notifies nothing the second time |
| Cdp.TrackDelta | com.judd1.yandex_music.sdPlugin/src/core/cdp.py:259-265 | each track field present in the delta takes its value, the id as text; absent fields keep the old value |
| Cdp.ApplyTrack | com.judd1.yandex_music.sdPlugin/src/core/cdp.py:259-272 | only the track may change, and observers hear only about a changed track |
| Cdp.HandleNotifyPayload | com.judd1.yandex_music.sdPlugin/src/core/cdp.py:233-243 | a full state replaces the last state and re-announces it all; a delta is applied; other types are ignored |
| Cdp.HandleEvent | com.judd1.yandex_music.sdPlugin/src/core/cdp.py:223-231 | only a `Runtime.bindingCalled` named `sdNotify` carries a notification |
| Cdp.ScriptShapes | com.judd1.yandex_music.sdPlugin/src/core/cdp.py:397-401 | strings are single-quoted and arguments separated by ", "; no arguments gives empty parentheses |
| Cdp.ScriptRoundTrip | com.judd1.yandex_music.sdPlugin/src/core/cdp.py:397-401 | a call script reads back as its method and arguments |
| Cdp.ExecCommand | com.judd1.yandex_music.sdPlugin/src/core/cdp.py:388-406 | without a connection the page is untouched and the result is "Injection failed"; a dictionary answer is decoded |
| Cdp.LikeFollowsPage | com.judd1.yandex_music.sdPlugin/src/core/cdp.py:436-442 | liking through the page leaves the controller holding the opposite of what the page showed |
| Cdp.DislikeFollowsPage | com.judd1.yandex_music.sdPlugin/src/core/cdp.py:443-448 | the dislike answer uses another key, which the decoder's fallback still finds |
| Cdp.MissingButtonChangesNothing | com.judd1.yandex_music.sdPlugin/src/core/cdp.py:436-448 | without a button on the page a toggle changes and announces nothing |
| Cdp.ToggleLike | com.judd1.yandex_music.sdPlugin/src/core/cdp.py:436-442 | a successful answer with a new state sets and announces the like flag; any other answer changes nothing; the rest of the media state, the connection flag, observers, request counter and pending requests are never touched |
| Cdp.ToggleDislike | com.judd1.yandex_music.sdPlugin/src/core/cdp.py:443-448 | the same for the dislike flag: only the dislike part of the media state may change |
| Cdp.SetVolumeFollowsPage | com.judd1.yandex_music.sdPlugin/src/core/cdp.py:450-466 | setting a percentage through the page leaves the controller holding that percentage |
| Cdp.VolumeChanged | com.judd1.yandex_music.sdPlugin/src/core/cdp.py:450-466 | a successful answer sets the volume and mute fields it carries and announces the volume; otherwise nothing changes; the connection flag, observers, request counter and pending requests are never touched |
| Cdp.NoticesReachController | com.judd1.yandex_music.sdPlugin/src/core/cdp.py:233-243 | the page's notice documents select the controller's branches by their type names |
| Cdp.SendRpcFreshId | com.judd1.yandex_music.sdPlugin/src/core/cdp.py:314-331 | each request gets a fresh id larger than every earlier one, registered as pending |
| Cdp.SendRpc | com.judd1.yandex_music.sdPlugin/src/core/cdp.py:314-331 | without a socket nothing is sent; otherwise the message carries the current id, method and parameters, the id becomes pending and the counter moves on |
| Cdp.FirstIdsAreOneAndTwo | com.judd1.yandex_music.sdPlugin/src/core/cdp.py:321-322 | request ids start at 1 and go up by one |
| Cdp.OnReply | com.judd1.yandex_music.sdPlugin/src/core/cdp.py:201-209 | a pending id leaves the pending map; a waiting request is rejected with the error's `message`, dropped when the error has none, and otherwise resolved with `result`, `{}` when absent |
| Cdp.LateReplyDropped | com.judd1.yandex_music.sdPlugin/src/core/cdp.py:331 | a timed-out request answered later is dropped, never resolved |
| Cdp.TimedOut | com.judd1.yandex_music.sdPlugin/src/core/cdp.py:331 | a timed-out request stays pending, marked as given up, and no other request changes |
| Cdp.RequestReplyRoundTrip | com.judd1.yandex_music.sdPlugin/src/core/cdp.py:201-209 | a reply to a fresh request resolves it with its result and frees its slot |
| InjectedApi.ToSec | com.judd1.yandex_music.sdPlugin/src/core/scripts/injected_api.js:47-51 | "m:s" and "h:m:s" sum to seconds; other shapes and the empty text give 0 |
| InjectedApi.ClockRoundTrip | com.judd1.yandex_music.sdPlugin/src/core/scripts/injected_api.js:47-51 | parsing a clock text gives back its seconds |
| InjectedApi.ToPercent | com.judd1.yandex_music.sdPlugin/src/core/scripts/injected_api.js:82-88 | a missing value is 0, a ratio in 0..1 is scaled, larger values are capped at 100 |
| InjectedApi.PercentOfRatio | com.judd1.yandex_music.sdPlugin/src/core/scripts/injected_api.js:82-88 | a ratio read as a percentage is off by at most half a percent |
| InjectedApi.PercentNegative | com.judd1.yandex_music.sdPlugin/src/core/scripts/injected_api.js:82-88 | only a value rounding below zero gives a negative percentage; the lower end is not capped |
| InjectedApi.SetVolume | com.judd1.yandex_music.sdPlugin/src/core/scripts/injected_api.js:286-310 | the target is rounded and clamped to 0..1; the player's API is preferred, then the slider, and without either the call fails |
| InjectedApi.VolumeTarget | com.judd1.yandex_music.sdPlugin/src/core/scripts/injected_api.js:286-310 | the reported percentage is the rounded percentage clamped to 0..100 |
| InjectedApi.VolumeSteps | com.judd1.yandex_music.sdPlugin/src/core/scripts/injected_api.js:205-219 | a step up or down moves the percentage by five, within 0..100 |
| InjectedApi.ChangeVolume | com.judd1.yandex_music.sdPlugin/src/core/scripts/injected_api.js:205-219 | UP and DOWN step five percent from the current volume, SET takes a percentage, MUTE toggles, and any other action fails as unknown |
| InjectedApi.ToggleMute | com.judd1.yandex_music.sdPlugin/src/core/scripts/injected_api.js:312-323 | muting succeeds exactly when the player's API or the mute button exists |
| InjectedApi.SetReportsPercentage | com.judd1.yandex_music.sdPlugin/src/core/scripts/injected_api.js:205-219 | setting a percentage within 0..100 reports that percentage |
| InjectedApi.ToggleLikeAnswer | com.judd1.yandex_music.sdPlugin/src/core/scripts/injected_api.js:185-193 | the answer is the opposite of what the button showed |
| InjectedApi.ToggleDislikeAnswer | com.judd1.yandex_music.sdPlugin/src/core/scripts/injected_api.js:195-203 | the same, under the key `is_disliked` |
| InjectedApi.ObjectDiff | com.judd1.yandex_music.sdPlugin/src/core/scripts/injected_api.js:349-370 | an object difference holds exactly the new object's keys that are new or changed, and is undefined when there are none |
| InjectedApi.Diff | com.judd1.yandex_music.sdPlugin/src/core/scripts/injected_api.js:337-370 | equal values have no difference; values of different types, or a null on either side, give the new value; any other difference is a non-empty object |
| InjectedApi.DiffSelf | com.judd1.yandex_music.sdPlugin/src/core/scripts/injected_api.js:337-370 | a snapshot compared with itself has no difference |
| InjectedApi.DiffPatch | com.judd1.yandex_music.sdPlugin/src/core/scripts/injected_api.js:337-370 | a receiver holding the old snapshot that merges in the difference holds the new one |
| InjectedApi.DiffPatchExact | com.judd1.yandex_music.sdPlugin/src/core/scripts/injected_api.js:377-397 | with no previous view the receiver holds exactly the last snapshot |
| InjectedApi.UnchangedPageIsQuiet | com.judd1.yandex_music.sdPlugin/src/core/scripts/injected_api.js:377-397 | a running observer whose page did not change sends nothing |
| InjectedApi.Tick | com.judd1.yandex_music.sdPlugin/src/core/scripts/injected_api.js:377-397 | a stopped observer or failed snapshot does nothing; the first snapshot goes out whole, later ones as a truthy difference, and the remembered snapshot moves only when one is due to go out; at most one notice is handed to `_notify` (lines 418-426), which delivers nothing while the binding is missing |
| InjectedApi.StartObservation | com.judd1.yandex_music.sdPlugin/src/core/scripts/injected_api.js:372-400 | starting twice does nothing; the first start observes and sends the first snapshot whole |
| InjectedApi.StopObservation | com.judd1.yandex_music.sdPlugin/src/core/scripts/injected_api.js:402-404 | stopping ends the observation and keeps the last snapshot |
| InjectedApi.TickKeepsInSync | com.judd1.yandex_music.sdPlugin/src/core/scripts/injected_api.js:377-397 | while every message arrives, each pass keeps the receiver in step with the page |
| InjectedApi.UnboundDeltaIsLost | com.judd1.yandex_music.sdPlugin/src/core/scripts/injected_api.js:377-397 | a lost message breaks the chain: the observer moves on although nobody heard it |
| InjectedApi.ForceSyncResynchronises | com.judd1.yandex_music.sdPlugin/src/core/scripts/injected_api.js:406-416 | after `forceSync` the next full state resynchronises the receiver, whatever it held |
| InjectedApi.ForceSync | com.judd1.yandex_music.sdPlugin/src/core/scripts/injected_api.js:406-416 | a running observer forgets its last snapshot; a stopped one sends the current snapshot whole at once |
| PluginStates.TrackFromDict | com.judd1.yandex_music.sdPlugin/src/core/schemas/states.py:13-20 | a track's fields are read with their defaults |
| PluginStates.PlaybackFromDict | com.judd1.yandex_music.sdPlugin/src/core/schemas/states.py:31-39 | falsy numbers read as 0.0 |
| PluginStates.VolumeFromDict | com.judd1.yandex_music.sdPlugin/src/core/schemas/states.py:66-71 | an empty volume dictionary gives the defaults |
| PluginStates.FlagFromDict | com.judd1.yandex_music.sdPlugin/src/core/schemas/states.py:46-57 | falsy data reads as false; a dictionary gives the flag under its key, false when missing; any other truthy value is an error |
| PluginStates.DecodedIsNormal | com.judd1.yandex_music.sdPlugin/src/core/schemas/states.py:82-109 | every decoded media state is in normal form |
| PluginStates.MediaFromDict | com.judd1.yandex_music.sdPlugin/src/core/schemas/states.py:82-109 | falsy data gives the default state, and only a dictionary or falsy data decodes |
| PluginStates.TrackRoundTrip | com.judd1.yandex_music.sdPlugin/src/core/schemas/states.py:13-20 | the page's track fields decode back to the track |
| PluginStates.MediaRoundTrip | com.judd1.yandex_music.sdPlugin/src/core/schemas/states.py:82-109 | decoding the page's snapshot of a normal state gives that state back |
| PluginStates.ActionFromDict | com.judd1.yandex_music.sdPlugin/src/core/schemas/states.py:123-133 | an empty result is the failure "No data"; `new_state` falls back to `is_disliked` |
| PluginStates.NewStateEitherKey | com.judd1.yandex_music.sdPlugin/src/core/schemas/states.py:123-133 | a toggle result decodes to its new state whichever key the page used |
| Settings.ValuesRoundTrip | com.judd1.yandex_music.sdPlugin/src/core/schemas/settings.py:10-23 | a settings record is determined by its thirteen field values |
| Settings.FromDict | com.judd1.yandex_music.sdPlugin/src/core/schemas/settings.py:25-42 | an empty or missing dictionary gives the defaults, and only a truthy non-dictionary raises |
| Settings.FromDictReads | com.judd1.yandex_music.sdPlugin/src/core/schemas/settings.py:25-42 | each decoded field is the value under its name, or its default when absent |
| Settings.DictRoundTrip | com.judd1.yandex_music.sdPlugin/src/core/schemas/settings.py:44-46 | settings saved with `to_dict` load back unchanged |
| Settings.ToDict | com.judd1.yandex_music.sdPlugin/src/core/schemas/settings.py:44-46 | the saved dictionary has exactly the thirteen field names |
| Settings.DictNormalises | com.judd1.yandex_music.sdPlugin/src/core/schemas/settings.py:25-46 | loading then saving any dictionary keeps each known field's value, filling in defaults |
| Settings.GetAttr | com.judd1.yandex_music.sdPlugin/src/core/settings_manager.py:15-16 | reading a field through the proxy gives its value, and the model knows no attribute besides the thirteen fields |
| Settings.SetAttr | com.judd1.yandex_music.sdPlugin/src/core/settings_manager.py:18-20 | an assignment succeeds exactly for a field name, and the callback receives the updated settings |
| Settings.SetThenGet | com.judd1.yandex_music.sdPlugin/src/core/settings_manager.py:15-20 | a field reads back the value just assigned |
| Settings.SetKeepsOthers | com.judd1.yandex_music.sdPlugin/src/core/settings_manager.py:15-20 | assigning one field leaves every other field as it was |
| Settings.SetSameValue | com.judd1.yandex_music.sdPlugin/src/core/settings_manager.py:15-20 | assigning a field its own value changes nothing, though the callback still fires |
| ImageCache.New | com.judd1.yandex_music.sdPlugin/src/core/cache.py:8-11 | a new cache is empty and keeps its capacity |
| ImageCache.Get | com.judd1.yandex_music.sdPlugin/src/core/cache.py:13-22 | a hit returns the stored value and makes the key most recent without changing the contents; a miss changes nothing |
| ImageCache.GetTwice | com.judd1.yandex_music.sdPlugin/src/core/cache.py:13-22 | reading the same key twice returns the same value and leaves the cache as the first read did |
| ImageCache.PutValid | com.judd1.yandex_music.sdPlugin/src/core/cache.py:24-31 | storing keeps keys distinct and the size within a positive capacity |
| ImageCache.PutExisting | com.judd1.yandex_music.sdPlugin/src/core/cache.py:24-31 | storing under a cached key replaces its value and makes it most recent, evicting nothing |
| ImageCache.PutNew | com.judd1.yandex_music.sdPlugin/src/core/cache.py:24-31 | a new key is appended as most recent, and the least recent entry goes only when over capacity |
| ImageCache.EvictsLeastRecent | com.judd1.yandex_music.sdPlugin/src/core/cache.py:29-31 | when a full cache takes a new key, exactly the least recently used key leaves |
| ImageCache.PutThenGet | com.judd1.yandex_music.sdPlugin/src/core/cache.py:13-31 | a value just stored is read back, with a positive capacity |
| ImageCache.PutKeepsOthers | com.judd1.yandex_music.sdPlugin/src/core/cache.py:24-31 | other keys keep their values unless evicted |
| ImageCache.Clear | com.judd1.yandex_music.sdPlugin/src/core/cache.py:33-35 | clearing empties the cache and keeps its capacity |
| ImageCache.StaticLastPutWins | com.judd1.yandex_music.sdPlugin/src/core/cache.py:59-65 | the static cache answers the last value stored under a key and leaves other keys alone |
| ProgressRenderer.FormatTimeParts | com.judd1.yandex_music.sdPlugin/src/core/renderers/progress.py:7-13 | the clock text is minutes and two-digit seconds, with minutes never rolling over into hours |
| ProgressRenderer.FormatTimeParses | com.judd1.yandex_music.sdPlugin/src/core/renderers/progress.py:7-13 | the page's own clock parser reads the plugin's text back as the whole seconds |
| ProgressRenderer.FormatTimeMatchesPageClock | com.judd1.yandex_music.sdPlugin/src/core/renderers/progress.py:7-13 | below an hour the plugin's text is the page's clock text |
| ProgressRenderer.FormatTimeExamples | com.judd1.yandex_music.sdPlugin/src/core/renderers/progress.py:7-13 | 61 s is "1:01", an hour is "60:00", and -1 ms is "-1:59" with floor division |
| ProgressRenderer.Ratio | com.judd1.yandex_music.sdPlugin/src/core/renderers/progress.py:25-26 | the ratio lies in 0..1, is 0 for a non-positive duration, and is the elapsed share within the track |
| ProgressRenderer.BarText | com.judd1.yandex_music.sdPlugin/src/core/renderers/progress.py:55-58 | the bar is 14 characters: brackets around filled cells, then empty cells |
| ProgressRenderer.FilledMonotone | com.judd1.yandex_music.sdPlugin/src/core/renderers/progress.py:55-58 | more elapsed time never empties a cell |
| ProgressRenderer.FilledEnds | com.judd1.yandex_music.sdPlugin/src/core/renderers/progress.py:55-58 | a finished track fills the bar and an unstarted one leaves it empty |
| TaskMap.CancelTask | com.judd1.yandex_music.sdPlugin/src/core/mixins/task.py:30-38 | the name is dropped; a mapped task that has not finished is asked to cancel |
| TaskMap.StartTask | com.judd1.yandex_music.sdPlugin/src/core/mixins/task.py:12-28 | the previous task under the name is cancelled and the new task mapped under the name |
| TaskMap.Finish | com.judd1.yandex_music.sdPlugin/src/core/mixins/task.py:24-26 | a finishing task removes its name only while the name still maps to it |
| TaskMap.CancelAll | com.judd1.yandex_music.sdPlugin/src/core/mixins/task.py:40-45 | cancelling everything empties the map and asks every unfinished mapped task to cancel |
| TaskMap.TwoTasksThenCancelAll | com.judd1.yandex_music.sdPlugin/src/core/mixins/task.py:12-45 | two names map to distinct tasks; cancelling everything unmaps both and asks both to stop |
| TaskMap.FinishValid | com.judd1.yandex_music.sdPlugin/src/core/mixins/task.py:24-26 | a finished task is mapped under no name |
| TaskMap.ReplacedTaskKeepsSuccessor | com.judd1.yandex_music.sdPlugin/src/core/mixins/task.py:12-28 | a replaced task that finishes late never removes its successor |
| BaseAction.PayloadRoundTrip | com.judd1.yandex_music.sdPlugin/src/core/pi_communicator.py:17-23 | every inspector message reads back from its JSON payload |
| BaseAction.Send | com.judd1.yandex_music.sdPlugin/src/core/pi_communicator.py:17-23 | each call sends exactly one envelope addressed to the key's action and context, carrying the message |
| BaseAction.SubscribeEvents | com.judd1.yandex_music.sdPlugin/src/actions/mixins.py:4-27 | a key hears the connection event plus exactly one event per mixin |
| BaseAction.MixinExtends | com.judd1.yandex_music.sdPlugin/src/actions/mixins.py:4-27 | each mixin keeps the events of those after it and adds at most its own |
| BaseAction.TrackActionEvents | com.judd1.yandex_music.sdPlugin/src/actions/base.py:208-212 | the track key hears connection and track events only |
| BaseAction.CheckHealth | com.judd1.yandex_music.sdPlugin/src/actions/base.py:121-132 | local mode is healthy exactly when the page is connected; ynison mode reports auth error, missing token or offline, in that order |
| BaseAction.RenderYnisonTable | com.judd1.yandex_music.sdPlugin/src/actions/base.py:134-153 | in ynison mode the alert shows exactly when the client is not healthy |
| BaseAction.Render | com.judd1.yandex_music.sdPlugin/src/actions/base.py:134-153 | an unknown mode renders nothing; local mode never alerts and reports the page connection |
| BaseAction.InspectorAgreesWithRender | com.judd1.yandex_music.sdPlugin/src/actions/base.py:195-205 | on appearing, the inspector hears what the next render reports, except that a closed socket reads as valid |
| BaseAction.UnknownModeIsSilent | com.judd1.yandex_music.sdPlugin/src/actions/base.py:134-153 | a mode other than local or ynison sends no inspector status |
| BaseAction.KeyTokenStep | com.judd1.yandex_music.sdPlugin/src/actions/base.py:83-87 | the client gets a token only from truthy settings holding one, and always does then |
| BaseAction.NewKey | com.judd1.yandex_music.sdPlugin/src/actions/base.py:22-34 | a key keeps the raw settings and their parse, and truthy settings that are not a dictionary raise |
| BaseAction.DidReceiveSettings | com.judd1.yandex_music.sdPlugin/src/actions/base.py:66-80 | the raw settings are replaced; when they parse, the key re-registers exactly when the mode changed |
| BaseAction.SettingsTwiceRegistersOnce | com.judd1.yandex_music.sdPlugin/src/actions/base.py:66-80 | receiving the same settings again re-registers nothing |
| BaseAction.ModeSwitchReregisters | com.judd1.yandex_music.sdPlugin/src/actions/base.py:66-80 | switching from local to ynison re-registers the key |
| BaseAction.AppearThenDisappear | com.judd1.yandex_music.sdPlugin/src/actions/base.py:51-64 | registering then unregistering a key leaves neither client callbacks nor page observers behind |
| BaseAction.Register | com.judd1.yandex_music.sdPlugin/src/actions/base.py:51-60 | a local key observes every event it subscribes to and has no client callback; any other key has a client callback and observes nothing new |
| BaseAction.Unregister | com.judd1.yandex_music.sdPlugin/src/actions/base.py:62-64 | a key leaves the client's callbacks and every observer list |
| BaseAction.LocalUpdateSeparatesEvents | com.judd1.yandex_music.sdPlugin/src/actions/base.py:89-109 | different page events go to different handlers |
| BaseAction.LocalUpdate | com.judd1.yandex_music.sdPlugin/src/actions/base.py:89-109 | a page event is handled exactly in local mode |
| PluginRouter.Without | com.judd1.yandex_music.sdPlugin/src/core/mixins/router.py:51-53 | removing a context keeps every other key and keeps contexts distinct |
| PluginRouter.Recalculate | com.judd1.yandex_music.sdPlugin/src/core/plugin.py:156-176 | the client is started only when not running and stopped only when running |
| PluginRouter.RecalculateSpec | com.judd1.yandex_music.sdPlugin/src/core/plugin.py:156-176 | with dictionary settings, the client is needed exactly when some key asks for ynison |
| PluginRouter.Scan | com.judd1.yandex_music.sdPlugin/src/core/plugin.py:163-167 | a positive answer means some key asks for ynison; a negative one means every key holds a dictionary and none asks for it |
| PluginRouter.HandleNewAction | com.judd1.yandex_music.sdPlugin/src/core/plugin.py:125-154 | a known uuid appends a key under the context; an unknown uuid changes nothing |
| PluginRouter.Validate | com.judd1.yandex_music.sdPlugin/src/core/mixins/router.py:31-34 | a validated event keeps its name |
| PluginRouter.Dispatch | com.judd1.yandex_music.sdPlugin/src/core/mixins/router.py:45-55 | only the event's own context is handled, and contexts stay distinct |
| PluginRouter.Creation | com.judd1.yandex_music.sdPlugin/src/core/mixins/router.py:41-43 | a key is created only for a new context with a known uuid, appended and reported first; creation runs no handler |
| PluginRouter.RouteKeyEventSound | com.judd1.yandex_music.sdPlugin/src/core/mixins/router.py:38-55 | a key event keeps contexts distinct and runs a handler only for a registered or just-created context |
| PluginRouter.RoutingSound | com.judd1.yandex_music.sdPlugin/src/core/mixins/router.py:22-62 | routing keeps one key per context and runs a key's handler only for a registered or newly created context |
| PluginRouter.UnknownEventIgnored | com.judd1.yandex_music.sdPlugin/src/core/mixins/router.py:26-27 | an event outside the routing map changes nothing |
| PluginRouter.MalformedMessageLogged | com.judd1.yandex_music.sdPlugin/src/core/mixins/router.py:61-62 | a message that is not a JSON object is only logged |
| PluginRouter.WillAppearCreatesFirst | com.judd1.yandex_music.sdPlugin/src/core/mixins/router.py:41-49 | a new context is created before its handler runs |
| PluginRouter.WillDisappearRemovesAfterHandler | com.judd1.yandex_music.sdPlugin/src/core/mixins/router.py:45-55 | on disappearing, the handler runs, then the key is removed and the client recalculated |
| PluginRouter.PluginEventsReachPlugin | com.judd1.yandex_music.sdPlugin/src/core/mixins/router.py:56-59 | a plugin event goes to the plugin's handler when it exists and changes no key |
| PluginRouter.OnGlobalSettings | com.judd1.yandex_music.sdPlugin/src/core/plugin.py:178-188 | a payload-less event changes nothing; otherwise the settings are stored first |
| PluginRouter.TokenOnlyFromTokenKey | com.judd1.yandex_music.sdPlugin/src/core/plugin.py:178-188 | the client's token is touched only from a dictionary with a "token" key, and only with its value |
| PluginRouter.GlobalTokenReachesClient | com.judd1.yandex_music.sdPlugin/src/core/plugin.py:178-188 | a text token in the global settings ends up in the client and the client is recalculated |
| PluginRouter.RepeatedTokenSettles | com.judd1.yandex_music.sdPlugin/src/core/plugin.py:178-188 | handing the same token on once per key and once more leaves the client holding that token |
| PluginRouter.ApplyEachMerges | com.judd1.yandex_music.sdPlugin/src/core/plugin.py:202-213 | as intended: every key's settings read the broadcast value under each broadcast name and keep the rest; each is re-parsed and saved under its context |
| PluginRouter.ApplyEach | com.judd1.yandex_music.sdPlugin/src/core/plugin.py:202-213 | as intended: every key is visited, and a loop that completes saves one settings entry per key |
| PluginRouter.SendToPlugin | com.judd1.yandex_music.sdPlugin/src/core/plugin.py:194-217 | anything but a valid broadcast changes nothing |
| PluginRouter.SendToPluginAsWritten | com.judd1.yandex_music.sdPlugin/src/core/plugin.py:207 | as written, a broadcast that is not valid changes nothing either |
| PluginRouter.BroadcastLostAsWritten | com.judd1.yandex_music.sdPlugin/src/core/plugin.py:203-207 | as written, a broadcast saves and recalculates nothing, and the first key's raw settings and its parsed mode disagree |
| PluginRouter.BroadcastReachesAll | com.judd1.yandex_music.sdPlugin/src/core/plugin.py:194-217 | as intended, switching every key to ynison saves every key and starts a stopped client |
| PluginRouter.RunFrom | com.judd1.yandex_music.sdPlugin/src/core/plugin.py:66-102 | a host close stops the loop; an unreachable host means the last attempts were refusals |
| PluginRouter.Run | com.judd1.yandex_music.sdPlugin/src/core/plugin.py:66-98 | the loop gives up only after three refusals in a row |
| PluginRouter.ThreeRefusalsStop | com.judd1.yandex_music.sdPlugin/src/core/plugin.py:92-98 | three refusals from the start end the loop after three attempts |
| PluginRouter.SessionResetsRetries | com.judd1.yandex_music.sdPlugin/src/core/plugin.py:75 | a session in between resets the count of refusals |

## Left out

- The event loop, tasks, sleeps and locks are not modelled. Each operation is one atomic step; timers and `time.time()` are parameters. That includes the lock in `cache.py` and the 0.5 s wait of a one-off command.
- Sockets, HTTP and the DevTools transport are left out. Their answers are parameters, e.g. a redirect reply, a status code, a page result, or an attempt outcome in the reconnect loop.
- Floating point is modelled by exact reals. Python ints and floats share one JSON number.
- Pydantic's `extra` fields and the coercions the models never meet are left out.
- Object identity and aliasing are not modelled. Every value is a value: a key's raw settings dictionary is copied, not shared.
- Drawing (PIL images, fonts, SVG) and DOM queries of the page are left out. The page's answers are parameters.
- JavaScript `undefined` versus missing members, `Number()` quirks beyond digit strings, prototype keys and the ordering of integer-like keys are left out.
- The volume deltas and optimistic-volume window of `cdp.py`, and progress extrapolation in the plugin, are left out.
- `TaskMap.StartTask`: the task map is created empty rather than on first use through `hasattr`. A missing map and an empty one behave the same.
- `PluginRouter.RouteMessage`: the routing map, built by reflection in `routing.py`, is a given map. One validation (text context, action and device; object payload) stands in for every event model.
- `PluginRouter.Recalculate`: the `await` of the synchronous `stop()` at `plugin.py:176` raises after stopping. The model reports the stop and leaves out the exception, which the router only logs.
- `PluginRouter.Run`: the cleanup after the loop and the 3 s waits are left out.
- `PluginRouter.Apply`: a global-settings token that is not text reaches the client as no token, so the stored token and its event are cleared. `update_token` (ynison.py:99-106) stores any value and sets the event when it is truthy, e.g. a non-zero number or a non-empty object. The client's token is text throughout the model, because it forms the `Bearer` header, and the property inspector writes it as text.
- `Cdp.TimedOut`: an entry whose wait timed out stays pending until a reply arrives. Memory growth from replies that never come is not modelled.
- `BridgeApi.RejectedSessionStaysRegistered`: after a 4001 close the socket object stays in the registry until a send fails. The model states this and does not clean it up.
- `BridgeApi.ControlToken`: only the first word after `Bearer ` is taken, so the model proves the token round trip only for tokens without spaces.
- `Text.Upper`: characters whose upper case is not ASCII are kept as they are rather than upper-cased. Python's result for them still holds a non-ASCII character, so comparisons with the ASCII enum values come out the same.
- `MusicClient.TakeItem`, `MusicClient.ProcessTrack` and `MusicClient.OnApiMessage` use the intended cover guard. The as-written guard of `ynison.py:230` is `MusicClient.NeedsCoverAsWritten`; see Findings.
- `Json.PyStr`: `str()` of a fractional number, a list or a dictionary is a fixed stand-in text ("<float>", "<list>", "<dict>"). Two different such track ids therefore compare equal in `SessionManager.CurrentId` and in the plugin's new-track test, where Python would tell them apart. Track ids are strings or integers in practice.
- `Settings.GetAttr`: `__getattr__` (settings_manager.py:15-16) forwards any attribute of the wrapped dataclass, including its methods such as `to_dict`. The model reads only the thirteen fields and treats every other name as missing.
- `MusicClient.SendCommandReachesBridge`: the bridge answers `volume_up`/`volume_down` as unknown actions. The model states this rather than inventing volume commands.

## Findings

| source | as written | input that shows it | evidently intended | confidence | as-written member | corrected member |
|---|---|---|---|---|---|---|
| api_for_plugin/ynison/player.py:199 | the full-state branch builds `YnisonUpdateFullStateMessage`, which the module never imports; the `NameError` is caught and the frame is dropped | any valid `update_full_state` frame | the frame installs or merges the full state | high, not executed | YnisonPlayer.FullStateFrameLostAsWritten | YnisonPlayer.ProcessFrame |
| api_for_plugin/ynison/player.py:54 | `_default_state` needs the same missing class, so `connect` raises after the state socket opens | any successful redirect with the state socket up | the default full state is sent as the first message | high, not executed | YnisonPlayer.ConnectAsWrittenNeverConnects | YnisonPlayer.Connect |
| com.judd1.yandex_music.sdPlugin/src/core/ynison.py:230 | the raw cover URI is compared with `last_cover_url`, which is stored normalised (size filled in, scheme added) | a state whose cover is `avatars.yandex.net/x/%%` | a downloaded cover is not fetched again | high, not executed | MusicClient.CoverRefetchedAsWritten | MusicClient.CoverNotRefetched |
| com.judd1.yandex_music.sdPlugin/src/core/plugin.py:207 | reads `act.action_uuid`, but keys keep their uuid as `action`; the first key's settings are updated, then `AttributeError` ends the loop, caught as a warning | an "applySettingsToAll" with `control_mode` "ynison" and one local key | every key gets the settings, is saved, and the client is recalculated | high, not executed | PluginRouter.BroadcastLostAsWritten | PluginRouter.BroadcastReachesAll |

=== FILE: actions_base.dfy ===
/**
 * The shared behaviour of the plugin's keys (`src/actions/base.py`), the
 * subscription mixins (`src/actions/mixins.py`) and the messages to the
 * property inspector (`src/core/pi_communicator.py`).  Drawing is left out;
 * what a key decides — its health, the alert, the status it reports, where
 * it registers — is modelled.
 */
module BaseAction {
  import opened Wrappers
  import opened Text
  import opened Json
  import Settings
  import Cdp
  import MusicClient

  // ------------------------------------------------------------ inspector messages

  /** `TokenStatusEnum` (`schemas/pi.py`). */
  datatype TokenStatus = Valid | Invalid | Missing | Offline

  /** `LocalStatusEnum` (`schemas/pi.py`). */
  datatype LocalStatus = Connected | Disconnected | Loading

  /** What the messenger can send. */
  datatype PIMessage = TokenMessage(token: TokenStatus) | LocalMessage(local: LocalStatus)

  const TokenEvent: string := "TokenStatus"
  const LocalEvent: string := "LocalStatus"
  const EventKey: string := "event"
  const StatusKey: string := "status"
  const ValidText: string := "valid"
  const InvalidText: string := "invalid"
  const MissingText: string := "missing"
  const OfflineText: string := "offline"
  const ConnectedText: string := "connected"
  const DisconnectedText: string := "disconnected"
  const LoadingText: string := "loading"

  function TokenText(s: TokenStatus): string {
    match s
    case Valid => ValidText
    case Invalid => InvalidText
    case Missing => MissingText
    case Offline => OfflineText
  }

  function LocalText(s: LocalStatus): string {
    match s
    case Connected => ConnectedText
    case Disconnected => DisconnectedText
    case Loading => LoadingText
  }

  /**
   * `send_token_status` and `send_local_status` (`pi_communicator.py` lines 17-23): the dumped
   * event, exactly an event name and a status.
   */
  function Payload(m: PIMessage): (v: Value)
    ensures v.Obj? && Keys(v.fields) == [EventKey, StatusKey]
  {
    match m
    case TokenMessage(s) => Obj([(EventKey, Str(TokenEvent)), (StatusKey, Str(TokenText(s)))])
    case LocalMessage(s) => Obj([(EventKey, Str(LocalEvent)), (StatusKey, Str(LocalText(s)))])
  }

  function TokenFromText(t: string): Option<TokenStatus> {
    if t == ValidText then Some(Valid)
    else if t == InvalidText then Some(Invalid)
    else if t == MissingText then Some(Missing)
    else if t == OfflineText then Some(Offline)
    else None
  }

  function LocalFromText(t: string): Option<LocalStatus> {
    if t == ConnectedText then Some(Connected)
    else if t == DisconnectedText then Some(Disconnected)
    else if t == LoadingText then Some(Loading)
    else None
  }

  /** How the inspector reads a payload back: the event name picks the status kind. */
  function ReadPayload(v: Value): Option<PIMessage> {
    if !v.Obj? then None
    else
      match (Get(v.fields, EventKey), Get(v.fields, StatusKey))
      case (Some(Str(e)), Some(Str(t))) =>
        if e == TokenEvent then
          match TokenFromText(t) case Some(s) => Some(TokenMessage(s)) case None => None
        else if e == LocalEvent then
          match LocalFromText(t) case Some(s) => Some(LocalMessage(s)) case None => None
        else None
      case _ => None
  }

  lemma TokenTextRoundTrip(s: TokenStatus)
    ensures TokenFromText(TokenText(s)) == Some(s)
  {
  }

  lemma LocalTextRoundTrip(s: LocalStatus)
    ensures LocalFromText(LocalText(s)) == Some(s)
  {
  }

  /** The two keys of a payload, read in turn. */
  lemma PayloadFields(m: PIMessage, e: string, t: string)
    requires Payload(m).fields == [(EventKey, Str(e)), (StatusKey, Str(t))]
    ensures Get(Payload(m).fields, EventKey) == Some(Str(e))
    ensures Get(Payload(m).fields, StatusKey) == Some(Str(t))
  {
    assert EventKey[0] != StatusKey[0];
  }

  /** Every message the messenger sends is read back as itself. */
  lemma PayloadRoundTrip(m: PIMessage)
    ensures ReadPayload(Payload(m)) == Some(m)
  {
    match m
    case TokenMessage(s) =>
      TokenTextRoundTrip(s);
      PayloadFields(m, TokenEvent, TokenText(s));
    case LocalMessage(s) =>
      LocalTextRoundTrip(s);
      PayloadFields(m, LocalEvent, LocalText(s));
      assert LocalEvent[0] != TokenEvent[0];
  }

  const SendEvent: string := "sendToPropertyInspector"
  const ActionKey: string := "action"
  const ContextKey: string := "context"
  const PayloadKey: string := "payload"

  /**
   * One call of the messenger (`pi_communicator.py` lines 17-23): exactly one message, sent
   * through the wrapped key's `send_to_property_inspector`
   * (`src/core/action.py`, lines 28-34), which wraps it with the key's
   * uuid and context.  The messenger keeps nothing but that key.
   */
  function Send(uuid: string, context: string, m: PIMessage): (sent: seq<Value>)
    ensures |sent| == 1 && sent[0].Obj?
    ensures Get(sent[0].fields, PayloadKey) == Some(Payload(m))
    ensures Get(sent[0].fields, ContextKey) == Some(Str(context))
  {
    var fs := [(EventKey, Str(SendEvent)), (ActionKey, Str(uuid)), (ContextKey, Str(context)), (PayloadKey, Payload(m))];
    assert EventKey[0] != ContextKey[0] && ActionKey[0] != ContextKey[0];
    assert EventKey[0] != PayloadKey[0] && ActionKey[0] != PayloadKey[0] && ContextKey[0] != PayloadKey[0];
    GetAt(fs, ContextKey, 2);
    GetAt(fs, PayloadKey, 3);
    [Obj(fs)]
  }

  // ------------------------------------------------------------ subscriptions

  /** The subscription mixins, each adding one event to what the classes after it subscribe to. */
  datatype Mixin = TrackObservable | PlaybackObservable | LikeObservable | DislikeObservable | VolumeObservable

  /** The one event each mixin adds (`mixins.py` lines 4-27). */
  function Adds(m: Mixin): Cdp.EventType {
    match m
    case TrackObservable => Cdp.TrackInfo
    case PlaybackObservable => Cdp.Playback
    case LikeObservable => Cdp.Like
    case DislikeObservable => Cdp.Dislike
    case VolumeObservable => Cdp.Volume
  }

  /**
   * `subscribe_events` of a key class whose mixins come, in method
   * resolution order, before the base key (base lines 62-64): the base's
   * connection event plus one event per mixin.
   */
  function SubscribeEvents(mixins: seq<Mixin>): (r: set<Cdp.EventType>)
    ensures Cdp.Connection in r
    ensures forall i :: 0 <= i < |mixins| ==> Adds(mixins[i]) in r
    ensures forall e :: e in r && e != Cdp.Connection ==> exists i :: 0 <= i < |mixins| && Adds(mixins[i]) == e
  {
    if |mixins| == 0 then {Cdp.Connection}
    else SubscribeEvents(mixins[1..]) + {Adds(mixins[0])}
  }

  /** A mixin keeps everything its parent subscribes to and adds exactly its own event. */
  lemma MixinExtends(m: Mixin, rest: seq<Mixin>)
    ensures SubscribeEvents(rest) <= SubscribeEvents([m] + rest)
    ensures SubscribeEvents([m] + rest) - SubscribeEvents(rest) <= {Adds(m)}
  {
    assert ([m] + rest)[1..] == rest;
  }

  /** `YandexMusicTrackAction` (lines 208-212) hears the connection and the track. */
  lemma TrackActionEvents()
    ensures SubscribeEvents([TrackObservable]) == {Cdp.Connection, Cdp.TrackInfo}
  {
  }

  // ------------------------------------------------------------ health

  /** `HealthStatus` (`src/core/types.py`). */
  datatype Health = Healthy | AuthError | NoToken | Unreachable | DisconnectedLocal

  const LocalMode: Value := Str("local")
  const YnisonMode: Value := Str("ynison")

  /** `should_ignore_errors` (lines 118-119): errors are ignored exactly in local mode. */
  predicate IgnoresErrors(mode: Value) {
    mode == LocalMode
  }

  /**
   * `check_health` (lines 121-132): in local mode the page connection
   * decides; in any other mode the Ynison client is checked for a rejected
   * token, then a missing token, then a closed socket.
   */
  function CheckHealth(mode: Value, cdpConnected: bool, c: MusicClient.Client): (h: Health)
    ensures mode == LocalMode ==> (h == Healthy <==> cdpConnected) && h in {Healthy, DisconnectedLocal}
    ensures mode != LocalMode ==> h != DisconnectedLocal
    ensures mode != LocalMode ==> (h == AuthError <==> c.conn.authError)
    ensures mode != LocalMode ==> (h == Healthy <==> !c.conn.authError && MusicClient.Given(c.conn.token) && c.conn.wsConnected)
  {
    if mode == LocalMode then (if cdpConnected then Healthy else DisconnectedLocal)
    else if c.conn.authError then AuthError
    else if !MusicClient.Given(c.conn.token) then NoToken
    else if !c.conn.wsConnected then Unreachable
    else Healthy
  }

  /** What `render` does besides drawing: whether it flashes the alert and what it tells the inspector. */
  datatype Rendered = Rendered(alert: bool, message: Option<PIMessage>)

  /**
   * `render` (lines 134-153): in Ynison mode the health becomes a token
   * status, and a rejected or missing token also flashes the alert unless
   * errors are ignored; in local mode the inspector hears whether the page
   * is connected; any other mode reports nothing.
   */
  function Render(mode: Value, cdpConnected: bool, c: MusicClient.Client): (r: Rendered)
    ensures mode != YnisonMode && mode != LocalMode ==> r == Rendered(false, None)
    ensures mode == LocalMode ==> !r.alert && r.message == Some(LocalMessage(if cdpConnected then Connected else Disconnected))
  {
    var health := CheckHealth(mode, cdpConnected, c);
    if mode == YnisonMode then
      match health
      case AuthError => Rendered(!IgnoresErrors(mode), Some(TokenMessage(Invalid)))
      case NoToken => Rendered(!IgnoresErrors(mode), Some(TokenMessage(Missing)))
      case Unreachable => Rendered(false, Some(TokenMessage(Offline)))
      case _ => Rendered(false, Some(TokenMessage(Valid)))
    else if mode == LocalMode then
      Rendered(false, Some(LocalMessage(if health == Healthy then Connected else Disconnected)))
    else Rendered(false, None)
  }

  /**
   * The status `render` reports in Ynison mode, as a table over the health:
   * a rejected token is invalid, a missing one missing, a closed socket
   * offline, and anything else valid; the alert comes exactly with the
   * first two, since errors are never ignored outside local mode.
   */
  lemma RenderYnisonTable(cdpConnected: bool, c: MusicClient.Client)
    ensures var h := CheckHealth(YnisonMode, cdpConnected, c);
      var r := Render(YnisonMode, cdpConnected, c);
      && r.message.Some? && r.message.value.TokenMessage?
      && (r.alert <==> h == AuthError || h == NoToken)
      && r.message.value.token == (match h
           case AuthError => Invalid
           case NoToken => Missing
           case Unreachable => Offline
           case _ => Valid)
  {
  }

  /**
   * `on_property_inspector_did_appear` (lines 195-205): local mode reports
   * the page connection; every other mode reports the token, never as
   * offline.
   */
  function InspectorAppeared(mode: Value, cdpConnected: bool, c: MusicClient.Client): (m: PIMessage)
    ensures mode == LocalMode ==> m == LocalMessage(if cdpConnected then Connected else Disconnected)
    ensures mode != LocalMode ==> m.TokenMessage? && m.token != Offline
  {
    if mode == LocalMode then LocalMessage(if cdpConnected then Connected else Disconnected)
    else if c.conn.authError then TokenMessage(Invalid)
    else if !MusicClient.Given(c.conn.token) then TokenMessage(Missing)
    else TokenMessage(Valid)
  }

  /**
   * The inspector hears the same on appearing as on the next render, except
   * that a closed socket reads as valid when it appears.
   */
  lemma InspectorAgreesWithRender(mode: Value, cdpConnected: bool, c: MusicClient.Client)
    requires mode == YnisonMode || mode == LocalMode
    ensures var r := Render(mode, cdpConnected, c).message.value;
      InspectorAppeared(mode, cdpConnected, c) == (if r == TokenMessage(Offline) then TokenMessage(Valid) else r)
  {
  }

  /** A mode that is neither local nor Ynison is checked as Ynison but renders no status at all. */
  lemma UnknownModeIsSilent(mode: Value, cdpConnected: bool, c: MusicClient.Client)
    requires mode != YnisonMode && mode != LocalMode
    ensures CheckHealth(mode, cdpConnected, c) == CheckHealth(YnisonMode, cdpConnected, c)
    ensures Render(mode, cdpConnected, c).message.None?
    ensures InspectorAppeared(mode, cdpConnected, c) == InspectorAppeared(YnisonMode, cdpConnected, c)
  {
  }

  // ------------------------------------------------------------ keys and their settings

  /** A key: its uuid, context, class mixins, the raw settings and the parsed ones (`cfg`). */
  datatype Key = Key(uuid: string, context: string, mixins: seq<Mixin>, settings: Value, cfg: Settings.PluginSettings)

  /** `get_mode` (lines 48-49): the parsed control mode. */
  function Mode(k: Key): Value {
    k.cfg.controlMode
  }

  /** What the token check of the constructor and of the global-settings handler does. */
  datatype TokenStep = Raises | Skips | Updates(token: Value)

  /**
   * `"token" in v` for the values a settings payload can hold; `None` is the
   * `TypeError` of a value that supports no membership test.
   */
  function TokenIn(v: Value): Option<bool> {
    match v
    case Obj(fs) => Some(HasKey(fs, "token"))
    case Arr(items) => Some(Str("token") in items)
    case Str(s) => Some(Contains(s, "token"))
    case _ => None
  }

  /**
   * Lines 31-34 and 83-87: with truthy global settings holding a token, the
   * client gets it; the lookup sits inside a catch-all, the membership test
   * does not.
   */
  function KeyTokenStep(gs: Value): (r: TokenStep)
    ensures r.Updates? ==> gs.Obj? && Get(gs.fields, "token") == Some(r.token)
    ensures gs.Obj? && HasKey(gs.fields, "token") ==> r.Updates?
  {
    if !Truthy(gs) then Skips
    else
      match TokenIn(gs)
      case None => Raises
      case Some(false) => Skips
      case Some(true) => if gs.Obj? then Updates(Get(gs.fields, "token").value) else Skips
  }

  /** A constructed key and the token it handed to the client, if any. */
  datatype Constructed = Constructed(key: Key, token: Option<Value>)

  /**
   * The constructor (lines 22-34): the settings are parsed, which raises
   * for truthy settings that are not a dictionary, then the plugin's
   * global token is passed on.
   */
  function NewKey(uuid: string, context: string, mixins: seq<Mixin>, settings: Value, globalSettings: Value): (r: Option<Constructed>)
    ensures r.Some? ==> r.value.key.settings == settings && Some(r.value.key.cfg) == Settings.FromDict(settings)
    ensures Settings.FromDict(settings).None? ==> r.None?
  {
    match Settings.FromDict(settings)
    case None => None
    case Some(cfg) =>
      var k := Key(uuid, context, mixins, settings, cfg);
      match KeyTokenStep(globalSettings)
      case Raises => None
      case Skips => Some(Constructed(k, None))
      case Updates(t) => Some(Constructed(k, Some(t)))
  }

  /** The key after new settings arrive, whether it re-registered, and whether the handler finished. */
  datatype Received = Received(key: Key, reregistered: bool, finished: bool)

  /**
   * `on_did_receive_settings` (lines 66-80): the raw settings are replaced
   * first; when they parse, the key re-registers only if the mode changed,
   * then renders.  `None` is the error of an event without a payload.
   */
  function DidReceiveSettings(k: Key, payload: Option<Fields>): (r: Option<Received>)
    ensures r.None? <==> payload.None?
    ensures r.Some? ==> r.value.key.(settings := k.settings, cfg := k.cfg) == k
    ensures r.Some? && r.value.finished ==> (r.value.reregistered <==> Mode(r.value.key) != Mode(k))
    ensures r.Some? && !r.value.finished ==> r.value.key.cfg == k.cfg && !r.value.reregistered
  {
    match payload
    case None => None
    case Some(p) =>
      var settings := At(p, "settings", Obj([]));
      match Settings.FromDict(settings)
      case None => Some(Received(k.(settings := settings), false, false))
      case Some(cfg) =>
        var k' := k.(settings := settings, cfg := cfg);
        Some(Received(k', Mode(k') != Mode(k), true))
  }

  /** Receiving the same settings again re-registers nothing. */
  lemma SettingsTwiceRegistersOnce(k: Key, p: Fields)
    ensures var r := DidReceiveSettings(k, Some(p)).value;
      r.finished ==> !DidReceiveSettings(r.key, Some(p)).value.reregistered
  {
  }

  /** Switching the control mode in the settings re-registers the key. */
  lemma ModeSwitchReregisters(k: Key, p: Fields)
    requires Mode(k) == LocalMode
    requires Get(p, "settings") == Some(Obj([("control_mode", YnisonMode)]))
    ensures DidReceiveSettings(k, Some(p)).value.reregistered
  {
    var s := Obj([("control_mode", YnisonMode)]);
    Settings.FromDictReads(s.fields, 0);
  }

  // ------------------------------------------------------------ registration

  /** Where a key is registered: the client's callbacks and the page's observers. */
  datatype Hooks = Hooks(client: MusicClient.Client, observers: Cdp.Observers)

  /**
   * `_register_based_on_mode` (lines 51-60): the client callback is dropped,
   * then a local key observes the page for its events and any other key
   * registers its render callback with the client.  `cb` is the identity of
   * the key's callbacks.
   */
  function Register(k: Key, h: Hooks, cb: nat): (r: Hooks)
    ensures Mode(k) == LocalMode ==> k.context !in r.client.callbacks
    ensures Mode(k) == LocalMode ==> forall e :: e in SubscribeEvents(k.mixins) ==> e in r.observers && cb in r.observers[e]
    ensures Mode(k) != LocalMode ==> r.observers == h.observers
    ensures Mode(k) != LocalMode ==> k.context in r.client.callbacks && r.client.callbacks[k.context] == cb
  {
    var c := MusicClient.UnregisterCallback(h.client, k.context);
    if Mode(k) == LocalMode then
      Hooks(c, Cdp.RegisterObserver(h.observers, cb, Some(SubscribeEvents(k.mixins))))
    else Hooks(MusicClient.RegisterCallback(c, k.context, cb), h.observers)
  }

  /**
   * `on_will_disappear` (lines 190-193): background tasks are cancelled
   * (see the task map) and the key leaves both the client and the page.
   */
  function Unregister(k: Key, h: Hooks, cb: nat): (r: Hooks)
    ensures k.context !in r.client.callbacks
    ensures r.observers == Cdp.UnregisterObserver(h.observers, cb)
  {
    Hooks(MusicClient.UnregisterCallback(h.client, k.context), Cdp.UnregisterObserver(h.observers, cb))
  }

  /** A key that appears and disappears is left in neither the client's callbacks nor any observer list. */
  lemma AppearThenDisappear(k: Key, h: Hooks, cb: nat)
    requires Cdp.WellFormed(h.observers)
    ensures var r := Unregister(k, Register(k, h, cb), cb);
      && k.context !in r.client.callbacks
      && forall e :: e in r.observers ==> cb !in r.observers[e]
  {
    var reg := Register(k, h, cb);
    if Mode(k) == LocalMode {
      Cdp.RegisterKeepsNoDuplicates(h.observers, cb, Some(SubscribeEvents(k.mixins)));
    }
    Cdp.UnregisterRemovesEverywhere(reg.observers, cb);
  }

  // ------------------------------------------------------------ page updates

  /** The key's handlers for page updates (lines 112-116). */
  datatype Handler = OnTrack | OnPlayback | OnLike | OnDislike | OnVolume | OnRender

  /**
   * `on_local_update` (lines 89-109): ignored unless the key is in local
   * mode; otherwise each event goes to its own handler and a connection
   * change re-renders.
   */
  function LocalUpdate(k: Key, e: Cdp.EventType): (r: Option<Handler>)
    ensures r.Some? <==> Mode(k) == LocalMode
  {
    if Mode(k) != LocalMode then None
    else
      match e
      case TrackInfo => Some(OnTrack)
      case Playback => Some(OnPlayback)
      case Like => Some(OnLike)
      case Dislike => Some(OnDislike)
      case Volume => Some(OnVolume)
      case Connection => Some(OnRender)
  }

  /** In local mode distinct events reach distinct handlers, so no update is handled as another. */
  lemma LocalUpdateSeparatesEvents(k: Key, e1: Cdp.EventType, e2: Cdp.EventType)
    requires Mode(k) == LocalMode && e1 != e2
    ensures LocalUpdate(k, e1) != LocalUpdate(k, e2)
  {
  }
}

=== FILE: bridge_api.dfy ===
/**
 * The bridge's HTTP and WebSocket front (`api_for_plugin/main.py`): the
 * registry of subscribed sockets per token, the broadcast of state updates
 * to them, the `/ws` endpoint, `/control/{action}` and `/check_token`.
 *
 * Sockets are opaque identities; which of them fail a send is a parameter,
 * and so is the text of the broadcast message.
 */
module BridgeApi {
  import opened Wrappers
  import opened Text
  import ModelsState
  import SessionManager

  type Socket = nat

  /** `connected_websockets`: the open sockets of each token. */
  type Subscribers = map<string, set<Socket>>

  /** The sockets of a token, empty when it has no entry. */
  function SocketsOf(subs: Subscribers, token: string): set<Socket> {
    if token in subs then subs[token] else {}
  }

  /** No token keeps an empty entry. */
  predicate NoEmptyEntries(subs: Subscribers) {
    forall t :: t in subs ==> subs[t] != {}
  }

  // ------------------------------------------------------------ broadcast

  /** One broadcast: the registry afterwards and the sockets a send was tried on. */
  datatype Broadcasted = Broadcasted(subs: Subscribers, attempted: set<Socket>)

  /**
   * `on_state_update` (lines 20-43): every socket of the token gets the
   * message; those whose send fails are dropped, the token's entry stays even
   * when it ends up empty, and a token without an entry is skipped.
   */
  function Broadcast(subs: Subscribers, token: string, failing: set<Socket>): (r: Broadcasted)
    ensures r.attempted == SocketsOf(subs, token)
    ensures r.subs.Keys == subs.Keys
    ensures forall t, w :: t in subs && w in subs[t] ==>
      (w in r.subs[t] <==> t != token || w !in failing)
    ensures forall t :: t in subs ==> r.subs[t] <= subs[t]
  {
    if token !in subs then Broadcasted(subs, {})
    else Broadcasted(subs[token := subs[token] - failing], subs[token])
  }

  /** Sending to every socket of the token with none failing changes nothing. */
  lemma BroadcastAllDelivered(subs: Subscribers, token: string, failing: set<Socket>)
    requires failing !! SocketsOf(subs, token)
    ensures Broadcast(subs, token, failing).subs == subs
  {
    if token in subs {
      assert subs[token] - failing == subs[token];
    }
  }

  /** When every send fails the token stays registered with no sockets. */
  lemma BroadcastAllFailed(subs: Subscribers, token: string, failing: set<Socket>)
    requires token in subs && subs[token] <= failing
    ensures token in Broadcast(subs, token, failing).subs
    ensures Broadcast(subs, token, failing).subs[token] == {}
    ensures subs[token] != {} ==> !NoEmptyEntries(Broadcast(subs, token, failing).subs)
  {
  }

  /** A second broadcast to the same failing sockets finds nothing more to drop. */
  lemma BroadcastSettles(subs: Subscribers, token: string, failing: set<Socket>)
    ensures var once := Broadcast(subs, token, failing).subs;
      Broadcast(once, token, failing).subs == once
  {
    var once := Broadcast(subs, token, failing).subs;
    if token in once {
      assert once[token] - failing == once[token];
    }
  }

  // ----------------------------------------------------- socket registry

  /** The socket joins its token's set, creating the entry on first use (lines 69-71). */
  function Register(subs: Subscribers, token: string, ws: Socket): (r: Subscribers)
    ensures r.Keys == subs.Keys + {token}
    ensures forall t :: t in r ==> r[t] == SocketsOf(subs, t) + (if t == token then {ws} else {})
  {
    subs[token := SocketsOf(subs, token) + {ws}]
  }

  /** The socket leaves its token's set; an emptied entry is deleted (lines 95-98). */
  function Unregister(subs: Subscribers, token: string, ws: Socket): (r: Subscribers)
    ensures r.Keys == if SocketsOf(subs, token) - {ws} == {} then subs.Keys - {token} else subs.Keys
    ensures forall t :: t in r ==> r[t] == SocketsOf(subs, t) - (if t == token then {ws} else {})
  {
    if token !in subs then subs
    else
      var rest := subs[token] - {ws};
      if rest == {} then subs - {token} else subs[token := rest]
  }

  /** Registering and unregistering the same new socket leaves the registry as it was. */
  lemma RegisterUnregister(subs: Subscribers, token: string, ws: Socket)
    requires NoEmptyEntries(subs)
    requires ws !in SocketsOf(subs, token)
    ensures Unregister(Register(subs, token, ws), token, ws) == subs
  {
    var r := Unregister(Register(subs, token, ws), token, ws);
    assert r.Keys == subs.Keys;
    forall t | t in r ensures r[t] == subs[t] {
      if t == token {
        assert SocketsOf(subs, t) + {ws} - {ws} == SocketsOf(subs, t);
      }
    }
  }

  /** Register and unregister keep every entry non-empty. */
  lemma RegistryKeepsNoEmptyEntries(subs: Subscribers, token: string, ws: Socket)
    requires NoEmptyEntries(subs)
    ensures NoEmptyEntries(Register(subs, token, ws))
    ensures NoEmptyEntries(Unregister(subs, token, ws))
  {
    var r := Register(subs, token, ws);
    assert ws in r[token];
  }

  // ---------------------------------------------------------- /ws endpoint

  /**
   * How a `/ws` connection stands once the handler has set it up: the
   * registry and the session manager afterwards, the close code if the
   * handler closed the socket, and the state sent as the first message.
   */
  datatype WsOutcome = WsOutcome(
    subs: Subscribers,
    manager: SessionManager.Manager,
    closeCode: Option<int>,
    initial: Option<ModelsState.State>)

  /** The initial message: the player's state when the session has a player with a state (lines 83-86). */
  function InitialState(s: SessionManager.Session): Option<ModelsState.State> {
    if s.player.Some? && s.player.value.state.Some? then s.player.value.state else None
  }

  /**
   * `websocket_endpoint` (lines 60-91) up to the receive loop: a missing or
   * empty `Authorization` header is closed with 4003 before anything is
   * registered; otherwise the socket is registered first, and a session that
   * cannot be started closes it with 4001 while it stays registered.
   */
  function WsConnect(subs: Subscribers, m: SessionManager.Manager, authorization: Option<string>, ws: Socket,
                     init: Option<SessionManager.Failure>, likes: SessionManager.Call<seq<string>>,
                     dislikes: Option<seq<string>>): (r: WsOutcome)
    ensures r.closeCode == Some(4003) <==> authorization.None? || authorization.value == ""
    ensures r.closeCode == Some(4003) ==> r.subs == subs && r.manager == m && r.initial.None?
    ensures r.closeCode != Some(4003) ==> ws in SocketsOf(r.subs, authorization.value)
    ensures r.closeCode == Some(4001) <==>
      authorization.Some? && authorization.value != "" && authorization.value !in m.sessions
      && SessionManager.FirstFailure(init, likes) == Some(SessionManager.Denied)
    ensures r.closeCode.None? ==>
      authorization.Some? && authorization.value in r.manager.sessions
      && r.initial == InitialState(r.manager.sessions[authorization.value])
  {
    if authorization.None? || authorization.value == "" then WsOutcome(subs, m, Some(4003), None)
    else
      var token := authorization.value;
      var registered := Register(subs, token, ws);
      match SessionManager.GetSession(m, token, init, likes, dislikes)
      case Err(_) => WsOutcome(registered, m, Some(4001), None)
      case Ok((m2, s)) => WsOutcome(registered, m2, None, InitialState(s))
  }

  /** `WebSocketDisconnect` from the receive loop (lines 93-98). */
  function WsDisconnect(subs: Subscribers, token: string, ws: Socket): (r: Subscribers)
    ensures ws !in SocketsOf(r, token)
    ensures forall t :: t != token ==> SocketsOf(r, t) == SocketsOf(subs, t)
  {
    Unregister(subs, token, ws)
  }

  /** A client that connects and later disconnects leaves no trace in the registry. */
  lemma ConnectThenDisconnect(subs: Subscribers, m: SessionManager.Manager, token: string, ws: Socket,
                              init: Option<SessionManager.Failure>, likes: SessionManager.Call<seq<string>>,
                              dislikes: Option<seq<string>>)
    requires NoEmptyEntries(subs) && ws !in SocketsOf(subs, token) && token != ""
    requires WsConnect(subs, m, Some(token), ws, init, likes, dislikes).closeCode.None?
    ensures WsDisconnect(WsConnect(subs, m, Some(token), ws, init, likes, dislikes).subs, token, ws) == subs
  {
    RegisterUnregister(subs, token, ws);
  }

  /** A socket closed with 4001 stays registered until a send to it fails. */
  lemma RejectedSessionStaysRegistered(subs: Subscribers, m: SessionManager.Manager, token: string, ws: Socket,
                                       likes: SessionManager.Call<seq<string>>, dislikes: Option<seq<string>>)
    requires token != "" && token !in m.sessions
    ensures var r := WsConnect(subs, m, Some(token), ws, Some(SessionManager.Denied), likes, dislikes);
      r.closeCode == Some(4001) && ws in SocketsOf(r.subs, token) && r.manager == m
      && ws !in SocketsOf(Broadcast(r.subs, token, {ws}).subs, token)
  {
  }

  // -------------------------------------------------------- /control/{action}

  /** The user token of a control request (lines 103-108); `None` is the 401. */
  function ControlToken(query: Option<string>, authorization: Option<string>): (r: Option<string>)
    ensures r.Some? ==> r.value != ""
    ensures query.Some? && query.value != "" ==> r == query
    ensures r.None? <==>
      (query.None? || query.value == "")
      && (authorization.None? || authorization.value == ""
          || (StartsWith(authorization.value, "Bearer ") && SplitBearer(authorization.value) == ""))
  {
    if query.Some? && query.value != "" then query
    else if authorization.None? || authorization.value == "" then None
    else
      var header := authorization.value;
      var t := if StartsWith(header, "Bearer ") then SplitBearer(header) else header;
      if t == "" then None else Some(t)
  }

  /** The second space-separated field of a `Bearer ` header. */
  function SplitBearer(header: string): string
    requires StartsWith(header, "Bearer ")
  {
    var parts := Split(header, ' ');
    assert |parts| >= 2 by { SplitHasSecond(header); }
    parts[1]
  }

  lemma SplitHasSecond(header: string)
    requires StartsWith(header, "Bearer ")
    ensures |Split(header, ' ')| >= 2
  {
    assert header[6] == ' ';
    SplitJoin(header, ' ');
  }

  /** `Bearer <t>` yields `t` for a token without spaces. */
  lemma BearerToken(t: string)
    requires t != "" && ' ' !in t
    ensures ControlToken(None, Some("Bearer " + t)) == Some(t)
  {
    var header := "Bearer " + t;
    assert StartsWith(header, "Bearer ");
    assert Join(["Bearer", t], " ") == header;
    JoinSplit(["Bearer", t], ' ');
  }

  /** A header without the `Bearer ` prefix is the token itself. */
  lemma RawToken(header: string)
    requires header != "" && !StartsWith(header, "Bearer ")
    ensures ControlToken(None, Some(header)) == Some(header)
    ensures ControlToken(Some(""), Some(header)) == Some(header)
  {
  }

  /** The actions `/control` knows. */
  datatype Action = PlayPause | NextTrack | PrevTrack | LikeTrack | DislikeTrack

  function ActionName(a: Action): string {
    match a
    case PlayPause => "play_pause"
    case NextTrack => "next"
    case PrevTrack => "prev"
    case LikeTrack => "like"
    case DislikeTrack => "dislike"
  }

  /** The `match action` of lines 115-127. */
  function ParseAction(s: string): Option<Action> {
    if s == "play_pause" then Some(PlayPause)
    else if s == "next" then Some(NextTrack)
    else if s == "prev" then Some(PrevTrack)
    else if s == "like" then Some(LikeTrack)
    else if s == "dislike" then Some(DislikeTrack)
    else None
  }

  /** The action names are exactly the strings the dispatcher recognises. */
  lemma ParseActionName(a: Action, s: string)
    ensures ParseAction(ActionName(a)) == Some(a)
    ensures ParseAction(s) == Some(a) ==> s == ActionName(a)
  {
  }

  /** What `/control` answers. */
  datatype Reply =
    | Unauthorized                 // HTTP 401, "Token required"
    | ServerError                  // `get_session` raised: an unhandled exception
    | UnknownAction                // {"error": "unknown action"}
    | Done(action: Action)         // {"status": "ok"} after the session ran the command

  datatype Controlled = Controlled(manager: SessionManager.Manager, reply: Reply)

  /** The session after `like`/`dislike` (the other commands go to the player). */
  function RunAction(s: SessionManager.Session, a: Action): SessionManager.Session {
    match a
    case LikeTrack => SessionManager.Like(s).session
    case DislikeTrack => SessionManager.Dislike(s).session
    case _ => s
  }

  /**
   * `control` (lines 101-128): the session is fetched, and for a new token
   * started, before the action is looked at, so an unknown action still
   * creates a session.
   */
  function Control(m: SessionManager.Manager, action: string, query: Option<string>, authorization: Option<string>,
                   init: Option<SessionManager.Failure>, likes: SessionManager.Call<seq<string>>,
                   dislikes: Option<seq<string>>): (r: Controlled)
    ensures r.reply == Unauthorized <==> ControlToken(query, authorization).None?
    ensures r.reply == Unauthorized || r.reply == ServerError ==> r.manager == m
    ensures r.reply.Done? ==> ParseAction(action) == Some(r.reply.action)
    ensures r.reply.Done? <==>
      ParseAction(action).Some? && ControlToken(query, authorization).Some?
      && (ControlToken(query, authorization).value in m.sessions
          || SessionManager.FirstFailure(init, likes) != Some(SessionManager.Denied))
    ensures r.reply == UnknownAction ==>
      ParseAction(action).None? && ControlToken(query, authorization).Some?
      && ControlToken(query, authorization).value in r.manager.sessions
  {
    match ControlToken(query, authorization)
    case None => Controlled(m, Unauthorized)
    case Some(token) =>
      match SessionManager.GetSession(m, token, init, likes, dislikes)
      case Err(_) => Controlled(m, ServerError)
      case Ok((m2, s)) =>
        match ParseAction(action)
        case None => Controlled(m2, UnknownAction)
        case Some(a) => Controlled(SessionManager.Manager(m2.sessions[token := RunAction(s, a)]), Done(a))
  }

  /** Only like and dislike change the session's own record; every command keeps the token's session registered. */
  lemma ControlKeepsSession(m: SessionManager.Manager, action: string, query: Option<string>, authorization: Option<string>,
                            init: Option<SessionManager.Failure>, likes: SessionManager.Call<seq<string>>,
                            dislikes: Option<seq<string>>)
    requires ControlToken(query, authorization).Some?
    ensures var r := Control(m, action, query, authorization, init, likes, dislikes);
      var token := ControlToken(query, authorization).value;
      r.reply.Done? ==> token in r.manager.sessions && r.manager.sessions.Keys == m.sessions.Keys + {token}
    ensures var r := Control(m, action, query, authorization, init, likes, dislikes);
      var token := ControlToken(query, authorization).value;
      r.reply in {Done(PlayPause), Done(NextTrack), Done(PrevTrack)} && token in m.sessions ==> r.manager == m
  {
    var token := ControlToken(query, authorization).value;
    if token in m.sessions {
      assert m.sessions[token := m.sessions[token]] == m.sessions;
    }
  }

  // ----------------------------------------------------------- /check_token

  /**
   * `check_token` (lines 131-142): a missing header or one shorter than five
   * characters is invalid without touching the sessions; otherwise the token
   * is valid when its session exists or can be started.
   */
  function CheckToken(m: SessionManager.Manager, authorization: Option<string>,
                      init: Option<SessionManager.Failure>, likes: SessionManager.Call<seq<string>>,
                      dislikes: Option<seq<string>>): (r: (SessionManager.Manager, bool))
    ensures r.1 <==>
      authorization.Some? && |authorization.value| >= 5
      && (authorization.value in m.sessions || SessionManager.FirstFailure(init, likes) != Some(SessionManager.Denied))
    ensures !r.1 ==> r.0 == m
    ensures r.1 ==> authorization.value in r.0.sessions
  {
    if authorization.None? || |authorization.value| < 5 then (m, false)
    else
      match SessionManager.GetSession(m, authorization.value, init, likes, dislikes)
      case Err(_) => (m, false)
      case Ok((m2, _)) => (m2, true)
  }

  /** A token found valid is served from then on without starting anything new. */
  lemma CheckedTokenIsReused(m: SessionManager.Manager, token: string,
                             init: Option<SessionManager.Failure>, likes: SessionManager.Call<seq<string>>,
                             dislikes: Option<seq<string>>,
                             init2: Option<SessionManager.Failure>, likes2: SessionManager.Call<seq<string>>,
                             dislikes2: Option<seq<string>>)
    requires CheckToken(m, Some(token), init, likes, dislikes).1
    ensures var m2 := CheckToken(m, Some(token), init, likes, dislikes).0;
      CheckToken(m2, Some(token), init2, likes2, dislikes2) == (m2, true)
  {
  }
}

=== FILE: cdp.dfy ===
/**
 * The local-player controller (`src/core/cdp.py`, class
 * `CDPMediaController`): the observer lists per event, the connection flag,
 * the last known media state and how the page script's notifications change
 * it, the command scripts it evaluates, and the id bookkeeping of its
 * DevTools requests.  Socket traffic arrives as parameters.
 */
module Cdp {
  import opened Wrappers
  import opened Text
  import opened Json
  import opened PluginStates
  import InjectedApi

  /** `EventType` (`schemas/events.py`). */
  datatype EventType = Connection | TrackInfo | Playback | Like | Dislike | Volume

  /** A registered callback, by identity. */
  type Callback = nat

  type Observers = map<EventType, seq<Callback>>

  /** What an observer is called with. */
  datatype Note =
    | Connected(connected: bool)
    | TrackNote(track: TrackData)
    | PlaybackNote(playback: PlaybackData)
    | LikeNote(like: LikeData)
    | DislikeNote(dislike: DislikeData)
    | VolumeNote(volume: VolumeData)

  /** One observer call: `callback(event_type, data)`. */
  datatype Call = Call(callback: Callback, event: EventType, note: Note)

  /** A DevTools request still waiting for its reply; `cancelled` once its wait timed out. */
  datatype Pending = Pending(cancelled: bool)

  datatype Controller = Controller(
    isConnected: bool,
    observers: Observers,
    lastState: MediaState,
    nextId: nat,
    pending: map<nat, Pending>)

  /** The controller as constructed (lines 28-53): request ids start at 1. */
  function NewController(): (c: Controller)
    ensures !c.isConnected && c.observers == map[] && c.nextId == 1 && c.pending == map[]
    ensures c.lastState == DefaultMedia
  {
    Controller(false, map[], DefaultMedia, 1, map[])
  }

  // ------------------------------------------------------------ observers

  /** The list registered for an event; a `defaultdict` reads a missing one as empty. */
  function ListOf(obs: Observers, e: EventType): seq<Callback> {
    if e in obs then obs[e] else []
  }

  predicate NoDuplicates(s: seq<Callback>) {
    forall i, j :: 0 <= i < j < |s| ==> s[i] != s[j]
  }

  predicate WellFormed(obs: Observers) {
    forall e :: e in obs ==> NoDuplicates(obs[e])
  }

  /**
   * `register_observer` (lines 96-100): the callback joins the list of each
   * requested event (only the connection event when none are given) unless
   * it is already there; other lists are untouched.
   */
  function RegisterObserver(obs: Observers, cb: Callback, events: Option<set<EventType>>): (r: Observers)
    ensures var evs := if events.None? then {Connection} else events.value;
      && r.Keys == obs.Keys + evs
      && (forall e :: e in evs ==> cb in r[e])
      && (forall e :: e in evs && cb in ListOf(obs, e) ==> r[e] == obs[e])
      && (forall e :: e in evs && cb !in ListOf(obs, e) ==> r[e] == ListOf(obs, e) + [cb])
      && (forall e :: e in obs && e !in evs ==> r[e] == obs[e])
  {
    var evs := if events.None? then {Connection} else events.value;
    map e | e in obs.Keys + evs ::
      if e in evs && cb !in ListOf(obs, e) then ListOf(obs, e) + [cb] else ListOf(obs, e)
  }

  /** Registering never puts a callback twice into one list. */
  lemma RegisterKeepsNoDuplicates(obs: Observers, cb: Callback, events: Option<set<EventType>>)
    requires WellFormed(obs)
    ensures WellFormed(RegisterObserver(obs, cb, events))
  {
    var r := RegisterObserver(obs, cb, events);
    forall e | e in r
      ensures NoDuplicates(r[e])
    {
      var s := ListOf(obs, e);
      if r[e] != s {
        assert r[e] == s + [cb] && cb !in s;
        forall i, j | 0 <= i < j < |r[e]|
          ensures r[e][i] != r[e][j]
        {
          if j == |s| {
            assert r[e][i] == s[i];
          } else {
            assert r[e][i] == s[i] && r[e][j] == s[j];
          }
        }
      }
    }
  }

  /** `list.remove(x)`: drops the first occurrence. */
  function RemoveFirst(s: seq<Callback>, x: Callback): (r: seq<Callback>)
    ensures x !in s ==> r == s
    ensures x in s ==> |r| == |s| - 1
    ensures forall y :: y in r ==> y in s
  {
    if |s| == 0 then []
    else if s[0] == x then s[1..]
    else [s[0]] + RemoveFirst(s[1..], x)
  }

  /** Removing the only occurrence leaves no occurrence behind. */
  lemma {:induction false} RemoveOnly(s: seq<Callback>, x: Callback)
    requires NoDuplicates(s)
    ensures x !in RemoveFirst(s, x)
    ensures NoDuplicates(RemoveFirst(s, x))
    ensures forall y :: y != x ==> (y in RemoveFirst(s, x) <==> y in s)
  {
    if |s| > 0 {
      assert NoDuplicates(s[1..]) by {
        forall i, j | 0 <= i < j < |s[1..]| ensures s[1..][i] != s[1..][j] {
          assert s[1..][i] == s[i + 1] && s[1..][j] == s[j + 1];
        }
      }
      if s[0] == x {
        assert forall i :: 0 < i < |s| ==> s[i] != x;
        assert forall y :: y in s[1..] ==> y != x;
      } else {
        RemoveOnly(s[1..], x);
        var r := [s[0]] + RemoveFirst(s[1..], x);
        assert s[0] !in s[1..] by {
          forall i | 0 <= i < |s[1..]| ensures s[1..][i] != s[0] { assert s[1..][i] == s[i + 1]; }
        }
        forall i, j | 0 <= i < j < |r| ensures r[i] != r[j] {
          if i == 0 {
            assert r[j] in RemoveFirst(s[1..], x);
          } else {
            assert r[i] == RemoveFirst(s[1..], x)[i - 1] && r[j] == RemoveFirst(s[1..], x)[j - 1];
          }
        }
      }
    }
  }

  /** `unregister_observer` (lines 102-105): the callback leaves every list. */
  function UnregisterObserver(obs: Observers, cb: Callback): (r: Observers)
    ensures r.Keys == obs.Keys
    ensures forall e :: e in obs && cb !in obs[e] ==> r[e] == obs[e]
  {
    map e | e in obs :: RemoveFirst(obs[e], cb)
  }

  /** After unregistering, the callback is in no list and every other callback stays where it was. */
  lemma UnregisterRemovesEverywhere(obs: Observers, cb: Callback)
    requires WellFormed(obs)
    ensures var r := UnregisterObserver(obs, cb);
      WellFormed(r) && forall e :: e in r ==> cb !in r[e] && forall y :: y != cb ==> (y in r[e] <==> y in obs[e])
  {
    forall e | e in obs {
      RemoveOnly(obs[e], cb);
    }
  }

  /** Registering a callback that was nowhere and unregistering it leaves only the empty lists it created. */
  lemma RegisterUnregisterObserver(obs: Observers, cb: Callback, events: Option<set<EventType>>)
    requires forall e :: e in obs ==> cb !in obs[e]
    ensures UnregisterObserver(RegisterObserver(obs, cb, events), cb)
         == map e | e in obs.Keys + (if events.None? then {Connection} else events.value) :: ListOf(obs, e)
  {
    var evs := if events.None? then {Connection} else events.value;
    var r := RegisterObserver(obs, cb, events);
    var u := UnregisterObserver(r, cb);
    forall e | e in u
      ensures u[e] == ListOf(obs, e)
    {
      if e in evs {
        assert r[e] == ListOf(obs, e) + [cb];
        RemoveLast(ListOf(obs, e), cb);
      }
    }
  }

  /** Removing an appended element that was absent gives the list back. */
  lemma {:induction false} RemoveLast(s: seq<Callback>, x: Callback)
    requires x !in s
    ensures RemoveFirst(s + [x], x) == s
  {
    if |s| > 0 {
      assert (s + [x])[1..] == s[1..] + [x];
      RemoveLast(s[1..], x);
    }
  }

  /** `_notify_observers` (lines 113-122): each callback of the event's list, in order. */
  function Notify(obs: Observers, e: EventType, note: Note): (calls: seq<Call>)
    ensures |calls| == |ListOf(obs, e)|
    ensures forall i :: 0 <= i < |calls| ==> calls[i] == Call(ListOf(obs, e)[i], e, note)
  {
    seq(|ListOf(obs, e)|, i requires 0 <= i < |ListOf(obs, e)| => Call(ListOf(obs, e)[i], e, note))
  }

  /** The controller after a step and the observer calls it made, in order. */
  datatype Stepped = Stepped(ctl: Controller, calls: seq<Call>)

  /** `_set_connection_status` (lines 107-111): observers hear only about a real change. */
  function SetConnectionStatus(c: Controller, connected: bool): (r: Stepped)
    ensures r.ctl.isConnected == connected
    ensures c.isConnected == connected ==> r == Stepped(c, [])
    ensures c.isConnected != connected ==> r.calls == Notify(c.observers, Connection, Connected(connected))
    ensures r.ctl.(isConnected := c.isConnected) == c
  {
    if c.isConnected == connected then Stepped(c, [])
    else Stepped(c.(isConnected := connected), Notify(c.observers, Connection, Connected(connected)))
  }

  /** Setting the same status twice notifies once. */
  lemma SetConnectionStatusIdempotent(c: Controller, connected: bool)
    ensures var once := SetConnectionStatus(c, connected);
      SetConnectionStatus(once.ctl, connected) == Stepped(once.ctl, [])
  {
  }

  /** The place of an event in a full announcement (lines 246-251). */
  function FullStateRank(e: EventType): nat {
    match e
    case Connection => 0
    case TrackInfo => 1
    case Playback => 2
    case Volume => 3
    case Like => 4
    case Dislike => 5
  }

  /** What a full announcement tells the observers of `e` about the state `m`. */
  function FullStateNote(m: MediaState, e: EventType): Note {
    match e
    case Connection => Connected(true)
    case TrackInfo => TrackNote(m.track)
    case Playback => PlaybackNote(m.playback)
    case Volume => VolumeNote(m.volume)
    case Like => LikeNote(m.like)
    case Dislike => DislikeNote(m.dislike)
  }

  /** The calls are grouped by event, in the order of `FullStateRank`. */
  predicate InFullStateOrder(calls: seq<Call>) {
    forall i, j :: 0 <= i < j < |calls| ==> FullStateRank(calls[i].event) <= FullStateRank(calls[j].event)
  }

  /** Every call tells an observer of its event what the state `m` holds for that event. */
  predicate FullStateNotes(obs: Observers, m: MediaState, calls: seq<Call>) {
    forall i :: 0 <= i < |calls| ==>
      calls[i].note == FullStateNote(m, calls[i].event) && calls[i].callback in ListOf(obs, calls[i].event)
  }

  /** Putting the calls of one event before calls of no earlier event keeps the order and the notes. */
  lemma FullStatePrepend(obs: Observers, m: MediaState, e: EventType, rest: seq<Call>)
    requires InFullStateOrder(rest) && FullStateNotes(obs, m, rest)
    requires forall i :: 0 <= i < |rest| ==> FullStateRank(e) <= FullStateRank(rest[i].event)
    ensures var all := Announce(obs, m, e) + rest;
      && InFullStateOrder(all) && FullStateNotes(obs, m, all)
      && forall i :: 0 <= i < |all| ==> FullStateRank(e) <= FullStateRank(all[i].event)
  {
    var head := Announce(obs, m, e);
    var all := head + rest;
    forall i | 0 <= i < |all|
      ensures all[i] == if i < |head| then head[i] else rest[i - |head|]
    {
    }
  }

  /** The event announced in the `k`-th place of a full announcement (lines 246-251). */
  function FullStateEvent(k: nat): (e: EventType)
    requires k < 6
    ensures FullStateRank(e) == k
  {
    [Connection, TrackInfo, Playback, Volume, Like, Dislike][k]
  }

  /** The announcements from the `k`-th place on, one event after the other. */
  function AnnounceFrom(obs: Observers, m: MediaState, k: nat): seq<Call>
    decreases 6 - k
  {
    if k >= 6 then [] else Announce(obs, m, FullStateEvent(k)) + AnnounceFrom(obs, m, k + 1)
  }

  /** The announcements from the `k`-th place on keep the full-state order and notes, and start no earlier than `k`. */
  lemma {:induction false} AnnounceFromShape(obs: Observers, m: MediaState, k: nat)
    ensures var all := AnnounceFrom(obs, m, k);
      && InFullStateOrder(all) && FullStateNotes(obs, m, all)
      && forall i :: 0 <= i < |all| ==> k <= FullStateRank(all[i].event)
    decreases 6 - k
  {
    if k < 6 {
      AnnounceFromShape(obs, m, k + 1);
      FullStatePrepend(obs, m, FullStateEvent(k), AnnounceFrom(obs, m, k + 1));
    }
  }

  /**
   * `_update_full_state` (lines 245-251): every part of the state, after a
   * "connected": the observers of each event in turn, connection, track,
   * playback, volume, like, dislike, each told that part of the last state.
   */
  function FullStateCalls(c: Controller): (calls: seq<Call>)
    ensures |calls| == |ListOf(c.observers, Connection)| + |ListOf(c.observers, TrackInfo)|
      + |ListOf(c.observers, Playback)| + |ListOf(c.observers, Volume)|
      + |ListOf(c.observers, Like)| + |ListOf(c.observers, Dislike)|
    ensures InFullStateOrder(calls)
    ensures FullStateNotes(c.observers, c.lastState, calls)
  {
    AnnounceFromShape(c.observers, c.lastState, 0);
    FullStateUnrolled(c.observers, c.lastState);
    AnnounceFrom(c.observers, c.lastState, 0)
  }

  /** The calls announcing the part of `m` that the observers of `e` hear about. */
  function Announce(obs: Observers, m: MediaState, e: EventType): seq<Call> {
    Notify(obs, e, FullStateNote(m, e))
  }

  /** A full announcement has one call per observer of each of its events. */
  lemma FullStateUnrolled(obs: Observers, m: MediaState)
    ensures |AnnounceFrom(obs, m, 0)| == |ListOf(obs, Connection)| + |ListOf(obs, TrackInfo)|
      + |ListOf(obs, Playback)| + |ListOf(obs, Volume)| + |ListOf(obs, Like)| + |ListOf(obs, Dislike)|
  {
  }

  /**
   * `fetch_state` (lines 408-419): a truthy dictionary answer whose
   * `success` is truthy is decoded from its `data`; any other answer is the
   * default state.  `None` is an exception from the decoder.
   */
  function FetchState(raw: Value): (r: Option<MediaState>)
    ensures !(raw.Obj? && Truthy(raw) && Truthy(At(raw.fields, "success", Null))) ==> r == Some(DefaultMedia)
    ensures raw.Obj? && Truthy(raw) && Truthy(At(raw.fields, "success", Null)) ==> r == MediaFromDict(At(raw.fields, "data", Null))
  {
    if raw.Obj? && Truthy(raw) && Truthy(At(raw.fields, "success", Null)) then MediaFromDict(At(raw.fields, "data", Null))
    else Some(DefaultMedia)
  }

  /**
   * The end of `_setup_cdp_environment` (lines 181-184): a fetched state
   * with a truthy title becomes the last state and is announced in full; a
   * failed fetch or an empty title changes nothing.
   */
  function AdoptInitialState(c: Controller, raw: Value): (r: Stepped)
    ensures FetchState(raw).Some? && Truthy(FetchState(raw).value.track.title) ==>
      r.ctl == c.(lastState := FetchState(raw).value) && r.calls == FullStateCalls(r.ctl)
    ensures !(FetchState(raw).Some? && Truthy(FetchState(raw).value.track.title)) ==> r == Stepped(c, [])
  {
    match FetchState(raw)
    case Some(m) =>
      if Truthy(m.track.title) then
        var c1 := c.(lastState := m);
        Stepped(c1, FullStateCalls(c1))
      else Stepped(c, [])
    case None => Stepped(c, [])
  }

  /** A failed fetch never replaces the state: the default state has an empty title. */
  lemma DefaultStateNotAdopted(c: Controller, raw: Value)
    requires !(raw.Obj? && Truthy(raw) && Truthy(At(raw.fields, "success", Null)))
    ensures AdoptInitialState(c, raw) == Stepped(c, [])
  {
  }

  // ------------------------------------------------------------ deltas

  /**
   * Python `key in v` followed by `v[key]` on a decoded value: `None` is the
   * `TypeError` either raises, `Some(None)` an absent key, `Some(Some(x))`
   * the value.  A list or string can contain the key yet cannot be indexed
   * by it.
   */
  function Lookup(v: Value, key: string): (r: Option<Option<Value>>)
    ensures v.Obj? ==> r == Some(Get(v.fields, key))
    ensures r == Some(None) ==> v.Obj? || v.Arr? || v.Str?
  {
    match v
    case Obj(fs) => Some(Get(fs, key))
    case Arr(items) => if Str(key) in items then None else Some(None)
    case Str(s) => if Contains(s, key) then None else Some(None)
    case _ => None
  }

  /** The delta's part applied to a track, and whether a lookup raised. */
  function TrackDelta(t: TrackData, td: Value): (r: Option<TrackData>)
    ensures td.Obj? ==> r.Some?
    ensures td.Obj? ==> r.value.trackId == (if HasKey(td.fields, "id") then PyStr(Get(td.fields, "id").value) else t.trackId)
    ensures td.Obj? ==> r.value.title == (if HasKey(td.fields, "title") then Get(td.fields, "title").value else t.title)
    ensures td.Obj? ==> r.value.artist == (if HasKey(td.fields, "artist") then Get(td.fields, "artist").value else t.artist)
    ensures td.Obj? ==> r.value.coverUrl == (if HasKey(td.fields, "cover") then Get(td.fields, "cover").value else t.coverUrl)
  {
    var id :- Lookup(td, "id");
    var title :- Lookup(td, "title");
    var artist :- Lookup(td, "artist");
    var cover :- Lookup(td, "cover");
    Some(TrackData(
      if title.Some? then title.value else t.title,
      if artist.Some? then artist.value else t.artist,
      if cover.Some? then cover.value else t.coverUrl,
      if id.Some? then PyStr(id.value) else t.trackId))
  }

  /** The outcome of applying a delta: the effects made before any exception stay. */
  datatype Applied = Applied(ctl: Controller, calls: seq<Call>, raised: bool)

  /**
   * The track part of `_apply_delta` (lines 259-272): the present keys
   * overwrite the track, observers hear of it only when it changed.
   */
  function ApplyTrack(c: Controller, delta: Value): (r: Applied)
    ensures r.ctl.(lastState := c.lastState) == c
    ensures r.ctl.lastState.(track := c.lastState.track) == c.lastState
    ensures r.calls != [] ==> r.ctl.lastState.track != c.lastState.track
  {
    match Lookup(delta, "track")
    case None => Applied(c, [], true)
    case Some(None) => Applied(c, [], false)
    case Some(Some(td)) =>
      match TrackDelta(c.lastState.track, td)
      case None => Applied(c, [], true)
      case Some(t) =>
        if t == c.lastState.track then Applied(c, [], false)
        else Applied(c.(lastState := c.lastState.(track := t)), Notify(c.observers, TrackInfo, TrackNote(t)), false)
  }

  /**
   * The state part of `_apply_delta` (lines 274-286): `liked`, `disliked`
   * and `playing` are each set, with their own notification, only when
   * present; an exception stops the rest.
   */
  function ApplyFlags(c: Controller, delta: Value): (r: Applied)
    ensures r.ctl.(lastState := c.lastState) == c
    ensures r.ctl.lastState.track == c.lastState.track && r.ctl.lastState.volume == c.lastState.volume
  {
    match Lookup(delta, "state")
    case None => Applied(c, [], true)
    case Some(None) => Applied(c, [], false)
    case Some(Some(st)) =>
      match Lookup(st, "liked")
      case None => Applied(c, [], true)
      case Some(liked) =>
        var m1 := if liked.Some? then c.lastState.(like := LikeData(liked.value)) else c.lastState;
        var n1 := if liked.Some? then Notify(c.observers, Like, LikeNote(m1.like)) else [];
        match Lookup(st, "disliked")
        case None => Applied(c.(lastState := m1), n1, true)
        case Some(disliked) =>
          var m2 := if disliked.Some? then m1.(dislike := DislikeData(disliked.value)) else m1;
          var n2 := if disliked.Some? then Notify(c.observers, Dislike, DislikeNote(m2.dislike)) else [];
          match Lookup(st, "playing")
          case None => Applied(c.(lastState := m2), n1 + n2, true)
          case Some(playing) =>
            var m3 := if playing.Some? then m2.(playback := m2.playback.(isPlaying := playing.value)) else m2;
            var n3 := if playing.Some? then Notify(c.observers, Playback, PlaybackNote(m3.playback)) else [];
            Applied(c.(lastState := m3), n1 + n2 + n3, false)
  }

  /** `_apply_delta`, the track part and then the state part. */
  function ApplyDelta(c: Controller, delta: Value): (r: Applied)
    ensures r.ctl.(lastState := c.lastState) == c
  {
    var a := ApplyTrack(c, delta);
    if a.raised then a
    else
      var b := ApplyFlags(a.ctl, delta);
      Applied(b.ctl, a.calls + b.calls, b.raised)
  }

  /** A state delta sets exactly the flags it carries and leaves the rest of the state alone. */
  lemma FlagsDelta(c: Controller, st: Fields)
    ensures var r := ApplyFlags(c, Obj([("state", Obj(st))]));
      var m := r.ctl.lastState;
      && !r.raised
      && m.like.isLiked == (if HasKey(st, "liked") then Get(st, "liked").value else c.lastState.like.isLiked)
      && m.dislike.isDisliked == (if HasKey(st, "disliked") then Get(st, "disliked").value else c.lastState.dislike.isDisliked)
      && m.playback.isPlaying == (if HasKey(st, "playing") then Get(st, "playing").value else c.lastState.playback.isPlaying)
      && m.playback.(isPlaying := c.lastState.playback.isPlaying) == c.lastState.playback
      && m.track == c.lastState.track && m.volume == c.lastState.volume
      && |r.calls| == (if HasKey(st, "liked") then |ListOf(c.observers, Like)| else 0)
                    + (if HasKey(st, "disliked") then |ListOf(c.observers, Dislike)| else 0)
                    + (if HasKey(st, "playing") then |ListOf(c.observers, Playback)| else 0)
  {
  }

  /** A track delta without changes notifies nobody; any change notifies the track observers once each. */
  lemma TrackDeltaNotifiesOnChange(c: Controller, td: Fields)
    ensures var r := ApplyTrack(c, Obj([("track", Obj(td))]));
      && !r.raised
      && r.ctl.lastState.track == TrackDelta(c.lastState.track, Obj(td)).value
      && (r.calls == [] <==> r.ctl.lastState.track == c.lastState.track || ListOf(c.observers, TrackInfo) == [])
  {
  }

  /** Applying the same track delta twice changes and notifies nothing the second time. */
  lemma TrackDeltaIdempotent(c: Controller, td: Fields)
    requires UniqueKeys(td)
    ensures var once := ApplyTrack(c, Obj([("track", Obj(td))]));
      ApplyTrack(once.ctl, Obj([("track", Obj(td))])) == Applied(once.ctl, [], false)
  {
  }

  // ------------------------------------------------------------ notifications

  /**
   * `_handle_notify_payload` (lines 233-243): a full state replaces the last
   * state and re-announces all of it; a delta is applied; other types are
   * ignored.  `data` must be a dictionary.
   */
  function HandleNotifyPayload(c: Controller, data: Value): (r: Applied)
    ensures (data.Obj? && Get(data.fields, "type") == Some(Str("FULL_STATE")) &&
             MediaFromDict(At(data.fields, "payload", Obj([]))).Some?) ==>
      && r.ctl == c.(lastState := MediaFromDict(At(data.fields, "payload", Obj([]))).value)
      && r.calls == FullStateCalls(r.ctl) && !r.raised
    ensures data.Obj? && Get(data.fields, "type") == Some(Str("DELTA")) ==>
      r == ApplyDelta(c, At(data.fields, "payload", Obj([])))
    ensures r.ctl.(lastState := c.lastState) == c
  {
    if !data.Obj? then Applied(c, [], true)
    else
      var payload := At(data.fields, "payload", Obj([]));
      var kind := Get(data.fields, "type");
      if kind == Some(Str("FULL_STATE")) then
        match MediaFromDict(payload)
        case None => Applied(c, [], true)
        case Some(m) =>
          var c1 := c.(lastState := m);
          Applied(c1, FullStateCalls(c1), false)
      else if kind == Some(Str("DELTA")) then ApplyDelta(c, payload)
      else Applied(c, [], false)
  }

  /**
   * `_handle_event` (lines 223-231): only a `Runtime.bindingCalled` event
   * named `sdNotify` carries a notification; `decoded` is its JSON payload,
   * `None` when it does not parse.
   */
  function HandleEvent(c: Controller, methodName: Value, params: Value, decoded: Option<Value>): (r: Stepped)
    ensures methodName != Str("Runtime.bindingCalled") ==> r == Stepped(c, [])
    ensures decoded.None? ==> r == Stepped(c, [])
    ensures r.ctl.(lastState := c.lastState) == c
  {
    if methodName != Str("Runtime.bindingCalled") || !params.Obj? then Stepped(c, [])
    else if Get(params.fields, "name") != Some(Str("sdNotify")) || decoded.None? then Stepped(c, [])
    else
      var a := HandleNotifyPayload(c, decoded.value);
      Stepped(a.ctl, a.calls)
  }

  // ------------------------------------------------------------ commands

  const ControllerName := "window._PyYMController"

  /** A command argument: a Python string, or anything else by its `str()` text. */
  datatype Arg = StrArg(s: string) | OtherArg(text: string)

  /** Lines 398-399: strings in single quotes, everything else as `str()` renders it. */
  function ArgText(a: Arg): (r: string)
    ensures a.StrArg? ==> |r| == |a.s| + 2 && r[0] == '\'' && r[|r| - 1] == '\'' && r[1..|r| - 1] == a.s
  {
    match a
    case StrArg(s) => "'" + s + "'"
    case OtherArg(t) => t
  }

  function ArgsText(args: seq<Arg>): string {
    Join(seq(|args|, i requires 0 <= i < |args| => ArgText(args[i])), ", ")
  }

  /** The script `_exec_command` evaluates (lines 397-401). */
  function CommandScript(methodName: string, args: seq<Arg>): string {
    ControllerName + "." + methodName + "(" + ArgsText(args) + ")"
  }

  /** A call without arguments ends in empty parentheses; strings are quoted and separated by a comma and a space. */
  lemma ScriptShapes(methodName: string, action: string, valueText: string)
    ensures CommandScript(methodName, []) == ControllerName + "." + methodName + "()"
    ensures CommandScript(methodName, [StrArg(action), OtherArg(valueText)])
         == ControllerName + "." + methodName + "('" + action + "', " + valueText + ")"
  {
    var two := [StrArg(action), OtherArg(valueText)];
    assert ArgsText([]) == "";
    var texts := seq(|two|, i requires 0 <= i < |two| => ArgText(two[i]));
    assert texts == ["'" + action + "'", valueText];
    assert Join(texts, ", ") == "'" + action + "'" + ", " + Join(texts[1..], ", ");
    assert texts[1..] == [valueText];
  }

  /** The method name and argument text of a controller call script; `None` for any other text. */
  function ParseCall(script: string): (r: Option<(string, string)>) {
    var prefix := ControllerName + ".";
    if !StartsWith(script, prefix) || |script| < |prefix| + 2 || script[|script| - 1] != ')' then None
    else
      var body := script[|prefix|..|script| - 1];
      var open := IndexOf(body, '(');
      if open.None? then None
      else Some((body[..open.value], body[open.value + 1..]))
  }

  /** The position of the first `c` in `s`. */
  function IndexOf(s: string, c: char): (r: Option<nat>)
    ensures r.Some? ==> r.value < |s| && s[r.value] == c && c !in s[..r.value]
    ensures r.None? ==> c !in s
  {
    if |s| == 0 then None
    else if s[0] == c then Some(0)
    else
      match IndexOf(s[1..], c)
      case None => None
      case Some(i) => Some(i + 1)
  }

  /** A call script reads back as its method and arguments, provided the method name has no parenthesis. */
  lemma ScriptRoundTrip(methodName: string, args: seq<Arg>)
    requires '(' !in methodName
    ensures ParseCall(CommandScript(methodName, args)) == Some((methodName, ArgsText(args)))
  {
    var prefix := ControllerName + ".";
    var script := CommandScript(methodName, args);
    assert script == prefix + (methodName + "(" + ArgsText(args)) + ")";
    var body := methodName + "(" + ArgsText(args);
    assert script[..|prefix|] == prefix;
    assert script[|prefix|..|script| - 1] == body;
    assert body[|methodName|] == '(';
    assert body[..|methodName|] == methodName;
    IndexOfFirst(body, methodName, '(');
  }

  lemma IndexOfFirst(s: string, before: string, c: char)
    requires |before| < |s| && s[..|before|] == before && s[|before|] == c && c !in before
    ensures IndexOf(s, c) == Some(|before|)
    decreases |before|
  {
    if |before| > 0 {
      assert s[1..][..|before| - 1] == before[1..];
      assert c != before[0];
      IndexOfFirst(s[1..], before[1..], c);
    }
  }

  /** `_exec_command`'s result and the script it evaluated, if any. */
  datatype Executed = Executed(script: Option<string>, result: ActionResult)

  /**
   * `_exec_command` (lines 388-406): without a connection the page is not
   * touched and the result is "Injection failed"; otherwise the script runs
   * and a dictionary answer is decoded, anything else is "Invalid response
   * type".  `raw` is what the evaluation returned.
   */
  function ExecCommand(c: Controller, methodName: string, args: seq<Arg>, raw: Value): (r: Executed)
    ensures !c.isConnected ==> r == Executed(None, Failure("Injection failed"))
    ensures c.isConnected ==> r.script == Some(CommandScript(methodName, args))
    ensures c.isConnected && !raw.Obj? ==> r.result == Failure("Invalid response type")
    ensures c.isConnected && raw.Obj? ==> Some(r.result) == ActionFromDict(raw)
  {
    if !c.isConnected then Executed(None, Failure("Injection failed"))
    else if !raw.Obj? then Executed(Some(CommandScript(methodName, args)), Failure("Invalid response type"))
    else Executed(Some(CommandScript(methodName, args)), ActionFromDict(raw).value)
  }

  /**
   * `toggle_like` and `toggle_dislike` (lines 436-448): a successful result
   * with a new state stores it and notifies the matching observers.
   */
  function ToggleLike(c: Controller, r: ActionResult): (s: Stepped)
    ensures Truthy(r.success) && r.newState != Null ==>
      s.ctl.lastState.like == LikeData(r.newState) && s.calls == Notify(c.observers, Like, LikeNote(LikeData(r.newState)))
    ensures !(Truthy(r.success) && r.newState != Null) ==> s == Stepped(c, [])
    ensures s.ctl.lastState.(like := c.lastState.like) == c.lastState
    ensures s.ctl.(lastState := c.lastState) == c
  {
    if Truthy(r.success) && r.newState != Null then
      var c1 := c.(lastState := c.lastState.(like := LikeData(r.newState)));
      Stepped(c1, Notify(c.observers, Like, LikeNote(c1.lastState.like)))
    else Stepped(c, [])
  }

  function ToggleDislike(c: Controller, r: ActionResult): (s: Stepped)
    ensures Truthy(r.success) && r.newState != Null ==>
      s.ctl.lastState.dislike == DislikeData(r.newState) && s.calls == Notify(c.observers, Dislike, DislikeNote(DislikeData(r.newState)))
    ensures !(Truthy(r.success) && r.newState != Null) ==> s == Stepped(c, [])
    ensures s.ctl.lastState.(dislike := c.lastState.dislike) == c.lastState
    ensures s.ctl.(lastState := c.lastState) == c
  {
    if Truthy(r.success) && r.newState != Null then
      var c1 := c.(lastState := c.lastState.(dislike := DislikeData(r.newState)));
      Stepped(c1, Notify(c.observers, Dislike, DislikeNote(c1.lastState.dislike)))
    else Stepped(c, [])
  }

  /**
   * `change_volume` (lines 450-466) after the command answered: a
   * successful result stores the volume and mute flag it carries and, if it
   * carried either, notifies the volume observers.
   */
  function VolumeChanged(c: Controller, r: ActionResult): (s: Stepped)
    ensures !Truthy(r.success) || (r.volume == Null && r.isMuted == Null) ==> s == Stepped(c, [])
    ensures Truthy(r.success) && (r.volume != Null || r.isMuted != Null) ==>
      s.calls == Notify(c.observers, Volume, VolumeNote(s.ctl.lastState.volume))
    ensures s.ctl.lastState.volume.current == (if Truthy(r.success) && r.volume != Null then r.volume else c.lastState.volume.current)
    ensures s.ctl.lastState.volume.isMuted == (if Truthy(r.success) && r.isMuted != Null then r.isMuted else c.lastState.volume.isMuted)
    ensures s.ctl.lastState.(volume := c.lastState.volume) == c.lastState
    ensures s.ctl.(lastState := c.lastState) == c
  {
    if !Truthy(r.success) then Stepped(c, [])
    else
      var v1 := if r.volume != Null then c.lastState.volume.(current := r.volume) else c.lastState.volume;
      var v2 := if r.isMuted != Null then v1.(isMuted := r.isMuted) else v1;
      if r.volume == Null && r.isMuted == Null then Stepped(c, [])
      else Stepped(c.(lastState := c.lastState.(volume := v2)), Notify(c.observers, Volume, VolumeNote(v2)))
  }

  // ------------------------------------------------------------ page answers

  /** The arguments `change_volume` passes: the action quoted, the value by its text. */
  function VolumeArgs(action: string, valueText: string): seq<Arg> {
    [StrArg(action), OtherArg(valueText)]
  }

  /** Liking through the page leaves the controller holding the opposite of what the page showed. */
  lemma LikeFollowsPage(c: Controller, wasLiked: bool)
    requires c.isConnected
    ensures var e := ExecCommand(c, "toggleLike", [], InjectedApi.ToggleLikeAnswer(true, wasLiked));
      ToggleLike(c, e.result).ctl.lastState.like == LikeData(Bool(!wasLiked))
  {
    NewStateEitherKey(Bool(true), !wasLiked);
  }

  /** The dislike answer uses another key, which the decoder's fallback still finds. */
  lemma DislikeFollowsPage(c: Controller, wasDisliked: bool)
    requires c.isConnected
    ensures var e := ExecCommand(c, "toggleDislike", [], InjectedApi.ToggleDislikeAnswer(true, wasDisliked));
      ToggleDislike(c, e.result).ctl.lastState.dislike == DislikeData(Bool(!wasDisliked))
  {
    NewStateEitherKey(Bool(true), !wasDisliked);
  }

  /** Without a button on the page a toggle changes and announces nothing. */
  lemma MissingButtonChangesNothing(c: Controller, was: bool)
    requires c.isConnected
    ensures ToggleLike(c, ExecCommand(c, "toggleLike", [], InjectedApi.ToggleLikeAnswer(false, was)).result) == Stepped(c, [])
    ensures ToggleDislike(c, ExecCommand(c, "toggleDislike", [], InjectedApi.ToggleDislikeAnswer(false, was)).result) == Stepped(c, [])
  {
    var fs: Fields := [("success", Bool(false))];
    assert Get(fs, "success") == Some(Bool(false));
  }

  /** Setting a percentage through the page's API leaves the controller holding that percentage. */
  lemma SetVolumeFollowsPage(c: Controller, percent: int, valueText: string, muteApi: bool, muteButton: bool)
    requires c.isConnected && 0 <= percent <= 100
    ensures var answer := InjectedApi.ChangeVolume("SET", percent as real, 0, InjectedApi.VolumeControls(true, false, muteApi, muteButton));
      var e := ExecCommand(c, "changeVolume", VolumeArgs("SET", valueText), answer);
      VolumeChanged(c, e.result).ctl.lastState.volume.current == Num(percent as real)
  {
    InjectedApi.SetReportsPercentage(percent);
    var fs: Fields := [("success", Bool(true)), ("volume", Num(percent as real))];
    assert Get(fs, "volume") == Some(Num(percent as real));
    assert !HasKey(fs, "is_muted") by { assert Keys(fs) == ["success", "volume"]; }
  }

  /** The page's notice documents select the controller's branches by their type names. */
  lemma NoticesReachController(c: Controller, payload: Value)
    ensures HandleNotifyPayload(c, InjectedApi.NoticeDocument(InjectedApi.Notice(InjectedApi.DeltaKind, payload)))
         == ApplyDelta(c, payload)
    ensures MediaFromDict(payload).Some? ==>
      var r := HandleNotifyPayload(c, InjectedApi.NoticeDocument(InjectedApi.Notice(InjectedApi.FullStateKind, payload)));
      r.ctl == c.(lastState := MediaFromDict(payload).value) && r.calls == FullStateCalls(r.ctl)
  {
    var kinds := [InjectedApi.DeltaKind, InjectedApi.FullStateKind];
    forall kind | kind in kinds
      ensures var fs := InjectedApi.NoticeDocument(InjectedApi.Notice(kind, payload)).fields;
        Get(fs, "type") == Some(Str(kind)) && At(fs, "payload", Obj([])) == payload
    {
      var fs := InjectedApi.NoticeDocument(InjectedApi.Notice(kind, payload)).fields;
      assert Get(fs, "payload") == Some(payload);
    }
  }

  // ------------------------------------------------------------ requests

  /** Every pending id was handed out earlier. */
  predicate IdsIssued(c: Controller) {
    c.nextId >= 1 && forall id :: id in c.pending ==> id < c.nextId
  }

  /** The controller after sending a request, the request's id and its message. */
  datatype Sent = Sent(ctl: Controller, id: nat, message: Value)

  /**
   * `_send_rpc` (lines 314-331): without an open socket it raises (`None`);
   * otherwise the next id is taken, registered as pending and sent along
   * with the method and parameters.
   */
  function SendRpc(c: Controller, methodName: string, params: Value, socketOpen: bool): (r: Option<Sent>)
    ensures r.None? <==> !socketOpen
    ensures r.Some? ==>
      && r.value.id == c.nextId && r.value.ctl.nextId == c.nextId + 1
      && r.value.ctl.pending == c.pending[c.nextId := Pending(false)]
      && r.value.message == Obj([("id", Num(c.nextId as real)), ("method", Str(methodName)), ("params", params)])
    ensures r.Some? ==> r.value.ctl.(nextId := c.nextId, pending := c.pending) == c
  {
    if !socketOpen then None
    else
      var id := c.nextId;
      Some(Sent(c.(nextId := id + 1, pending := c.pending[id := Pending(false)]), id,
                Obj([("id", Num(id as real)), ("method", Str(methodName)), ("params", params)])))
  }

  /** Each request gets a fresh id, larger than every id before it. */
  lemma SendRpcFreshId(c: Controller, methodName: string, params: Value)
    requires IdsIssued(c)
    ensures var r := SendRpc(c, methodName, params, true).value;
      r.id !in c.pending && IdsIssued(r.ctl) && r.ctl.nextId > r.id
  {
  }

  /** Two consecutive requests get consecutive ids, starting at 1. */
  lemma FirstIdsAreOneAndTwo(m1: string, p1: Value, m2: string, p2: Value)
    ensures var a := SendRpc(NewController(), m1, p1, true).value;
      a.id == 1 && SendRpc(a.ctl, m2, p2, true).value.id == 2
  {
  }

  /** How a reply settles its request. */
  datatype Settled = Untouched | Resolved(id: nat, result: Value) | Rejected(id: nat, message: Value) | Dropped(id: nat)

  /**
   * The pending key a reply's `id` finds: Python dictionaries find `1` under
   * `1.0` and under `True` alike, so integral numbers and booleans match.
   */
  function PendingKey(id: Value): (r: Option<nat>)
    ensures id.Num? && id.n >= 0.0 && id.n == id.n.Floor as real ==> r == Some(id.n.Floor as nat)
    ensures r.Some? ==> id.Num? || id.Bool?
  {
    match id
    case Num(n) => if n >= 0.0 && n == n.Floor as real then Some(n.Floor as nat) else None
    case Bool(b) => Some(if b then 1 else 0)
    case _ => None
  }

  /**
   * The reply branch of the socket reader (lines 201-209): a reply whose
   * id is pending leaves the pending map; a request still waiting is
   * rejected with the error message or resolved with `result` (default
   * `{}`).  A request whose wait already ended, or an error without a
   * readable message, is dropped.
   */
  function OnReply(c: Controller, data: Fields): (r: (Controller, Settled))
    requires HasKey(data, "id")
    ensures var key := PendingKey(Get(data, "id").value);
      !(key.Some? && key.value in c.pending) ==> r == (c, Untouched)
    ensures r.1 != Untouched ==>
      var id := r.1.id;
      id in c.pending && r.0 == c.(pending := c.pending - {id})
      && PendingKey(Get(data, "id").value) == Some(id)
    ensures r.1.Resolved? <==> r.1 != Untouched && !c.pending[r.1.id].cancelled && !HasKey(data, "error")
    ensures r.1.Resolved? ==> r.1.result == At(data, "result", Obj([]))
    ensures var key := PendingKey(Get(data, "id").value);
      key.Some? && key.value in c.pending && !c.pending[key.value].cancelled && HasKey(data, "error") ==>
      var err := Get(data, "error").value;
      r.1 == if err.Obj? && HasKey(err.fields, "message") then Rejected(key.value, Get(err.fields, "message").value)
             else Dropped(key.value)
  {
    var key := PendingKey(Get(data, "id").value);
    if !(key.Some? && key.value in c.pending) then (c, Untouched)
    else
      var id := key.value;
      var c1 := c.(pending := c.pending - {id});
      if c.pending[id].cancelled then (c1, Dropped(id))
      else if HasKey(data, "error") then
        var err := Get(data, "error").value;
        if err.Obj? && HasKey(err.fields, "message") then (c1, Rejected(id, Get(err.fields, "message").value))
        else (c1, Dropped(id))
      else (c1, Resolved(id, At(data, "result", Obj([]))))
  }

  /**
   * The wait of a request ends after five seconds (line 331): its future is
   * cancelled but the entry stays pending until a reply removes it.
   */
  function TimedOut(c: Controller, id: nat): (r: Controller)
    ensures r.pending.Keys == c.pending.Keys
    ensures id in c.pending ==> r.pending[id].cancelled
    ensures forall k :: k in c.pending && k != id ==> r.pending[k] == c.pending[k]
  {
    if id in c.pending then c.(pending := c.pending[id := Pending(true)]) else c
  }

  /** A timed-out request that is answered later is only dropped, never resolved. */
  lemma LateReplyDropped(c: Controller, methodName: string, params: Value, result: Value)
    requires IdsIssued(c)
    ensures var s := SendRpc(c, methodName, params, true).value;
      var late := TimedOut(s.ctl, s.id);
      OnReply(late, [("id", Num(s.id as real)), ("result", result)]) == (c.(nextId := c.nextId + 1), Dropped(s.id))
  {
    var s := SendRpc(c, methodName, params, true).value;
    var data := [("id", Num(s.id as real)), ("result", result)];
    assert Get(data, "id") == Some(Num(s.id as real));
    assert !HasKey(data, "error") by { assert Keys(data) == ["id", "result"]; }
    assert TimedOut(s.ctl, s.id).pending - {s.id} == c.pending;
  }

  /** A reply to a fresh request resolves it with its result and empties the slot again. */
  lemma RequestReplyRoundTrip(c: Controller, methodName: string, params: Value, result: Value)
    requires IdsIssued(c)
    ensures var s := SendRpc(c, methodName, params, true).value;
      OnReply(s.ctl, [("id", Num(s.id as real)), ("result", result)]) == (c.(nextId := c.nextId + 1), Resolved(s.id, result))
  {
    var s := SendRpc(c, methodName, params, true).value;
    var data := [("id", Num(s.id as real)), ("result", result)];
    assert Get(data, "id") == Some(Num(s.id as real));
    assert !HasKey(data, "error") by { assert Keys(data) == ["id", "result"]; }
    assert Get(data, "result") == Some(result);
    assert s.ctl.pending - {s.id} == c.pending;
  }
}

=== FILE: image_cache.dfy ===
/**
 * The plugin's image caches (`src/core/cache.py`): `ImageCache`, which keeps
 * the processed covers under a least-recently-used policy, and
 * `StaticAssetCache`, a plain dictionary of icons.  The ordered dictionary
 * is a sequence of entries from least to most recently used; the lock only
 * serialises calls and is left out.
 */
module ImageCache {
  import opened Wrappers

  type Entries<V> = seq<(string, V)>

  /** `ImageCache`: its capacity and the entries, oldest first. */
  datatype Cache<V> = Cache(capacity: int, entries: Entries<V>)

  /** The default capacity of the shared cache (line 38). */
  const SharedCapacity := 10

  function KeysOf<V>(es: Entries<V>): (ks: seq<string>)
    ensures |ks| == |es|
    ensures forall i :: 0 <= i < |es| ==> ks[i] == es[i].0
  {
    seq(|es|, i requires 0 <= i < |es| => es[i].0)
  }

  predicate Distinct(ks: seq<string>)
  {
    forall i, j :: 0 <= i < j < |ks| ==> ks[i] != ks[j]
  }

  /** How many entries a capacity admits; a non-positive capacity admits none. */
  function Bound(capacity: int): nat
  {
    if capacity < 0 then 0 else capacity
  }

  /** What every operation keeps: one entry per key, and no more entries than the capacity admits. */
  predicate Valid<V>(c: Cache<V>)
  {
    Distinct(KeysOf(c.entries)) && |c.entries| <= Bound(c.capacity)
  }

  /** `ImageCache(capacity)` (lines 8-11). */
  function New<V>(capacity: int): (c: Cache<V>)
    ensures Valid(c) && c.capacity == capacity && |c.entries| == 0
  {
    Cache(capacity, [])
  }

  /** The position of a key among the entries. */
  function Find<V>(es: Entries<V>, key: string): (r: Option<nat>)
    ensures r.Some? ==> r.value < |es| && es[r.value].0 == key
    ensures r.None? <==> key !in KeysOf(es)
  {
    if |es| == 0 then None
    else if es[0].0 == key then Some(0)
    else
      var r := Find(es[1..], key);
      assert KeysOf(es) == [es[0].0] + KeysOf(es[1..]);
      if r.Some? then Some(r.value + 1) else None
  }

  /** The entries without the one at `i`. */
  function Without<V>(es: Entries<V>, i: nat): (r: Entries<V>)
    requires i < |es|
    ensures |r| == |es| - 1
    ensures forall j :: 0 <= j < i ==> r[j] == es[j]
    ensures forall j :: i <= j < |r| ==> r[j] == es[j + 1]
  {
    es[..i] + es[i + 1..]
  }

  /** The value stored under a key, when there is one. */
  function Stored<V>(es: Entries<V>, key: string): Option<V>
  {
    match Find(es, key)
    case Some(i) => Some(es[i].1)
    case None => None
  }

  /** The result of `get`: the cache afterwards and the value returned. */
  datatype Lookup<V> = Lookup(cache: Cache<V>, value: Option<V>)

  /**
   * `get` (lines 13-22): a miss answers `None` and changes nothing; a hit
   * answers the stored value and moves its entry to the most recent end.
   */
  function Get<V>(c: Cache<V>, key: string): (r: Lookup<V>)
    ensures r.value == Stored(c.entries, key)
    ensures r.value.None? ==> r.cache == c
    ensures r.value.Some? ==>
      && r.cache.capacity == c.capacity
      && |r.cache.entries| == |c.entries|
      && r.cache.entries[|c.entries| - 1] == (key, r.value.value)
      && multiset(r.cache.entries) == multiset(c.entries)
  {
    match Find(c.entries, key)
    case None => Lookup(c, None)
    case Some(i) =>
      var e := c.entries[i];
      assert c.entries == c.entries[..i] + [e] + c.entries[i + 1..];
      Lookup(Cache(c.capacity, Without(c.entries, i) + [e]), Some(e.1))
  }

  /**
   * `put` (lines 24-31): an existing entry is moved to the most recent end
   * and takes the new value; then, if the cache holds more than its
   * capacity, the oldest entry is dropped.
   */
  function Put<V>(c: Cache<V>, key: string, v: V): (r: Cache<V>)
    ensures r.capacity == c.capacity
  {
    var kept := match Find(c.entries, key)
      case Some(i) => Without(c.entries, i)
      case None => c.entries;
    var added := kept + [(key, v)];
    if |added| > c.capacity then Cache(c.capacity, added[1..]) else Cache(c.capacity, added)
  }

  /** `clear` (lines 33-35). */
  function Clear<V>(c: Cache<V>): (r: Cache<V>)
    ensures Valid(r) && |r.entries| == 0 && r.capacity == c.capacity
  {
    Cache(c.capacity, [])
  }

  // ------------------------------------------------------------ properties

  /** The keys after removing one entry are the old keys less that one. */
  lemma WithoutKeys<V>(es: Entries<V>, i: nat)
    requires i < |es| && Distinct(KeysOf(es))
    ensures Distinct(KeysOf(Without(es, i)))
    ensures es[i].0 !in KeysOf(Without(es, i))
    ensures forall k :: k in KeysOf(Without(es, i)) <==> k in KeysOf(es) && k != es[i].0
  {
    var r := Without(es, i);
    forall k | k in KeysOf(es) && k != es[i].0
      ensures k in KeysOf(r)
    {
      var j :| 0 <= j < |es| && KeysOf(es)[j] == k;
      if j < i { assert KeysOf(r)[j] == k; } else { assert KeysOf(r)[j - 1] == k; }
    }
  }

  /** Appending a fresh key keeps the keys distinct. */
  lemma AppendKeys<V>(es: Entries<V>, e: (string, V))
    requires Distinct(KeysOf(es)) && e.0 !in KeysOf(es)
    ensures Distinct(KeysOf(es + [e]))
    ensures KeysOf(es + [e]) == KeysOf(es) + [e.0]
  {
    assert KeysOf(es + [e]) == KeysOf(es) + [e.0];
  }

  /** Dropping the oldest entry keeps the keys distinct. */
  lemma DropOldestKeys<V>(es: Entries<V>)
    requires |es| > 0 && Distinct(KeysOf(es))
    ensures Distinct(KeysOf(es[1..]))
    ensures KeysOf(es[1..]) == KeysOf(es)[1..]
  {
  }

  /** The entries `put` keeps before dropping the oldest: the key itself is at the end. */
  lemma {:induction false} PutAdded<V>(c: Cache<V>, key: string, v: V)
    requires Valid(c)
    ensures var added := (match Find(c.entries, key)
              case Some(i) => Without(c.entries, i)
              case None => c.entries) + [(key, v)];
      && Distinct(KeysOf(added))
      && added[|added| - 1] == (key, v)
      && (key in KeysOf(c.entries) ==> |added| == |c.entries|)
      && (key !in KeysOf(c.entries) ==> added == c.entries + [(key, v)])
  {
    match Find(c.entries, key)
    case Some(i) =>
      WithoutKeys(c.entries, i);
      AppendKeys(Without(c.entries, i), (key, v));
    case None =>
      AppendKeys(c.entries, (key, v));
  }

  /** `put` keeps the invariant: one entry per key, never more than the capacity admits. */
  lemma PutValid<V>(c: Cache<V>, key: string, v: V)
    requires Valid(c)
    ensures Valid(Put(c, key, v))
    ensures |Put(c, key, v).entries| <= Bound(c.capacity)
  {
    PutAdded(c, key, v);
    var added := (match Find(c.entries, key)
      case Some(i) => Without(c.entries, i)
      case None => c.entries) + [(key, v)];
    if |added| > c.capacity {
      DropOldestKeys(added);
    }
  }

  /** `put` on a key already cached updates it in place of its old entry, moves it last, and evicts nothing. */
  lemma PutExisting<V>(c: Cache<V>, key: string, v: V)
    requires Valid(c) && key in KeysOf(c.entries)
    ensures var r := Put(c, key, v);
      && |r.entries| == |c.entries|
      && r.entries[|r.entries| - 1] == (key, v)
      && (forall k :: k in KeysOf(r.entries) <==> k in KeysOf(c.entries))
  {
    var i := Find(c.entries, key).value;
    WithoutKeys(c.entries, i);
    AppendKeys(Without(c.entries, i), (key, v));
    assert |c.entries| <= c.capacity;
  }

  /**
   * `put` on a new key appends it; when the cache was already full, exactly
   * the least recently used key leaves.
   */
  lemma PutNew<V>(c: Cache<V>, key: string, v: V)
    requires Valid(c) && key !in KeysOf(c.entries)
    ensures var r := Put(c, key, v);
      && (|c.entries| < c.capacity ==> r.entries == c.entries + [(key, v)])
      && (|c.entries| >= c.capacity ==> r.entries == (c.entries + [(key, v)])[1..])
  {
  }

  /** When the cache is full and at least one entry fits, the evicted key is the oldest one. */
  lemma EvictsLeastRecent<V>(c: Cache<V>, key: string, v: V)
    requires Valid(c) && key !in KeysOf(c.entries) && 0 < |c.entries| == c.capacity
    ensures KeysOf(Put(c, key, v).entries) == KeysOf(c.entries)[1..] + [key]
    ensures c.entries[0].0 !in KeysOf(Put(c, key, v).entries)
  {
    var r := Put(c, key, v);
    assert r.entries == c.entries[1..] + [(key, v)];
    AppendKeys(c.entries[1..], (key, v));
    assert KeysOf(c.entries)[0] == c.entries[0].0;
    assert c.entries[0].0 !in KeysOf(c.entries)[1..];
  }

  /** A value just put can be read back, whenever the capacity admits one entry. */
  lemma PutThenGet<V>(c: Cache<V>, key: string, v: V)
    requires Valid(c) && c.capacity >= 1
    ensures Get(Put(c, key, v), key).value == Some(v)
  {
    PutAdded(c, key, v);
    PutValid(c, key, v);
    var r := Put(c, key, v);
    var n := |r.entries|;
    assert r.entries[n - 1] == (key, v);
    var j := Find(r.entries, key).value;
    assert KeysOf(r.entries)[j] == KeysOf(r.entries)[n - 1];
  }

  /** A hit leaves the key last and the other keys as they were. */
  lemma GetHitKeys<V>(c: Cache<V>, key: string)
    requires Valid(c) && key in KeysOf(c.entries)
    ensures var es := Get(c, key).cache.entries;
      && Distinct(KeysOf(es))
      && es[|es| - 1].0 == key
      && (forall k :: k in KeysOf(es) <==> k in KeysOf(c.entries))
  {
    var i := Find(c.entries, key).value;
    assert Get(c, key).cache.entries == Without(c.entries, i) + [c.entries[i]];
    WithoutKeys(c.entries, i);
    AppendKeys(Without(c.entries, i), c.entries[i]);
  }

  /** `get` keeps the invariant. */
  lemma GetValid<V>(c: Cache<V>, key: string)
    requires Valid(c)
    ensures Valid(Get(c, key).cache)
  {
    if key in KeysOf(c.entries) {
      GetHitKeys(c, key);
    }
  }

  /** Asking twice for the same key answers the same value both times. */
  lemma GetTwice<V>(c: Cache<V>, key: string)
    requires Valid(c)
    ensures var first := Get(c, key);
      Get(first.cache, key).value == first.value
  {
    var first := Get(c, key);
    if first.value.Some? {
      GetHitKeys(c, key);
      var es := first.cache.entries;
      var n := |es|;
      var j := Find(es, key).value;
      assert KeysOf(es)[j] == KeysOf(es)[n - 1];
    }
  }

  /** Among distinct keys, each entry is what its key reads. */
  lemma StoredAt<V>(es: Entries<V>, j: nat)
    requires Distinct(KeysOf(es)) && j < |es|
    ensures Stored(es, es[j].0) == Some(es[j].1)
  {
    var i := Find(es, es[j].0).value;
    assert KeysOf(es)[i] == KeysOf(es)[j];
  }

  /** A key that reads some value has an entry carrying it. */
  lemma StoredSome<V>(es: Entries<V>, k: string) returns (j: nat)
    requires k in KeysOf(es)
    ensures j < |es| && es[j].0 == k && Stored(es, k) == Some(es[j].1)
  {
    j := Find(es, k).value;
  }

  /**
   * `put` leaves every other key reading what it read before, except the
   * least recently used key when a new key overflows the cache.
   */
  lemma PutKeepsOthers<V>(c: Cache<V>, key: string, v: V, other: string)
    requires Valid(c) && other != key
    requires !(key !in KeysOf(c.entries) && |c.entries| >= c.capacity && |c.entries| > 0 && other == c.entries[0].0)
    ensures Stored(Put(c, key, v).entries, other) == Stored(c.entries, other)
  {
    PutValid(c, key, v);
    var r := Put(c, key, v).entries;
    if other in KeysOf(c.entries) {
      var j := StoredSome(c.entries, other);
      var j' := PutPosition(c, key, v, j);
      StoredAt(r, j');
    } else {
      if other in KeysOf(r) {
        var j' := StoredSome(r, other);
        PutOrigin(c, key, v, j');
      }
    }
  }

  /** Where a surviving old entry sits after `put`. */
  lemma PutPosition<V>(c: Cache<V>, key: string, v: V, j: nat) returns (j': nat)
    requires Valid(c) && j < |c.entries| && c.entries[j].0 != key
    requires !(key !in KeysOf(c.entries) && |c.entries| >= c.capacity && j == 0)
    ensures j' < |Put(c, key, v).entries| && Put(c, key, v).entries[j'] == c.entries[j]
  {
    var es := c.entries;
    var kept := match Find(es, key)
      case Some(i) => Without(es, i)
      case None => es;
    var k: nat := match Find(es, key)
      case Some(i) => if j < i then j else j - 1
      case None => j;
    assert kept[k] == es[j];
    var added := kept + [(key, v)];
    if |added| > c.capacity {
      assert k >= 1;
      j' := k - 1;
    } else {
      j' := k;
    }
  }

  /** Every entry after `put` other than the new one was already there. */
  lemma PutOrigin<V>(c: Cache<V>, key: string, v: V, j': nat)
    requires Valid(c) && j' < |Put(c, key, v).entries| && Put(c, key, v).entries[j'].0 != key
    ensures Put(c, key, v).entries[j'] in c.entries
  {
    var es := c.entries;
    var kept := match Find(es, key)
      case Some(i) => Without(es, i)
      case None => es;
    var added := kept + [(key, v)];
    var k := if |added| > c.capacity then j' + 1 else j';
    assert Put(c, key, v).entries[j'] == added[k];
    assert k < |kept|;
    match Find(es, key)
    case Some(i) =>
      if k < i { assert kept[k] == es[k]; } else { assert kept[k] == es[k + 1]; }
    case None =>
  }

  // ------------------------------------------------------------ static assets

  /** `StaticAssetCache`: file name to Base64 text, never evicted. */
  type StaticCache = map<string, string>

  /** `StaticAssetCache.get` (lines 59-61). */
  function StaticGet(m: StaticCache, key: string): (r: Option<string>)
    ensures r.Some? <==> key in m
    ensures r.Some? ==> r.value == m[key]
  {
    if key in m then Some(m[key]) else None
  }

  /** `StaticAssetCache.put` (lines 63-65). */
  function StaticPut(m: StaticCache, key: string, v: string): (r: StaticCache)
    ensures r.Keys == m.Keys + {key}
  {
    m[key := v]
  }

  /** The static cache answers the last value put under a key and keeps every other key. */
  lemma StaticLastPutWins(m: StaticCache, key: string, v: string, other: string)
    ensures StaticGet(StaticPut(m, key, v), key) == Some(v)
    ensures other != key ==> StaticGet(StaticPut(m, key, v), other) == StaticGet(m, other)
  {
  }
}

=== FILE: injected_api.dfy ===
/**
 * The page-side controller (`src/core/scripts/injected_api.js`) as far as it
 * computes rather than reads the page: the time-text parser, the percentage
 * and volume clamps, the volume action dispatch, the toggle answers, the
 * snapshot difference and the observation loop that turns snapshots into
 * `FULL_STATE` and `DELTA` notices.  Snapshots are JSON values; what the DOM
 * holds arrives as parameters.
 */
module InjectedApi {
  import opened Wrappers
  import opened Text
  import opened Json

  // ------------------------------------------------------------ numbers

  /** JavaScript truthiness: unlike Python, empty arrays and objects are true. */
  predicate JsTruthy(v: Value) {
    match v
    case Null => false
    case Bool(b) => b
    case Num(n) => n != 0.0
    case Str(s) => |s| > 0
    case Arr(_) => true
    case Obj(_) => true
  }

  /**
   * `Number(part)` for the parts of a time text: the empty text is 0, a
   * digit string its value; anything else is read as `NaN` (`None`).
   */
  function TimeNumber(part: string): (r: Option<int>)
    ensures IsDigits(part) ==> r == Some(DigitsValue(part))
  {
    if IsDigits(part) then Some(DigitsValue(part)) else None
  }

  /**
   * `Utils.toSec` (lines 47-51): `"m:s"` and `"h:m:s"` are summed in
   * seconds; any other number of parts, and the empty text, is 0.  `None` is
   * a `NaN` result, which only a part that is not a number produces.
   */
  function ToSec(text: string): (r: Option<int>)
    ensures |text| == 0 ==> r == Some(0)
    ensures |Split(text, ':')| !in {2, 3} ==> r == Some(0)
  {
    if |text| == 0 then Some(0)
    else
      var p := Split(text, ':');
      if |p| == 2 then
        match (TimeNumber(p[0]), TimeNumber(p[1]))
        case (Some(m), Some(s)) => Some(m * 60 + s)
        case _ => None
      else if |p| == 3 then
        match (TimeNumber(p[0]), TimeNumber(p[1]), TimeNumber(p[2]))
        case (Some(h), Some(m), Some(s)) => Some(h * 3600 + m * 60 + s)
        case _ => None
      else Some(0)
  }

  /** The clock texts the player shows: `m:ss` below an hour, `h:mm:ss` from an hour on. */
  function ClockText(seconds: nat): string {
    if seconds < 3600 then NatToString(seconds / 60) + ":" + Pad2(seconds % 60)
    else NatToString(seconds / 3600) + ":" + Pad2(seconds / 60 % 60) + ":" + Pad2(seconds % 60)
  }

  /** Parsing a clock text gives back its seconds. */
  lemma ClockRoundTrip(seconds: nat)
    ensures ToSec(ClockText(seconds)) == Some(seconds)
  {
    if seconds < 3600 {
      MinuteClock(seconds / 60, seconds % 60, seconds);
    } else {
      HoursMinutesSeconds(seconds);
      HourClock(seconds / 3600, seconds / 60 % 60, seconds % 60, seconds);
    }
  }

  /** Hours, minutes of the hour and seconds of the minute add back up to the seconds. */
  lemma HoursMinutesSeconds(seconds: nat)
    ensures (seconds / 3600) * 3600 + (seconds / 60 % 60) * 60 + seconds % 60 == seconds
  {
    var q := seconds / 60;
    assert seconds == q * 60 + seconds % 60;
    assert q == (q / 60) * 60 + q % 60;
    assert seconds / 3600 == q / 60;
  }

  lemma MinuteClock(m: nat, s: nat, seconds: nat)
    requires s < 60 && seconds == m * 60 + s
    ensures ToSec(NatToString(m) + ":" + Pad2(s)) == Some(seconds)
  {
    var mt, st := NatToString(m), Pad2(s);
    assert mt + ":" + st == Join([mt, st], [':']);
    NoColon(mt);
    NoColon(st);
    JoinSplit([mt, st], ':');
    NatToStringRoundTrip(m);
  }

  lemma HourClock(h: nat, m: nat, s: nat, seconds: nat)
    requires m < 60 && s < 60 && seconds == h * 3600 + m * 60 + s
    ensures ToSec(NatToString(h) + ":" + Pad2(m) + ":" + Pad2(s)) == Some(seconds)
  {
    var ht, mt, st := NatToString(h), Pad2(m), Pad2(s);
    assert ht + ":" + mt + ":" + st == Join([ht, mt, st], [':']) by {
      assert Join([ht, mt, st], [':']) == ht + [':'] + Join([mt, st], [':']);
      assert Join([mt, st], [':']) == mt + [':'] + Join([st], [':']);
    }
    NoColon(ht);
    NoColon(mt);
    NoColon(st);
    JoinSplit([ht, mt, st], ':');
    NatToStringRoundTrip(h);
  }

  lemma NoColon(s: string)
    requires IsDigits(s)
    ensures ':' !in s
  {
  }

  /** `Math.round`: halves round up. */
  function Round(x: real): (r: int)
    ensures x - 0.5 < r as real <= x + 0.5
  {
    (x + 0.5).Floor
  }

  /**
   * `Utils.toPercent` (lines 82-88): a missing or non-numeric value is 0, a
   * value between 0 and 1 is a ratio scaled to a percentage, anything else
   * is already a percentage and only capped at 100.
   */
  function ToPercent(val: Option<real>): (r: int)
    ensures val.None? ==> r == 0
    ensures val.Some? && 0.0 <= val.value <= 1.0 ==> 0 <= r <= 100 && r == Round(val.value * 100.0)
    ensures val.Some? && !(0.0 <= val.value <= 1.0) ==> r == if Round(val.value) < 100 then Round(val.value) else 100
    ensures r <= 100
  {
    if val.None? then 0
    else
      var n := val.value;
      if 0.0 <= n <= 1.0 then Round(n * 100.0)
      else if Round(n) < 100 then Round(n) else 100
  }

  /** A ratio read as a percentage is off by at most half a percent. */
  lemma PercentOfRatio(ratio: real)
    requires 0.0 <= ratio <= 1.0
    ensures var p := ToPercent(Some(ratio));
      ratio * 100.0 - 0.5 < p as real <= ratio * 100.0 + 0.5
  {
  }

  /** Only a value rounding below zero gives a negative percentage: the lower end is not capped. */
  lemma PercentNegative(val: real)
    ensures ToPercent(Some(val)) < 0 <==> val < -0.5
  {
  }

  /**
   * `_setVolume` (lines 286-310): the target is rounded to hundredths and
   * clamped to [0, 1]; the player's API is preferred, then the slider.
   * Without either the call fails.  The answer reports the percentage.
   */
  function SetVolume(val: real, hasApi: bool, hasSlider: bool): (r: Value)
    ensures hasApi || hasSlider ==>
      r == Obj([("success", Bool(true)), ("volume", Num(VolumeTarget(val) as real))])
    ensures !hasApi && !hasSlider ==>
      r == Obj([("success", Bool(false)), ("error", Str("Volume control unavailable"))])
  {
    if hasApi || hasSlider then Obj([("success", Bool(true)), ("volume", Num(VolumeTarget(val) as real))])
    else Obj([("success", Bool(false)), ("error", Str("Volume control unavailable"))])
  }

  /**
   * The reported percentage of `_setVolume`: `round(clamp(round(100·val)/100)·100)`,
   * which for exact arithmetic is the rounded percentage clamped to [0, 100].
   */
  function VolumeTarget(val: real): (r: int)
    ensures 0 <= r <= 100
    ensures 0 < r < 100 ==> r == Round(val * 100.0)
    ensures r == 0 <==> Round(val * 100.0) <= 0
    ensures r == 100 <==> Round(val * 100.0) >= 100
  {
    var clamped := Max(0.0, Min(1.0, Round(val * 100.0) as real / 100.0));
    Round(clamped * 100.0)
  }

  function Min(a: real, b: real): real { if a <= b then a else b }
  function Max(a: real, b: real): real { if a >= b then a else b }

  /** `_toggleMute` (lines 312-323). */
  function ToggleMute(hasApi: bool, hasButton: bool): (r: Value)
    ensures hasApi || hasButton <==> r == Obj([("success", Bool(true))])
  {
    if hasApi || hasButton then Obj([("success", Bool(true))])
    else Obj([("success", Bool(false)), ("error", Str("Mute button unavailable"))])
  }

  /** What the page offers for changing the volume. */
  datatype VolumeControls = VolumeControls(hasApi: bool, hasSlider: bool, hasMuteApi: bool, hasMuteButton: bool)

  /**
   * `changeVolume` (lines 205-219): `UP` and `DOWN` step by 5% from the
   * current percentage, `SET` takes a percentage, `MUTE` toggles; any other
   * action fails with "Unknown action".
   */
  function ChangeVolume(action: string, value: real, current: int, ctl: VolumeControls): (r: Value)
    ensures action == "UP" ==> r == SetVolume(current as real / 100.0 + 0.05, ctl.hasApi, ctl.hasSlider)
    ensures action == "DOWN" ==> r == SetVolume(current as real / 100.0 - 0.05, ctl.hasApi, ctl.hasSlider)
    ensures action == "SET" ==> r == SetVolume(value / 100.0, ctl.hasApi, ctl.hasSlider)
    ensures action == "MUTE" ==> r == ToggleMute(ctl.hasMuteApi, ctl.hasMuteButton)
    ensures action !in {"UP", "DOWN", "SET", "MUTE"} ==>
      r == Obj([("success", Bool(false)), ("error", Str("Unknown action"))])
  {
    if action == "UP" then SetVolume(current as real / 100.0 + 0.05, ctl.hasApi, ctl.hasSlider)
    else if action == "DOWN" then SetVolume(current as real / 100.0 - 0.05, ctl.hasApi, ctl.hasSlider)
    else if action == "SET" then SetVolume(value / 100.0, ctl.hasApi, ctl.hasSlider)
    else if action == "MUTE" then ToggleMute(ctl.hasMuteApi, ctl.hasMuteButton)
    else Obj([("success", Bool(false)), ("error", Str("Unknown action"))])
  }

  /** A step up or down moves a percentage by five, within [0, 100]. */
  lemma VolumeSteps(current: int)
    requires 0 <= current <= 100
    ensures VolumeTarget(current as real / 100.0 + 0.05) == if current + 5 < 100 then current + 5 else 100
    ensures VolumeTarget(current as real / 100.0 - 0.05) == if current - 5 > 0 then current - 5 else 0
  {
    assert (current as real / 100.0 + 0.05) * 100.0 == (current + 5) as real;
    assert (current as real / 100.0 - 0.05) * 100.0 == (current - 5) as real;
  }

  /** Setting a percentage within [0, 100] reports that percentage. */
  lemma SetReportsPercentage(value: int)
    requires 0 <= value <= 100
    ensures VolumeTarget(value as real / 100.0) == value
  {
    assert value as real / 100.0 * 100.0 == value as real;
  }

  /** `toggleLike` (lines 185-193): the opposite of the state the button showed. */
  function ToggleLikeAnswer(hasButton: bool, wasLiked: bool): (r: Value)
    ensures hasButton ==> r == Obj([("success", Bool(true)), ("new_state", Bool(!wasLiked))])
    ensures !hasButton ==> r == Obj([("success", Bool(false))])
  {
    if !hasButton then Obj([("success", Bool(false))])
    else Obj([("success", Bool(true)), ("new_state", Bool(!wasLiked))])
  }

  /** `toggleDislike` (lines 195-203): the same, under the key `is_disliked`. */
  function ToggleDislikeAnswer(hasButton: bool, wasDisliked: bool): (r: Value)
    ensures hasButton ==> r == Obj([("success", Bool(true)), ("is_disliked", Bool(!wasDisliked))])
    ensures !hasButton ==> r == Obj([("success", Bool(false))])
  {
    if !hasButton then Obj([("success", Bool(false))])
    else Obj([("success", Bool(true)), ("is_disliked", Bool(!wasDisliked))])
  }

  // ------------------------------------------------------------ deep diff

  /** `typeof`: `null`, arrays and objects are all "object". */
  function TypeOf(v: Value): string {
    match v
    case Bool(_) => "boolean"
    case Num(_) => "number"
    case Str(_) => "string"
    case _ => "object"
  }

  /** `===`: primitives by value, arrays and objects of two snapshots are never the same object. */
  predicate StrictlyEqual(a: Value, b: Value) {
    a == b && !a.Arr? && !a.Obj?
  }

  /** Objects as JavaScript builds them: keys unique at every level. */
  predicate WellFormed(v: Value)
    decreases v
  {
    match v
    case Arr(items) => forall i :: 0 <= i < |items| ==> WellFormed(items[i])
    case Obj(fs) => UniqueKeys(fs) && forall i :: 0 <= i < |fs| ==> WellFormed(fs[i].1)
    case _ => true
  }

  /** The number of enumerable members `for ... in` visits. */
  function MemberCount(b: Value): nat
    requires b.Obj? || b.Arr?
  {
    if b.Obj? then |b.fields| else |b.items|
  }

  /**
   * The array branch (lines 341-347): equal lengths and the same JSON text
   * at every index.  An object on the right has a length only through a
   * `length` member, and its elements are its members named by index.
   */
  predicate ArrayMatches(items: seq<Value>, b: Value)
    requires b.Obj? || b.Arr?
  {
    if b.Arr? then items == b.items
    else (Get(b.fields, "length") == Some(Num(|items| as real))
          && forall i :: 0 <= i < |items| ==> Get(b.fields, NatToString(i)) == Some(items[i]))
  }

  /**
   * `deepDiff` (lines 337-370): `None` is `undefined`, nothing changed.
   * Values of different `typeof`, or a `null` on either side, give the new
   * value; arrays are all or nothing; objects give the members of the new
   * object that are new or whose own difference is defined.
   */
  function Diff(a: Value, b: Value): (r: Option<Value>)
    ensures StrictlyEqual(a, b) ==> r.None?
    ensures !StrictlyEqual(a, b) && (TypeOf(a) != TypeOf(b) || a.Null? || b.Null?) ==> r == Some(b)
    ensures r.Some? && r.value != b ==> a.Obj? && r.value.Obj? && |r.value.fields| > 0
    decreases b, 1, 0
  {
    if StrictlyEqual(a, b) then None
    else if TypeOf(a) != TypeOf(b) || a.Null? || b.Null? then Some(b)
    else if a.Arr? then (if ArrayMatches(a.items, b) then None else Some(b))
    else if a.Obj? then
      var d := DiffMembers(a.fields, b, 0);
      if |d| == 0 then None else Some(Obj(d))
    else Some(b)
  }

  /** One member of the new object: a key the old object lacks is new, otherwise its difference. */
  function MemberDiff(a: Fields, k: string, v: Value): Option<Value>
    decreases v, 2, 0
  {
    if !HasKey(a, k) then Some(v) else Diff(Get(a, k).value, v)
  }

  /** Lines 353-364 from the `i`-th member of `b` on, in enumeration order. */
  function DiffMembers(a: Fields, b: Value, i: nat): Fields
    requires b.Obj? || b.Arr?
    requires i <= MemberCount(b)
    decreases b, 0, MemberCount(b) - i
  {
    if i == MemberCount(b) then []
    else
      var k := if b.Obj? then b.fields[i].0 else NatToString(i);
      var m := MemberDiff(a, k, if b.Obj? then b.fields[i].1 else b.items[i]);
      if m.Some? then [(k, m.value)] + DiffMembers(a, b, i + 1) else DiffMembers(a, b, i + 1)
  }

  /** The entries of the keys whose change is defined, in order. */
  function Collect(ks: seq<string>, ms: seq<Option<Value>>): Fields
    requires |ks| == |ms|
  {
    if |ks| == 0 then []
    else if ms[0].Some? then [(ks[0], ms[0].value)] + Collect(ks[1..], ms[1..])
    else Collect(ks[1..], ms[1..])
  }

  predicate Distinct(ks: seq<string>) {
    |ks| == 0 || (ks[0] !in ks[1..] && Distinct(ks[1..]))
  }

  lemma {:induction false} CollectGet(ks: seq<string>, ms: seq<Option<Value>>, k: string)
    requires |ks| == |ms| && Distinct(ks)
    ensures forall j :: 0 <= j < |ks| && ks[j] == k ==> Get(Collect(ks, ms), k) == ms[j]
    ensures k !in ks ==> Get(Collect(ks, ms), k) == None
  {
    if |ks| > 0 {
      CollectGet(ks[1..], ms[1..], k);
      forall j | 0 < j < |ks| && ks[j] == k
        ensures ks[1..][j - 1] == k && ms[1..][j - 1] == ms[j]
      {
      }
      if k == ks[0] {
        forall j | 0 < j < |ks| ensures ks[j] != k {
          assert ks[j] == ks[1..][j - 1];
        }
      }
    }
  }

  lemma {:induction false} CollectKeys(ks: seq<string>, ms: seq<Option<Value>>)
    requires |ks| == |ms|
    ensures forall k :: k in Keys(Collect(ks, ms)) ==> k in ks
    ensures Distinct(ks) ==> UniqueKeys(Collect(ks, ms))
  {
    if |ks| > 0 {
      CollectKeys(ks[1..], ms[1..]);
      var rest := Collect(ks[1..], ms[1..]);
      if ms[0].Some? {
        var d := [(ks[0], ms[0].value)] + rest;
        assert d[1..] == rest;
        assert Keys(d) == [ks[0]] + Keys(rest);
      }
    }
  }

  lemma {:induction false} KeysDistinct(fs: Fields)
    requires UniqueKeys(fs)
    ensures Distinct(Keys(fs))
  {
    if |fs| > 0 {
      assert Keys(fs)[1..] == Keys(fs[1..]);
      KeysDistinct(fs[1..]);
    }
  }

  lemma {:induction false} DistinctTail(ks: seq<string>, i: nat)
    requires Distinct(ks) && i <= |ks|
    ensures Distinct(ks[i..])
  {
    if i > 0 {
      assert ks[i..] == ks[1..][i - 1..];
      DistinctTail(ks[1..], i - 1);
    }
  }

  /** The member differences from the `i`-th member on. */
  function Changes(a: Fields, b: Value, i: nat): (ms: seq<Option<Value>>)
    requires b.Obj? && i <= |b.fields|
    ensures |ms| == |b.fields| - i
  {
    seq(|b.fields| - i, j requires 0 <= j < |b.fields| - i => MemberDiff(a, b.fields[i + j].0, b.fields[i + j].1))
  }

  /** The member loop collects the defined member differences under their keys. */
  lemma {:induction false} DiffMembersCollect(a: Fields, b: Value, i: nat)
    requires b.Obj? && i <= |b.fields|
    ensures DiffMembers(a, b, i) == Collect(Keys(b.fields)[i..], Changes(a, b, i))
    decreases |b.fields| - i
  {
    if i < |b.fields| {
      DiffMembersCollect(a, b, i + 1);
      DiffMembersStep(a, b, i);
      KeysSuffixStep(b.fields, i);
      ChangesStep(a, b, i);
      CollectStep(Keys(b.fields)[i..], Changes(a, b, i), DiffMembers(a, b, i + 1));
    }
  }

  /** The keys from `i` on: the `i`-th, then those from `i + 1` on. */
  lemma KeysSuffixStep(fs: Fields, i: nat)
    requires i < |fs|
    ensures Keys(fs)[i..][0] == fs[i].0 && Keys(fs)[i..][1..] == Keys(fs)[i + 1..]
  {
  }

  /** The member changes from `i` on: the `i`-th, then those from `i + 1` on. */
  lemma ChangesStep(a: Fields, b: Value, i: nat)
    requires b.Obj? && i < |b.fields|
    ensures Changes(a, b, i)[0] == MemberDiff(a, b.fields[i].0, b.fields[i].1)
    ensures Changes(a, b, i)[1..] == Changes(a, b, i + 1)
  {
    assert Changes(a, b, i)[1..] == Changes(a, b, i + 1);
  }

  /** Collecting from a first key and change, then the rest. */
  lemma CollectStep(ks: seq<string>, ms: seq<Option<Value>>, rest: Fields)
    requires 0 < |ks| == |ms| && Collect(ks[1..], ms[1..]) == rest
    ensures Collect(ks, ms) == if ms[0].Some? then [(ks[0], ms[0].value)] + rest else rest
  {
  }

  /** The difference at one key: the member difference of a key the new object has from `i` on. */
  lemma DiffMembersGet(a: Fields, b: Value, i: nat, k: string)
    requires b.Obj? && UniqueKeys(b.fields) && i <= |b.fields|
    ensures Get(DiffMembers(a, b, i), k) == if k in Keys(b.fields)[i..] then MemberDiff(a, k, Get(b.fields, k).value) else None
  {
    var ks, ms := Keys(b.fields)[i..], Changes(a, b, i);
    DiffMembersCollect(a, b, i);
    KeysDistinct(b.fields);
    DistinctTail(Keys(b.fields), i);
    CollectGet(ks, ms, k);
    if k in ks {
      var j :| 0 <= j < |ks| && ks[j] == k;
      KeyOfSlice(b.fields, i, j);
      ChangeAt(a, b, i, j, k);
    }
  }

  lemma ChangeAt(a: Fields, b: Value, i: nat, j: nat, k: string)
    requires b.Obj? && UniqueKeys(b.fields) && i + j < |b.fields| && b.fields[i + j].0 == k
    ensures Changes(a, b, i)[j] == MemberDiff(a, k, Get(b.fields, k).value)
  {
    var m := b.fields[i + j];
    GetAtUnique(b.fields, i + j);
    ChangesIndex(a, b, i, j);
    SameMemberDiff(a, m.0, k, m.1, Get(b.fields, k).value);
  }

  /** The `j`-th key from the `i`-th member on is the key of member `i + j`. */
  lemma KeyOfSlice(fs: Fields, i: nat, j: nat)
    requires i + j < |fs|
    ensures Keys(fs)[i..][j] == fs[i + j].0
  {
  }

  /** Equal arguments give equal member differences; kept apart so the difference is not unfolded. */
  lemma SameMemberDiff(a: Fields, k: string, k': string, v: Value, v': Value)
    requires k == k' && v == v'
    ensures MemberDiff(a, k, v) == MemberDiff(a, k', v')
  {
  }

  /** One entry of the member changes. */
  lemma ChangesIndex(a: Fields, b: Value, i: nat, j: nat)
    requires b.Obj? && i + j < |b.fields|
    ensures Changes(a, b, i)[j] == MemberDiff(a, b.fields[i + j].0, b.fields[i + j].1)
  {
  }

  /** Only keys of the new object from `i` on appear, once each. */
  lemma DiffMembersKeys(a: Fields, b: Value, i: nat)
    requires b.Obj? && UniqueKeys(b.fields) && i <= |b.fields|
    ensures forall k :: k in Keys(DiffMembers(a, b, i)) ==> k in Keys(b.fields)[i..]
    ensures UniqueKeys(DiffMembers(a, b, i))
  {
    DiffMembersCollect(a, b, i);
    KeysDistinct(b.fields);
    DistinctTail(Keys(b.fields), i);
    CollectKeys(Keys(b.fields)[i..], Changes(a, b, i));
  }

  /** One step of the member loop. */
  lemma DiffMembersStep(a: Fields, b: Value, i: nat)
    requires b.Obj? && i < |b.fields|
    ensures var m := MemberDiff(a, b.fields[i].0, b.fields[i].1);
      DiffMembers(a, b, i) == if m.Some? then [(b.fields[i].0, m.value)] + DiffMembers(a, b, i + 1) else DiffMembers(a, b, i + 1)
  {
  }

  lemma {:induction false} EmptyMeansUnchanged(a: Fields, b: Value, i: nat)
    requires b.Obj? && i <= |b.fields|
    ensures |DiffMembers(a, b, i)| == 0 ==> forall j :: i <= j < |b.fields| ==> MemberDiff(a, b.fields[j].0, b.fields[j].1).None?
    decreases |b.fields| - i
  {
    if i < |b.fields| {
      EmptyMeansUnchanged(a, b, i + 1);
    }
  }

  lemma {:induction false} UnchangedMeansEmpty(a: Fields, b: Value, i: nat)
    requires b.Obj? && i <= |b.fields|
    requires forall j :: i <= j < |b.fields| ==> MemberDiff(a, b.fields[j].0, b.fields[j].1).None?
    ensures |DiffMembers(a, b, i)| == 0
    decreases |b.fields| - i
  {
    if i < |b.fields| {
      UnchangedMeansEmpty(a, b, i + 1);
      DiffMembersStep(a, b, i);
    }
  }

  /** The members are empty exactly when no member difference from `i` on is defined. */
  lemma DiffMembersEmpty(a: Fields, b: Value, i: nat)
    requires b.Obj? && i <= |b.fields|
    ensures |DiffMembers(a, b, i)| == 0 <==> forall j :: i <= j < |b.fields| ==> MemberDiff(a, b.fields[j].0, b.fields[j].1).None?
  {
    EmptyMeansUnchanged(a, b, i);
    if forall j :: i <= j < |b.fields| ==> MemberDiff(a, b.fields[j].0, b.fields[j].1).None? {
      UnchangedMeansEmpty(a, b, i);
    }
  }

  /**
   * The members of an object difference: exactly the keys from `i` on whose
   * member difference is defined, each with that difference.
   */
  lemma DiffMembersSpec(a: Fields, b: Value, i: nat)
    requires b.Obj? && UniqueKeys(b.fields) && i <= |b.fields|
    ensures var d := DiffMembers(a, b, i);
      && (forall k :: Get(d, k) == if k in Keys(b.fields)[i..] then MemberDiff(a, k, Get(b.fields, k).value) else None)
      && UniqueKeys(d)
      && (|d| == 0 <==> forall j :: i <= j < |b.fields| ==> MemberDiff(a, b.fields[j].0, b.fields[j].1).None?)
  {
    forall k {
      DiffMembersGet(a, b, i, k);
    }
    DiffMembersKeys(a, b, i);
    DiffMembersEmpty(a, b, i);
  }

  /**
   * The object case as its members see it: an object difference holds
   * exactly the new object's keys that are absent from the old object or
   * whose values differ, and it is undefined when there is no such key.
   * Keys deleted from the old object never appear.
   */
  lemma ObjectDiff(a: Fields, b: Fields)
    requires UniqueKeys(b)
    ensures Diff(Obj(a), Obj(b)).None? <==> forall k :: k in Keys(b) ==> MemberDiff(a, k, Get(b, k).value).None?
    ensures Diff(Obj(a), Obj(b)).Some? ==>
      var d := Diff(Obj(a), Obj(b)).value;
      && d.Obj? && UniqueKeys(d.fields)
      && (forall k :: k in Keys(d.fields) <==> k in Keys(b) && (k !in Keys(a) || Diff(Get(a, k).value, Get(b, k).value).Some?))
      && (forall k :: k in Keys(d.fields) ==> Get(d.fields, k) == MemberDiff(a, k, Get(b, k).value))
  {
    ObjectDiffUndefined(a, b);
    ObjectDiffFields(a, b);
  }

  lemma ObjectDiffUndefined(a: Fields, b: Fields)
    requires UniqueKeys(b)
    ensures Diff(Obj(a), Obj(b)).None? <==> forall k :: k in Keys(b) ==> MemberDiff(a, k, Get(b, k).value).None?
  {
    DiffMembersSpec(a, Obj(b), 0);
    assert Keys(b)[0..] == Keys(b);
    forall k | k in Keys(b)
      ensures MemberDiff(a, k, Get(b, k).value).None? <==> Get(DiffMembers(a, Obj(b), 0), k).None?
    {
    }
    if DiffMembers(a, Obj(b), 0) != [] {
      assert (forall k :: k in Keys(b) ==> MemberDiff(a, k, Get(b, k).value).None?) ==> false by {
        var k0 := b[0].0;
        GetAtUnique(b, 0);
        if forall k :: k in Keys(b) ==> MemberDiff(a, k, Get(b, k).value).None? {
          forall j | 0 <= j < |b| ensures MemberDiff(a, b[j].0, b[j].1).None? {
            GetAtUnique(b, j);
            assert b[j].0 in Keys(b);
          }
        }
      }
    } else {
      forall k | k in Keys(b) ensures MemberDiff(a, k, Get(b, k).value).None? {
      }
    }
  }

  lemma ObjectDiffFields(a: Fields, b: Fields)
    requires UniqueKeys(b)
    ensures Diff(Obj(a), Obj(b)).Some? ==>
      var d := Diff(Obj(a), Obj(b)).value;
      && d.Obj? && UniqueKeys(d.fields)
      && (forall k :: k in Keys(d.fields) <==> k in Keys(b) && (k !in Keys(a) || Diff(Get(a, k).value, Get(b, k).value).Some?))
      && (forall k :: k in Keys(d.fields) ==> Get(d.fields, k) == MemberDiff(a, k, Get(b, k).value))
  {
    DiffMembersSpec(a, Obj(b), 0);
    assert Keys(b)[0..] == Keys(b);
  }

  /** A snapshot compared with itself has no difference. */
  lemma {:induction false} DiffSelf(v: Value)
    requires WellFormed(v)
    ensures Diff(v, v).None?
    decreases v, 1
  {
    if v.Obj? {
      DiffSelfMembers(v, 0);
    }
  }

  lemma {:induction false} DiffSelfMembers(v: Value, i: nat)
    requires v.Obj? && WellFormed(v) && i <= |v.fields|
    ensures DiffMembers(v.fields, v, i) == []
    decreases v, 0, |v.fields| - i
  {
    if i < |v.fields| {
      var k, w := v.fields[i].0, v.fields[i].1;
      GetAtUnique(v.fields, i);
      assert WellFormed(w);
      DiffSelf(w);
      assert MemberDiff(v.fields, k, w).None?;
      DiffSelfMembers(v, i + 1);
      assert DiffMembers(v.fields, v, i) == DiffMembers(v.fields, v, i + 1);
    }
  }

  // ------------------------------------------------------------ patches

  /**
   * `x` holds everything `b` holds: at every object level `x` has each of
   * `b`'s keys with a value holding `b`'s, and elsewhere the two are equal.
   */
  predicate Covers(x: Value, b: Value)
    decreases b
  {
    if b.Obj? then
      x.Obj? && forall i :: 0 <= i < |b.fields| ==>
        HasKey(x.fields, b.fields[i].0) && Covers(Get(x.fields, b.fields[i].0).value, b.fields[i].1)
    else x == b
  }

  /**
   * Two snapshots of the same shape: an object is never replaced by an
   * array or an array by an object, at any common key.
   */
  predicate SameShape(a: Value, b: Value)
    decreases b
  {
    && !(a.Obj? && b.Arr?) && !(a.Arr? && b.Obj?)
    && (a.Obj? && b.Obj? ==>
          forall i :: 0 <= i < |b.fields| && HasKey(a.fields, b.fields[i].0) ==>
            SameShape(Get(a.fields, b.fields[i].0).value, b.fields[i].1))
  }

  /** A receiver merging a difference into what it holds, as a recursive dictionary merge does. */
  function Patch(view: Value, d: Option<Value>): Value {
    if d.None? then view else MergeValue(Some(view), d.value)
  }

  /** The position of the first entry with key `k`. */
  lemma FirstIndex(fs: Fields, k: string) returns (j: nat)
    requires HasKey(fs, k)
    ensures j < |fs| && fs[j].0 == k && Get(fs, k) == Some(fs[j].1)
  {
    if fs[0].0 == k {
      j := 0;
    } else {
      assert HasKey(fs[1..], k) by { assert Keys(fs) == [fs[0].0] + Keys(fs[1..]); }
      var j' := FirstIndex(fs[1..], k);
      j := j' + 1;
    }
  }

  lemma {:induction false} CoversSelf(v: Value)
    requires WellFormed(v)
    ensures Covers(v, v)
    decreases v
  {
    if v.Obj? {
      forall i | 0 <= i < |v.fields|
        ensures HasKey(v.fields, v.fields[i].0) && Covers(Get(v.fields, v.fields[i].0).value, v.fields[i].1)
      {
        GetAtUnique(v.fields, i);
        CoversSelf(v.fields[i].1);
      }
    }
  }

  lemma {:induction false} CoversTransitive(x: Value, y: Value, z: Value)
    requires Covers(x, y) && Covers(y, z)
    ensures Covers(x, z)
    decreases z
  {
    if z.Obj? {
      forall i | 0 <= i < |z.fields|
        ensures HasKey(x.fields, z.fields[i].0) && Covers(Get(x.fields, z.fields[i].0).value, z.fields[i].1)
      {
        var k := z.fields[i].0;
        var j := FirstIndex(y.fields, k);
        CoversTransitive(Get(x.fields, k).value, Get(y.fields, k).value, z.fields[i].1);
      }
    }
  }

  /** Whatever it is merged into, a value comes out covering itself. */
  lemma {:induction false} MergeCovers(x: Option<Value>, v: Value)
    requires WellFormed(v)
    ensures Covers(MergeValue(x, v), v)
    decreases v
  {
    if v.Obj? && x.Some? && x.value.Obj? {
      var r := MergeValue(x, v);
      DeepUpdateSpec(x.value.fields, v.fields);
      assert r.fields == DeepUpdate(x.value.fields, v.fields);
      forall i | 0 <= i < |v.fields|
        ensures HasKey(r.fields, v.fields[i].0) && Covers(Get(r.fields, v.fields[i].0).value, v.fields[i].1)
      {
        var k := v.fields[i].0;
        GetAtUnique(v.fields, i);
        assert k in Keys(v.fields);
        MergeCovers(Get(x.value.fields, k), v.fields[i].1);
      }
    } else if v.Obj? {
      CoversSelf(v);
    }
  }

  /**
   * Difference and merge are inverse: a receiver holding (a superset of)
   * the old snapshot that merges in the difference to a new snapshot of the
   * same shape holds (a superset of) the new one.  Deleted keys are the
   * only thing lost.
   */
  lemma {:induction false} DiffPatch(view: Value, last: Value, cur: Value)
    requires WellFormed(cur) && SameShape(last, cur) && Covers(view, last)
    ensures Covers(Patch(view, Diff(last, cur)), cur)
    decreases cur, 2
  {
    var d := Diff(last, cur);
    if StrictlyEqual(last, cur) {
    } else if TypeOf(last) != TypeOf(cur) || last.Null? || cur.Null? {
      MergeCovers(Some(view), cur);
    } else if last.Arr? {
      if d.Some? {
        MergeCovers(Some(view), cur);
      }
    } else if last.Obj? {
      forall i | 0 <= i < |cur.fields|
        ensures var p := Patch(view, d);
          HasKey(p.fields, cur.fields[i].0) && Covers(Get(p.fields, cur.fields[i].0).value, cur.fields[i].1)
      {
        PatchedMember(view, last, cur, i);
      }
    } else {
      MergeCovers(Some(view), cur);
    }
  }

  /** What the patched object holds at a key of the new object. */
  lemma PatchedGet(view: Value, last: Value, cur: Value, k: string)
    requires last.Obj? && cur.Obj? && view.Obj? && UniqueKeys(cur.fields) && k in Keys(cur.fields)
    ensures var m := MemberDiff(last.fields, k, Get(cur.fields, k).value);
      Get(Patch(view, Diff(last, cur)).fields, k) ==
        if m.Some? then Some(MergeValue(Get(view.fields, k), m.value)) else Get(view.fields, k)
  {
    var dm := DiffMembers(last.fields, cur, 0);
    ObjectsDiffer(last, cur);
    assert Keys(cur.fields)[0..] == Keys(cur.fields);
    DiffMembersGet(last.fields, cur, 0, k);
    DiffMembersKeys(last.fields, cur, 0);
    PatchLookup(view, dm, k);
  }

  /** Patching with the members `dm` changes a key exactly when `dm` carries it. */
  lemma PatchLookup(view: Value, dm: Fields, k: string)
    requires view.Obj? && UniqueKeys(dm)
    ensures var m := Get(dm, k);
      Get(Patch(view, if |dm| == 0 then None else Some(Obj(dm))).fields, k) ==
        if m.Some? then Some(MergeValue(Get(view.fields, k), m.value)) else Get(view.fields, k)
  {
    if |dm| > 0 {
      DeepUpdateSpec(view.fields, dm);
      assert Patch(view, Some(Obj(dm))).fields == DeepUpdate(view.fields, dm);
    }
  }

  /** Two object snapshots differ by the members whose change is defined, if any. */
  lemma ObjectsDiffer(last: Value, cur: Value)
    requires last.Obj? && cur.Obj?
    ensures var dm := DiffMembers(last.fields, cur, 0);
      Diff(last, cur) == if |dm| == 0 then None else Some(Obj(dm))
  {
    assert !StrictlyEqual(last, cur) && TypeOf(last) == TypeOf(cur);
  }

  /** One member of the new object is covered after the patch. */
  lemma {:induction false} PatchedMember(view: Value, last: Value, cur: Value, i: nat)
    requires last.Obj? && cur.Obj? && view.Obj? && i < |cur.fields|
    requires WellFormed(cur) && SameShape(last, cur) && Covers(view, last)
    ensures var p := Patch(view, Diff(last, cur));
      HasKey(p.fields, cur.fields[i].0) && Covers(Get(p.fields, cur.fields[i].0).value, cur.fields[i].1)
    decreases cur, 1
  {
    var k, v := cur.fields[i].0, cur.fields[i].1;
    GetAtUnique(cur.fields, i);
    assert k in Keys(cur.fields);
    PatchedGet(view, last, cur, k);
    var m := MemberDiff(last.fields, k, v);
    if HasKey(last.fields, k) {
      var j := FirstIndex(last.fields, k);
      var lk := Get(last.fields, k).value;
      var vk := Get(view.fields, k).value;
      assert HasKey(view.fields, k) && Covers(vk, lk);
      assert SameShape(lk, v);
      DiffPatch(vk, lk, v);
    } else {
      MergeCovers(Get(view.fields, k), v);
    }
  }

  /** With no previous view at all, the receiver holds exactly what the last snapshot holds. */
  lemma DiffPatchExact(last: Value, cur: Value)
    requires WellFormed(last) && WellFormed(cur) && SameShape(last, cur)
    ensures Covers(Patch(last, Diff(last, cur)), cur)
  {
    CoversSelf(last);
    DiffPatch(last, last, cur);
  }

  // ------------------------------------------------------------ observation

  const FullStateKind := "FULL_STATE"
  const DeltaKind := "DELTA"

  /** A message handed to the binding: `{type, payload}`. */
  datatype Notice = Notice(kind: string, payload: Value)

  /** The JSON document `_notify` sends (line 419). */
  function NoticeDocument(n: Notice): Value {
    Obj([("type", Str(n.kind)), ("payload", n.payload)])
  }

  /** `observing` and `lastState` (`None` is `null`). */
  datatype Observer = Observer(observing: bool, last: Option<Value>)

  /** `_notify` (lines 418-426): delivered only when the binding exists. */
  function Send(bound: bool, n: Notice): (out: seq<Notice>)
    ensures out == if bound then [n] else []
  {
    if bound then [n] else []
  }

  /**
   * One pass of the observation loop (lines 377-397): `snapshot` is the
   * `data` of a successful `getFullState`, `None` for a failed one.  The
   * first snapshot goes out whole; later ones only as a truthy difference,
   * and only then does `lastState` move on.
   */
  function Tick(o: Observer, snapshot: Option<Value>, bound: bool): (r: (Observer, seq<Notice>))
    ensures !o.observing || snapshot.None? ==> r == (o, [])
    ensures r.0.observing == o.observing
    ensures r.0.last != o.last ==> r.0.last == snapshot
    ensures |r.1| <= 1 && (!bound ==> r.1 == [])
    ensures o.observing && snapshot.Some? && (o.last.None? || !JsTruthy(o.last.value)) ==>
      r == (o.(last := snapshot), Send(bound, Notice(FullStateKind, snapshot.value)))
    ensures o.observing && snapshot.Some? && o.last.Some? && JsTruthy(o.last.value) ==>
      var d := Diff(o.last.value, snapshot.value);
      r == if d.Some? && JsTruthy(d.value) then (o.(last := snapshot), Send(bound, Notice(DeltaKind, d.value))) else (o, [])
  {
    if !o.observing || snapshot.None? then (o, [])
    else if o.last.None? || !JsTruthy(o.last.value) then
      (o.(last := snapshot), Send(bound, Notice(FullStateKind, snapshot.value)))
    else
      var d := Diff(o.last.value, snapshot.value);
      if d.Some? && JsTruthy(d.value) then (o.(last := snapshot), Send(bound, Notice(DeltaKind, d.value)))
      else (o, [])
  }

  /** `startObservation` (lines 372-400): the first pass runs at once, with no previous state. */
  function StartObservation(o: Observer, snapshot: Option<Value>, bound: bool): (r: (Observer, seq<Notice>))
    ensures o.observing ==> r == (o, [])
    ensures !o.observing ==> r.0.observing && (snapshot.Some? ==> r.0.last == snapshot && r.1 == Send(bound, Notice(FullStateKind, snapshot.value)))
  {
    if o.observing then (o, []) else Tick(Observer(true, None), snapshot, bound)
  }

  /** `stopObservation` (lines 402-404). */
  function StopObservation(o: Observer): (r: Observer)
    ensures !r.observing && r.last == o.last
  {
    o.(observing := false)
  }

  /**
   * `forceSync` (lines 406-416): the previous state is forgotten; a stopped
   * observer sends a full snapshot at once, a running one on its next pass.
   */
  function ForceSync(o: Observer, snapshot: Option<Value>, bound: bool): (r: (Observer, seq<Notice>))
    ensures r.0.observing == o.observing
    ensures o.observing ==> r == (o.(last := None), [])
    ensures !o.observing && snapshot.Some? ==> r == (Observer(false, snapshot), Send(bound, Notice(FullStateKind, snapshot.value)))
    ensures !o.observing && snapshot.None? ==> r == (Observer(false, None), [])
  {
    var o1 := o.(last := None);
    if o.observing then (o1, [])
    else if snapshot.Some? then (o1.(last := snapshot), Send(bound, Notice(FullStateKind, snapshot.value)))
    else (o1, [])
  }

  /** A running observer whose page did not change sends nothing. */
  lemma UnchangedPageIsQuiet(o: Observer, bound: bool)
    requires o.observing && o.last.Some? && JsTruthy(o.last.value) && WellFormed(o.last.value)
    ensures Tick(o, o.last, bound) == (o, [])
  {
    DiffSelf(o.last.value);
  }

  /** A receiver: a full state replaces what it holds, a delta is merged in. */
  function Receive(view: Option<Value>, notices: seq<Notice>): Option<Value>
    decreases |notices|
  {
    if |notices| == 0 then view
    else
      var n := notices[0];
      var v := if n.kind == FullStateKind then Some(n.payload)
               else if n.kind == DeltaKind && view.Some? then Some(Patch(view.value, Some(n.payload)))
               else view;
      Receive(v, notices[1..])
  }

  /** The receiver holds everything of the observer's last snapshot. */
  predicate InSync(o: Observer, view: Option<Value>) {
    o.last.Some? ==> view.Some? && Covers(view.value, o.last.value)
  }

  /**
   * While every message reaches the receiver and snapshots keep their
   * shape, each pass keeps the receiver in step with the page.
   */
  lemma TickKeepsInSync(o: Observer, view: Option<Value>, snapshot: Option<Value>)
    requires InSync(o, view)
    requires snapshot.Some? ==> WellFormed(snapshot.value)
    requires o.last.Some? && snapshot.Some? ==> SameShape(o.last.value, snapshot.value)
    ensures var r := Tick(o, snapshot, true); InSync(r.0, Receive(view, r.1))
  {
    var r := Tick(o, snapshot, true);
    if o.observing && snapshot.Some? {
      if o.last.None? || !JsTruthy(o.last.value) {
        CoversSelf(snapshot.value);
      } else {
        var d := Diff(o.last.value, snapshot.value);
        if d.Some? && JsTruthy(d.value) {
          DiffPatch(view.value, o.last.value, snapshot.value);
          assert Receive(view, r.1) == Some(Patch(view.value, d));
        }
      }
    }
  }

  /** A lost message breaks the chain: the observer moves on although nobody heard it. */
  lemma UnboundDeltaIsLost(o: Observer, snapshot: Value)
    requires o.observing && o.last.Some? && JsTruthy(o.last.value)
    requires Diff(o.last.value, snapshot).Some? && JsTruthy(Diff(o.last.value, snapshot).value)
    ensures Tick(o, Some(snapshot), false) == (o.(last := Some(snapshot)), [])
  {
  }

  /** After `forceSync` the receiver is resynchronised by the next full state, whatever it held. */
  lemma ForceSyncResynchronises(o: Observer, view: Option<Value>, snapshot: Value)
    requires WellFormed(snapshot)
    ensures var s := ForceSync(o, Some(snapshot), true);
      var t := Tick(s.0, Some(snapshot), true);
      InSync(t.0, Receive(Receive(view, s.1), t.1))
  {
    CoversSelf(snapshot);
  }
}

=== FILE: json.dfy ===
/**
 * Decoded JSON documents as both halves of the system see them: Python
 * `dict`/`list` values after `json.loads`, and JavaScript objects.  Objects are
 * ordered association lists, so insertion order (which both languages keep
 * for string keys) is part of the value.
 */
module Json {
  import opened Wrappers
  import opened Text

  datatype Value =
    | Null
    | Bool(b: bool)
    | Num(n: real)
    | Str(s: string)
    | Arr(items: seq<Value>)
    | Obj(fields: seq<(string, Value)>)

  type Fields = seq<(string, Value)>

  // -------------------------------------------------------------- lookup

  /** An object built entry by entry, as a literal `{k: v, ...}` is. */
  function Cons(k: string, v: Value, rest: Fields): Fields
  {
    [(k, v)] + rest
  }

  /** A leading entry shadows any later entry with the same key. */
  lemma ConsMap(k: string, v: Value, rest: Fields)
    ensures ToMap(Cons(k, v, rest)) == ToMap(rest)[k := v]
  {
    assert Cons(k, v, rest)[1..] == rest;
  }

  /** The object as a dictionary: each key maps to the value of its first entry. */
  function ToMap(fs: Fields): map<string, Value> {
    if |fs| == 0 then map[] else ToMap(fs[1..])[fs[0].0 := fs[0].1]
  }

  /** The dictionary view agrees with first-match lookup. */
  lemma {:induction false} ToMapGet(fs: Fields, k: string)
    ensures k in ToMap(fs) <==> k in Keys(fs)
    ensures k in ToMap(fs) ==> Get(fs, k) == Some(ToMap(fs)[k])
  {
    if |fs| > 0 {
      ToMapGet(fs[1..], k);
    }
  }

  /** `d.get(k)`: the value stored under the first entry with key `k`. */
  function Get(fs: Fields, k: string): (r: Option<Value>)
    ensures r.Some? <==> k in Keys(fs)
  {
    if |fs| == 0 then None
    else if fs[0].0 == k then Some(fs[0].1)
    else Get(fs[1..], k)
  }

  function Keys(fs: Fields): (ks: seq<string>)
    ensures |ks| == |fs|
    ensures forall i :: 0 <= i < |fs| ==> ks[i] == fs[i].0
  {
    if |fs| == 0 then [] else [fs[0].0] + Keys(fs[1..])
  }

  /** The first entry with key `k` sits at position `i`. */
  lemma {:induction false} GetAt(fs: Fields, k: string, i: nat)
    requires i < |fs| && fs[i].0 == k
    requires forall j :: 0 <= j < i ==> fs[j].0 != k
    ensures Get(fs, k) == Some(fs[i].1)
    decreases i
  {
    if i > 0 {
      GetAt(fs[1..], k, i - 1);
    }
  }

  predicate HasKey(fs: Fields, k: string) {
    k in Keys(fs)
  }

  /** Every key occurs once, as in a Python `dict` or a JavaScript object. */
  predicate UniqueKeys(fs: Fields) {
    |fs| == 0 || (fs[0].0 !in Keys(fs[1..]) && UniqueKeys(fs[1..]))
  }

  /** The field of an object value; `None` for a missing key or a non-object. */
  function Field(v: Value, k: string): Option<Value> {
    if v.Obj? then Get(v.fields, k) else None
  }

  /** `d[k1][k2]...`: the value reached by following `keys` through nested objects. */
  function Path(v: Value, keys: seq<string>): Option<Value>
    decreases |keys|
  {
    if |keys| == 0 then Some(v)
    else
      match Field(v, keys[0])
      case None => None
      case Some(w) => Path(w, keys[1..])
  }

  /** One step of a path lookup. */
  lemma PathStep(v: Value, k: string, w: Value, rest: seq<string>)
    requires Field(v, k) == Some(w)
    ensures Path(v, [k] + rest) == Path(w, rest)
  {
    assert ([k] + rest)[1..] == rest;
  }

  /** A path through the entry at position `i` of an object, when no earlier entry has its key. */
  lemma PathAt(fs: Fields, i: nat, rest: seq<string>)
    requires i < |fs|
    requires forall j :: 0 <= j < i ==> fs[j].0 != fs[i].0
    ensures Path(Obj(fs), [fs[i].0] + rest) == Path(fs[i].1, rest)
  {
    GetAt(fs, fs[i].0, i);
    PathStep(Obj(fs), fs[i].0, fs[i].1, rest);
  }

  /** A one-key path into an object whose earlier keys differ from `k` in length or in their first letter. */
  lemma PathOne(fs: Fields, i: nat, k: string)
    requires i < |fs| && fs[i].0 == k && |k| > 0
    requires forall j :: 0 <= j < i ==> |fs[j].0| != |k| || fs[j].0[0] != k[0]
    ensures Path(Obj(fs), [k]) == Some(fs[i].1)
  {
    PathAt(fs, i, []);
    assert [fs[i].0] + [] == [k];
  }

  // -------------------------------------------------------------- update

  /**
   * `d[k] = v`: an existing entry keeps its position and takes the new value,
   * a new key is appended at the end.
   */
  function Set(fs: Fields, k: string, v: Value): (r: Fields)
    ensures Get(r, k) == Some(v)
    ensures forall k' :: k' != k ==> Get(r, k') == Get(fs, k')
  {
    if |fs| == 0 then [(k, v)]
    else if fs[0].0 == k then [(k, v)] + fs[1..]
    else [fs[0]] + Set(fs[1..], k, v)
  }

  /** Assignment keeps the existing key order and appends only a new key, so keys stay unique. */
  lemma {:induction false} SetKeys(fs: Fields, k: string, v: Value)
    ensures k in Keys(fs) ==> Keys(Set(fs, k, v)) == Keys(fs)
    ensures k !in Keys(fs) ==> Keys(Set(fs, k, v)) == Keys(fs) + [k]
    ensures UniqueKeys(fs) ==> UniqueKeys(Set(fs, k, v))
    decreases |fs|, 2
  {
    if |fs| > 0 && fs[0].0 != k {
      SetKeysLater(fs, k, v);
    } else if |fs| > 0 {
      SetKeysHere(fs, k, v);
    }
  }

  lemma SetKeysHere(fs: Fields, k: string, v: Value)
    requires |fs| > 0 && fs[0].0 == k
    ensures Keys(Set(fs, k, v)) == Keys(fs)
    ensures UniqueKeys(fs) ==> UniqueKeys(Set(fs, k, v))
  {
    assert Set(fs, k, v) == [(k, v)] + fs[1..];
    EntriesCons((k, v), fs[1..]);
  }

  lemma {:induction false} SetKeysLater(fs: Fields, k: string, v: Value)
    requires |fs| > 0 && fs[0].0 != k
    ensures k in Keys(fs) ==> Keys(Set(fs, k, v)) == Keys(fs)
    ensures k !in Keys(fs) ==> Keys(Set(fs, k, v)) == Keys(fs) + [k]
    ensures UniqueKeys(fs) ==> UniqueKeys(Set(fs, k, v))
    decreases |fs|, 1
  {
    var r := Set(fs[1..], k, v);
    assert Set(fs, k, v) == [fs[0]] + r;
    SetKeys(fs[1..], k, v);
    EntriesCons(fs[0], r);
    assert Keys(fs) == [fs[0].0] + Keys(fs[1..]);
    SetKeysLaterStep(fs[0].0, k, Keys(fs[1..]), Keys(r));
  }

  /** The key step behind `SetKeysLater`, on the key sequences alone. */
  lemma SetKeysLaterStep(a: string, k: string, ks: seq<string>, rks: seq<string>)
    requires a != k
    requires k in ks ==> rks == ks
    requires k !in ks ==> rks == ks + [k]
    ensures k in [a] + ks ==> [a] + rks == [a] + ks
    ensures k !in [a] + ks ==> [a] + rks == ([a] + ks) + [k]
    ensures a !in ks ==> a !in rks
  {
    if k !in ks {
      assert [a] + (ks + [k]) == ([a] + ks) + [k];
    }
  }

  /** The keys of an entry put in front of others, and their uniqueness. */
  lemma EntriesCons(e: (string, Value), rest: Fields)
    ensures Keys([e] + rest) == [e.0] + Keys(rest)
    ensures UniqueKeys([e] + rest) <==> e.0 !in Keys(rest) && UniqueKeys(rest)
  {
    assert ([e] + rest)[1..] == rest;
  }

  /** Assignment as seen through the dictionary view. */
  lemma {:induction false} SetToMap(fs: Fields, k: string, v: Value)
    ensures ToMap(Set(fs, k, v)) == ToMap(fs)[k := v]
  {
    if |fs| > 0 {
      if fs[0].0 == k {
        assert Set(fs, k, v)[1..] == fs[1..];
      } else {
        SetToMap(fs[1..], k, v);
        assert Set(fs, k, v)[1..] == Set(fs[1..], k, v);
      }
    }
  }

  /** `d.get(k, default)` on a dictionary. */
  function At(fs: Fields, k: string, default: Value): (r: Value)
    ensures HasKey(fs, k) ==> Some(r) == Get(fs, k)
    ensures !HasKey(fs, k) ==> r == default
  {
    match Get(fs, k)
    case Some(v) => v
    case None => default
  }

  /** Python `t.update(s)`: each entry of `s` in turn assigned into `t`. */
  function DictUpdate(t: Fields, s: Fields): Fields
    decreases |s|
  {
    if |s| == 0 then t else DictUpdate(Set(t, s[0].0, s[0].1), s[1..])
  }

  /** After an update every key of the source reads the source's value and every other key is untouched. */
  lemma {:induction false} DictUpdateGet(t: Fields, s: Fields, k: string)
    requires UniqueKeys(s)
    ensures Get(DictUpdate(t, s), k) == if HasKey(s, k) then Get(s, k) else Get(t, k)
    decreases |s|
  {
    if |s| > 0 {
      DictUpdateGet(Set(t, s[0].0, s[0].1), s[1..], k);
      assert Keys(s) == [s[0].0] + Keys(s[1..]);
    }
  }

  /** Python truthiness of a decoded value: `None`, `False`, `0`, `""`, `[]` and `{}` are false. */
  predicate Truthy(v: Value) {
    match v
    case Null => false
    case Bool(b) => b
    case Num(n) => n != 0.0
    case Str(s) => |s| > 0
    case Arr(items) => |items| > 0
    case Obj(fields) => |fields| > 0
  }

  /**
   * `v.get(k, default)`: `None` stands for the exception raised when `v` is
   * not a dictionary.
   */
  function GetOr(v: Value, k: string, default: Value): (r: Option<Value>)
    ensures r.Some? <==> v.Obj?
    ensures v.Obj? && HasKey(v.fields, k) ==> r == Get(v.fields, k)
  {
    if !v.Obj? then None
    else
      match Get(v.fields, k)
      case Some(w) => Some(w)
      case None => Some(default)
  }

  /** Truthiness of an optional lookup: a missing key reads as `None`. */
  predicate TruthyOpt(o: Option<Value>) {
    o.Some? && Truthy(o.value)
  }

  /**
   * Python `str(v)` for the scalar values identifiers take: `None`, booleans,
   * integral numbers and strings.  Fractions and containers have a fixed
   * stand-in text.
   */
  function PyStr(v: Value): (r: string)
    ensures v.Str? ==> r == v.s
    ensures v.Null? ==> r == "None"
  {
    match v
    case Null => "None"
    case Bool(b) => if b then "True" else "False"
    case Num(n) => if n == n.Floor as real then IntToString(n.Floor) else "<float>"
    case Str(s) => s
    case Arr(_) => "<list>"
    case Obj(_) => "<dict>"
  }

  /** `str()` of an optional lookup: a missing key is `None`. */
  function PyStrOpt(o: Option<Value>): string {
    if o.Some? then PyStr(o.value) else "None"
  }

  // --------------------------------------------------------- deep update

  /**
   * The merged value for one source entry: nested objects merge recursively
   * when both sides are objects, anything else replaces.
   */
  function MergeValue(prev: Option<Value>, v: Value): Value
    decreases v, if v.Obj? then |v.fields| + 1 else 0
  {
    if v.Obj? && prev.Some? && prev.value.Obj? then Obj(UpdateFrom(prev.value.fields, v, 0))
    else v
  }

  /** Applies the entries `s.fields[i..]` to `t`, left to right. */
  function UpdateFrom(t: Fields, s: Value, i: nat): Fields
    requires s.Obj? && i <= |s.fields|
    decreases s, |s.fields| - i
  {
    if i == |s.fields| then t
    else
      var k := s.fields[i].0;
      UpdateFrom(Set(t, k, MergeValue(Get(t, k), s.fields[i].1)), s, i + 1)
  }

  /**
   * The recursive dictionary merge of both halves (`deep_update`): every key of
   * `source` is written into `target`; where both sides hold an object the two
   * are merged instead of replaced.
   */
  function DeepUpdate(target: Fields, source: Fields): Fields {
    UpdateFrom(target, Obj(source), 0)
  }

  /** Keys of `s.fields[i..]`. */
  function KeysFrom(s: Value, i: nat): seq<string>
    requires s.Obj? && i <= |s.fields|
  {
    Keys(s.fields)[i..]
  }

  lemma UpdateFromGet(t: Fields, s: Value, i: nat, k: string)
    requires s.Obj? && i <= |s.fields| && UniqueKeys(s.fields)
    ensures Get(UpdateFrom(t, s, i), k)
         == if k in KeysFrom(s, i) then Some(MergeValue(Get(t, k), Get(s.fields, k).value)) else Get(t, k)
  {
    if k in KeysFrom(s, i) {
      UpdateFromGetIn(t, s, i, k);
    } else {
      UpdateFromGetOut(t, s, i, k);
    }
  }

  /** The keys from entry `i` on: the key of entry `i`, then the later ones. */
  lemma KeysFromCons(s: Value, i: nat)
    requires s.Obj? && i < |s.fields|
    ensures KeysFrom(s, i) == [s.fields[i].0] + KeysFrom(s, i + 1)
  {
    var ks := Keys(s.fields);
    assert ks[i..] == [ks[i]] + ks[i + 1..];
  }

  /** A key no later entry carries keeps its value. */
  lemma {:induction false} UpdateFromGetOut(t: Fields, s: Value, i: nat, k: string)
    requires s.Obj? && i <= |s.fields| && k !in KeysFrom(s, i)
    ensures Get(UpdateFrom(t, s, i), k) == Get(t, k)
    decreases |s.fields| - i
  {
    if i < |s.fields| {
      var k0 := s.fields[i].0;
      var t1 := Set(t, k0, MergeValue(Get(t, k0), s.fields[i].1));
      KeysFromCons(s, i);
      UpdateFromGetOut(t1, s, i + 1, k);
    }
  }

  /** A key a later entry carries reads as that entry merged into the old value. */
  lemma {:induction false} UpdateFromGetIn(t: Fields, s: Value, i: nat, k: string)
    requires s.Obj? && i <= |s.fields| && UniqueKeys(s.fields) && k in KeysFrom(s, i)
    ensures Get(UpdateFrom(t, s, i), k) == Some(MergeValue(Get(t, k), Get(s.fields, k).value))
    decreases |s.fields| - i, 1
  {
    KeysFromCons(s, i);
    if k == s.fields[i].0 {
      UpdateFromGetHere(t, s, i);
      GetAtUnique(s.fields, i);
    } else {
      UpdateFromGetLater(t, s, i, k);
    }
  }

  /** The key of entry `i` reads as that entry merged into its old value, no later entry carrying it. */
  lemma UpdateFromGetHere(t: Fields, s: Value, i: nat)
    requires s.Obj? && i < |s.fields| && UniqueKeys(s.fields)
    ensures Get(UpdateFrom(t, s, i), s.fields[i].0) == Some(MergeValue(Get(t, s.fields[i].0), s.fields[i].1))
  {
    var k0 := s.fields[i].0;
    var t1 := Set(t, k0, MergeValue(Get(t, k0), s.fields[i].1));
    GetAtUnique(s.fields, i);
    UpdateFromGetOut(t1, s, i + 1, k0);
  }

  /** A key a later entry carries is not disturbed by entry `i`. */
  lemma {:induction false} UpdateFromGetLater(t: Fields, s: Value, i: nat, k: string)
    requires s.Obj? && i < |s.fields| && UniqueKeys(s.fields) && k in KeysFrom(s, i + 1)
    ensures Get(UpdateFrom(t, s, i), k) == Some(MergeValue(Get(t, k), Get(s.fields, k).value))
    decreases |s.fields| - i, 0
  {
    var k0 := s.fields[i].0;
    var t1 := Set(t, k0, MergeValue(Get(t, k0), s.fields[i].1));
    GetAtUnique(s.fields, i);
    UpdateFromGetIn(t1, s, i + 1, k);
    assert Get(t1, k) == Get(t, k);
  }

  lemma {:induction false} GetAtUnique(fs: Fields, i: nat)
    requires UniqueKeys(fs) && i < |fs|
    ensures Get(fs, fs[i].0) == Some(fs[i].1)
    ensures fs[i].0 !in Keys(fs)[i + 1..]
  {
    if i == 0 {
      assert Keys(fs)[1..] == Keys(fs[1..]);
    } else {
      GetAtUnique(fs[1..], i - 1);
      assert Keys(fs[1..])[i..] == Keys(fs)[i + 1..];
      assert fs[i].0 in Keys(fs[1..]);
    }
  }

  lemma {:induction false} UpdateFromKeys(t: Fields, s: Value, i: nat)
    requires s.Obj? && i <= |s.fields|
    ensures Keys(t) <= Keys(UpdateFrom(t, s, i))
    ensures forall k :: k in Keys(UpdateFrom(t, s, i)) <==> k in Keys(t) || k in KeysFrom(s, i)
    ensures UniqueKeys(t) ==> UniqueKeys(UpdateFrom(t, s, i))
    decreases |s.fields| - i
  {
    if i < |s.fields| {
      var k0 := s.fields[i].0;
      var t1 := Set(t, k0, MergeValue(Get(t, k0), s.fields[i].1));
      SetKeys(t, k0, MergeValue(Get(t, k0), s.fields[i].1));
      UpdateFromKeys(t1, s, i + 1);
      KeysFromCons(s, i);
    }
  }

  /** Reference reading of a key after a deep update, stated per key. */
  function MergedLookup(target: Fields, source: Fields, k: string): Option<Value> {
    if k in Keys(source) then Some(MergeValue(Get(target, k), Get(source, k).value)) else Get(target, k)
  }

  /**
   * The lookup specification of `deep_update`: a key the source carries reads
   * as the merged value, every other key keeps its old value; the target's
   * keys keep their order and new keys follow them.
   */
  lemma DeepUpdateSpec(target: Fields, source: Fields)
    requires UniqueKeys(source)
    ensures forall k :: Get(DeepUpdate(target, source), k) == MergedLookup(target, source, k)
    ensures Keys(target) <= Keys(DeepUpdate(target, source))
    ensures forall k :: k in Keys(DeepUpdate(target, source)) <==> k in Keys(target) || k in Keys(source)
    ensures UniqueKeys(target) ==> UniqueKeys(DeepUpdate(target, source))
  {
    UpdateFromKeys(target, Obj(source), 0);
    forall k ensures Get(DeepUpdate(target, source), k) == MergedLookup(target, source, k) {
      UpdateFromGet(target, Obj(source), 0, k);
      assert KeysFrom(Obj(source), 0) == Keys(source);
    }
  }
}

=== FILE: json_text.dfy ===
/**
 * The compact JSON text Python's `json.dumps(..., separators=(',', ':'))`
 * writes for flat objects, with its default `ensure_ascii` string escaping:
 * `"` and `\` are backslash-escaped, the usual control characters get their
 * short escapes, every other control character, DEL and every non-ASCII
 * character becomes `\uXXXX` (lower-case hex, a surrogate pair above U+FFFF).
 *
 * `Unescape` reads such a string body back; `UnescapeEscape` proves the round trip.
 */
module JsonText {
  import opened Wrappers

  // ----------------------------------------------------------------- hex

  function HexDigit(d: nat): (c: char)
    requires d < 16
  {
    if d < 10 then (48 + d) as char else (87 + d) as char
  }

  /** The value of one lower-case hex digit. */
  function HexDigitValue(c: char): (r: Option<nat>)
    ensures r.Some? ==> r.value < 16
  {
    if '0' <= c <= '9' then Some(c as int - 48)
    else if 'a' <= c <= 'f' then Some(c as int - 87)
    else None
  }

  lemma HexDigitRoundTrip(d: nat)
    requires d < 16
    ensures HexDigitValue(HexDigit(d)) == Some(d)
  {
  }

  /** Four lower-case hex digits, most significant first. */
  function Hex4(n: nat): (r: string)
    requires n < 0x10000
    ensures |r| == 4
  {
    [HexDigit(n / 16 / 16 / 16), HexDigit(n / 16 / 16 % 16), HexDigit(n / 16 % 16), HexDigit(n % 16)]
  }

  function Hex4Value(s: string): (r: Option<nat>)
    requires |s| == 4
    ensures r.Some? ==> r.value < 0x10000
  {
    var a :- HexDigitValue(s[0]);
    var b :- HexDigitValue(s[1]);
    var c :- HexDigitValue(s[2]);
    var d :- HexDigitValue(s[3]);
    Some(((a * 16 + b) * 16 + c) * 16 + d)
  }

  /** Four hex digits read back as the number they were written from. */
  lemma Hex4RoundTrip(n: nat)
    requires n < 0x10000
    ensures Hex4Value(Hex4(n)) == Some(n)
  {
    HexDigitRoundTrip(n / 16 / 16 / 16);
    HexDigitRoundTrip(n / 16 / 16 % 16);
    HexDigitRoundTrip(n / 16 % 16);
    HexDigitRoundTrip(n % 16);
    HexDigitsCompose(n);
  }

  /** The four base-16 digits of `n`, recombined, give `n`. */
  lemma HexDigitsCompose(n: nat)
    requires n < 0x10000
    ensures (((n / 16 / 16 / 16) * 16 + n / 16 / 16 % 16) * 16 + n / 16 % 16) * 16 + n % 16 == n
  {
    var q1 := n / 16;
    var q2 := q1 / 16;
    assert q2 == (q2 / 16) * 16 + q2 % 16;
    assert q1 == q2 * 16 + q1 % 16;
    assert n == q1 * 16 + n % 16;
  }

  // ------------------------------------------------------------ escaping

  predicate IsAscii(s: string) {
    forall i :: 0 <= i < |s| ==> s[i] as int < 0x80
  }

  /** The `\uXXXX` escape of a code unit. */
  function UnitEscape(n: nat): (r: string)
    requires n < 0x10000
    ensures |r| == 6 && r[0] == '\\' && r[1] == 'u' && r[2..] == Hex4(n)
  {
    "\\u" + Hex4(n)
  }

  /** High and low surrogates of a code point above U+FFFF. */
  function HighSurrogate(c: int): (h: nat)
    requires 0x10000 <= c < 0x110000
    ensures 0xD800 <= h < 0xDC00
  {
    0xD800 + (c - 0x10000) / 0x400
  }

  function LowSurrogate(c: int): (l: nat)
    requires 0x10000 <= c < 0x110000
    ensures 0xDC00 <= l < 0xE000
  {
    0xDC00 + (c - 0x10000) % 0x400
  }

  /** The code point a high and a low surrogate stand for together. */
  function JoinSurrogates(h: nat, l: nat): (c: int)
    requires 0xD800 <= h < 0xDC00 && 0xDC00 <= l < 0xE000
    ensures 0x10000 <= c < 0x110000
  {
    0x10000 + (h - 0xD800) * 0x400 + (l - 0xDC00)
  }

  /** How `json.dumps` writes one character inside a string. */
  function EscapeChar(c: char): string {
    if c == '"' then "\\\""
    else if c == '\\' then "\\\\"
    else if c == '\n' then "\\n"
    else if c == '\r' then "\\r"
    else if c == '\t' then "\\t"
    else if c == '\U{8}' then "\\b"
    else if c == '\U{C}' then "\\f"
    else if c as int < 0x20 then UnitEscape(c as int)
    else if c as int < 0x7F then [c]
    else if c as int < 0x10000 then UnitEscape(c as int)
    else UnitEscape(HighSurrogate(c as int)) + UnitEscape(LowSurrogate(c as int))
  }

  /** DEL is a control character to `ensure_ascii` and gets a unit escape. */
  lemma EscapeDel()
    ensures EscapeChar('\U{7F}') == "\\u007f"
  {
    assert Hex4(0x7F) == "007f";
  }

  function Escape(s: string): string {
    if |s| == 0 then "" else EscapeChar(s[0]) + Escape(s[1..])
  }

  /** One escaped character is plain ASCII text. */
  lemma EscapeCharAscii(c: char)
    ensures IsAscii(EscapeChar(c)) && |EscapeChar(c)| > 0
  {
  }

  /** `ensure_ascii`: the escaped text never contains a character beyond U+007F. */
  lemma {:induction false} EscapeAscii(s: string)
    ensures IsAscii(Escape(s))
  {
    if |s| > 0 {
      EscapeCharAscii(s[0]);
      EscapeAscii(s[1..]);
    }
  }

  /** A JSON string literal. */
  function Quote(s: string): (r: string)
    ensures |r| >= 2 && r[0] == '"' && r[|r| - 1] == '"'
    ensures r[1..|r| - 1] == Escape(s)
  {
    "\"" + Escape(s) + "\""
  }

  /** A character `json.dumps` writes as itself. */
  predicate Plain(c: char) {
    0x20 <= c as int < 0x7F && c != '"' && c != '\\'
  }

  /** Printable ASCII (space to `~`) without quote or backslash needs no escaping. */
  lemma {:induction false} EscapePlain(s: string)
    requires forall i :: 0 <= i < |s| ==> Plain(s[i])
    ensures Escape(s) == s
  {
    if |s| > 0 {
      EscapePlain(s[1..]);
      assert [s[0]] + s[1..] == s;
    }
  }

  lemma QuotePlain(s: string)
    requires forall i :: 0 <= i < |s| ==> Plain(s[i])
    ensures Quote(s) == "\"" + s + "\""
  {
    EscapePlain(s);
  }

  // ---------------------------------------------------------- unescaping

  /** The character a short escape `\x` stands for. */
  function ShortEscape(x: char): Option<char> {
    if x == '"' then Some('"')
    else if x == '\\' then Some('\\')
    else if x == '/' then Some('/')
    else if x == 'n' then Some('\n')
    else if x == 'r' then Some('\r')
    else if x == 't' then Some('\t')
    else if x == 'b' then Some('\U{8}')
    else if x == 'f' then Some('\U{C}')
    else None
  }

  /**
   * The characters a JSON string body stands for; `None` for a raw quote, a
   * dangling backslash, an unknown escape or an unpaired surrogate.
   */
  function Unescape(s: string): Option<string>
    decreases |s|
  {
    if |s| == 0 then Some("")
    else if s[0] == '"' then None
    else if s[0] != '\\' then
      var rest :- Unescape(s[1..]);
      Some([s[0]] + rest)
    else if |s| < 2 then None
    else if s[1] != 'u' then
      var c :- ShortEscape(s[1]);
      var rest :- Unescape(s[2..]);
      Some([c] + rest)
    else if |s| < 6 then None
    else
      var h :- Hex4Value(s[2..6]);
      if h < 0xD800 || 0xE000 <= h then
        var rest :- Unescape(s[6..]);
        Some([h as char] + rest)
      else if 0xDC00 <= h || |s| < 12 || s[6] != '\\' || s[7] != 'u' then None
      else
        var l :- Hex4Value(s[8..12]);
        if l < 0xDC00 || 0xE000 <= l then None
        else
          var rest :- Unescape(s[12..]);
          Some([JoinSurrogates(h, l) as char] + rest)
  }

  /** `c` written, then anything, reads back as `c` followed by what the rest reads as. */
  function Prepend(c: char, r: Option<string>): Option<string> {
    if r.Some? then Some([c] + r.value) else None
  }

  lemma UnescapeUnit(c: char, rest: string)
    requires (c as int < 0xD800 || 0xE000 <= c as int) && c as int < 0x10000
    ensures Unescape(UnitEscape(c as int) + rest) == Prepend(c, Unescape(rest))
  {
    var s := UnitEscape(c as int) + rest;
    assert s[2..6] == Hex4(c as int);
    Hex4RoundTrip(c as int);
    assert s[6..] == rest;
  }

  lemma UnescapePair(c: char, rest: string)
    requires 0x10000 <= c as int
    ensures Unescape(UnitEscape(HighSurrogate(c as int)) + UnitEscape(LowSurrogate(c as int)) + rest)
        == Prepend(c, Unescape(rest))
  {
    var h, l := HighSurrogate(c as int), LowSurrogate(c as int);
    SurrogatesJoin(c as int);
    UnescapeSurrogates(h, l, c, rest);
  }

  /** The two halves of a surrogate pair combine back into the code point. */
  lemma SurrogatesJoin(c: int)
    requires 0x10000 <= c < 0x110000
    ensures JoinSurrogates(HighSurrogate(c), LowSurrogate(c)) == c
  {
    var v := c - 0x10000;
    assert v == (v / 0x400) * 0x400 + v % 0x400;
  }

  /** A high and a low surrogate escape read back as the code point they combine into. */
  lemma UnescapeSurrogates(h: nat, l: nat, c: char, rest: string)
    requires 0xD800 <= h < 0xDC00 && 0xDC00 <= l < 0xE000
    requires c as int == JoinSurrogates(h, l)
    ensures Unescape(UnitEscape(h) + UnitEscape(l) + rest) == Prepend(c, Unescape(rest))
  {
    var s := UnitEscape(h) + UnitEscape(l) + rest;
    assert s[0] == '\\' && s[1] == 'u' && s[2..6] == Hex4(h);
    assert s[6] == '\\' && s[7] == 'u';
    assert s[8..12] == Hex4(l);
    assert s[12..] == rest;
    Hex4RoundTrip(h);
    Hex4RoundTrip(l);
    UnescapeSurrogateBranch(s, h, l, c);
  }

  /** A text opening with a high and a low surrogate escape reads as their code point, then the rest. */
  lemma UnescapeSurrogateBranch(s: string, h: nat, l: nat, c: char)
    requires |s| >= 12 && s[0] == '\\' && s[1] == 'u' && s[6] == '\\' && s[7] == 'u'
    requires Hex4Value(s[2..6]) == Some(h) && Hex4Value(s[8..12]) == Some(l)
    requires 0xD800 <= h < 0xDC00 && 0xDC00 <= l < 0xE000
    requires c as int == JoinSurrogates(h, l)
    ensures Unescape(s) == Prepend(c, Unescape(s[12..]))
  {
  }

  lemma UnescapeShort(c: char, x: char, rest: string)
    requires ShortEscape(x) == Some(c) && x != 'u'
    ensures Unescape(['\\', x] + rest) == Prepend(c, Unescape(rest))
  {
    assert (['\\', x] + rest)[2..] == rest;
  }

  lemma UnescapePlain(c: char, rest: string)
    requires c != '"' && c != '\\'
    ensures Unescape([c] + rest) == Prepend(c, Unescape(rest))
  {
    assert ([c] + rest)[1..] == rest;
  }

  /** One escaped character reads back as itself. */
  lemma UnescapeEscapeChar(c: char, rest: string)
    ensures Unescape(EscapeChar(c) + rest) == Prepend(c, Unescape(rest))
  {
    if c == '"' { UnescapeShort(c, '"', rest); }
    else if c == '\\' { UnescapeShort(c, '\\', rest); }
    else if c == '\n' { UnescapeShort(c, 'n', rest); }
    else if c == '\r' { UnescapeShort(c, 'r', rest); }
    else if c == '\t' { UnescapeShort(c, 't', rest); }
    else if c == '\U{8}' { UnescapeShort(c, 'b', rest); }
    else if c == '\U{C}' { UnescapeShort(c, 'f', rest); }
    else if c as int < 0x20 { UnescapeUnit(c, rest); }
    else if c as int < 0x7F { UnescapePlain(c, rest); }
    else if c as int < 0x10000 { UnescapeUnit(c, rest); }
    else {
      assert EscapeChar(c) + rest == UnitEscape(HighSurrogate(c as int)) + UnitEscape(LowSurrogate(c as int)) + rest;
      UnescapePair(c, rest);
    }
  }

  /** Escaping loses nothing: the escaped text reads back as the original string. */
  lemma {:induction false} UnescapeEscape(s: string)
    ensures Unescape(Escape(s)) == Some(s)
  {
    if |s| > 0 {
      UnescapeEscape(s[1..]);
      UnescapeEscapeChar(s[0], Escape(s[1..]));
      assert [s[0]] + s[1..] == s;
    }
  }

  // ------------------------------------------------------------- objects

  /** One `"k":v` member. */
  function Member(k: string, v: string): string {
    Quote(k) + ":" + v
  }

  /** `"k":v` members, already-written values, joined by commas. */
  function Members(entries: seq<(string, string)>): string {
    if |entries| == 0 then ""
    else
      var m := Member(entries[0].0, entries[0].1);
      if |entries| == 1 then m else m + "," + Members(entries[1..])
  }

  /** A compact object from keys and already-written values. */
  function CompactObject(entries: seq<(string, string)>): (r: string)
    ensures |r| >= 2 && r[0] == '{' && r[|r| - 1] == '}'
  {
    "{" + Members(entries) + "}"
  }

  /** A compact object of string values. */
  function StringObject(entries: seq<(string, string)>): string {
    CompactObject(seq(|entries|, i requires 0 <= i < |entries| => (entries[i].0, Quote(entries[i].1))))
  }

  /** The text of a three-member object. */
  lemma CompactObjectThree(k1: string, v1: string, k2: string, v2: string, k3: string, v3: string)
    ensures CompactObject([(k1, v1), (k2, v2), (k3, v3)])
      == "{" + Member(k1, v1) + "," + (Member(k2, v2) + "," + Member(k3, v3)) + "}"
  {
    MembersCons((k1, v1), [(k2, v2), (k3, v3)]);
    MembersCons((k2, v2), [(k3, v3)]);
    assert [(k1, v1)] + [(k2, v2), (k3, v3)] == [(k1, v1), (k2, v2), (k3, v3)];
    assert [(k2, v2)] + [(k3, v3)] == [(k2, v2), (k3, v3)];
    BraceRegroup(Member(k1, v1), Member(k2, v2) + "," + Member(k3, v3));
  }

  lemma BraceRegroup(a: string, b: string)
    ensures "{" + (a + "," + b) + "}" == "{" + a + "," + b + "}"
  {
  }

  /** A member in front of at least one more is followed by a comma. */
  lemma MembersCons(e: (string, string), rest: seq<(string, string)>)
    requires |rest| > 0
    ensures Members([e] + rest) == Member(e.0, e.1) + "," + Members(rest)
  {
    assert ([e] + rest)[1..] == rest;
  }

  /** The text of a non-empty object starts with its first member. */
  lemma CompactObjectStart(entries: seq<(string, string)>)
    requires |entries| > 0
    ensures var first := "{" + Member(entries[0].0, entries[0].1);
      |first| <= |CompactObject(entries)| && CompactObject(entries)[..|first|] == first
  {
    var m := Member(entries[0].0, entries[0].1);
    var tail := if |entries| == 1 then "" else "," + Members(entries[1..]);
    assert Members(entries) == m + tail;
    Regroup("{", m, tail, "}");
  }

  lemma Regroup(a: string, b: string, c: string, d: string)
    ensures a + (b + c) + d == (a + b) + (c + d)
    ensures ((a + b) + (c + d))[..|a + b|] == a + b
  {
  }
}

=== FILE: models_common.dfy ===
/**
 * The shared Ynison protocol records of the bridge (`ynison/models/common.py`):
 * the enums with case-insensitive lookup, ids, keep-alive parameters,
 * versions, track info and playable items.
 *
 * Every record has a decoder (pydantic validation of a decoded JSON object;
 * `None` stands for a validation error) and a dump (`model_dump`), and the
 * two are proved inverse.  Default factories that read the clock or draw a
 * uuid take their value from a `Fresh` argument.
 */
module ModelsCommon {
  import opened Wrappers
  import opened Text
  import opened Json
  import opened Validation

  /** Values the default factories would produce at validation time. */
  datatype Fresh = Fresh(nowMs: int, uuid: string)

  // ---------------------------------------------------------------- enums

  datatype EntityType =
    | Unspecified | Album | Artist | Various | Radio | Generative
    | FmRadio | VideoWave | LocalTracks | Playlist

  function EntityTypeName(e: EntityType): string {
    match e
    case Unspecified => "UNSPECIFIED"
    case Album => "ALBUM"
    case Artist => "ARTIST"
    case Various => "VARIOUS"
    case Radio => "RADIO"
    case Generative => "GENERATIVE"
    case FmRadio => "FM_RADIO"
    case VideoWave => "VIDEO_WAVE"
    case LocalTracks => "LOCAL_TRACKS"
    case Playlist => "PLAYLIST"
  }

  /**
   * Enum lookup with the `_missing_` fallback: the first member, in
   * declaration order, whose value equals the input once both are upper-cased.
   * The values are upper-case already, and an exact match is one of these, so
   * the plain lookup needs no case of its own.
   */
  function ParseEntityType(s: string): Option<EntityType> {
    var u := Upper(s);
    if u == "UNSPECIFIED" then Some(Unspecified)
    else if u == "ALBUM" then Some(Album)
    else if u == "ARTIST" then Some(Artist)
    else if u == "VARIOUS" then Some(Various)
    else if u == "RADIO" then Some(Radio)
    else if u == "GENERATIVE" then Some(Generative)
    else if u == "FM_RADIO" then Some(FmRadio)
    else if u == "VIDEO_WAVE" then Some(VideoWave)
    else if u == "LOCAL_TRACKS" then Some(LocalTracks)
    else if u == "PLAYLIST" then Some(Playlist)
    else None
  }

  /** Every member's value is upper-case, so it is its own `.upper()`. */
  lemma EntityTypeNameUpper(e: EntityType)
    ensures Upper(EntityTypeName(e)) == EntityTypeName(e)
  {
    UpperFixed(EntityTypeName(e));
  }

  /** Whatever the lookup returns carries the input's value up to case. */
  lemma ParseEntityTypeSound(s: string, e: EntityType)
    requires ParseEntityType(s) == Some(e)
    ensures Upper(s) == EntityTypeName(e)
  {
    var u := Upper(s);
    if u == "UNSPECIFIED" {
    } else if u == "ALBUM" {
    } else if u == "ARTIST" {
    } else if u == "VARIOUS" {
    } else if u == "RADIO" {
    } else if u == "GENERATIVE" {
    } else if u == "FM_RADIO" {
    } else if u == "VIDEO_WAVE" {
    } else if u == "LOCAL_TRACKS" {
    } else if u == "PLAYLIST" {
    }
  }

  /** Any casing of a member's value resolves to that member, and nothing else resolves to it. */
  lemma ParseEntityTypeIff(s: string, e: EntityType)
    ensures ParseEntityType(s) == Some(e) <==> EqualsIgnoreCase(s, EntityTypeName(e))
  {
    EntityTypeNameUpper(e);
    if ParseEntityType(s) == Some(e) {
      ParseEntityTypeSound(s, e);
    }
  }

  /** A dotless i upper-cases to `I`, so "art\u0131st" is the artist type, as in Python. */
  lemma DotlessIResolves()
    ensures ParseEntityType("art\U{131}st") == Some(Artist)
  {
    var s := "art\U{131}st";
    assert seq(|s|, i requires 0 <= i < |s| => UpperOf(s[i])) == ["A", "R", "T", "I", "S", "T"];
    assert Concat(["A", "R", "T", "I", "S", "T"]) == "ARTIST";
  }

  /** The `st` ligature upper-cases to two letters, `ST`. */
  lemma LigatureResolves()
    ensures ParseEntityType("arti\U{FB06}") == Some(Artist)
  {
    var s := "arti\U{FB06}";
    assert seq(|s|, i requires 0 <= i < |s| => UpperOf(s[i])) == ["A", "R", "T", "I", "ST"];
    assert Concat(["A", "R", "T", "I", "ST"]) == "ARTIST";
  }

  datatype EntityContext = BasedOnEntityByDefault

  function EntityContextName(c: EntityContext): string {
    "BASED_ON_ENTITY_BY_DEFAULT"
  }

  /** Case-insensitive lookup of the single entity context. */
  function ParseEntityContext(s: string): Option<EntityContext> {
    if Upper(s) == "BASED_ON_ENTITY_BY_DEFAULT" then Some(BasedOnEntityByDefault) else None
  }

  datatype PlayableItemType = Track

  function PlayableItemTypeName(t: PlayableItemType): string {
    "TRACK"
  }

  /** Only "track", in any casing, is a playable item type. */
  function ParsePlayableItemType(s: string): Option<PlayableItemType> {
    if Upper(s) == "TRACK" then Some(Track) else None
  }

  /** The stored value of each member reads back as that member. */
  lemma EntityTypeOfName(e: EntityType)
    ensures EntityTypeOf(Str(EntityTypeName(e))) == Some(e)
  {
    EntityTypeNameUpper(e);
  }

  lemma EntityContextOfName(c: EntityContext)
    ensures EntityContextOf(Str(EntityContextName(c))) == Some(c)
  {
    UpperFixed(EntityContextName(c));
  }

  lemma PlayableItemTypeOfName(t: PlayableItemType)
    ensures PlayableItemTypeOf(Str(PlayableItemTypeName(t))) == Some(t)
  {
    UpperFixed(PlayableItemTypeName(t));
  }

  function EntityTypeOf(v: Value): Option<EntityType> {
    if v.Str? then ParseEntityType(v.s) else None
  }

  function EntityContextOf(v: Value): Option<EntityContext> {
    if v.Str? then ParseEntityContext(v.s) else None
  }

  function PlayableItemTypeOf(v: Value): Option<PlayableItemType> {
    if v.Str? then ParsePlayableItemType(v.s) else None
  }

  // ------------------------------------------------------- small records

  function OptStr(x: Option<string>): Value {
    if x.Some? then Str(x.value) else Null
  }

  function OptBool(x: Option<bool>): Value {
    if x.Some? then Bool(x.value) else Null
  }

  datatype KeepAliveParams = KeepAliveParams(keepAliveTimeSeconds: int, keepAliveTimeoutSeconds: int)

  function DecodeKeepAliveParams(v: Value): (r: Option<KeepAliveParams>)
    ensures r.Some? ==> v.Obj? && "keep_alive_time_seconds" in ToMap(v.fields) && "keep_alive_timeout_seconds" in ToMap(v.fields)
  {
    var fs :- ObjOf(v);
    var time :- Required(fs, "keep_alive_time_seconds", IntOf);
    var timeout :- Required(fs, "keep_alive_timeout_seconds", IntOf);
    Some(KeepAliveParams(time, timeout))
  }

  function DumpKeepAliveParams(x: KeepAliveParams): Value {
    Obj(Cons("keep_alive_time_seconds", IntValue(x.keepAliveTimeSeconds),
        Cons("keep_alive_timeout_seconds", IntValue(x.keepAliveTimeoutSeconds), [])))
  }

  lemma KeepAliveParamsRoundTrip(x: KeepAliveParams)
    ensures DecodeKeepAliveParams(DumpKeepAliveParams(x)) == Some(x)
  {
    ConsMap("keep_alive_timeout_seconds", IntValue(x.keepAliveTimeoutSeconds), []);
    ConsMap("keep_alive_time_seconds", IntValue(x.keepAliveTimeSeconds), DumpKeepAliveParams(x).fields[1..]);
  }

  /** `version: Union[str, int]`: a string stays a string, an integer stays an integer. */
  datatype VersionTag = VStr(s: string) | VInt(i: int)

  function VersionTagOf(v: Value): Option<VersionTag> {
    if v.Str? then Some(VStr(v.s))
    else if v.Num? && v.n == v.n.Floor as real then Some(VInt(v.n.Floor))
    else None
  }

  function VersionTagValue(t: VersionTag): Value {
    match t
    case VStr(s) => Str(s)
    case VInt(i) => IntValue(i)
  }

  datatype Version = Version(deviceId: string, version: VersionTag, timestampMs: int)

  /** A version: the tag defaults to the current time in ms as a string, the timestamp to the current time. */
  function DecodeVersion(env: Fresh, v: Value): (r: Option<Version>)
    ensures r.Some? ==> v.Obj? && "device_id" in ToMap(v.fields)
    ensures r.Some? && "version" !in ToMap(v.fields) ==> r.value.version == VStr(IntToString(env.nowMs))
    ensures r.Some? && "timestamp_ms" !in ToMap(v.fields) ==> r.value.timestampMs == env.nowMs
  {
    var fs :- ObjOf(v);
    var deviceId :- Required(fs, "device_id", StrOf);
    var tag :- Defaulted(fs, "version", VersionTagOf, VStr(IntToString(env.nowMs)));
    var ts :- Defaulted(fs, "timestamp_ms", IntOf, env.nowMs);
    Some(Version(deviceId, tag, ts))
  }

  function DumpVersion(x: Version): Value {
    Obj(Cons("device_id", Str(x.deviceId),
        Cons("version", VersionTagValue(x.version),
        Cons("timestamp_ms", IntValue(x.timestampMs), []))))
  }

  lemma VersionRoundTrip(env: Fresh, x: Version)
    ensures DecodeVersion(env, DumpVersion(x)) == Some(x)
  {
    var fs := DumpVersion(x).fields;
    ConsMap("timestamp_ms", IntValue(x.timestampMs), []);
    ConsMap("version", VersionTagValue(x.version), fs[2..]);
    ConsMap("device_id", Str(x.deviceId), fs[1..]);
  }

  datatype TrackInfo = TrackInfo(trackSourceKey: int)

  function DecodeTrackInfo(v: Value): Option<TrackInfo> {
    var fs :- ObjOf(v);
    var key :- Required(fs, "track_source_key", IntOf);
    Some(TrackInfo(key))
  }

  function DumpTrackInfo(x: TrackInfo): Value {
    Obj(Cons("track_source_key", IntValue(x.trackSourceKey), []))
  }

  lemma TrackInfoRoundTrip(x: TrackInfo)
    ensures DecodeTrackInfo(DumpTrackInfo(x)) == Some(x)
  {
  }

  // -------------------------------------------------------- playable item

  datatype PlayableItem = PlayableItem(
    albumId: Option<string>,
    coverUrl: Option<string>,
    from: string,
    playableId: string,
    playableType: PlayableItemType,
    title: Option<string>,
    trackInfo: Option<TrackInfo>,
    playbackActionId: Option<string>,
    navigationId: Option<string>)

  /** `from_` is read under its alias "from", or under its field name when the alias is absent. */
  function FromField(m: Dict): Option<Value> {
    if "from" in m then Some(m["from"]) else if "from_" in m then Some(m["from_"]) else None
  }

  /** A playable item: `from`, `playable_id` and `playable_type` are required, every other field defaults to `None`. */
  function PlayableItemOf(m: Dict): (r: Option<PlayableItem>)
    ensures r.Some? ==> FromField(m).Some? && "playable_id" in m && "playable_type" in m
    ensures r.Some? && "title" !in m ==> r.value.title.None?
    ensures r.Some? && "album_id_optional" !in m ==> r.value.albumId.None?
  {
    var albumId :- Optional(m, "album_id_optional", StrOf);
    var coverUrl :- Optional(m, "cover_url_optional", StrOf);
    var fromValue :- FromField(m);
    var from :- StrOf(fromValue);
    var playableId :- Required(m, "playable_id", StrOf);
    var playableType :- Required(m, "playable_type", PlayableItemTypeOf);
    var title :- Optional(m, "title", StrOf);
    var trackInfo :- Optional(m, "track_info", DecodeTrackInfo);
    var playbackActionId :- Optional(m, "playback_action_id_optional", StrOf);
    var navigationId :- Optional(m, "navigation_id_optional", StrOf);
    Some(PlayableItem(albumId, coverUrl, from, playableId, playableType, title, trackInfo, playbackActionId, navigationId))
  }

  function DecodePlayableItem(v: Value): Option<PlayableItem> {
    var m :- ObjOf(v);
    PlayableItemOf(m)
  }

  function DumpPlayableItem(x: PlayableItem, o: DumpOptions): Value {
    Obj(Emit(o,
      Cons("album_id_optional", OptStr(x.albumId),
      Cons("cover_url_optional", OptStr(x.coverUrl),
      Cons(if o.byAlias then "from" else "from_", Str(x.from),
      Cons("playable_id", Str(x.playableId),
      Cons("playable_type", Str(PlayableItemTypeName(x.playableType)),
      Cons("title", OptStr(x.title),
      Cons("track_info", if x.trackInfo.Some? then DumpTrackInfo(x.trackInfo.value) else Null,
      Cons("playback_action_id_optional", OptStr(x.playbackActionId),
      Cons("navigation_id_optional", OptStr(x.navigationId), [])))))))))))
  }

  /** The dumped fields of a playable item as a dictionary (`None` fields kept). */
  function PlayableItemEntries(x: PlayableItem, o: DumpOptions): Dict {
    map[
      "navigation_id_optional" := OptStr(x.navigationId),
      "playback_action_id_optional" := OptStr(x.playbackActionId),
      "track_info" := (if x.trackInfo.Some? then DumpTrackInfo(x.trackInfo.value) else Null),
      "title" := OptStr(x.title),
      "playable_type" := Str(PlayableItemTypeName(x.playableType)),
      "playable_id" := Str(x.playableId),
      (if o.byAlias then "from" else "from_") := Str(x.from),
      "cover_url_optional" := OptStr(x.coverUrl),
      "album_id_optional" := OptStr(x.albumId)]
  }

  lemma PlayableItemDict(x: PlayableItem, o: DumpOptions)
    requires !o.excludeNone
    ensures ToMap(DumpPlayableItem(x, o).fields) == PlayableItemEntries(x, o)
  {
    var fs := DumpPlayableItem(x, o).fields;
    ConsMap("navigation_id_optional", OptStr(x.navigationId), []);
    ConsMap("playback_action_id_optional", OptStr(x.playbackActionId), fs[8..]);
    ConsMap("track_info", if x.trackInfo.Some? then DumpTrackInfo(x.trackInfo.value) else Null, fs[7..]);
    ConsMap("title", OptStr(x.title), fs[6..]);
    ConsMap("playable_type", Str(PlayableItemTypeName(x.playableType)), fs[5..]);
    ConsMap("playable_id", Str(x.playableId), fs[4..]);
    ConsMap(if o.byAlias then "from" else "from_", Str(x.from), fs[3..]);
    ConsMap("cover_url_optional", OptStr(x.coverUrl), fs[2..]);
    ConsMap("album_id_optional", OptStr(x.albumId), fs[1..]);
  }

  lemma PlayableItemFields(x: PlayableItem, o: DumpOptions)
    ensures var m := PlayableItemEntries(x, o);
      && Optional(m, "album_id_optional", StrOf) == Some(x.albumId)
      && Optional(m, "cover_url_optional", StrOf) == Some(x.coverUrl)
      && FromField(m) == Some(Str(x.from))
      && Required(m, "playable_id", StrOf) == Some(x.playableId)
      && Required(m, "playable_type", PlayableItemTypeOf) == Some(x.playableType)
      && Optional(m, "title", StrOf) == Some(x.title)
      && Optional(m, "track_info", DecodeTrackInfo) == Some(x.trackInfo)
      && Optional(m, "playback_action_id_optional", StrOf) == Some(x.playbackActionId)
      && Optional(m, "navigation_id_optional", StrOf) == Some(x.navigationId)
  {
    PlayableItemLookups(x, o);
    PlayableItemTypeOfName(x.playableType);
    if x.trackInfo.Some? {
      TrackInfoRoundTrip(x.trackInfo.value);
    }
  }

  lemma PlayableItemLookups(x: PlayableItem, o: DumpOptions)
    ensures var m := PlayableItemEntries(x, o);
      && "album_id_optional" in m && m["album_id_optional"] == OptStr(x.albumId)
      && "cover_url_optional" in m && m["cover_url_optional"] == OptStr(x.coverUrl)
      && FromField(m) == Some(Str(x.from))
      && "playable_id" in m && m["playable_id"] == Str(x.playableId)
      && "playable_type" in m && m["playable_type"] == Str(PlayableItemTypeName(x.playableType))
      && "title" in m && m["title"] == OptStr(x.title)
      && "track_info" in m && m["track_info"] == (if x.trackInfo.Some? then DumpTrackInfo(x.trackInfo.value) else Null)
      && "playback_action_id_optional" in m && m["playback_action_id_optional"] == OptStr(x.playbackActionId)
      && "navigation_id_optional" in m && m["navigation_id_optional"] == OptStr(x.navigationId)
  {
    PlayableItemRequiredLookups(x, o);
    PlayableItemOptionalLookups(x, o);
  }

  /** The required fields of a dumped playable item sit at their keys. */
  lemma PlayableItemRequiredLookups(x: PlayableItem, o: DumpOptions)
    ensures var m := PlayableItemEntries(x, o);
      && FromField(m) == Some(Str(x.from))
      && "playable_id" in m && m["playable_id"] == Str(x.playableId)
      && "playable_type" in m && m["playable_type"] == Str(PlayableItemTypeName(x.playableType))
  {
  }

  /** The optional fields of a dumped playable item sit at their keys. */
  lemma PlayableItemOptionalLookups(x: PlayableItem, o: DumpOptions)
    ensures var m := PlayableItemEntries(x, o);
      && "album_id_optional" in m && m["album_id_optional"] == OptStr(x.albumId)
      && "cover_url_optional" in m && m["cover_url_optional"] == OptStr(x.coverUrl)
      && "title" in m && m["title"] == OptStr(x.title)
      && "track_info" in m && m["track_info"] == (if x.trackInfo.Some? then DumpTrackInfo(x.trackInfo.value) else Null)
      && "playback_action_id_optional" in m && m["playback_action_id_optional"] == OptStr(x.playbackActionId)
      && "navigation_id_optional" in m && m["navigation_id_optional"] == OptStr(x.navigationId)
  {
    if !o.byAlias {
      assert "title" != "from_" by { assert "title"[0] != "from_"[0]; }
    }
  }

  lemma PlayableItemOfEntries(x: PlayableItem, o: DumpOptions)
    ensures PlayableItemOf(PlayableItemEntries(x, o)) == Some(x)
  {
    PlayableItemFields(x, o);
  }

  /** A playable item dumped with `None` fields kept, by alias or by name, validates back to itself. */
  lemma PlayableItemRoundTrip(x: PlayableItem, o: DumpOptions)
    requires !o.excludeNone
    ensures DecodePlayableItem(DumpPlayableItem(x, o)) == Some(x)
  {
    PlayableItemDict(x, o);
    PlayableItemOfEntries(x, o);
  }
  // ------------------------------------------------------------- id, lists

  /** `YnisonId`: a record holding one required string `id`. */
  datatype YnisonId = YnisonId(id: string)

  function DecodeYnisonId(v: Value): (r: Option<YnisonId>)
    ensures r.Some? ==> v.Obj? && "id" in ToMap(v.fields)
  {
    var m :- ObjOf(v);
    var id :- Required(m, "id", StrOf);
    Some(YnisonId(id))
  }

  function DumpYnisonId(x: YnisonId): Value {
    Obj(Cons("id", Str(x.id), []))
  }

  lemma YnisonIdRoundTrip(x: YnisonId)
    ensures DecodeYnisonId(DumpYnisonId(x)) == Some(x)
  {
  }

  /** Validation of a `Version` field, as a function value. */
  function VersionDecoder(env: Fresh): Value -> Option<Version> {
    v => DecodeVersion(env, v)
  }
  /** `List[...]` of PlayableItem: every element must validate. */
  function DecodePlayableList(v: Value): Option<seq<PlayableItem>> {
    ListOf(v, DecodePlayableItem)
  }

  function PlayableItemEncoder(o: DumpOptions): PlayableItem -> Value {
    x => DumpPlayableItem(x, o)
  }

  function DumpPlayableList(xs: seq<PlayableItem>, o: DumpOptions): Value {
    ListValue(xs, PlayableItemEncoder(o))
  }

  lemma PlayableListRoundTrip(xs: seq<PlayableItem>, o: DumpOptions)
    requires !o.excludeNone
    ensures DecodePlayableList(DumpPlayableList(xs, o)) == Some(xs)
  {
    forall x ensures DecodePlayableItem(PlayableItemEncoder(o)(x)) == Some(x) {
      PlayableItemRoundTrip(x, o);
    }
    ListRoundTrip(xs, PlayableItemEncoder(o), DecodePlayableItem);
  }
}

=== FILE: models_device.dfy ===
/**
 * The device records (`ynison/models/device.py`): identity, capabilities,
 * volume, the device as announced and the full device the server reports.
 */
module ModelsDevice {
  import opened Wrappers
  import opened Json
  import opened Validation
  import opened ModelsCommon

  datatype DeviceInfo = DeviceInfo(
    deviceId: string,
    deviceType: string,
    title: string,
    appName: string,
    appVersion: string)

  /** Device identity: all five strings are required. */
  function DeviceInfoFromDict(m: Dict): (r: Option<DeviceInfo>)
    ensures r.Some? ==> "device_id" in m && "type" in m && "title" in m && "app_name" in m && "app_version" in m
  {
    var deviceId :- Required(m, "device_id", StrOf);
    var deviceType :- Required(m, "type", StrOf);
    var title :- Required(m, "title", StrOf);
    var appName :- Required(m, "app_name", StrOf);
    var appVersion :- Required(m, "app_version", StrOf);
    Some(DeviceInfo(deviceId, deviceType, title, appName, appVersion))
  }

  function DecodeDeviceInfo(v: Value): Option<DeviceInfo> {
    var m :- ObjOf(v);
    DeviceInfoFromDict(m)
  }

  function DumpDeviceInfo(x: DeviceInfo, o: DumpOptions): Value {
    Obj(Emit(o,
      Cons("device_id", Str(x.deviceId),
      Cons("type", Str(x.deviceType),
      Cons("title", Str(x.title),
      Cons("app_name", Str(x.appName),
      Cons("app_version", Str(x.appVersion),
      [])))))))
  }

  function DeviceInfoEntries(x: DeviceInfo, o: DumpOptions): Dict {
    map[
      "app_version" := Str(x.appVersion),
      "app_name" := Str(x.appName),
      "title" := Str(x.title),
      "type" := Str(x.deviceType),
      "device_id" := Str(x.deviceId)]
  }

  lemma DeviceInfoDict(x: DeviceInfo, o: DumpOptions)
    requires !o.excludeNone
    ensures ToMap(DumpDeviceInfo(x, o).fields) == DeviceInfoEntries(x, o)
  {
    ConsMap("app_version", Str(x.appVersion), []);
    ConsMap("app_name", Str(x.appName), Cons("app_version", Str(x.appVersion), []));
    ConsMap("title", Str(x.title), Cons("app_name", Str(x.appName), Cons("app_version", Str(x.appVersion), [])));
    ConsMap("type", Str(x.deviceType), Cons("title", Str(x.title), Cons("app_name", Str(x.appName), Cons("app_version", Str(x.appVersion), []))));
    ConsMap("device_id", Str(x.deviceId), Cons("type", Str(x.deviceType), Cons("title", Str(x.title), Cons("app_name", Str(x.appName), Cons("app_version", Str(x.appVersion), [])))));
  }

  lemma DeviceInfoReadsDeviceId(x: DeviceInfo, o: DumpOptions)
    requires !o.excludeNone
    ensures var m := DeviceInfoEntries(x, o); Required(m, "device_id", StrOf) == Some(x.deviceId)
  {
    assert "device_id" in DeviceInfoEntries(x, o) && DeviceInfoEntries(x, o)["device_id"] == Str(x.deviceId);
  }

  lemma DeviceInfoReadsDeviceType(x: DeviceInfo, o: DumpOptions)
    requires !o.excludeNone
    ensures var m := DeviceInfoEntries(x, o); Required(m, "type", StrOf) == Some(x.deviceType)
  {
    assert "type" in DeviceInfoEntries(x, o) && DeviceInfoEntries(x, o)["type"] == Str(x.deviceType);
  }

  lemma DeviceInfoReadsTitle(x: DeviceInfo, o: DumpOptions)
    requires !o.excludeNone
    ensures var m := DeviceInfoEntries(x, o); Required(m, "title", StrOf) == Some(x.title)
  {
    assert "title" in DeviceInfoEntries(x, o) && DeviceInfoEntries(x, o)["title"] == Str(x.title);
  }

  lemma DeviceInfoReadsAppName(x: DeviceInfo, o: DumpOptions)
    requires !o.excludeNone
    ensures var m := DeviceInfoEntries(x, o); Required(m, "app_name", StrOf) == Some(x.appName)
  {
    assert "app_name" in DeviceInfoEntries(x, o) && DeviceInfoEntries(x, o)["app_name"] == Str(x.appName);
  }

  lemma DeviceInfoReadsAppVersion(x: DeviceInfo, o: DumpOptions)
    requires !o.excludeNone
    ensures var m := DeviceInfoEntries(x, o); Required(m, "app_version", StrOf) == Some(x.appVersion)
  {
    assert "app_version" in DeviceInfoEntries(x, o) && DeviceInfoEntries(x, o)["app_version"] == Str(x.appVersion);
  }

  /** Dumped with `None` fields kept, the record validates back to itself. */
  lemma DeviceInfoRoundTrip(x: DeviceInfo, o: DumpOptions)
    requires !o.excludeNone
    ensures DecodeDeviceInfo(DumpDeviceInfo(x, o)) == Some(x)
  {
    DeviceInfoDict(x, o);
    DeviceInfoReadsDeviceId(x, o);
    DeviceInfoReadsDeviceType(x, o);
    DeviceInfoReadsTitle(x, o);
    DeviceInfoReadsAppName(x, o);
    DeviceInfoReadsAppVersion(x, o);
  }

  datatype DeviceCapabilities = DeviceCapabilities(canBePlayer: bool, canBeRemoteController: bool, volumeGranularity: int)

  /** Capabilities: all three fields are required. */
  function DeviceCapabilitiesFromDict(m: Dict): (r: Option<DeviceCapabilities>)
    ensures r.Some? ==> "can_be_player" in m && "can_be_remote_controller" in m && "volume_granularity" in m
  {
    var canBePlayer :- Required(m, "can_be_player", BoolOf);
    var canBeRemoteController :- Required(m, "can_be_remote_controller", BoolOf);
    var volumeGranularity :- Required(m, "volume_granularity", IntOf);
    Some(DeviceCapabilities(canBePlayer, canBeRemoteController, volumeGranularity))
  }

  function DecodeDeviceCapabilities(v: Value): Option<DeviceCapabilities> {
    var m :- ObjOf(v);
    DeviceCapabilitiesFromDict(m)
  }

  function DumpDeviceCapabilities(x: DeviceCapabilities, o: DumpOptions): Value {
    Obj(Emit(o,
      Cons("can_be_player", Bool(x.canBePlayer),
      Cons("can_be_remote_controller", Bool(x.canBeRemoteController),
      Cons("volume_granularity", IntValue(x.volumeGranularity),
      [])))))
  }

  function DeviceCapabilitiesEntries(x: DeviceCapabilities, o: DumpOptions): Dict {
    map[
      "volume_granularity" := IntValue(x.volumeGranularity),
      "can_be_remote_controller" := Bool(x.canBeRemoteController),
      "can_be_player" := Bool(x.canBePlayer)]
  }

  lemma DeviceCapabilitiesDict(x: DeviceCapabilities, o: DumpOptions)
    requires !o.excludeNone
    ensures ToMap(DumpDeviceCapabilities(x, o).fields) == DeviceCapabilitiesEntries(x, o)
  {
    ConsMap("volume_granularity", IntValue(x.volumeGranularity), []);
    ConsMap("can_be_remote_controller", Bool(x.canBeRemoteController), Cons("volume_granularity", IntValue(x.volumeGranularity), []));
    ConsMap("can_be_player", Bool(x.canBePlayer), Cons("can_be_remote_controller", Bool(x.canBeRemoteController), Cons("volume_granularity", IntValue(x.volumeGranularity), [])));
  }

  lemma DeviceCapabilitiesReadsCanBePlayer(x: DeviceCapabilities, o: DumpOptions)
    requires !o.excludeNone
    ensures var m := DeviceCapabilitiesEntries(x, o); Required(m, "can_be_player", BoolOf) == Some(x.canBePlayer)
  {
    assert "can_be_player" in DeviceCapabilitiesEntries(x, o) && DeviceCapabilitiesEntries(x, o)["can_be_player"] == Bool(x.canBePlayer);
  }

  lemma DeviceCapabilitiesReadsCanBeRemoteController(x: DeviceCapabilities, o: DumpOptions)
    requires !o.excludeNone
    ensures var m := DeviceCapabilitiesEntries(x, o); Required(m, "can_be_remote_controller", BoolOf) == Some(x.canBeRemoteController)
  {
    assert "can_be_remote_controller" in DeviceCapabilitiesEntries(x, o) && DeviceCapabilitiesEntries(x, o)["can_be_remote_controller"] == Bool(x.canBeRemoteController);
  }

  lemma DeviceCapabilitiesReadsVolumeGranularity(x: DeviceCapabilities, o: DumpOptions)
    requires !o.excludeNone
    ensures var m := DeviceCapabilitiesEntries(x, o); Required(m, "volume_granularity", IntOf) == Some(x.volumeGranularity)
  {
    assert "volume_granularity" in DeviceCapabilitiesEntries(x, o) && DeviceCapabilitiesEntries(x, o)["volume_granularity"] == IntValue(x.volumeGranularity);
  }

  /** Dumped with `None` fields kept, the record validates back to itself. */
  lemma DeviceCapabilitiesRoundTrip(x: DeviceCapabilities, o: DumpOptions)
    requires !o.excludeNone
    ensures DecodeDeviceCapabilities(DumpDeviceCapabilities(x, o)) == Some(x)
  {
    DeviceCapabilitiesDict(x, o);
    DeviceCapabilitiesReadsCanBePlayer(x, o);
    DeviceCapabilitiesReadsCanBeRemoteController(x, o);
    DeviceCapabilitiesReadsVolumeGranularity(x, o);
  }

  /** The capabilities a device declares when the field is absent. */
  const DefaultCapabilities := DeviceCapabilities(false, false, 0)


  datatype VolumeInfo = VolumeInfo(volume: real, version: Option<Version>)

  /** Volume: the level is required, the version defaults to `None`. */
  function VolumeInfoFromDict(env: Fresh, m: Dict): (r: Option<VolumeInfo>)
    ensures r.Some? ==> "volume" in m
    ensures r.Some? && "version" !in m ==> r.value.version.None?
  {
    var volume :- Required(m, "volume", RealOf);
    var version :- Optional(m, "version", VersionDecoder(env));
    Some(VolumeInfo(volume, version))
  }

  function DecodeVolumeInfo(env: Fresh, v: Value): Option<VolumeInfo> {
    var m :- ObjOf(v);
    VolumeInfoFromDict(env, m)
  }

  function DumpVolumeInfo(x: VolumeInfo, o: DumpOptions): Value {
    Obj(Emit(o,
      Cons("volume", Num(x.volume),
      Cons("version", (if x.version.Some? then DumpVersion(x.version.value) else Null),
      []))))
  }

  function VolumeInfoEntries(x: VolumeInfo, o: DumpOptions): Dict {
    map[
      "version" := (if x.version.Some? then DumpVersion(x.version.value) else Null),
      "volume" := Num(x.volume)]
  }

  lemma VolumeInfoDict(x: VolumeInfo, o: DumpOptions)
    requires !o.excludeNone
    ensures ToMap(DumpVolumeInfo(x, o).fields) == VolumeInfoEntries(x, o)
  {
    ConsMap("version", (if x.version.Some? then DumpVersion(x.version.value) else Null), []);
    ConsMap("volume", Num(x.volume), Cons("version", (if x.version.Some? then DumpVersion(x.version.value) else Null), []));
  }

  lemma VolumeInfoReadsVolume(env: Fresh, x: VolumeInfo, o: DumpOptions)
    requires !o.excludeNone
    ensures var m := VolumeInfoEntries(x, o); Required(m, "volume", RealOf) == Some(x.volume)
  {
    assert "volume" in VolumeInfoEntries(x, o) && VolumeInfoEntries(x, o)["volume"] == Num(x.volume);
  }

  lemma VolumeInfoReadsVersion(env: Fresh, x: VolumeInfo, o: DumpOptions)
    requires !o.excludeNone
    ensures var m := VolumeInfoEntries(x, o); Optional(m, "version", VersionDecoder(env)) == Some(x.version)
  {
    assert "version" in VolumeInfoEntries(x, o) && VolumeInfoEntries(x, o)["version"] == (if x.version.Some? then DumpVersion(x.version.value) else Null);
    if x.version.Some? { VersionRoundTrip(env, x.version.value); }
  }

  /** Dumped with `None` fields kept, the record validates back to itself. */
  lemma VolumeInfoRoundTrip(env: Fresh, x: VolumeInfo, o: DumpOptions)
    requires !o.excludeNone
    ensures DecodeVolumeInfo(env, DumpVolumeInfo(x, o)) == Some(x)
  {
    VolumeInfoDict(x, o);
    VolumeInfoReadsVolume(env, x, o);
    VolumeInfoReadsVersion(env, x, o);
  }

  /** The volume a device reports when the field is absent. */
  const DefaultVolumeInfo := VolumeInfo(0.0, None)


  /** Validation of a `VolumeInfo` field, as a function value. */
  function VolumeInfoDecoder(env: Fresh): Value -> Option<VolumeInfo> {
    v => DecodeVolumeInfo(env, v)
  }

  datatype Device = Device(
    info: DeviceInfo,
    capabilities: DeviceCapabilities,
    volumeInfo: VolumeInfo,
    isShadow: bool)

  /** A device: the info is required; capabilities default to (false, false, 0), the volume info to volume 0, `is_shadow` to false. */
  function DeviceFromDict(env: Fresh, m: Dict): (r: Option<Device>)
    ensures r.Some? ==> "info" in m
    ensures r.Some? && "capabilities" !in m ==> r.value.capabilities == DefaultCapabilities
    ensures r.Some? && "volume_info" !in m ==> r.value.volumeInfo == DefaultVolumeInfo
    ensures r.Some? && "is_shadow" !in m ==> r.value.isShadow == false
  {
    var info :- Required(m, "info", DecodeDeviceInfo);
    var capabilities :- Defaulted(m, "capabilities", DecodeDeviceCapabilities, DefaultCapabilities);
    var volumeInfo :- Defaulted(m, "volume_info", VolumeInfoDecoder(env), DefaultVolumeInfo);
    var isShadow :- Defaulted(m, "is_shadow", BoolOf, false);
    Some(Device(info, capabilities, volumeInfo, isShadow))
  }

  function DecodeDevice(env: Fresh, v: Value): Option<Device> {
    var m :- ObjOf(v);
    DeviceFromDict(env, m)
  }

  function DumpDevice(x: Device, o: DumpOptions): Value {
    Obj(Emit(o,
      Cons("info", DumpDeviceInfo(x.info, o),
      Cons("capabilities", DumpDeviceCapabilities(x.capabilities, o),
      Cons("volume_info", DumpVolumeInfo(x.volumeInfo, o),
      Cons("is_shadow", Bool(x.isShadow),
      []))))))
  }

  function DeviceEntries(x: Device, o: DumpOptions): Dict {
    map[
      "is_shadow" := Bool(x.isShadow),
      "volume_info" := DumpVolumeInfo(x.volumeInfo, o),
      "capabilities" := DumpDeviceCapabilities(x.capabilities, o),
      "info" := DumpDeviceInfo(x.info, o)]
  }

  lemma DeviceDict(x: Device, o: DumpOptions)
    requires !o.excludeNone
    ensures ToMap(DumpDevice(x, o).fields) == DeviceEntries(x, o)
  {
    ConsMap("is_shadow", Bool(x.isShadow), []);
    ConsMap("volume_info", DumpVolumeInfo(x.volumeInfo, o), Cons("is_shadow", Bool(x.isShadow), []));
    ConsMap("capabilities", DumpDeviceCapabilities(x.capabilities, o), Cons("volume_info", DumpVolumeInfo(x.volumeInfo, o), Cons("is_shadow", Bool(x.isShadow), [])));
    ConsMap("info", DumpDeviceInfo(x.info, o), Cons("capabilities", DumpDeviceCapabilities(x.capabilities, o), Cons("volume_info", DumpVolumeInfo(x.volumeInfo, o), Cons("is_shadow", Bool(x.isShadow), []))));
  }

  lemma DeviceReadsInfo(env: Fresh, x: Device, o: DumpOptions)
    requires !o.excludeNone
    ensures var m := DeviceEntries(x, o); Required(m, "info", DecodeDeviceInfo) == Some(x.info)
  {
    assert "info" in DeviceEntries(x, o) && DeviceEntries(x, o)["info"] == DumpDeviceInfo(x.info, o);
    DeviceInfoRoundTrip(x.info, o);
  }

  lemma DeviceReadsCapabilities(env: Fresh, x: Device, o: DumpOptions)
    requires !o.excludeNone
    ensures var m := DeviceEntries(x, o); Defaulted(m, "capabilities", DecodeDeviceCapabilities, DefaultCapabilities) == Some(x.capabilities)
  {
    assert "capabilities" in DeviceEntries(x, o) && DeviceEntries(x, o)["capabilities"] == DumpDeviceCapabilities(x.capabilities, o);
    DeviceCapabilitiesRoundTrip(x.capabilities, o);
  }

  lemma DeviceReadsVolumeInfo(env: Fresh, x: Device, o: DumpOptions)
    requires !o.excludeNone
    ensures var m := DeviceEntries(x, o); Defaulted(m, "volume_info", VolumeInfoDecoder(env), DefaultVolumeInfo) == Some(x.volumeInfo)
  {
    assert "volume_info" in DeviceEntries(x, o) && DeviceEntries(x, o)["volume_info"] == DumpVolumeInfo(x.volumeInfo, o);
    VolumeInfoRoundTrip(env, x.volumeInfo, o);
  }

  lemma DeviceReadsIsShadow(env: Fresh, x: Device, o: DumpOptions)
    requires !o.excludeNone
    ensures var m := DeviceEntries(x, o); Defaulted(m, "is_shadow", BoolOf, false) == Some(x.isShadow)
  {
    assert "is_shadow" in DeviceEntries(x, o) && DeviceEntries(x, o)["is_shadow"] == Bool(x.isShadow);
  }

  /** Dumped with `None` fields kept, the record validates back to itself. */
  lemma DeviceRoundTrip(env: Fresh, x: Device, o: DumpOptions)
    requires !o.excludeNone
    ensures DecodeDevice(env, DumpDevice(x, o)) == Some(x)
  {
    DeviceDict(x, o);
    DeviceReadsInfo(env, x, o);
    DeviceReadsCapabilities(env, x, o);
    DeviceReadsVolumeInfo(env, x, o);
    DeviceReadsIsShadow(env, x, o);
  }

  /** Validation of a `Device` field, as a function value. */
  function DeviceDecoder(env: Fresh): Value -> Option<Device> {
    v => DecodeDevice(env, v)
  }

  datatype DeviceFull = DeviceFull(
    info: DeviceInfo,
    capabilities: DeviceCapabilities,
    volumeInfo: VolumeInfo,
    isShadow: bool,
    session: Option<YnisonId>,
    volume: real,
    isOffline: Option<bool>)

  /** A full device: the fields of a device, then an optional session, a required volume and an optional offline flag. */
  function DeviceFullFromDict(env: Fresh, m: Dict): (r: Option<DeviceFull>)
    ensures r.Some? ==> "info" in m && "volume" in m
    ensures r.Some? && "capabilities" !in m ==> r.value.capabilities == DefaultCapabilities
    ensures r.Some? && "volume_info" !in m ==> r.value.volumeInfo == DefaultVolumeInfo
    ensures r.Some? && "is_shadow" !in m ==> r.value.isShadow == false
    ensures r.Some? && "session" !in m ==> r.value.session.None?
    ensures r.Some? && "is_offline" !in m ==> r.value.isOffline.None?
  {
    var info :- Required(m, "info", DecodeDeviceInfo);
    var capabilities :- Defaulted(m, "capabilities", DecodeDeviceCapabilities, DefaultCapabilities);
    var volumeInfo :- Defaulted(m, "volume_info", VolumeInfoDecoder(env), DefaultVolumeInfo);
    var isShadow :- Defaulted(m, "is_shadow", BoolOf, false);
    var session :- Optional(m, "session", DecodeYnisonId);
    var volume :- Required(m, "volume", RealOf);
    var isOffline :- Optional(m, "is_offline", BoolOf);
    Some(DeviceFull(info, capabilities, volumeInfo, isShadow, session, volume, isOffline))
  }

  function DecodeDeviceFull(env: Fresh, v: Value): Option<DeviceFull> {
    var m :- ObjOf(v);
    DeviceFullFromDict(env, m)
  }

  function DumpDeviceFull(x: DeviceFull, o: DumpOptions): Value {
    Obj(Emit(o,
      Cons("info", DumpDeviceInfo(x.info, o),
      Cons("capabilities", DumpDeviceCapabilities(x.capabilities, o),
      Cons("volume_info", DumpVolumeInfo(x.volumeInfo, o),
      Cons("is_shadow", Bool(x.isShadow),
      Cons("session", (if x.session.Some? then DumpYnisonId(x.session.value) else Null),
      Cons("volume", Num(x.volume),
      Cons("is_offline", OptBool(x.isOffline),
      [])))))))))
  }

  function DeviceFullEntries(x: DeviceFull, o: DumpOptions): Dict {
    map[
      "is_offline" := OptBool(x.isOffline),
      "volume" := Num(x.volume),
      "session" := (if x.session.Some? then DumpYnisonId(x.session.value) else Null),
      "is_shadow" := Bool(x.isShadow),
      "volume_info" := DumpVolumeInfo(x.volumeInfo, o),
      "capabilities" := DumpDeviceCapabilities(x.capabilities, o),
      "info" := DumpDeviceInfo(x.info, o)]
  }

  lemma DeviceFullDict(x: DeviceFull, o: DumpOptions)
    requires !o.excludeNone
    ensures ToMap(DumpDeviceFull(x, o).fields) == DeviceFullEntries(x, o)
  {
    ConsMap("is_offline", OptBool(x.isOffline), []);
    ConsMap("volume", Num(x.volume), Cons("is_offline", OptBool(x.isOffline), []));
    ConsMap("session", (if x.session.Some? then DumpYnisonId(x.session.value) else Null), Cons("volume", Num(x.volume), Cons("is_offline", OptBool(x.isOffline), [])));
    ConsMap("is_shadow", Bool(x.isShadow), Cons("session", (if x.session.Some? then DumpYnisonId(x.session.value) else Null), Cons("volume", Num(x.volume), Cons("is_offline", OptBool(x.isOffline), []))));
    ConsMap("volume_info", DumpVolumeInfo(x.volumeInfo, o), Cons("is_shadow", Bool(x.isShadow), Cons("session", (if x.session.Some? then DumpYnisonId(x.session.value) else Null), Cons("volume", Num(x.volume), Cons("is_offline", OptBool(x.isOffline), [])))));
    ConsMap("capabilities", DumpDeviceCapabilities(x.capabilities, o), Cons("volume_info", DumpVolumeInfo(x.volumeInfo, o), Cons("is_shadow", Bool(x.isShadow), Cons("session", (if x.session.Some? then DumpYnisonId(x.session.value) else Null), Cons("volume", Num(x.volume), Cons("is_offline", OptBool(x.isOffline), []))))));
    ConsMap("info", DumpDeviceInfo(x.info, o), Cons("capabilities", DumpDeviceCapabilities(x.capabilities, o), Cons("volume_info", DumpVolumeInfo(x.volumeInfo, o), Cons("is_shadow", Bool(x.isShadow), Cons("session", (if x.session.Some? then DumpYnisonId(x.session.value) else Null), Cons("volume", Num(x.volume), Cons("is_offline", OptBool(x.isOffline), [])))))));
  }

  lemma DeviceFullReadsInfo(env: Fresh, x: DeviceFull, o: DumpOptions)
    requires !o.excludeNone
    ensures var m := DeviceFullEntries(x, o); Required(m, "info", DecodeDeviceInfo) == Some(x.info)
  {
    assert "info" in DeviceFullEntries(x, o) && DeviceFullEntries(x, o)["info"] == DumpDeviceInfo(x.info, o);
    DeviceInfoRoundTrip(x.info, o);
  }

  lemma DeviceFullReadsCapabilities(env: Fresh, x: DeviceFull, o: DumpOptions)
    requires !o.excludeNone
    ensures var m := DeviceFullEntries(x, o); Defaulted(m, "capabilities", DecodeDeviceCapabilities, DefaultCapabilities) == Some(x.capabilities)
  {
    assert "capabilities" in DeviceFullEntries(x, o) && DeviceFullEntries(x, o)["capabilities"] == DumpDeviceCapabilities(x.capabilities, o);
    DeviceCapabilitiesRoundTrip(x.capabilities, o);
  }

  lemma DeviceFullReadsVolumeInfo(env: Fresh, x: DeviceFull, o: DumpOptions)
    requires !o.excludeNone
    ensures var m := DeviceFullEntries(x, o); Defaulted(m, "volume_info", VolumeInfoDecoder(env), DefaultVolumeInfo) == Some(x.volumeInfo)
  {
    assert "volume_info" in DeviceFullEntries(x, o) && DeviceFullEntries(x, o)["volume_info"] == DumpVolumeInfo(x.volumeInfo, o);
    VolumeInfoRoundTrip(env, x.volumeInfo, o);
  }

  lemma DeviceFullReadsIsShadow(env: Fresh, x: DeviceFull, o: DumpOptions)
    requires !o.excludeNone
    ensures var m := DeviceFullEntries(x, o); Defaulted(m, "is_shadow", BoolOf, false) == Some(x.isShadow)
  {
    assert "is_shadow" in DeviceFullEntries(x, o) && DeviceFullEntries(x, o)["is_shadow"] == Bool(x.isShadow);
  }

  lemma DeviceFullReadsSession(env: Fresh, x: DeviceFull, o: DumpOptions)
    requires !o.excludeNone
    ensures var m := DeviceFullEntries(x, o); Optional(m, "session", DecodeYnisonId) == Some(x.session)
  {
    assert "session" in DeviceFullEntries(x, o) && DeviceFullEntries(x, o)["session"] == (if x.session.Some? then DumpYnisonId(x.session.value) else Null);
    if x.session.Some? { YnisonIdRoundTrip(x.session.value); }
  }

  lemma DeviceFullReadsVolume(env: Fresh, x: DeviceFull, o: DumpOptions)
    requires !o.excludeNone
    ensures var m := DeviceFullEntries(x, o); Required(m, "volume", RealOf) == Some(x.volume)
  {
    assert "volume" in DeviceFullEntries(x, o) && DeviceFullEntries(x, o)["volume"] == Num(x.volume);
  }

  lemma DeviceFullReadsIsOffline(env: Fresh, x: DeviceFull, o: DumpOptions)
    requires !o.excludeNone
    ensures var m := DeviceFullEntries(x, o); Optional(m, "is_offline", BoolOf) == Some(x.isOffline)
  {
    assert "is_offline" in DeviceFullEntries(x, o) && DeviceFullEntries(x, o)["is_offline"] == OptBool(x.isOffline);
  }

  /** Dumped with `None` fields kept, the record validates back to itself. */
  lemma DeviceFullRoundTrip(env: Fresh, x: DeviceFull, o: DumpOptions)
    requires !o.excludeNone
    ensures DecodeDeviceFull(env, DumpDeviceFull(x, o)) == Some(x)
  {
    DeviceFullDict(x, o);
    DeviceFullReadsInfo(env, x, o);
    DeviceFullReadsCapabilities(env, x, o);
    DeviceFullReadsVolumeInfo(env, x, o);
    DeviceFullReadsIsShadow(env, x, o);
    DeviceFullReadsSession(env, x, o);
    DeviceFullReadsVolume(env, x, o);
    DeviceFullReadsIsOffline(env, x, o);
  }

  /** Validation of a `DeviceFull` field, as a function value. */
  function DeviceFullDecoder(env: Fresh): Value -> Option<DeviceFull> {
    v => DecodeDeviceFull(env, v)
  }

  /** `List[...]` of DeviceFull: every element must validate. */
  function DecodeDeviceFullList(env: Fresh, v: Value): Option<seq<DeviceFull>> {
    ListOf(v, DeviceFullDecoder(env))
  }

  function DeviceFullEncoder(o: DumpOptions): DeviceFull -> Value {
    x => DumpDeviceFull(x, o)
  }

  function DumpDeviceFullList(xs: seq<DeviceFull>, o: DumpOptions): Value {
    ListValue(xs, DeviceFullEncoder(o))
  }

  lemma DeviceFullListRoundTrip(env: Fresh, xs: seq<DeviceFull>, o: DumpOptions)
    requires !o.excludeNone
    ensures DecodeDeviceFullList(env, DumpDeviceFullList(xs, o)) == Some(xs)
  {
    forall x ensures DeviceFullDecoder(env)(DeviceFullEncoder(o)(x)) == Some(x) {
      DeviceFullRoundTrip(env, x, o);
    }
    ListRoundTrip(xs, DeviceFullEncoder(o), DeviceFullDecoder(env));
  }
  function DeviceFullListDecoder(env: Fresh): Value -> Option<seq<DeviceFull>> {
    v => DecodeDeviceFullList(env, v)
  }
}

=== FILE: models_messages.dfy ===
/**
 * The message records (`ynison/models/messages.py`): errors, the update
 * messages with their defaulted request id, interception type and action
 * timestamp, and the full state a device announces.
 */
module ModelsMessages {
  import opened Wrappers
  import opened Json
  import opened Validation
  import opened ModelsCommon
  import opened ModelsPlayerState
  import opened ModelsDevice

  /** The interception type every update message carries unless told otherwise. */
  const DoNotIntercept := "DO_NOT_INTERCEPT_BY_DEFAULT"

  datatype ErrorDetails = ErrorDetails(ynisonErrorCode: Option<string>, ynisonBackoffMillis: Option<string>)

  /** Error details: both fields default to `None`. */
  function ErrorDetailsFromDict(m: Dict): (r: Option<ErrorDetails>)
    ensures r.Some? && "ynison_error_code" !in m ==> r.value.ynisonErrorCode.None?
    ensures r.Some? && "ynison_backoff_millis" !in m ==> r.value.ynisonBackoffMillis.None?
  {
    var ynisonErrorCode :- Optional(m, "ynison_error_code", StrOf);
    var ynisonBackoffMillis :- Optional(m, "ynison_backoff_millis", StrOf);
    Some(ErrorDetails(ynisonErrorCode, ynisonBackoffMillis))
  }

  function DecodeErrorDetails(v: Value): Option<ErrorDetails> {
    var m :- ObjOf(v);
    ErrorDetailsFromDict(m)
  }

  function DumpErrorDetails(x: ErrorDetails, o: DumpOptions): Value {
    Obj(Emit(o,
      Cons("ynison_error_code", OptStr(x.ynisonErrorCode),
      Cons("ynison_backoff_millis", OptStr(x.ynisonBackoffMillis),
      []))))
  }

  function ErrorDetailsEntries(x: ErrorDetails, o: DumpOptions): Dict {
    map[
      "ynison_backoff_millis" := OptStr(x.ynisonBackoffMillis),
      "ynison_error_code" := OptStr(x.ynisonErrorCode)]
  }

  lemma ErrorDetailsDict(x: ErrorDetails, o: DumpOptions)
    requires !o.excludeNone
    ensures ToMap(DumpErrorDetails(x, o).fields) == ErrorDetailsEntries(x, o)
  {
    ConsMap("ynison_backoff_millis", OptStr(x.ynisonBackoffMillis), []);
    ConsMap("ynison_error_code", OptStr(x.ynisonErrorCode), Cons("ynison_backoff_millis", OptStr(x.ynisonBackoffMillis), []));
  }

  lemma ErrorDetailsReadsYnisonErrorCode(x: ErrorDetails, o: DumpOptions)
    requires !o.excludeNone
    ensures var m := ErrorDetailsEntries(x, o); Optional(m, "ynison_error_code", StrOf) == Some(x.ynisonErrorCode)
  {
    assert "ynison_error_code" in ErrorDetailsEntries(x, o) && ErrorDetailsEntries(x, o)["ynison_error_code"] == OptStr(x.ynisonErrorCode);
  }

  lemma ErrorDetailsReadsYnisonBackoffMillis(x: ErrorDetails, o: DumpOptions)
    requires !o.excludeNone
    ensures var m := ErrorDetailsEntries(x, o); Optional(m, "ynison_backoff_millis", StrOf) == Some(x.ynisonBackoffMillis)
  {
    assert "ynison_backoff_millis" in ErrorDetailsEntries(x, o) && ErrorDetailsEntries(x, o)["ynison_backoff_millis"] == OptStr(x.ynisonBackoffMillis);
  }

  /** Dumped with `None` fields kept, the record validates back to itself. */
  lemma ErrorDetailsRoundTrip(x: ErrorDetails, o: DumpOptions)
    requires !o.excludeNone
    ensures DecodeErrorDetails(DumpErrorDetails(x, o)) == Some(x)
  {
    ErrorDetailsDict(x, o);
    ErrorDetailsReadsYnisonErrorCode(x, o);
    ErrorDetailsReadsYnisonBackoffMillis(x, o);
  }

  datatype Error = Error(
    details: Option<ErrorDetails>,
    grpcCode: int,
    httpCode: int,
    httpStatus: string,
    message: Option<string>)

  /** A server error: the gRPC code, HTTP code and HTTP status are required; details and message default to `None`. */
  function ErrorFromDict(m: Dict): (r: Option<Error>)
    ensures r.Some? ==> "grpc_code" in m && "http_code" in m && "http_status" in m
    ensures r.Some? && "details" !in m ==> r.value.details.None?
    ensures r.Some? && "message" !in m ==> r.value.message.None?
  {
    var details :- Optional(m, "details", DecodeErrorDetails);
    var grpcCode :- Required(m, "grpc_code", IntOf);
    var httpCode :- Required(m, "http_code", IntOf);
    var httpStatus :- Required(m, "http_status", StrOf);
    var message :- Optional(m, "message", StrOf);
    Some(Error(details, grpcCode, httpCode, httpStatus, message))
  }

  function DecodeError(v: Value): Option<Error> {
    var m :- ObjOf(v);
    ErrorFromDict(m)
  }

  function DumpError(x: Error, o: DumpOptions): Value {
    Obj(Emit(o,
      Cons("details", (if x.details.Some? then DumpErrorDetails(x.details.value, o) else Null),
      Cons("grpc_code", IntValue(x.grpcCode),
      Cons("http_code", IntValue(x.httpCode),
      Cons("http_status", Str(x.httpStatus),
      Cons("message", OptStr(x.message),
      [])))))))
  }

  function ErrorEntries(x: Error, o: DumpOptions): Dict {
    map[
      "message" := OptStr(x.message),
      "http_status" := Str(x.httpStatus),
      "http_code" := IntValue(x.httpCode),
      "grpc_code" := IntValue(x.grpcCode),
      "details" := (if x.details.Some? then DumpErrorDetails(x.details.value, o) else Null)]
  }

  lemma ErrorDict(x: Error, o: DumpOptions)
    requires !o.excludeNone
    ensures ToMap(DumpError(x, o).fields) == ErrorEntries(x, o)
  {
    ConsMap("message", OptStr(x.message), []);
    ConsMap("http_status", Str(x.httpStatus), Cons("message", OptStr(x.message), []));
    ConsMap("http_code", IntValue(x.httpCode), Cons("http_status", Str(x.httpStatus), Cons("message", OptStr(x.message), [])));
    ConsMap("grpc_code", IntValue(x.grpcCode), Cons("http_code", IntValue(x.httpCode), Cons("http_status", Str(x.httpStatus), Cons("message", OptStr(x.message), []))));
    ConsMap("details", (if x.details.Some? then DumpErrorDetails(x.details.value, o) else Null), Cons("grpc_code", IntValue(x.grpcCode), Cons("http_code", IntValue(x.httpCode), Cons("http_status", Str(x.httpStatus), Cons("message", OptStr(x.message), [])))));
  }

  lemma ErrorReadsDetails(x: Error, o: DumpOptions)
    requires !o.excludeNone
    ensures var m := ErrorEntries(x, o); Optional(m, "details", DecodeErrorDetails) == Some(x.details)
  {
    assert "details" in ErrorEntries(x, o) && ErrorEntries(x, o)["details"] == (if x.details.Some? then DumpErrorDetails(x.details.value, o) else Null);
    if x.details.Some? { ErrorDetailsRoundTrip(x.details.value, o); }
  }

  lemma ErrorReadsGrpcCode(x: Error, o: DumpOptions)
    requires !o.excludeNone
    ensures var m := ErrorEntries(x, o); Required(m, "grpc_code", IntOf) == Some(x.grpcCode)
  {
    assert "grpc_code" in ErrorEntries(x, o) && ErrorEntries(x, o)["grpc_code"] == IntValue(x.grpcCode);
  }

  lemma ErrorReadsHttpCode(x: Error, o: DumpOptions)
    requires !o.excludeNone
    ensures var m := ErrorEntries(x, o); Required(m, "http_code", IntOf) == Some(x.httpCode)
  {
    assert "http_code" in ErrorEntries(x, o) && ErrorEntries(x, o)["http_code"] == IntValue(x.httpCode);
  }

  lemma ErrorReadsHttpStatus(x: Error, o: DumpOptions)
    requires !o.excludeNone
    ensures var m := ErrorEntries(x, o); Required(m, "http_status", StrOf) == Some(x.httpStatus)
  {
    assert "http_status" in ErrorEntries(x, o) && ErrorEntries(x, o)["http_status"] == Str(x.httpStatus);
  }

  lemma ErrorReadsMessage(x: Error, o: DumpOptions)
    requires !o.excludeNone
    ensures var m := ErrorEntries(x, o); Optional(m, "message", StrOf) == Some(x.message)
  {
    assert "message" in ErrorEntries(x, o) && ErrorEntries(x, o)["message"] == OptStr(x.message);
  }

  /** Dumped with `None` fields kept, the record validates back to itself. */
  lemma ErrorRoundTrip(x: Error, o: DumpOptions)
    requires !o.excludeNone
    ensures DecodeError(DumpError(x, o)) == Some(x)
  {
    ErrorDict(x, o);
    ErrorReadsDetails(x, o);
    ErrorReadsGrpcCode(x, o);
    ErrorReadsHttpCode(x, o);
    ErrorReadsHttpStatus(x, o);
    ErrorReadsMessage(x, o);
  }

  datatype ErrorMessage = ErrorMessage(error: Error)

  /** An error message: the error is required. */
  function ErrorMessageFromDict(m: Dict): (r: Option<ErrorMessage>)
    ensures r.Some? ==> "error" in m
  {
    var error :- Required(m, "error", DecodeError);
    Some(ErrorMessage(error))
  }

  function DecodeErrorMessage(v: Value): Option<ErrorMessage> {
    var m :- ObjOf(v);
    ErrorMessageFromDict(m)
  }

  function DumpErrorMessage(x: ErrorMessage, o: DumpOptions): Value {
    Obj(Emit(o,
      Cons("error", DumpError(x.error, o),
      [])))
  }

  function ErrorMessageEntries(x: ErrorMessage, o: DumpOptions): Dict {
    map[
      "error" := DumpError(x.error, o)]
  }

  lemma ErrorMessageDict(x: ErrorMessage, o: DumpOptions)
    requires !o.excludeNone
    ensures ToMap(DumpErrorMessage(x, o).fields) == ErrorMessageEntries(x, o)
  {
    ConsMap("error", DumpError(x.error, o), []);
  }

  lemma ErrorMessageReadsError(x: ErrorMessage, o: DumpOptions)
    requires !o.excludeNone
    ensures var m := ErrorMessageEntries(x, o); Required(m, "error", DecodeError) == Some(x.error)
  {
    assert "error" in ErrorMessageEntries(x, o) && ErrorMessageEntries(x, o)["error"] == DumpError(x.error, o);
    ErrorRoundTrip(x.error, o);
  }

  /** Dumped with `None` fields kept, the record validates back to itself. */
  lemma ErrorMessageRoundTrip(x: ErrorMessage, o: DumpOptions)
    requires !o.excludeNone
    ensures DecodeErrorMessage(DumpErrorMessage(x, o)) == Some(x)
  {
    ErrorMessageDict(x, o);
    ErrorMessageReadsError(x, o);
  }

  /** `Union[YnisonDeviceFull, YnisonDevice]`: the full device when it validates, else the plain one. */
  datatype AnyDevice = Full(full: DeviceFull) | Plain(plain: Device)

  function DecodeAnyDevice(env: Fresh, v: Value): (r: Option<AnyDevice>)
    ensures DecodeDeviceFull(env, v).Some? ==> r == Some(Full(DecodeDeviceFull(env, v).value))
  {
    match DecodeDeviceFull(env, v)
    case Some(d) => Some(Full(d))
    case None =>
      var d :- DecodeDevice(env, v);
      Some(Plain(d))
  }

  function DumpAnyDevice(x: AnyDevice, o: DumpOptions): Value {
    match x
    case Full(d) => DumpDeviceFull(d, o)
    case Plain(d) => DumpDevice(d, o)
  }

  /** A dumped plain device has no `volume`, so it does not validate as a full device. */
  lemma PlainIsNotFull(env: Fresh, d: Device, o: DumpOptions)
    requires !o.excludeNone
    ensures DecodeDeviceFull(env, DumpDevice(d, o)).None?
  {
    DeviceDict(d, o);
    assert "volume" !in DeviceEntries(d, o);
  }

  lemma AnyDeviceRoundTrip(env: Fresh, x: AnyDevice, o: DumpOptions)
    requires !o.excludeNone
    ensures DecodeAnyDevice(env, DumpAnyDevice(x, o)) == Some(x)
  {
    match x
    case Full(d) =>
      DeviceFullRoundTrip(env, d, o);
    case Plain(d) =>
      PlainIsNotFull(env, d, o);
      DeviceRoundTrip(env, d, o);
  }

  function AnyDeviceDecoder(env: Fresh): Value -> Option<AnyDevice> {
    v => DecodeAnyDevice(env, v)
  }


  datatype FullState = FullState(playerState: PlayerState, device: AnyDevice, isCurrentlyActive: bool)

  /** A full state: the player state, the device (full or plain) and the activity flag are all required. */
  function FullStateFromDict(env: Fresh, m: Dict): (r: Option<FullState>)
    ensures r.Some? ==> "player_state" in m && "device" in m && "is_currently_active" in m
  {
    var playerState :- Required(m, "player_state", PlayerStateDecoder(env));
    var device :- Required(m, "device", AnyDeviceDecoder(env));
    var isCurrentlyActive :- Required(m, "is_currently_active", BoolOf);
    Some(FullState(playerState, device, isCurrentlyActive))
  }

  function DecodeFullState(env: Fresh, v: Value): Option<FullState> {
    var m :- ObjOf(v);
    FullStateFromDict(env, m)
  }

  function DumpFullState(x: FullState, o: DumpOptions): Value {
    Obj(Emit(o,
      Cons("player_state", DumpPlayerState(x.playerState, o),
      Cons("device", DumpAnyDevice(x.device, o),
      Cons("is_currently_active", Bool(x.isCurrentlyActive),
      [])))))
  }

  function FullStateEntries(x: FullState, o: DumpOptions): Dict {
    map[
      "is_currently_active" := Bool(x.isCurrentlyActive),
      "device" := DumpAnyDevice(x.device, o),
      "player_state" := DumpPlayerState(x.playerState, o)]
  }

  lemma FullStateDict(x: FullState, o: DumpOptions)
    requires !o.excludeNone
    ensures ToMap(DumpFullState(x, o).fields) == FullStateEntries(x, o)
  {
    ConsMap("is_currently_active", Bool(x.isCurrentlyActive), []);
    ConsMap("device", DumpAnyDevice(x.device, o), Cons("is_currently_active", Bool(x.isCurrentlyActive), []));
    ConsMap("player_state", DumpPlayerState(x.playerState, o), Cons("device", DumpAnyDevice(x.device, o), Cons("is_currently_active", Bool(x.isCurrentlyActive), [])));
  }

  lemma FullStateReadsPlayerState(env: Fresh, x: FullState, o: DumpOptions)
    requires !o.excludeNone
    ensures var m := FullStateEntries(x, o); Required(m, "player_state", PlayerStateDecoder(env)) == Some(x.playerState)
  {
    assert "player_state" in FullStateEntries(x, o) && FullStateEntries(x, o)["player_state"] == DumpPlayerState(x.playerState, o);
    PlayerStateRoundTrip(env, x.playerState, o);
  }

  lemma FullStateReadsDevice(env: Fresh, x: FullState, o: DumpOptions)
    requires !o.excludeNone
    ensures var m := FullStateEntries(x, o); Required(m, "device", AnyDeviceDecoder(env)) == Some(x.device)
  {
    assert "device" in FullStateEntries(x, o) && FullStateEntries(x, o)["device"] == DumpAnyDevice(x.device, o);
    AnyDeviceRoundTrip(env, x.device, o);
  }

  lemma FullStateReadsIsCurrentlyActive(env: Fresh, x: FullState, o: DumpOptions)
    requires !o.excludeNone
    ensures var m := FullStateEntries(x, o); Required(m, "is_currently_active", BoolOf) == Some(x.isCurrentlyActive)
  {
    assert "is_currently_active" in FullStateEntries(x, o) && FullStateEntries(x, o)["is_currently_active"] == Bool(x.isCurrentlyActive);
  }

  /** Dumped with `None` fields kept, the record validates back to itself. */
  lemma FullStateRoundTrip(env: Fresh, x: FullState, o: DumpOptions)
    requires !o.excludeNone
    ensures DecodeFullState(env, DumpFullState(x, o)) == Some(x)
  {
    FullStateDict(x, o);
    FullStateReadsPlayerState(env, x, o);
    FullStateReadsDevice(env, x, o);
    FullStateReadsIsCurrentlyActive(env, x, o);
  }

  /** Validation of a `FullState` field, as a function value. */
  function FullStateDecoder(env: Fresh): Value -> Option<FullState> {
    v => DecodeFullState(env, v)
  }

  datatype UpdatePlayerStateMessage = UpdatePlayerStateMessage(
    rid: string,
    activityInterceptionType: string,
    playerActionTimestampMs: int,
    updatePlayerState: PlayerState)

  /** A player-state update: the request id defaults to a fresh uuid, the interception type to "DO_NOT_INTERCEPT_BY_DEFAULT", the action timestamp to the current time; the player state is required. */
  function UpdatePlayerStateMessageFromDict(env: Fresh, m: Dict): (r: Option<UpdatePlayerStateMessage>)
    ensures r.Some? ==> "update_player_state" in m
    ensures r.Some? && "rid" !in m ==> r.value.rid == env.uuid
    ensures r.Some? && "activity_interception_type" !in m ==> r.value.activityInterceptionType == DoNotIntercept
    ensures r.Some? && "player_action_timestamp_ms" !in m ==> r.value.playerActionTimestampMs == env.nowMs
  {
    var rid :- Defaulted(m, "rid", StrOf, env.uuid);
    var activityInterceptionType :- Defaulted(m, "activity_interception_type", StrOf, DoNotIntercept);
    var playerActionTimestampMs :- Defaulted(m, "player_action_timestamp_ms", IntOf, env.nowMs);
    var updatePlayerState :- Required(m, "update_player_state", PlayerStateDecoder(env));
    Some(UpdatePlayerStateMessage(rid, activityInterceptionType, playerActionTimestampMs, updatePlayerState))
  }

  function DecodeUpdatePlayerStateMessage(env: Fresh, v: Value): Option<UpdatePlayerStateMessage> {
    var m :- ObjOf(v);
    UpdatePlayerStateMessageFromDict(env, m)
  }

  function DumpUpdatePlayerStateMessage(x: UpdatePlayerStateMessage, o: DumpOptions): Value {
    Obj(Emit(o,
      Cons("rid", Str(x.rid),
      Cons("activity_interception_type", Str(x.activityInterceptionType),
      Cons("player_action_timestamp_ms", IntValue(x.playerActionTimestampMs),
      Cons("update_player_state", DumpPlayerState(x.updatePlayerState, o),
      []))))))
  }

  function UpdatePlayerStateMessageEntries(x: UpdatePlayerStateMessage, o: DumpOptions): Dict {
    map[
      "update_player_state" := DumpPlayerState(x.updatePlayerState, o),
      "player_action_timestamp_ms" := IntValue(x.playerActionTimestampMs),
      "activity_interception_type" := Str(x.activityInterceptionType),
      "rid" := Str(x.rid)]
  }

  lemma UpdatePlayerStateMessageDict(x: UpdatePlayerStateMessage, o: DumpOptions)
    requires !o.excludeNone
    ensures ToMap(DumpUpdatePlayerStateMessage(x, o).fields) == UpdatePlayerStateMessageEntries(x, o)
  {
    ConsMap("update_player_state", DumpPlayerState(x.updatePlayerState, o), []);
    ConsMap("player_action_timestamp_ms", IntValue(x.playerActionTimestampMs), Cons("update_player_state", DumpPlayerState(x.updatePlayerState, o), []));
    ConsMap("activity_interception_type", Str(x.activityInterceptionType), Cons("player_action_timestamp_ms", IntValue(x.playerActionTimestampMs), Cons("update_player_state", DumpPlayerState(x.updatePlayerState, o), [])));
    ConsMap("rid", Str(x.rid), Cons("activity_interception_type", Str(x.activityInterceptionType), Cons("player_action_timestamp_ms", IntValue(x.playerActionTimestampMs), Cons("update_player_state", DumpPlayerState(x.updatePlayerState, o), []))));
  }

  lemma UpdatePlayerStateMessageReadsRid(env: Fresh, x: UpdatePlayerStateMessage, o: DumpOptions)
    requires !o.excludeNone
    ensures var m := UpdatePlayerStateMessageEntries(x, o); Defaulted(m, "rid", StrOf, env.uuid) == Some(x.rid)
  {
    assert "rid" in UpdatePlayerStateMessageEntries(x, o) && UpdatePlayerStateMessageEntries(x, o)["rid"] == Str(x.rid);
  }

  lemma UpdatePlayerStateMessageReadsActivityInterceptionType(env: Fresh, x: UpdatePlayerStateMessage, o: DumpOptions)
    requires !o.excludeNone
    ensures var m := UpdatePlayerStateMessageEntries(x, o); Defaulted(m, "activity_interception_type", StrOf, DoNotIntercept) == Some(x.activityInterceptionType)
  {
    assert "activity_interception_type" in UpdatePlayerStateMessageEntries(x, o) && UpdatePlayerStateMessageEntries(x, o)["activity_interception_type"] == Str(x.activityInterceptionType);
  }

  lemma UpdatePlayerStateMessageReadsPlayerActionTimestampMs(env: Fresh, x: UpdatePlayerStateMessage, o: DumpOptions)
    requires !o.excludeNone
    ensures var m := UpdatePlayerStateMessageEntries(x, o); Defaulted(m, "player_action_timestamp_ms", IntOf, env.nowMs) == Some(x.playerActionTimestampMs)
  {
    assert "player_action_timestamp_ms" in UpdatePlayerStateMessageEntries(x, o) && UpdatePlayerStateMessageEntries(x, o)["player_action_timestamp_ms"] == IntValue(x.playerActionTimestampMs);
  }

  lemma UpdatePlayerStateMessageReadsUpdatePlayerState(env: Fresh, x: UpdatePlayerStateMessage, o: DumpOptions)
    requires !o.excludeNone
    ensures var m := UpdatePlayerStateMessageEntries(x, o); Required(m, "update_player_state", PlayerStateDecoder(env)) == Some(x.updatePlayerState)
  {
    assert "update_player_state" in UpdatePlayerStateMessageEntries(x, o) && UpdatePlayerStateMessageEntries(x, o)["update_player_state"] == DumpPlayerState(x.updatePlayerState, o);
    PlayerStateRoundTrip(env, x.updatePlayerState, o);
  }

  /** Dumped with `None` fields kept, the record validates back to itself. */
  lemma UpdatePlayerStateMessageRoundTrip(env: Fresh, x: UpdatePlayerStateMessage, o: DumpOptions)
    requires !o.excludeNone
    ensures DecodeUpdatePlayerStateMessage(env, DumpUpdatePlayerStateMessage(x, o)) == Some(x)
  {
    UpdatePlayerStateMessageDict(x, o);
    UpdatePlayerStateMessageReadsRid(env, x, o);
    UpdatePlayerStateMessageReadsActivityInterceptionType(env, x, o);
    UpdatePlayerStateMessageReadsPlayerActionTimestampMs(env, x, o);
    UpdatePlayerStateMessageReadsUpdatePlayerState(env, x, o);
  }

  datatype UpdateFullStateMessage = UpdateFullStateMessage(
    rid: string,
    activityInterceptionType: string,
    playerActionTimestampMs: int,
    updateFullState: FullState)

  /** A full-state update: the message defaults as for a player-state update; the full state is required. */
  function UpdateFullStateMessageFromDict(env: Fresh, m: Dict): (r: Option<UpdateFullStateMessage>)
    ensures r.Some? ==> "update_full_state" in m
    ensures r.Some? && "rid" !in m ==> r.value.rid == env.uuid
    ensures r.Some? && "activity_interception_type" !in m ==> r.value.activityInterceptionType == DoNotIntercept
    ensures r.Some? && "player_action_timestamp_ms" !in m ==> r.value.playerActionTimestampMs == env.nowMs
  {
    var rid :- Defaulted(m, "rid", StrOf, env.uuid);
    var activityInterceptionType :- Defaulted(m, "activity_interception_type", StrOf, DoNotIntercept);
    var playerActionTimestampMs :- Defaulted(m, "player_action_timestamp_ms", IntOf, env.nowMs);
    var updateFullState :- Required(m, "update_full_state", FullStateDecoder(env));
    Some(UpdateFullStateMessage(rid, activityInterceptionType, playerActionTimestampMs, updateFullState))
  }

  function DecodeUpdateFullStateMessage(env: Fresh, v: Value): Option<UpdateFullStateMessage> {
    var m :- ObjOf(v);
    UpdateFullStateMessageFromDict(env, m)
  }

  function DumpUpdateFullStateMessage(x: UpdateFullStateMessage, o: DumpOptions): Value {
    Obj(Emit(o,
      Cons("rid", Str(x.rid),
      Cons("activity_interception_type", Str(x.activityInterceptionType),
      Cons("player_action_timestamp_ms", IntValue(x.playerActionTimestampMs),
      Cons("update_full_state", DumpFullState(x.updateFullState, o),
      []))))))
  }

  function UpdateFullStateMessageEntries(x: UpdateFullStateMessage, o: DumpOptions): Dict {
    map[
      "update_full_state" := DumpFullState(x.updateFullState, o),
      "player_action_timestamp_ms" := IntValue(x.playerActionTimestampMs),
      "activity_interception_type" := Str(x.activityInterceptionType),
      "rid" := Str(x.rid)]
  }

  lemma UpdateFullStateMessageDict(x: UpdateFullStateMessage, o: DumpOptions)
    requires !o.excludeNone
    ensures ToMap(DumpUpdateFullStateMessage(x, o).fields) == UpdateFullStateMessageEntries(x, o)
  {
    ConsMap("update_full_state", DumpFullState(x.updateFullState, o), []);
    ConsMap("player_action_timestamp_ms", IntValue(x.playerActionTimestampMs), Cons("update_full_state", DumpFullState(x.updateFullState, o), []));
    ConsMap("activity_interception_type", Str(x.activityInterceptionType), Cons("player_action_timestamp_ms", IntValue(x.playerActionTimestampMs), Cons("update_full_state", DumpFullState(x.updateFullState, o), [])));
    ConsMap("rid", Str(x.rid), Cons("activity_interception_type", Str(x.activityInterceptionType), Cons("player_action_timestamp_ms", IntValue(x.playerActionTimestampMs), Cons("update_full_state", DumpFullState(x.updateFullState, o), []))));
  }

  lemma UpdateFullStateMessageReadsRid(env: Fresh, x: UpdateFullStateMessage, o: DumpOptions)
    requires !o.excludeNone
    ensures var m := UpdateFullStateMessageEntries(x, o); Defaulted(m, "rid", StrOf, env.uuid) == Some(x.rid)
  {
    assert "rid" in UpdateFullStateMessageEntries(x, o) && UpdateFullStateMessageEntries(x, o)["rid"] == Str(x.rid);
  }

  lemma UpdateFullStateMessageReadsActivityInterceptionType(env: Fresh, x: UpdateFullStateMessage, o: DumpOptions)
    requires !o.excludeNone
    ensures var m := UpdateFullStateMessageEntries(x, o); Defaulted(m, "activity_interception_type", StrOf, DoNotIntercept) == Some(x.activityInterceptionType)
  {
    assert "activity_interception_type" in UpdateFullStateMessageEntries(x, o) && UpdateFullStateMessageEntries(x, o)["activity_interception_type"] == Str(x.activityInterceptionType);
  }

  lemma UpdateFullStateMessageReadsPlayerActionTimestampMs(env: Fresh, x: UpdateFullStateMessage, o: DumpOptions)
    requires !o.excludeNone
    ensures var m := UpdateFullStateMessageEntries(x, o); Defaulted(m, "player_action_timestamp_ms", IntOf, env.nowMs) == Some(x.playerActionTimestampMs)
  {
    assert "player_action_timestamp_ms" in UpdateFullStateMessageEntries(x, o) && UpdateFullStateMessageEntries(x, o)["player_action_timestamp_ms"] == IntValue(x.playerActionTimestampMs);
  }

  lemma UpdateFullStateMessageReadsUpdateFullState(env: Fresh, x: UpdateFullStateMessage, o: DumpOptions)
    requires !o.excludeNone
    ensures var m := UpdateFullStateMessageEntries(x, o); Required(m, "update_full_state", FullStateDecoder(env)) == Some(x.updateFullState)
  {
    var m := UpdateFullStateMessageEntries(x, o);
    var v := DumpFullState(x.updateFullState, o);
    assert "update_full_state" in m && m["update_full_state"] == v;
    FullStateRoundTrip(env, x.updateFullState, o);
    RequiredAt(FullStateDecoder(env), m, "update_full_state", v, x.updateFullState);
  }

  /** Dumped with `None` fields kept, the record validates back to itself. */
  lemma UpdateFullStateMessageRoundTrip(env: Fresh, x: UpdateFullStateMessage, o: DumpOptions)
    requires !o.excludeNone
    ensures DecodeUpdateFullStateMessage(env, DumpUpdateFullStateMessage(x, o)) == Some(x)
  {
    UpdateFullStateMessageDict(x, o);
    UpdateFullStateMessageReadsRid(env, x, o);
    UpdateFullStateMessageReadsActivityInterceptionType(env, x, o);
    UpdateFullStateMessageReadsPlayerActionTimestampMs(env, x, o);
    UpdateFullStateMessageReadsUpdateFullState(env, x, o);
  }
}

=== FILE: models_player_state.dfy ===
/**
 * The player state records (`ynison/models/player_state.py`): the playback
 * status and the player state pairing a queue with a status.
 */
module ModelsPlayerState {
  import opened Wrappers
  import opened Json
  import opened Validation
  import opened ModelsCommon
  import opened ModelsQueue

  datatype Status = Status(
    durationMs: int,
    paused: bool,
    playbackSpeed: real,
    progressMs: int,
    version: Option<Version>)

  /** The playback status: duration and progress are required, `paused` defaults to true, the speed to 1, the version to `None`. */
  function StatusFromDict(env: Fresh, m: Dict): (r: Option<Status>)
    ensures r.Some? ==> "duration_ms" in m && "progress_ms" in m
    ensures r.Some? && "paused" !in m ==> r.value.paused == true
    ensures r.Some? && "playback_speed" !in m ==> r.value.playbackSpeed == 1.0
    ensures r.Some? && "version" !in m ==> r.value.version.None?
  {
    var durationMs :- Required(m, "duration_ms", IntOf);
    var paused :- Defaulted(m, "paused", BoolOf, true);
    var playbackSpeed :- Defaulted(m, "playback_speed", RealOf, 1.0);
    var progressMs :- Required(m, "progress_ms", IntOf);
    var version :- Optional(m, "version", VersionDecoder(env));
    Some(Status(durationMs, paused, playbackSpeed, progressMs, version))
  }

  function DecodeStatus(env: Fresh, v: Value): Option<Status> {
    var m :- ObjOf(v);
    StatusFromDict(env, m)
  }

  function DumpStatus(x: Status, o: DumpOptions): Value {
    Obj(Emit(o,
      Cons("duration_ms", IntValue(x.durationMs),
      Cons("paused", Bool(x.paused),
      Cons("playback_speed", Num(x.playbackSpeed),
      Cons("progress_ms", IntValue(x.progressMs),
      Cons("version", (if x.version.Some? then DumpVersion(x.version.value) else Null),
      [])))))))
  }

  function StatusEntries(x: Status, o: DumpOptions): Dict {
    map[
      "version" := (if x.version.Some? then DumpVersion(x.version.value) else Null),
      "progress_ms" := IntValue(x.progressMs),
      "playback_speed" := Num(x.playbackSpeed),
      "paused" := Bool(x.paused),
      "duration_ms" := IntValue(x.durationMs)]
  }

  lemma StatusDict(x: Status, o: DumpOptions)
    requires !o.excludeNone
    ensures ToMap(DumpStatus(x, o).fields) == StatusEntries(x, o)
  {
    ConsMap("version", (if x.version.Some? then DumpVersion(x.version.value) else Null), []);
    ConsMap("progress_ms", IntValue(x.progressMs), Cons("version", (if x.version.Some? then DumpVersion(x.version.value) else Null), []));
    ConsMap("playback_speed", Num(x.playbackSpeed), Cons("progress_ms", IntValue(x.progressMs), Cons("version", (if x.version.Some? then DumpVersion(x.version.value) else Null), [])));
    ConsMap("paused", Bool(x.paused), Cons("playback_speed", Num(x.playbackSpeed), Cons("progress_ms", IntValue(x.progressMs), Cons("version", (if x.version.Some? then DumpVersion(x.version.value) else Null), []))));
    ConsMap("duration_ms", IntValue(x.durationMs), Cons("paused", Bool(x.paused), Cons("playback_speed", Num(x.playbackSpeed), Cons("progress_ms", IntValue(x.progressMs), Cons("version", (if x.version.Some? then DumpVersion(x.version.value) else Null), [])))));
  }

  lemma StatusReadsDurationMs(env: Fresh, x: Status, o: DumpOptions)
    requires !o.excludeNone
    ensures var m := StatusEntries(x, o); Required(m, "duration_ms", IntOf) == Some(x.durationMs)
  {
    assert "duration_ms" in StatusEntries(x, o) && StatusEntries(x, o)["duration_ms"] == IntValue(x.durationMs);
  }

  lemma StatusReadsPaused(env: Fresh, x: Status, o: DumpOptions)
    requires !o.excludeNone
    ensures var m := StatusEntries(x, o); Defaulted(m, "paused", BoolOf, true) == Some(x.paused)
  {
    assert "paused" in StatusEntries(x, o) && StatusEntries(x, o)["paused"] == Bool(x.paused);
  }

  lemma StatusReadsPlaybackSpeed(env: Fresh, x: Status, o: DumpOptions)
    requires !o.excludeNone
    ensures var m := StatusEntries(x, o); Defaulted(m, "playback_speed", RealOf, 1.0) == Some(x.playbackSpeed)
  {
    assert "playback_speed" in StatusEntries(x, o) && StatusEntries(x, o)["playback_speed"] == Num(x.playbackSpeed);
  }

  lemma StatusReadsProgressMs(env: Fresh, x: Status, o: DumpOptions)
    requires !o.excludeNone
    ensures var m := StatusEntries(x, o); Required(m, "progress_ms", IntOf) == Some(x.progressMs)
  {
    assert "progress_ms" in StatusEntries(x, o) && StatusEntries(x, o)["progress_ms"] == IntValue(x.progressMs);
  }

  lemma StatusReadsVersion(env: Fresh, x: Status, o: DumpOptions)
    requires !o.excludeNone
    ensures var m := StatusEntries(x, o); Optional(m, "version", VersionDecoder(env)) == Some(x.version)
  {
    assert "version" in StatusEntries(x, o) && StatusEntries(x, o)["version"] == (if x.version.Some? then DumpVersion(x.version.value) else Null);
    if x.version.Some? { VersionRoundTrip(env, x.version.value); }
  }

  /** Dumped with `None` fields kept, the record validates back to itself. */
  lemma StatusRoundTrip(env: Fresh, x: Status, o: DumpOptions)
    requires !o.excludeNone
    ensures DecodeStatus(env, DumpStatus(x, o)) == Some(x)
  {
    StatusDict(x, o);
    StatusReadsDurationMs(env, x, o);
    StatusReadsPaused(env, x, o);
    StatusReadsPlaybackSpeed(env, x, o);
    StatusReadsProgressMs(env, x, o);
    StatusReadsVersion(env, x, o);
  }

  /** Validation of a `Status` field, as a function value. */
  function StatusDecoder(env: Fresh): Value -> Option<Status> {
    v => DecodeStatus(env, v)
  }

  datatype PlayerState = PlayerState(playerQueue: PlayerQueue, status: Status)

  /** A player state: both the queue and the status are required. */
  function PlayerStateFromDict(env: Fresh, m: Dict): (r: Option<PlayerState>)
    ensures r.Some? ==> "player_queue" in m && "status" in m
  {
    var playerQueue :- Required(m, "player_queue", PlayerQueueDecoder(env));
    var status :- Required(m, "status", StatusDecoder(env));
    Some(PlayerState(playerQueue, status))
  }

  function DecodePlayerState(env: Fresh, v: Value): Option<PlayerState> {
    var m :- ObjOf(v);
    PlayerStateFromDict(env, m)
  }

  function DumpPlayerState(x: PlayerState, o: DumpOptions): Value {
    Obj(Emit(o,
      Cons("player_queue", DumpPlayerQueue(x.playerQueue, o),
      Cons("status", DumpStatus(x.status, o),
      []))))
  }

  function PlayerStateEntries(x: PlayerState, o: DumpOptions): Dict {
    map[
      "status" := DumpStatus(x.status, o),
      "player_queue" := DumpPlayerQueue(x.playerQueue, o)]
  }

  lemma PlayerStateDict(x: PlayerState, o: DumpOptions)
    requires !o.excludeNone
    ensures ToMap(DumpPlayerState(x, o).fields) == PlayerStateEntries(x, o)
  {
    ConsMap("status", DumpStatus(x.status, o), []);
    ConsMap("player_queue", DumpPlayerQueue(x.playerQueue, o), Cons("status", DumpStatus(x.status, o), []));
  }

  lemma PlayerStateReadsPlayerQueue(env: Fresh, x: PlayerState, o: DumpOptions)
    requires !o.excludeNone
    ensures var m := PlayerStateEntries(x, o); Required(m, "player_queue", PlayerQueueDecoder(env)) == Some(x.playerQueue)
  {
    assert "player_queue" in PlayerStateEntries(x, o) && PlayerStateEntries(x, o)["player_queue"] == DumpPlayerQueue(x.playerQueue, o);
    PlayerQueueRoundTrip(env, x.playerQueue, o);
  }

  lemma PlayerStateReadsStatus(env: Fresh, x: PlayerState, o: DumpOptions)
    requires !o.excludeNone
    ensures var m := PlayerStateEntries(x, o); Required(m, "status", StatusDecoder(env)) == Some(x.status)
  {
    assert "status" in PlayerStateEntries(x, o) && PlayerStateEntries(x, o)["status"] == DumpStatus(x.status, o);
    StatusRoundTrip(env, x.status, o);
  }

  /** Dumped with `None` fields kept, the record validates back to itself. */
  lemma PlayerStateRoundTrip(env: Fresh, x: PlayerState, o: DumpOptions)
    requires !o.excludeNone
    ensures DecodePlayerState(env, DumpPlayerState(x, o)) == Some(x)
  {
    PlayerStateDict(x, o);
    PlayerStateReadsPlayerQueue(env, x, o);
    PlayerStateReadsStatus(env, x, o);
  }

  /** Validation of a `PlayerState` field, as a function value. */
  function PlayerStateDecoder(env: Fresh): Value -> Option<PlayerState> {
    v => DecodePlayerState(env, v)
  }
}

=== FILE: models_queue.dfy ===
/**
 * The queue records of the Ynison player state (`ynison/models/queue.py`):
 * track sources, the wave queue and the player queue with its defaults.
 */
module ModelsQueue {
  import opened Wrappers
  import opened Json
  import opened Validation
  import opened ModelsCommon

  datatype WaveSource = WaveSource()

  /** A wave source carries no fields: any object validates. */
  function WaveSourceFromDict(m: Dict): (r: Option<WaveSource>)
  {
    Some(WaveSource())
  }

  function DecodeWaveSource(v: Value): Option<WaveSource> {
    var m :- ObjOf(v);
    WaveSourceFromDict(m)
  }

  function DumpWaveSource(x: WaveSource, o: DumpOptions): Value {
    Obj(Emit(o, []))
  }

  function WaveSourceEntries(x: WaveSource, o: DumpOptions): Dict {
    map[]
  }

  lemma WaveSourceDict(x: WaveSource, o: DumpOptions)
    requires !o.excludeNone
    ensures ToMap(DumpWaveSource(x, o).fields) == WaveSourceEntries(x, o)
  {
  }

  /** Dumped with `None` fields kept, the record validates back to itself. */
  lemma WaveSourceRoundTrip(x: WaveSource, o: DumpOptions)
    requires !o.excludeNone
    ensures DecodeWaveSource(DumpWaveSource(x, o)) == Some(x)
  {
    WaveSourceDict(x, o);
  }

  datatype PhonotekaSource = PhonotekaSource(
    entityContext: EntityContext,
    albumId: Option<YnisonId>,
    playlistId: Option<YnisonId>)

  /** A phonoteka source: the entity context is required, the album and playlist ids default to `None`. */
  function PhonotekaSourceFromDict(m: Dict): (r: Option<PhonotekaSource>)
    ensures r.Some? ==> "entity_context" in m
    ensures r.Some? && "album_id" !in m ==> r.value.albumId.None?
    ensures r.Some? && "playlist_id" !in m ==> r.value.playlistId.None?
  {
    var entityContext :- Required(m, "entity_context", EntityContextOf);
    var albumId :- Optional(m, "album_id", DecodeYnisonId);
    var playlistId :- Optional(m, "playlist_id", DecodeYnisonId);
    Some(PhonotekaSource(entityContext, albumId, playlistId))
  }

  function DecodePhonotekaSource(v: Value): Option<PhonotekaSource> {
    var m :- ObjOf(v);
    PhonotekaSourceFromDict(m)
  }

  function DumpPhonotekaSource(x: PhonotekaSource, o: DumpOptions): Value {
    Obj(Emit(o,
      Cons("entity_context", Str(EntityContextName(x.entityContext)),
      Cons("album_id", (if x.albumId.Some? then DumpYnisonId(x.albumId.value) else Null),
      Cons("playlist_id", (if x.playlistId.Some? then DumpYnisonId(x.playlistId.value) else Null),
      [])))))
  }

  function PhonotekaSourceEntries(x: PhonotekaSource, o: DumpOptions): Dict {
    map[
      "playlist_id" := (if x.playlistId.Some? then DumpYnisonId(x.playlistId.value) else Null),
      "album_id" := (if x.albumId.Some? then DumpYnisonId(x.albumId.value) else Null),
      "entity_context" := Str(EntityContextName(x.entityContext))]
  }

  lemma PhonotekaSourceDict(x: PhonotekaSource, o: DumpOptions)
    requires !o.excludeNone
    ensures ToMap(DumpPhonotekaSource(x, o).fields) == PhonotekaSourceEntries(x, o)
  {
    ConsMap("playlist_id", (if x.playlistId.Some? then DumpYnisonId(x.playlistId.value) else Null), []);
    ConsMap("album_id", (if x.albumId.Some? then DumpYnisonId(x.albumId.value) else Null), Cons("playlist_id", (if x.playlistId.Some? then DumpYnisonId(x.playlistId.value) else Null), []));
    ConsMap("entity_context", Str(EntityContextName(x.entityContext)), Cons("album_id", (if x.albumId.Some? then DumpYnisonId(x.albumId.value) else Null), Cons("playlist_id", (if x.playlistId.Some? then DumpYnisonId(x.playlistId.value) else Null), [])));
  }

  lemma PhonotekaSourceReadsEntityContext(x: PhonotekaSource, o: DumpOptions)
    requires !o.excludeNone
    ensures var m := PhonotekaSourceEntries(x, o); Required(m, "entity_context", EntityContextOf) == Some(x.entityContext)
  {
    assert "entity_context" in PhonotekaSourceEntries(x, o) && PhonotekaSourceEntries(x, o)["entity_context"] == Str(EntityContextName(x.entityContext));
    EntityContextOfName(x.entityContext);
  }

  lemma PhonotekaSourceReadsAlbumId(x: PhonotekaSource, o: DumpOptions)
    requires !o.excludeNone
    ensures var m := PhonotekaSourceEntries(x, o); Optional(m, "album_id", DecodeYnisonId) == Some(x.albumId)
  {
    assert "album_id" in PhonotekaSourceEntries(x, o) && PhonotekaSourceEntries(x, o)["album_id"] == (if x.albumId.Some? then DumpYnisonId(x.albumId.value) else Null);
    if x.albumId.Some? { YnisonIdRoundTrip(x.albumId.value); }
  }

  lemma PhonotekaSourceReadsPlaylistId(x: PhonotekaSource, o: DumpOptions)
    requires !o.excludeNone
    ensures var m := PhonotekaSourceEntries(x, o); Optional(m, "playlist_id", DecodeYnisonId) == Some(x.playlistId)
  {
    assert "playlist_id" in PhonotekaSourceEntries(x, o) && PhonotekaSourceEntries(x, o)["playlist_id"] == (if x.playlistId.Some? then DumpYnisonId(x.playlistId.value) else Null);
    if x.playlistId.Some? { YnisonIdRoundTrip(x.playlistId.value); }
  }

  /** Dumped with `None` fields kept, the record validates back to itself. */
  lemma PhonotekaSourceRoundTrip(x: PhonotekaSource, o: DumpOptions)
    requires !o.excludeNone
    ensures DecodePhonotekaSource(DumpPhonotekaSource(x, o)) == Some(x)
  {
    PhonotekaSourceDict(x, o);
    PhonotekaSourceReadsEntityContext(x, o);
    PhonotekaSourceReadsAlbumId(x, o);
    PhonotekaSourceReadsPlaylistId(x, o);
  }

  datatype TrackSource = TrackSource(
    key: int,
    waveSource: Option<WaveSource>,
    phonotekaSource: Option<PhonotekaSource>)

  /** A track source: the integer key is required, both sources default to `None`. */
  function TrackSourceFromDict(m: Dict): (r: Option<TrackSource>)
    ensures r.Some? ==> "key" in m
    ensures r.Some? && "wave_source" !in m ==> r.value.waveSource.None?
    ensures r.Some? && "phonoteka_source" !in m ==> r.value.phonotekaSource.None?
  {
    var key :- Required(m, "key", IntOf);
    var waveSource :- Optional(m, "wave_source", DecodeWaveSource);
    var phonotekaSource :- Optional(m, "phonoteka_source", DecodePhonotekaSource);
    Some(TrackSource(key, waveSource, phonotekaSource))
  }

  function DecodeTrackSource(v: Value): Option<TrackSource> {
    var m :- ObjOf(v);
    TrackSourceFromDict(m)
  }

  function DumpTrackSource(x: TrackSource, o: DumpOptions): Value {
    Obj(Emit(o,
      Cons("key", IntValue(x.key),
      Cons("wave_source", (if x.waveSource.Some? then DumpWaveSource(x.waveSource.value, o) else Null),
      Cons("phonoteka_source", (if x.phonotekaSource.Some? then DumpPhonotekaSource(x.phonotekaSource.value, o) else Null),
      [])))))
  }

  function TrackSourceEntries(x: TrackSource, o: DumpOptions): Dict {
    map[
      "phonoteka_source" := (if x.phonotekaSource.Some? then DumpPhonotekaSource(x.phonotekaSource.value, o) else Null),
      "wave_source" := (if x.waveSource.Some? then DumpWaveSource(x.waveSource.value, o) else Null),
      "key" := IntValue(x.key)]
  }

  lemma TrackSourceDict(x: TrackSource, o: DumpOptions)
    requires !o.excludeNone
    ensures ToMap(DumpTrackSource(x, o).fields) == TrackSourceEntries(x, o)
  {
    ConsMap("phonoteka_source", (if x.phonotekaSource.Some? then DumpPhonotekaSource(x.phonotekaSource.value, o) else Null), []);
    ConsMap("wave_source", (if x.waveSource.Some? then DumpWaveSource(x.waveSource.value, o) else Null), Cons("phonoteka_source", (if x.phonotekaSource.Some? then DumpPhonotekaSource(x.phonotekaSource.value, o) else Null), []));
    ConsMap("key", IntValue(x.key), Cons("wave_source", (if x.waveSource.Some? then DumpWaveSource(x.waveSource.value, o) else Null), Cons("phonoteka_source", (if x.phonotekaSource.Some? then DumpPhonotekaSource(x.phonotekaSource.value, o) else Null), [])));
  }

  lemma TrackSourceReadsKey(x: TrackSource, o: DumpOptions)
    requires !o.excludeNone
    ensures var m := TrackSourceEntries(x, o); Required(m, "key", IntOf) == Some(x.key)
  {
    assert "key" in TrackSourceEntries(x, o) && TrackSourceEntries(x, o)["key"] == IntValue(x.key);
  }

  lemma TrackSourceReadsWaveSource(x: TrackSource, o: DumpOptions)
    requires !o.excludeNone
    ensures var m := TrackSourceEntries(x, o); Optional(m, "wave_source", DecodeWaveSource) == Some(x.waveSource)
  {
    assert "wave_source" in TrackSourceEntries(x, o) && TrackSourceEntries(x, o)["wave_source"] == (if x.waveSource.Some? then DumpWaveSource(x.waveSource.value, o) else Null);
    if x.waveSource.Some? { WaveSourceRoundTrip(x.waveSource.value, o); }
  }

  lemma TrackSourceReadsPhonotekaSource(x: TrackSource, o: DumpOptions)
    requires !o.excludeNone
    ensures var m := TrackSourceEntries(x, o); Optional(m, "phonoteka_source", DecodePhonotekaSource) == Some(x.phonotekaSource)
  {
    var m := TrackSourceEntries(x, o);
    var v := if x.phonotekaSource.Some? then DumpPhonotekaSource(x.phonotekaSource.value, o) else Null;
    assert "phonoteka_source" in m && m["phonoteka_source"] == v;
    if x.phonotekaSource.Some? { PhonotekaSourceRoundTrip(x.phonotekaSource.value, o); }
    OptionalAt(DecodePhonotekaSource, m, "phonoteka_source", v, x.phonotekaSource);
  }

  /** Dumped with `None` fields kept, the record validates back to itself. */
  lemma TrackSourceRoundTrip(x: TrackSource, o: DumpOptions)
    requires !o.excludeNone
    ensures DecodeTrackSource(DumpTrackSource(x, o)) == Some(x)
  {
    TrackSourceDict(x, o);
    TrackSourceReadsKey(x, o);
    TrackSourceReadsWaveSource(x, o);
    TrackSourceReadsPhonotekaSource(x, o);
  }

  /** `List[...]` of TrackSource: every element must validate. */
  function DecodeTrackSourceList(v: Value): Option<seq<TrackSource>> {
    ListOf(v, DecodeTrackSource)
  }

  function TrackSourceEncoder(o: DumpOptions): TrackSource -> Value {
    x => DumpTrackSource(x, o)
  }

  function DumpTrackSourceList(xs: seq<TrackSource>, o: DumpOptions): Value {
    ListValue(xs, TrackSourceEncoder(o))
  }

  lemma TrackSourceListRoundTrip(xs: seq<TrackSource>, o: DumpOptions)
    requires !o.excludeNone
    ensures DecodeTrackSourceList(DumpTrackSourceList(xs, o)) == Some(xs)
  {
    forall x ensures DecodeTrackSource(TrackSourceEncoder(o)(x)) == Some(x) {
      TrackSourceRoundTrip(x, o);
    }
    ListRoundTrip(xs, TrackSourceEncoder(o), DecodeTrackSource);
  }

  datatype WaveEntityOptional = WaveEntityOptional(sessionId: string)

  /** The wave entity: a required session id. */
  function WaveEntityOptionalFromDict(m: Dict): (r: Option<WaveEntityOptional>)
    ensures r.Some? ==> "session_id" in m
  {
    var sessionId :- Required(m, "session_id", StrOf);
    Some(WaveEntityOptional(sessionId))
  }

  function DecodeWaveEntityOptional(v: Value): Option<WaveEntityOptional> {
    var m :- ObjOf(v);
    WaveEntityOptionalFromDict(m)
  }

  function DumpWaveEntityOptional(x: WaveEntityOptional, o: DumpOptions): Value {
    Obj(Emit(o,
      Cons("session_id", Str(x.sessionId),
      [])))
  }

  function WaveEntityOptionalEntries(x: WaveEntityOptional, o: DumpOptions): Dict {
    map[
      "session_id" := Str(x.sessionId)]
  }

  lemma WaveEntityOptionalDict(x: WaveEntityOptional, o: DumpOptions)
    requires !o.excludeNone
    ensures ToMap(DumpWaveEntityOptional(x, o).fields) == WaveEntityOptionalEntries(x, o)
  {
    ConsMap("session_id", Str(x.sessionId), []);
  }

  lemma WaveEntityOptionalReadsSessionId(x: WaveEntityOptional, o: DumpOptions)
    requires !o.excludeNone
    ensures var m := WaveEntityOptionalEntries(x, o); Required(m, "session_id", StrOf) == Some(x.sessionId)
  {
    assert "session_id" in WaveEntityOptionalEntries(x, o) && WaveEntityOptionalEntries(x, o)["session_id"] == Str(x.sessionId);
  }

  /** Dumped with `None` fields kept, the record validates back to itself. */
  lemma WaveEntityOptionalRoundTrip(x: WaveEntityOptional, o: DumpOptions)
    requires !o.excludeNone
    ensures DecodeWaveEntityOptional(DumpWaveEntityOptional(x, o)) == Some(x)
  {
    WaveEntityOptionalDict(x, o);
    WaveEntityOptionalReadsSessionId(x, o);
  }

  datatype EntityOptions = EntityOptions(
    trackSources: Option<seq<TrackSource>>,
    waveEntityOptional: Option<WaveEntityOptional>)

  /** Entity options: both fields default to `None`. */
  function EntityOptionsFromDict(m: Dict): (r: Option<EntityOptions>)
    ensures r.Some? && "track_sources" !in m ==> r.value.trackSources.None?
    ensures r.Some? && "wave_entity_optional" !in m ==> r.value.waveEntityOptional.None?
  {
    var trackSources :- Optional(m, "track_sources", DecodeTrackSourceList);
    var waveEntityOptional :- Optional(m, "wave_entity_optional", DecodeWaveEntityOptional);
    Some(EntityOptions(trackSources, waveEntityOptional))
  }

  function DecodeEntityOptions(v: Value): Option<EntityOptions> {
    var m :- ObjOf(v);
    EntityOptionsFromDict(m)
  }

  function DumpEntityOptions(x: EntityOptions, o: DumpOptions): Value {
    Obj(Emit(o,
      Cons("track_sources", (if x.trackSources.Some? then DumpTrackSourceList(x.trackSources.value, o) else Null),
      Cons("wave_entity_optional", (if x.waveEntityOptional.Some? then DumpWaveEntityOptional(x.waveEntityOptional.value, o) else Null),
      []))))
  }

  function EntityOptionsEntries(x: EntityOptions, o: DumpOptions): Dict {
    map[
      "wave_entity_optional" := (if x.waveEntityOptional.Some? then DumpWaveEntityOptional(x.waveEntityOptional.value, o) else Null),
      "track_sources" := (if x.trackSources.Some? then DumpTrackSourceList(x.trackSources.value, o) else Null)]
  }

  lemma EntityOptionsDict(x: EntityOptions, o: DumpOptions)
    requires !o.excludeNone
    ensures ToMap(DumpEntityOptions(x, o).fields) == EntityOptionsEntries(x, o)
  {
    ConsMap("wave_entity_optional", (if x.waveEntityOptional.Some? then DumpWaveEntityOptional(x.waveEntityOptional.value, o) else Null), []);
    ConsMap("track_sources", (if x.trackSources.Some? then DumpTrackSourceList(x.trackSources.value, o) else Null), Cons("wave_entity_optional", (if x.waveEntityOptional.Some? then DumpWaveEntityOptional(x.waveEntityOptional.value, o) else Null), []));
  }

  lemma EntityOptionsReadsTrackSources(x: EntityOptions, o: DumpOptions)
    requires !o.excludeNone
    ensures var m := EntityOptionsEntries(x, o); Optional(m, "track_sources", DecodeTrackSourceList) == Some(x.trackSources)
  {
    assert "track_sources" in EntityOptionsEntries(x, o) && EntityOptionsEntries(x, o)["track_sources"] == (if x.trackSources.Some? then DumpTrackSourceList(x.trackSources.value, o) else Null);
    if x.trackSources.Some? { TrackSourceListRoundTrip(x.trackSources.value, o); }
  }

  lemma EntityOptionsReadsWaveEntityOptional(x: EntityOptions, o: DumpOptions)
    requires !o.excludeNone
    ensures var m := EntityOptionsEntries(x, o); Optional(m, "wave_entity_optional", DecodeWaveEntityOptional) == Some(x.waveEntityOptional)
  {
    assert "wave_entity_optional" in EntityOptionsEntries(x, o) && EntityOptionsEntries(x, o)["wave_entity_optional"] == (if x.waveEntityOptional.Some? then DumpWaveEntityOptional(x.waveEntityOptional.value, o) else Null);
    if x.waveEntityOptional.Some? { WaveEntityOptionalRoundTrip(x.waveEntityOptional.value, o); }
  }

  /** Dumped with `None` fields kept, the record validates back to itself. */
  lemma EntityOptionsRoundTrip(x: EntityOptions, o: DumpOptions)
    requires !o.excludeNone
    ensures DecodeEntityOptions(DumpEntityOptions(x, o)) == Some(x)
  {
    EntityOptionsDict(x, o);
    EntityOptionsReadsTrackSources(x, o);
    EntityOptionsReadsWaveEntityOptional(x, o);
  }

  datatype WaveQueue = WaveQueue(
    recommendedPlayableList: Option<seq<PlayableItem>>,
    livePlayableIndex: int,
    entityOptions: Option<EntityOptions>)

  /** A wave queue: `live_playable_index` defaults to 0, the other fields to `None`. */
  function WaveQueueFromDict(m: Dict): (r: Option<WaveQueue>)
    ensures r.Some? && "recommended_playable_list" !in m ==> r.value.recommendedPlayableList.None?
    ensures r.Some? && "live_playable_index" !in m ==> r.value.livePlayableIndex == 0
    ensures r.Some? && "entity_options" !in m ==> r.value.entityOptions.None?
  {
    var recommendedPlayableList :- Optional(m, "recommended_playable_list", DecodePlayableList);
    var livePlayableIndex :- Defaulted(m, "live_playable_index", IntOf, 0);
    var entityOptions :- Optional(m, "entity_options", DecodeEntityOptions);
    Some(WaveQueue(recommendedPlayableList, livePlayableIndex, entityOptions))
  }

  function DecodeWaveQueue(v: Value): Option<WaveQueue> {
    var m :- ObjOf(v);
    WaveQueueFromDict(m)
  }

  function DumpWaveQueue(x: WaveQueue, o: DumpOptions): Value {
    Obj(Emit(o,
      Cons("recommended_playable_list", (if x.recommendedPlayableList.Some? then DumpPlayableList(x.recommendedPlayableList.value, o) else Null),
      Cons("live_playable_index", IntValue(x.livePlayableIndex),
      Cons("entity_options", (if x.entityOptions.Some? then DumpEntityOptions(x.entityOptions.value, o) else Null),
      [])))))
  }

  function WaveQueueEntries(x: WaveQueue, o: DumpOptions): Dict {
    map[
      "entity_options" := (if x.entityOptions.Some? then DumpEntityOptions(x.entityOptions.value, o) else Null),
      "live_playable_index" := IntValue(x.livePlayableIndex),
      "recommended_playable_list" := (if x.recommendedPlayableList.Some? then DumpPlayableList(x.recommendedPlayableList.value, o) else Null)]
  }

  lemma WaveQueueDict(x: WaveQueue, o: DumpOptions)
    requires !o.excludeNone
    ensures ToMap(DumpWaveQueue(x, o).fields) == WaveQueueEntries(x, o)
  {
    ConsMap("entity_options", (if x.entityOptions.Some? then DumpEntityOptions(x.entityOptions.value, o) else Null), []);
    ConsMap("live_playable_index", IntValue(x.livePlayableIndex), Cons("entity_options", (if x.entityOptions.Some? then DumpEntityOptions(x.entityOptions.value, o) else Null), []));
    ConsMap("recommended_playable_list", (if x.recommendedPlayableList.Some? then DumpPlayableList(x.recommendedPlayableList.value, o) else Null), Cons("live_playable_index", IntValue(x.livePlayableIndex), Cons("entity_options", (if x.entityOptions.Some? then DumpEntityOptions(x.entityOptions.value, o) else Null), [])));
  }

  lemma WaveQueueReadsRecommendedPlayableList(x: WaveQueue, o: DumpOptions)
    requires !o.excludeNone
    ensures var m := WaveQueueEntries(x, o); Optional(m, "recommended_playable_list", DecodePlayableList) == Some(x.recommendedPlayableList)
  {
    assert "recommended_playable_list" in WaveQueueEntries(x, o) && WaveQueueEntries(x, o)["recommended_playable_list"] == (if x.recommendedPlayableList.Some? then DumpPlayableList(x.recommendedPlayableList.value, o) else Null);
    if x.recommendedPlayableList.Some? { PlayableListRoundTrip(x.recommendedPlayableList.value, o); }
  }

  lemma WaveQueueReadsLivePlayableIndex(x: WaveQueue, o: DumpOptions)
    requires !o.excludeNone
    ensures var m := WaveQueueEntries(x, o); Defaulted(m, "live_playable_index", IntOf, 0) == Some(x.livePlayableIndex)
  {
    assert "live_playable_index" in WaveQueueEntries(x, o) && WaveQueueEntries(x, o)["live_playable_index"] == IntValue(x.livePlayableIndex);
  }

  lemma WaveQueueReadsEntityOptions(x: WaveQueue, o: DumpOptions)
    requires !o.excludeNone
    ensures var m := WaveQueueEntries(x, o); Optional(m, "entity_options", DecodeEntityOptions) == Some(x.entityOptions)
  {
    assert "entity_options" in WaveQueueEntries(x, o) && WaveQueueEntries(x, o)["entity_options"] == (if x.entityOptions.Some? then DumpEntityOptions(x.entityOptions.value, o) else Null);
    if x.entityOptions.Some? { EntityOptionsRoundTrip(x.entityOptions.value, o); }
  }

  /** Dumped with `None` fields kept, the record validates back to itself. */
  lemma WaveQueueRoundTrip(x: WaveQueue, o: DumpOptions)
    requires !o.excludeNone
    ensures DecodeWaveQueue(DumpWaveQueue(x, o)) == Some(x)
  {
    WaveQueueDict(x, o);
    WaveQueueReadsRecommendedPlayableList(x, o);
    WaveQueueReadsLivePlayableIndex(x, o);
    WaveQueueReadsEntityOptions(x, o);
  }

  datatype Queue = Queue(waveQueue: Option<WaveQueue>)

  /** The queue body: an optional wave queue. */
  function QueueFromDict(m: Dict): (r: Option<Queue>)
    ensures r.Some? && "wave_queue" !in m ==> r.value.waveQueue.None?
  {
    var waveQueue :- Optional(m, "wave_queue", DecodeWaveQueue);
    Some(Queue(waveQueue))
  }

  function DecodeQueue(v: Value): Option<Queue> {
    var m :- ObjOf(v);
    QueueFromDict(m)
  }

  function DumpQueue(x: Queue, o: DumpOptions): Value {
    Obj(Emit(o,
      Cons("wave_queue", (if x.waveQueue.Some? then DumpWaveQueue(x.waveQueue.value, o) else Null),
      [])))
  }

  function QueueEntries(x: Queue, o: DumpOptions): Dict {
    map[
      "wave_queue" := (if x.waveQueue.Some? then DumpWaveQueue(x.waveQueue.value, o) else Null)]
  }

  lemma QueueDict(x: Queue, o: DumpOptions)
    requires !o.excludeNone
    ensures ToMap(DumpQueue(x, o).fields) == QueueEntries(x, o)
  {
    ConsMap("wave_queue", (if x.waveQueue.Some? then DumpWaveQueue(x.waveQueue.value, o) else Null), []);
  }

  lemma QueueReadsWaveQueue(x: Queue, o: DumpOptions)
    requires !o.excludeNone
    ensures var m := QueueEntries(x, o); Optional(m, "wave_queue", DecodeWaveQueue) == Some(x.waveQueue)
  {
    assert "wave_queue" in QueueEntries(x, o) && QueueEntries(x, o)["wave_queue"] == (if x.waveQueue.Some? then DumpWaveQueue(x.waveQueue.value, o) else Null);
    if x.waveQueue.Some? { WaveQueueRoundTrip(x.waveQueue.value, o); }
  }

  /** Dumped with `None` fields kept, the record validates back to itself. */
  lemma QueueRoundTrip(x: Queue, o: DumpOptions)
    requires !o.excludeNone
    ensures DecodeQueue(DumpQueue(x, o)) == Some(x)
  {
    QueueDict(x, o);
    QueueReadsWaveQueue(x, o);
  }

  datatype QueueOptions = QueueOptions(repeatMode: string)

  /** Queue options: `repeat_mode` defaults to "NONE". */
  function QueueOptionsFromDict(m: Dict): (r: Option<QueueOptions>)
    ensures r.Some? && "repeat_mode" !in m ==> r.value.repeatMode == "NONE"
  {
    var repeatMode :- Defaulted(m, "repeat_mode", StrOf, "NONE");
    Some(QueueOptions(repeatMode))
  }

  function DecodeQueueOptions(v: Value): Option<QueueOptions> {
    var m :- ObjOf(v);
    QueueOptionsFromDict(m)
  }

  function DumpQueueOptions(x: QueueOptions, o: DumpOptions): Value {
    Obj(Emit(o,
      Cons("repeat_mode", Str(x.repeatMode),
      [])))
  }

  function QueueOptionsEntries(x: QueueOptions, o: DumpOptions): Dict {
    map[
      "repeat_mode" := Str(x.repeatMode)]
  }

  lemma QueueOptionsDict(x: QueueOptions, o: DumpOptions)
    requires !o.excludeNone
    ensures ToMap(DumpQueueOptions(x, o).fields) == QueueOptionsEntries(x, o)
  {
    ConsMap("repeat_mode", Str(x.repeatMode), []);
  }

  lemma QueueOptionsReadsRepeatMode(x: QueueOptions, o: DumpOptions)
    requires !o.excludeNone
    ensures var m := QueueOptionsEntries(x, o); Defaulted(m, "repeat_mode", StrOf, "NONE") == Some(x.repeatMode)
  {
    assert "repeat_mode" in QueueOptionsEntries(x, o) && QueueOptionsEntries(x, o)["repeat_mode"] == Str(x.repeatMode);
  }

  /** Dumped with `None` fields kept, the record validates back to itself. */
  lemma QueueOptionsRoundTrip(x: QueueOptions, o: DumpOptions)
    requires !o.excludeNone
    ensures DecodeQueueOptions(DumpQueueOptions(x, o)) == Some(x)
  {
    QueueOptionsDict(x, o);
    QueueOptionsReadsRepeatMode(x, o);
  }

  /** The value the `options` field takes when absent. */
  const DefaultQueueOptions := QueueOptions("NONE")


  datatype PlayerQueue = PlayerQueue(
    currentPlayableIndex: int,
    entityId: Option<string>,
    entityType: EntityType,
    entityContext: EntityContext,
    options: QueueOptions,
    playableList: seq<PlayableItem>,
    queue: Option<Queue>,
    fromOptional: Option<string>,
    version: Option<Version>)

  /** The player queue: every field has a default (index -1, `VARIOUS`, `BASED_ON_ENTITY_BY_DEFAULT`, repeat mode "NONE", an empty list) or is optional. */
  function PlayerQueueFromDict(env: Fresh, m: Dict): (r: Option<PlayerQueue>)
    ensures r.Some? && "current_playable_index" !in m ==> r.value.currentPlayableIndex == -1
    ensures r.Some? && "entity_id" !in m ==> r.value.entityId.None?
    ensures r.Some? && "entity_type" !in m ==> r.value.entityType == Various
    ensures r.Some? && "entity_context" !in m ==> r.value.entityContext == BasedOnEntityByDefault
    ensures r.Some? && "options" !in m ==> r.value.options == DefaultQueueOptions
    ensures r.Some? && "playable_list" !in m ==> r.value.playableList == []
    ensures r.Some? && "queue" !in m ==> r.value.queue.None?
    ensures r.Some? && "from_optional" !in m ==> r.value.fromOptional.None?
    ensures r.Some? && "version" !in m ==> r.value.version.None?
  {
    var currentPlayableIndex :- Defaulted(m, "current_playable_index", IntOf, -1);
    var entityId :- Optional(m, "entity_id", StrOf);
    var entityType :- Defaulted(m, "entity_type", EntityTypeOf, Various);
    var entityContext :- Defaulted(m, "entity_context", EntityContextOf, BasedOnEntityByDefault);
    var options :- Defaulted(m, "options", DecodeQueueOptions, DefaultQueueOptions);
    var playableList :- Defaulted(m, "playable_list", DecodePlayableList, []);
    var queue :- Optional(m, "queue", DecodeQueue);
    var fromOptional :- Optional(m, "from_optional", StrOf);
    var version :- Optional(m, "version", VersionDecoder(env));
    Some(PlayerQueue(currentPlayableIndex, entityId, entityType, entityContext, options, playableList, queue, fromOptional, version))
  }

  function DecodePlayerQueue(env: Fresh, v: Value): Option<PlayerQueue> {
    var m :- ObjOf(v);
    PlayerQueueFromDict(env, m)
  }

  function DumpPlayerQueue(x: PlayerQueue, o: DumpOptions): Value {
    Obj(Emit(o,
      Cons("current_playable_index", IntValue(x.currentPlayableIndex),
      Cons("entity_id", OptStr(x.entityId),
      Cons("entity_type", Str(EntityTypeName(x.entityType)),
      Cons("entity_context", Str(EntityContextName(x.entityContext)),
      Cons("options", DumpQueueOptions(x.options, o),
      Cons("playable_list", DumpPlayableList(x.playableList, o),
      Cons("queue", (if x.queue.Some? then DumpQueue(x.queue.value, o) else Null),
      Cons("from_optional", OptStr(x.fromOptional),
      Cons("version", (if x.version.Some? then DumpVersion(x.version.value) else Null),
      [])))))))))))
  }

  function PlayerQueueEntries(x: PlayerQueue, o: DumpOptions): Dict {
    map[
      "version" := (if x.version.Some? then DumpVersion(x.version.value) else Null),
      "from_optional" := OptStr(x.fromOptional),
      "queue" := (if x.queue.Some? then DumpQueue(x.queue.value, o) else Null),
      "playable_list" := DumpPlayableList(x.playableList, o),
      "options" := DumpQueueOptions(x.options, o),
      "entity_context" := Str(EntityContextName(x.entityContext)),
      "entity_type" := Str(EntityTypeName(x.entityType)),
      "entity_id" := OptStr(x.entityId),
      "current_playable_index" := IntValue(x.currentPlayableIndex)]
  }

  lemma PlayerQueueDict(x: PlayerQueue, o: DumpOptions)
    requires !o.excludeNone
    ensures ToMap(DumpPlayerQueue(x, o).fields) == PlayerQueueEntries(x, o)
  {
    ConsMap("version", (if x.version.Some? then DumpVersion(x.version.value) else Null), []);
    ConsMap("from_optional", OptStr(x.fromOptional), Cons("version", (if x.version.Some? then DumpVersion(x.version.value) else Null), []));
    ConsMap("queue", (if x.queue.Some? then DumpQueue(x.queue.value, o) else Null), Cons("from_optional", OptStr(x.fromOptional), Cons("version", (if x.version.Some? then DumpVersion(x.version.value) else Null), [])));
    ConsMap("playable_list", DumpPlayableList(x.playableList, o), Cons("queue", (if x.queue.Some? then DumpQueue(x.queue.value, o) else Null), Cons("from_optional", OptStr(x.fromOptional), Cons("version", (if x.version.Some? then DumpVersion(x.version.value) else Null), []))));
    ConsMap("options", DumpQueueOptions(x.options, o), Cons("playable_list", DumpPlayableList(x.playableList, o), Cons("queue", (if x.queue.Some? then DumpQueue(x.queue.value, o) else Null), Cons("from_optional", OptStr(x.fromOptional), Cons("version", (if x.version.Some? then DumpVersion(x.version.value) else Null), [])))));
    ConsMap("entity_context", Str(EntityContextName(x.entityContext)), Cons("options", DumpQueueOptions(x.options, o), Cons("playable_list", DumpPlayableList(x.playableList, o), Cons("queue", (if x.queue.Some? then DumpQueue(x.queue.value, o) else Null), Cons("from_optional", OptStr(x.fromOptional), Cons("version", (if x.version.Some? then DumpVersion(x.version.value) else Null), []))))));
    ConsMap("entity_type", Str(EntityTypeName(x.entityType)), Cons("entity_context", Str(EntityContextName(x.entityContext)), Cons("options", DumpQueueOptions(x.options, o), Cons("playable_list", DumpPlayableList(x.playableList, o), Cons("queue", (if x.queue.Some? then DumpQueue(x.queue.value, o) else Null), Cons("from_optional", OptStr(x.fromOptional), Cons("version", (if x.version.Some? then DumpVersion(x.version.value) else Null), [])))))));
    ConsMap("entity_id", OptStr(x.entityId), Cons("entity_type", Str(EntityTypeName(x.entityType)), Cons("entity_context", Str(EntityContextName(x.entityContext)), Cons("options", DumpQueueOptions(x.options, o), Cons("playable_list", DumpPlayableList(x.playableList, o), Cons("queue", (if x.queue.Some? then DumpQueue(x.queue.value, o) else Null), Cons("from_optional", OptStr(x.fromOptional), Cons("version", (if x.version.Some? then DumpVersion(x.version.value) else Null), []))))))));
    ConsMap("current_playable_index", IntValue(x.currentPlayableIndex), Cons("entity_id", OptStr(x.entityId), Cons("entity_type", Str(EntityTypeName(x.entityType)), Cons("entity_context", Str(EntityContextName(x.entityContext)), Cons("options", DumpQueueOptions(x.options, o), Cons("playable_list", DumpPlayableList(x.playableList, o), Cons("queue", (if x.queue.Some? then DumpQueue(x.queue.value, o) else Null), Cons("from_optional", OptStr(x.fromOptional), Cons("version", (if x.version.Some? then DumpVersion(x.version.value) else Null), [])))))))));
  }

  lemma PlayerQueueReadsCurrentPlayableIndex(env: Fresh, x: PlayerQueue, o: DumpOptions)
    requires !o.excludeNone
    ensures var m := PlayerQueueEntries(x, o); Defaulted(m, "current_playable_index", IntOf, -1) == Some(x.currentPlayableIndex)
  {
    assert "current_playable_index" in PlayerQueueEntries(x, o) && PlayerQueueEntries(x, o)["current_playable_index"] == IntValue(x.currentPlayableIndex);
  }

  lemma PlayerQueueReadsEntityId(env: Fresh, x: PlayerQueue, o: DumpOptions)
    requires !o.excludeNone
    ensures var m := PlayerQueueEntries(x, o); Optional(m, "entity_id", StrOf) == Some(x.entityId)
  {
    assert "entity_id" in PlayerQueueEntries(x, o) && PlayerQueueEntries(x, o)["entity_id"] == OptStr(x.entityId);
  }

  lemma PlayerQueueReadsEntityType(env: Fresh, x: PlayerQueue, o: DumpOptions)
    requires !o.excludeNone
    ensures var m := PlayerQueueEntries(x, o); Defaulted(m, "entity_type", EntityTypeOf, Various) == Some(x.entityType)
  {
    assert "entity_type" in PlayerQueueEntries(x, o) && PlayerQueueEntries(x, o)["entity_type"] == Str(EntityTypeName(x.entityType));
    EntityTypeOfName(x.entityType);
  }

  lemma PlayerQueueReadsEntityContext(env: Fresh, x: PlayerQueue, o: DumpOptions)
    requires !o.excludeNone
    ensures var m := PlayerQueueEntries(x, o); Defaulted(m, "entity_context", EntityContextOf, BasedOnEntityByDefault) == Some(x.entityContext)
  {
    assert "entity_context" in PlayerQueueEntries(x, o) && PlayerQueueEntries(x, o)["entity_context"] == Str(EntityContextName(x.entityContext));
    EntityContextOfName(x.entityContext);
  }

  lemma PlayerQueueReadsOptions(env: Fresh, x: PlayerQueue, o: DumpOptions)
    requires !o.excludeNone
    ensures var m := PlayerQueueEntries(x, o); Defaulted(m, "options", DecodeQueueOptions, DefaultQueueOptions) == Some(x.options)
  {
    assert "options" in PlayerQueueEntries(x, o) && PlayerQueueEntries(x, o)["options"] == DumpQueueOptions(x.options, o);
    QueueOptionsRoundTrip(x.options, o);
  }

  lemma PlayerQueueReadsPlayableList(env: Fresh, x: PlayerQueue, o: DumpOptions)
    requires !o.excludeNone
    ensures var m := PlayerQueueEntries(x, o); Defaulted(m, "playable_list", DecodePlayableList, []) == Some(x.playableList)
  {
    assert "playable_list" in PlayerQueueEntries(x, o) && PlayerQueueEntries(x, o)["playable_list"] == DumpPlayableList(x.playableList, o);
    PlayableListRoundTrip(x.playableList, o);
  }

  lemma PlayerQueueReadsQueue(env: Fresh, x: PlayerQueue, o: DumpOptions)
    requires !o.excludeNone
    ensures var m := PlayerQueueEntries(x, o); Optional(m, "queue", DecodeQueue) == Some(x.queue)
  {
    assert "queue" in PlayerQueueEntries(x, o) && PlayerQueueEntries(x, o)["queue"] == (if x.queue.Some? then DumpQueue(x.queue.value, o) else Null);
    if x.queue.Some? { QueueRoundTrip(x.queue.value, o); }
  }

  lemma PlayerQueueReadsFromOptional(env: Fresh, x: PlayerQueue, o: DumpOptions)
    requires !o.excludeNone
    ensures var m := PlayerQueueEntries(x, o); Optional(m, "from_optional", StrOf) == Some(x.fromOptional)
  {
    assert "from_optional" in PlayerQueueEntries(x, o) && PlayerQueueEntries(x, o)["from_optional"] == OptStr(x.fromOptional);
  }

  lemma PlayerQueueReadsVersion(env: Fresh, x: PlayerQueue, o: DumpOptions)
    requires !o.excludeNone
    ensures var m := PlayerQueueEntries(x, o); Optional(m, "version", VersionDecoder(env)) == Some(x.version)
  {
    assert "version" in PlayerQueueEntries(x, o) && PlayerQueueEntries(x, o)["version"] == (if x.version.Some? then DumpVersion(x.version.value) else Null);
    if x.version.Some? { VersionRoundTrip(env, x.version.value); }
  }

  /** Dumped with `None` fields kept, the record validates back to itself. */
  lemma PlayerQueueRoundTrip(env: Fresh, x: PlayerQueue, o: DumpOptions)
    requires !o.excludeNone
    ensures DecodePlayerQueue(env, DumpPlayerQueue(x, o)) == Some(x)
  {
    PlayerQueueDict(x, o);
    PlayerQueueReadsCurrentPlayableIndex(env, x, o);
    PlayerQueueReadsEntityId(env, x, o);
    PlayerQueueReadsEntityType(env, x, o);
    PlayerQueueReadsEntityContext(env, x, o);
    PlayerQueueReadsOptions(env, x, o);
    PlayerQueueReadsPlayableList(env, x, o);
    PlayerQueueReadsQueue(env, x, o);
    PlayerQueueReadsFromOptional(env, x, o);
    PlayerQueueReadsVersion(env, x, o);
  }

  /** Validation of a `PlayerQueue` field, as a function value. */
  function PlayerQueueDecoder(env: Fresh): Value -> Option<PlayerQueue> {
    v => DecodePlayerQueue(env, v)
  }
}

=== FILE: models_redirect.dfy ===
/**
 * The redirector's answer (`ynison/models/redirect.py`): where the state
 * service lives and the ticket and session that open it.
 */
module ModelsRedirect {
  import opened Wrappers
  import opened Json
  import opened Validation
  import opened ModelsCommon

  datatype Redirect = Redirect(
    host: string,
    redirectTicket: string,
    sessionId: string,
    keepAliveParams: Option<KeepAliveParams>)

  /** A redirect: host, ticket and session id are required, the keep-alive parameters default to `None`. */
  function RedirectFromDict(m: Dict): (r: Option<Redirect>)
    ensures r.Some? ==> "host" in m && "redirect_ticket" in m && "session_id" in m
    ensures r.Some? && "keep_alive_params" !in m ==> r.value.keepAliveParams.None?
  {
    var host :- Required(m, "host", StrOf);
    var redirectTicket :- Required(m, "redirect_ticket", StrOf);
    var sessionId :- Required(m, "session_id", StrOf);
    var keepAliveParams :- Optional(m, "keep_alive_params", DecodeKeepAliveParams);
    Some(Redirect(host, redirectTicket, sessionId, keepAliveParams))
  }

  function DecodeRedirect(v: Value): Option<Redirect> {
    var m :- ObjOf(v);
    RedirectFromDict(m)
  }

  function DumpRedirect(x: Redirect, o: DumpOptions): Value {
    Obj(Emit(o,
      Cons("host", Str(x.host),
      Cons("redirect_ticket", Str(x.redirectTicket),
      Cons("session_id", Str(x.sessionId),
      Cons("keep_alive_params", (if x.keepAliveParams.Some? then DumpKeepAliveParams(x.keepAliveParams.value) else Null),
      []))))))
  }

  function RedirectEntries(x: Redirect, o: DumpOptions): Dict {
    map[
      "keep_alive_params" := (if x.keepAliveParams.Some? then DumpKeepAliveParams(x.keepAliveParams.value) else Null),
      "session_id" := Str(x.sessionId),
      "redirect_ticket" := Str(x.redirectTicket),
      "host" := Str(x.host)]
  }

  lemma RedirectDict(x: Redirect, o: DumpOptions)
    requires !o.excludeNone
    ensures ToMap(DumpRedirect(x, o).fields) == RedirectEntries(x, o)
  {
    ConsMap("keep_alive_params", (if x.keepAliveParams.Some? then DumpKeepAliveParams(x.keepAliveParams.value) else Null), []);
    ConsMap("session_id", Str(x.sessionId), Cons("keep_alive_params", (if x.keepAliveParams.Some? then DumpKeepAliveParams(x.keepAliveParams.value) else Null), []));
    ConsMap("redirect_ticket", Str(x.redirectTicket), Cons("session_id", Str(x.sessionId), Cons("keep_alive_params", (if x.keepAliveParams.Some? then DumpKeepAliveParams(x.keepAliveParams.value) else Null), [])));
    ConsMap("host", Str(x.host), Cons("redirect_ticket", Str(x.redirectTicket), Cons("session_id", Str(x.sessionId), Cons("keep_alive_params", (if x.keepAliveParams.Some? then DumpKeepAliveParams(x.keepAliveParams.value) else Null), []))));
  }

  lemma RedirectReadsHost(x: Redirect, o: DumpOptions)
    requires !o.excludeNone
    ensures var m := RedirectEntries(x, o); Required(m, "host", StrOf) == Some(x.host)
  {
    assert "host" in RedirectEntries(x, o) && RedirectEntries(x, o)["host"] == Str(x.host);
  }

  lemma RedirectReadsRedirectTicket(x: Redirect, o: DumpOptions)
    requires !o.excludeNone
    ensures var m := RedirectEntries(x, o); Required(m, "redirect_ticket", StrOf) == Some(x.redirectTicket)
  {
    assert "redirect_ticket" in RedirectEntries(x, o) && RedirectEntries(x, o)["redirect_ticket"] == Str(x.redirectTicket);
  }

  lemma RedirectReadsSessionId(x: Redirect, o: DumpOptions)
    requires !o.excludeNone
    ensures var m := RedirectEntries(x, o); Required(m, "session_id", StrOf) == Some(x.sessionId)
  {
    assert "session_id" in RedirectEntries(x, o) && RedirectEntries(x, o)["session_id"] == Str(x.sessionId);
  }

  lemma RedirectReadsKeepAliveParams(x: Redirect, o: DumpOptions)
    requires !o.excludeNone
    ensures var m := RedirectEntries(x, o); Optional(m, "keep_alive_params", DecodeKeepAliveParams) == Some(x.keepAliveParams)
  {
    assert "keep_alive_params" in RedirectEntries(x, o) && RedirectEntries(x, o)["keep_alive_params"] == (if x.keepAliveParams.Some? then DumpKeepAliveParams(x.keepAliveParams.value) else Null);
    if x.keepAliveParams.Some? { KeepAliveParamsRoundTrip(x.keepAliveParams.value); }
  }

  /** Dumped with `None` fields kept, the record validates back to itself. */
  lemma RedirectRoundTrip(x: Redirect, o: DumpOptions)
    requires !o.excludeNone
    ensures DecodeRedirect(DumpRedirect(x, o)) == Some(x)
  {
    RedirectDict(x, o);
    RedirectReadsHost(x, o);
    RedirectReadsRedirectTicket(x, o);
    RedirectReadsSessionId(x, o);
    RedirectReadsKeepAliveParams(x, o);
  }
}

=== FILE: models_state.dfy ===
/**
 * The aggregate state the bridge keeps and broadcasts (`ynison/models/state.py`).
 */
module ModelsState {
  import opened Wrappers
  import opened Json
  import opened Validation
  import opened ModelsCommon
  import opened ModelsPlayerState
  import opened ModelsDevice

  datatype State = State(
    rid: string,
    devices: seq<DeviceFull>,
    playerState: PlayerState,
    timestampMs: real)

  /** The state: the request id defaults to a fresh uuid; the full devices, the player state and the timestamp are required. */
  function StateFromDict(env: Fresh, m: Dict): (r: Option<State>)
    ensures r.Some? ==> "devices" in m && "player_state" in m && "timestamp_ms" in m
    ensures r.Some? && "rid" !in m ==> r.value.rid == env.uuid
  {
    var rid :- Defaulted(m, "rid", StrOf, env.uuid);
    var devices :- Required(m, "devices", DeviceFullListDecoder(env));
    var playerState :- Required(m, "player_state", PlayerStateDecoder(env));
    var timestampMs :- Required(m, "timestamp_ms", RealOf);
    Some(State(rid, devices, playerState, timestampMs))
  }

  function DecodeState(env: Fresh, v: Value): Option<State> {
    var m :- ObjOf(v);
    StateFromDict(env, m)
  }

  function DumpState(x: State, o: DumpOptions): Value {
    Obj(Emit(o,
      Cons("rid", Str(x.rid),
      Cons("devices", DumpDeviceFullList(x.devices, o),
      Cons("player_state", DumpPlayerState(x.playerState, o),
      Cons("timestamp_ms", Num(x.timestampMs),
      []))))))
  }

  function StateEntries(x: State, o: DumpOptions): Dict {
    map[
      "timestamp_ms" := Num(x.timestampMs),
      "player_state" := DumpPlayerState(x.playerState, o),
      "devices" := DumpDeviceFullList(x.devices, o),
      "rid" := Str(x.rid)]
  }

  lemma StateDict(x: State, o: DumpOptions)
    requires !o.excludeNone
    ensures ToMap(DumpState(x, o).fields) == StateEntries(x, o)
  {
    ConsMap("timestamp_ms", Num(x.timestampMs), []);
    ConsMap("player_state", DumpPlayerState(x.playerState, o), Cons("timestamp_ms", Num(x.timestampMs), []));
    ConsMap("devices", DumpDeviceFullList(x.devices, o), Cons("player_state", DumpPlayerState(x.playerState, o), Cons("timestamp_ms", Num(x.timestampMs), [])));
    ConsMap("rid", Str(x.rid), Cons("devices", DumpDeviceFullList(x.devices, o), Cons("player_state", DumpPlayerState(x.playerState, o), Cons("timestamp_ms", Num(x.timestampMs), []))));
  }

  lemma StateReadsRid(env: Fresh, x: State, o: DumpOptions)
    requires !o.excludeNone
    ensures var m := StateEntries(x, o); Defaulted(m, "rid", StrOf, env.uuid) == Some(x.rid)
  {
    assert "rid" in StateEntries(x, o) && StateEntries(x, o)["rid"] == Str(x.rid);
  }

  lemma StateReadsDevices(env: Fresh, x: State, o: DumpOptions)
    requires !o.excludeNone
    ensures var m := StateEntries(x, o); Required(m, "devices", DeviceFullListDecoder(env)) == Some(x.devices)
  {
    assert "devices" in StateEntries(x, o) && StateEntries(x, o)["devices"] == DumpDeviceFullList(x.devices, o);
    DeviceFullListRoundTrip(env, x.devices, o);
  }

  lemma StateReadsPlayerState(env: Fresh, x: State, o: DumpOptions)
    requires !o.excludeNone
    ensures var m := StateEntries(x, o); Required(m, "player_state", PlayerStateDecoder(env)) == Some(x.playerState)
  {
    assert "player_state" in StateEntries(x, o) && StateEntries(x, o)["player_state"] == DumpPlayerState(x.playerState, o);
    PlayerStateRoundTrip(env, x.playerState, o);
  }

  lemma StateReadsTimestampMs(env: Fresh, x: State, o: DumpOptions)
    requires !o.excludeNone
    ensures var m := StateEntries(x, o); Required(m, "timestamp_ms", RealOf) == Some(x.timestampMs)
  {
    assert "timestamp_ms" in StateEntries(x, o) && StateEntries(x, o)["timestamp_ms"] == Num(x.timestampMs);
  }

  /** Dumped with `None` fields kept, the record validates back to itself. */
  lemma StateRoundTrip(env: Fresh, x: State, o: DumpOptions)
    requires !o.excludeNone
    ensures DecodeState(env, DumpState(x, o)) == Some(x)
  {
    StateDict(x, o);
    StateReadsRid(env, x, o);
    StateReadsDevices(env, x, o);
    StateReadsPlayerState(env, x, o);
    StateReadsTimestampMs(env, x, o);
  }
}

=== FILE: music_client.dfy ===
/**
 * The plugin's client of the bridge (`src/core/ynison.py`, class
 * `YandexMusicClient`): the mirrored state document, the current track it
 * designates, the local like/dislike sets, the cover bookkeeping, the token
 * and enable switches of the connection loop, and the control requests.
 *
 * Socket frames arrive as parameters; the HTTP downloads and the connection
 * loop's waiting are not modelled, only the state changes around them.
 */
module MusicClient {
  import opened Wrappers
  import opened Text
  import opened Json
  import SessionManager
  import BridgeApi

  /** The connection loop's switches: the token and its event, the enable flag and its event. */
  datatype Connection = Connection(
    token: Option<string>,
    tokenEvent: bool,
    enabled: bool,
    enabledEvent: bool,
    authError: bool,
    wsConnected: bool)

  /** The current track and its cover. */
  datatype Playing = Playing(
    track: Option<Fields>,
    coverData: Option<seq<bv8>>,
    coverImage: bool,
    lastCoverUrl: Option<string>,
    isReady: bool)

  datatype Client = Client(
    conn: Connection,
    state: Option<Value>,
    playing: Playing,
    liked: set<Value>,
    disliked: set<Value>,
    callbacks: map<string, nat>,
    callbackOrder: seq<string>)

  /** The client as constructed (lines 23-57), the token taken from the environment. */
  function NewClient(envToken: Option<string>): (c: Client)
    ensures c.conn.enabled && !c.playing.isReady && !c.conn.authError && c.state.None? && c.callbacks == map[]
    ensures CallbacksOrdered(c) && Notified(c) == []
  {
    Client(Connection(envToken, false, true, false, false, false), None,
           Playing(None, None, false, None, false), {}, {}, map[], [])
  }

  /** Python truthiness of an optional string. */
  predicate Given(t: Option<string>) {
    t.Some? && |t.value| > 0
  }

  // ------------------------------------------------------ switches, token

  /**
   * `update_token` (lines 99-106): an unchanged token is a no-op; otherwise
   * the token is stored and the token event is set exactly when it is given.
   */
  function UpdateToken(c: Client, t: Option<string>): (r: Client)
    ensures t == c.conn.token ==> r == c
    ensures t != c.conn.token ==> r.conn.token == t && (r.conn.tokenEvent <==> Given(t))
    ensures r.conn.(token := c.conn.token, tokenEvent := c.conn.tokenEvent) == c.conn
    ensures r.(conn := c.conn) == c
  {
    if c.conn.token == t then c else c.(conn := c.conn.(token := t, tokenEvent := Given(t)))
  }

  /** The client after `set_enabled`, and whether it asks for the open session to be closed. */
  datatype Switched = Switched(client: Client, disconnect: bool)

  /** `set_enabled` (lines 83-93): disabling an open session also disconnects it. */
  function SetEnabled(c: Client, e: bool, sessionOpen: bool): (r: Switched)
    ensures e == c.conn.enabled ==> r == Switched(c, false)
    ensures r.client.conn.enabled == e
    ensures e != c.conn.enabled ==> r.client.conn.enabledEvent == e
    ensures r.disconnect <==> c.conn.enabled && !e && sessionOpen
    ensures r.client.conn.(enabled := c.conn.enabled, enabledEvent := c.conn.enabledEvent) == c.conn
    ensures r.client.(conn := c.conn) == c
  {
    if c.conn.enabled == e then Switched(c, false)
    else Switched(c.(conn := c.conn.(enabled := e, enabledEvent := e)), !e && sessionOpen)
  }

  /**
   * The connection loop waits for the token event when it has no token or
   * the last token was rejected (lines 135-136).
   */
  predicate WaitsForToken(c: Client) {
    (!Given(c.conn.token) || c.conn.authError) && !c.conn.tokenEvent
  }

  /** How a connection ended: the close frame's code and the socket's close code. */
  datatype Closed = Closed(frameCode: Option<int>, closeCode: Option<int>)

  /**
   * The end of one connection (lines 149-164): the client is disconnected
   * and not ready, and a 4001 in the close frame or as the close code marks
   * the token as rejected and clears the token event.
   */
  function OnClosed(c: Client, e: Closed): (r: Client)
    ensures !r.conn.wsConnected && !r.playing.isReady
    ensures r.conn.authError <==> c.conn.authError || e.frameCode == Some(4001) || e.closeCode == Some(4001)
    ensures e.frameCode == Some(4001) || (e.closeCode == Some(4001) && !c.conn.authError) ==> !r.conn.tokenEvent
    ensures r.conn.(wsConnected := c.conn.wsConnected, authError := c.conn.authError, tokenEvent := c.conn.tokenEvent) == c.conn
    ensures r == c.(conn := r.conn, playing := c.playing.(isReady := false))
  {
    var k1 := if e.frameCode == Some(4001) then c.conn.(authError := true, tokenEvent := false) else c.conn;
    var k2 := k1.(wsConnected := false);
    var k3 := if !k2.authError && e.closeCode == Some(4001) then k2.(authError := true, tokenEvent := false) else k2;
    c.(conn := k3, playing := c.playing.(isReady := false))
  }

  /** A rejected handshake (lines 166-170): status 401 or 4001 marks the token as rejected. */
  function OnHandshakeRejected(c: Client, status: int): (r: Client)
    ensures !r.conn.wsConnected
    ensures status == 401 || status == 4001 ==> r.conn.authError && !r.conn.tokenEvent
    ensures status != 401 && status != 4001 ==> r == c.(conn := c.conn.(wsConnected := false))
  {
    if status == 401 || status == 4001 then c.(conn := c.conn.(wsConnected := false, authError := true, tokenEvent := false))
    else c.(conn := c.conn.(wsConnected := false))
  }

  /** After a rejection the loop stays parked until a different, non-empty token arrives. */
  lemma RejectionParksUntilNewToken(c: Client, status: int, t: Option<string>)
    requires status == 401 || status == 4001
    ensures WaitsForToken(OnHandshakeRejected(c, status))
    ensures var parked := OnHandshakeRejected(c, status);
      !WaitsForToken(UpdateToken(parked, t)) <==> t != parked.conn.token && Given(t)
  {
  }

  // ------------------------------------------------------------ callbacks

  predicate Distinct(s: seq<string>) {
    forall i, j :: 0 <= i < j < |s| ==> s[i] != s[j]
  }

  /**
   * `ui_callbacks` is a dict, so it remembers insertion order: `callbackOrder`
   * lists each registered uuid once, oldest first.
   */
  predicate CallbacksOrdered(c: Client) {
    && Distinct(c.callbackOrder)
    && (forall u :: u in c.callbackOrder ==> u in c.callbacks)
    && (forall u :: u in c.callbacks ==> u in c.callbackOrder)
  }

  /** `register_callback` (lines 108-109): a new uuid goes last, a known one keeps its place. */
  function RegisterCallback(c: Client, uuid: string, cb: nat): (r: Client)
    ensures uuid in r.callbacks && r.callbacks[uuid] == cb
    ensures forall u :: u != uuid ==> (u in r.callbacks <==> u in c.callbacks)
    ensures forall u :: u != uuid && u in c.callbacks ==> r.callbacks[u] == c.callbacks[u]
    ensures CallbacksOrdered(c) ==> CallbacksOrdered(r)
    ensures r.(callbacks := c.callbacks, callbackOrder := c.callbackOrder) == c
  {
    var order := if uuid in c.callbacks then c.callbackOrder else c.callbackOrder + [uuid];
    c.(callbacks := c.callbacks[uuid := cb], callbackOrder := order)
  }

  /** `s` without `u`, the others in their order. */
  function Without(s: seq<string>, u: string): (r: seq<string>)
    ensures forall x :: x in r <==> x in s && x != u
  {
    if |s| == 0 then []
    else if s[0] == u then Without(s[1..], u)
    else [s[0]] + Without(s[1..], u)
  }

  lemma {:induction false} WithoutDistinct(s: seq<string>, u: string)
    ensures Distinct(s) ==> Distinct(Without(s, u))
  {
    if |s| > 0 && Distinct(s) {
      WithoutDistinct(s[1..], u);
      if s[0] != u {
        var t := Without(s[1..], u);
        assert s[0] !in t by { assert s[0] !in s[1..]; }
        forall i, j | 0 <= i < j < |[s[0]] + t| ensures ([s[0]] + t)[i] != ([s[0]] + t)[j] {
          if i > 0 { assert ([s[0]] + t)[i] == t[i - 1]; }
          assert ([s[0]] + t)[j] == t[j - 1];
        }
      }
    }
  }

  lemma {:induction false} WithoutAbsent(s: seq<string>, u: string)
    requires u !in s
    ensures Without(s, u) == s
  {
    if |s| > 0 {
      WithoutAbsent(s[1..], u);
      assert s == [s[0]] + s[1..];
    }
  }

  /** Dropping a uuid that sits at `i` closes the gap and moves nothing else. */
  lemma {:induction false} WithoutAt(s: seq<string>, u: string, i: nat)
    requires Distinct(s) && i < |s| && s[i] == u
    ensures Without(s, u) == s[..i] + s[i + 1..]
  {
    if i == 0 {
      assert u !in s[1..];
      WithoutAbsent(s[1..], u);
    } else {
      WithoutAt(s[1..], u, i - 1);
      assert s[1..][..i - 1] + s[1..][i..] == s[1..i] + s[i + 1..];
      assert [s[0]] + (s[1..i] + s[i + 1..]) == s[..i] + s[i + 1..];
    }
  }

  /** `unregister_callback` (lines 111-113): removing an unknown uuid changes nothing. */
  function UnregisterCallback(c: Client, uuid: string): (r: Client)
    ensures uuid !in r.callbacks
    ensures uuid !in c.callbacks ==> r == c
    ensures forall u :: u != uuid ==> (u in r.callbacks <==> u in c.callbacks)
    ensures forall u :: u != uuid && u in c.callbacks ==> r.callbacks[u] == c.callbacks[u]
    ensures CallbacksOrdered(c) ==> CallbacksOrdered(r)
  {
    WithoutDistinct(c.callbackOrder, uuid);
    if uuid in c.callbacks then
      c.(callbacks := c.callbacks - {uuid}, callbackOrder := Without(c.callbackOrder, uuid))
    else c
  }

  /** Registering a new uuid and unregistering it again gives the client back. */
  lemma RegisterUnregisterCallback(c: Client, uuid: string, cb: nat)
    requires CallbacksOrdered(c) && uuid !in c.callbacks
    ensures UnregisterCallback(RegisterCallback(c, uuid, cb), uuid) == c
  {
    assert c.callbacks[uuid := cb] - {uuid} == c.callbacks;
    WithoutAt(c.callbackOrder + [uuid], uuid, |c.callbackOrder|);
    assert (c.callbackOrder + [uuid])[..|c.callbackOrder|] == c.callbackOrder;
  }

  lemma {:induction false} DistinctCard(s: seq<string>)
    requires Distinct(s)
    ensures |set x | x in s| == |s|
  {
    if |s| > 0 {
      DistinctCard(s[1..]);
      assert (set x | x in s) == {s[0]} + (set x | x in s[1..]);
      assert s[0] !in s[1..];
    }
  }

  /** The callbacks of `fns`, read in the order `order` lists their uuids. */
  function Calls(order: seq<string>, fns: map<string, nat>): (r: seq<nat>)
    requires forall u :: u in order ==> u in fns
    ensures |r| == |order|
    ensures forall i :: 0 <= i < |order| ==> r[i] == fns[order[i]]
  {
    seq(|order|, i requires 0 <= i < |order| => fns[order[i]])
  }

  lemma CallsAppend(order: seq<string>, fns: map<string, nat>, u: string, cb: nat)
    requires forall x :: x in order ==> x in fns
    requires u !in order
    ensures Calls(order + [u], fns[u := cb]) == Calls(order, fns) + [cb]
  {
    var a, b := Calls(order + [u], fns[u := cb]), Calls(order, fns) + [cb];
    forall k | 0 <= k < |a| ensures a[k] == b[k] {
      if k < |order| { assert (order + [u])[k] == order[k]; }
    }
  }

  lemma CallsReplace(order: seq<string>, fns: map<string, nat>, i: nat, cb: nat)
    requires forall x :: x in order ==> x in fns
    requires Distinct(order) && i < |order|
    ensures Calls(order, fns[order[i] := cb]) == Calls(order, fns)[i := cb]
  {
  }

  lemma CallsDrop(order: seq<string>, fns: map<string, nat>, i: nat)
    requires forall x :: x in order ==> x in fns
    requires Distinct(order) && i < |order|
    ensures Calls(order[..i] + order[i + 1..], fns - {order[i]}) == Calls(order, fns)[..i] + Calls(order, fns)[i + 1..]
  {
    var o := order[..i] + order[i + 1..];
    var a, b := Calls(o, fns - {order[i]}), Calls(order, fns)[..i] + Calls(order, fns)[i + 1..];
    forall k | 0 <= k < |a| ensures a[k] == b[k] {
      if k < i { assert o[k] == order[k]; } else { assert o[k] == order[k + 1]; }
    }
  }

  /**
   * `_notify_ui` (lines 115-124): the callbacks in the order of
   * `list(self.ui_callbacks.values())`, one call per registered uuid,
   * two uuids holding the same callback calling it twice.
   */
  function Notified(c: Client): (r: seq<nat>)
    requires CallbacksOrdered(c)
    ensures |r| == |c.callbacks| == |c.callbackOrder|
    ensures forall u :: u in c.callbacks ==> exists i :: 0 <= i < |r| && c.callbackOrder[i] == u && r[i] == c.callbacks[u]
  {
    DistinctCard(c.callbackOrder);
    assert c.callbacks.Keys == set x | x in c.callbackOrder;
    Calls(c.callbackOrder, c.callbacks)
  }

  /** A newly registered callback is called after every earlier one. */
  lemma NotifiedAfterNew(c: Client, uuid: string, cb: nat)
    requires CallbacksOrdered(c) && uuid !in c.callbacks
    ensures Notified(RegisterCallback(c, uuid, cb)) == Notified(c) + [cb]
  {
    CallsAppend(c.callbackOrder, c.callbacks, uuid, cb);
  }

  /** Registering a known uuid again swaps its callback in place. */
  lemma NotifiedAfterReplace(c: Client, uuid: string, cb: nat, i: nat)
    requires CallbacksOrdered(c) && i < |c.callbackOrder| && c.callbackOrder[i] == uuid
    ensures Notified(RegisterCallback(c, uuid, cb)) == Notified(c)[i := cb]
  {
    CallsReplace(c.callbackOrder, c.callbacks, i, cb);
  }

  /** Unregistering the uuid at `i` drops exactly that call. */
  lemma NotifiedAfterUnregister(c: Client, uuid: string, i: nat)
    requires CallbacksOrdered(c) && i < |c.callbackOrder| && c.callbackOrder[i] == uuid
    ensures Notified(UnregisterCallback(c, uuid)) == Notified(c)[..i] + Notified(c)[i + 1..]
  {
    WithoutAt(c.callbackOrder, uuid, i);
    CallsDrop(c.callbackOrder, c.callbacks, i);
  }

  // -------------------------------------------------------- current item

  /** `len(v)` for the values that have one. */
  function Len(v: Value): Option<nat> {
    match v
    case Str(s) => Some(|s|)
    case Arr(items) => Some(|items|)
    case Obj(fields) => Some(|fields|)
    case _ => None
  }

  /** What `process_track_data` finds: an exception, no current item, or the item's fields. */
  datatype Pick = Raised | Nothing | Picked(item: Fields)

  /**
   * The lookup of lines 206-214: the player state, queue, index (default 0)
   * and list (default empty); `items[idx]` only when the list is truthy and
   * `0 <= idx < len(items)`; a falsy item counts as none, and anything that
   * would raise in Python (a non-dictionary on the path, a non-numeric or
   * fractional index, indexing something that is not a list, `.get` on a
   * truthy non-dictionary) is `Raised`.
   */
  function PickCurrent(state: Value): (r: Pick)
    ensures r.Picked? ==> |r.item| > 0
  {
    match GetOr(state, "player_state", Obj([]))
    case None => Raised
    case Some(ps) =>
      match GetOr(ps, "player_queue", Obj([]))
      case None => Raised
      case Some(queue) =>
        if !queue.Obj? then Raised
        else PickAt(GetOr(queue, "playable_list", Arr([])).value, GetOr(queue, "current_playable_index", Num(0.0)).value)
  }

  /** The pick from a list value under an index value (lines 208-214). */
  function PickAt(items: Value, idx: Value): (r: Pick)
    ensures r.Picked? ==> |r.item| > 0
  {
        if !Truthy(items) then Nothing
        else if Len(items).None? || !idx.Num? then Raised
        else if !(0.0 <= idx.n < Len(items).value as real) then Nothing
        else if !items.Arr? || idx.n != idx.n.Floor as real then Raised
        else
          var cur := items.items[idx.n.Floor];
          if !Truthy(cur) then Nothing
          else if !cur.Obj? then Raised
          else Picked(cur.fields)
  }

  /**
   * Both halves agree on the current item: whatever the plugin picks is the
   * item the bridge's enrichment guard designates.
   */
  lemma PickAgreesWithBridge(state: Value)
    ensures PickCurrent(state).Picked? ==>
      var cur := SessionManager.CurrentItem(state);
      cur.Some? && cur.value.items[cur.value.index] == Obj(PickCurrent(state).item)
  {
  }

  /** Conversely, a non-empty dictionary the bridge designates is always picked. */
  lemma BridgeItemIsPicked(state: Value)
    ensures var cur := SessionManager.CurrentItem(state);
      cur.Some? && cur.value.items[cur.value.index].Obj? && |cur.value.items[cur.value.index].fields| > 0
      ==> PickCurrent(state) == Picked(cur.value.items[cur.value.index].fields)
  {
    var cur := SessionManager.CurrentItem(state);
    if cur.Some? {
      SessionManager.CurrentItemPath(state);
      var ps := Get(state.fields, "player_state").value;
      var q := Get(ps.fields, "player_queue").value;
      var idx := GetOr(q, "current_playable_index", Num(0.0)).value;
      SessionManager.CurrentItemAt(state, ps, q, cur.value.items);
      PickCurrentAt(state, ps, q);
      PickAtCurrent(Arr(cur.value.items), idx);
    }
  }

  /** The pick read through the keys it looks at. */
  lemma PickCurrentAt(state: Value, ps: Value, q: Value)
    requires state.Obj? && Get(state.fields, "player_state") == Some(ps)
    requires ps.Obj? && Get(ps.fields, "player_queue") == Some(q) && q.Obj?
    ensures PickCurrent(state) == PickAt(GetOr(q, "playable_list", Arr([])).value, GetOr(q, "current_playable_index", Num(0.0)).value)
  {
  }

  /** On a list the bridge can index, a non-empty dictionary at the index is picked. */
  lemma PickAtCurrent(items: Value, idx: Value)
    ensures var cur := SessionManager.CurrentAt(items, idx);
      cur.Some? && cur.value.items[cur.value.index].Obj? && |cur.value.items[cur.value.index].fields| > 0
      ==> PickAt(items, idx) == Picked(cur.value.items[cur.value.index].fields)
  {
  }

  /** An index outside the list, or an empty list, is never dereferenced. */
  lemma PickOutOfRange(state: Value, ps: Value, queue: Value, items: seq<Value>, idx: int)
    requires state.Obj? && Get(state.fields, "player_state") == Some(ps)
    requires ps.Obj? && Get(ps.fields, "player_queue") == Some(queue)
    requires queue.Obj? && Get(queue.fields, "playable_list") == Some(Arr(items))
    requires Get(queue.fields, "current_playable_index") == Some(Num(idx as real))
    requires idx < 0 || idx >= |items|
    ensures PickCurrent(state) == Nothing
  {
  }

  // -------------------------------------------------------------- covers

  /** `fetch_cover`'s URL (lines 251-252): size placeholder filled in, scheme added when missing. */
  function CoverUrl(u: string): (r: string)
    ensures StartsWith(r, "http")
  {
    var sized := ReplaceAll(u, "%%", "200x200");
    if StartsWith(sized, "http") then sized else "https://" + sized
  }

  /** `current.get("cover_uri_enriched") or current.get("cover_url_optional")` (line 229). */
  function CoverOf(item: Fields): Option<Value> {
    var enriched := Get(item, "cover_uri_enriched");
    if TruthyOpt(enriched) then enriched else Get(item, "cover_url_optional")
  }

  /** The guard of line 230 as written: the raw cover against the stored, normalised URL. */
  predicate NeedsCoverAsWritten(cover: Option<Value>, last: Option<string>) {
    TruthyOpt(cover) && (last.None? || cover.value != Str(last.value))
  }

  /** The intended guard: the cover's normalised URL against the stored one. */
  predicate NeedsCover(cover: Option<Value>, last: Option<string>) {
    TruthyOpt(cover) && (!cover.value.Str? || last != Some(CoverUrl(cover.value.s)))
  }

  /** The client after a cover download, and whether it notified the UI. */
  datatype Fetched = Fetched(client: Client, notified: bool)

  /**
   * `fetch_cover` (lines 248-274): with a session and a 200 response the
   * bytes, the decoded image (when decoding works) and the normalised URL
   * are stored and the UI is notified; anything else leaves the client alone.
   */
  function FetchCover(c: Client, cover: Value, sessionOpen: bool, body: Option<seq<bv8>>, decodes: bool): (r: Fetched)
    ensures r.notified <==> Truthy(cover) && cover.Str? && sessionOpen && body.Some?
    ensures r.notified ==>
      r.client == c.(playing := c.playing.(coverData := body, coverImage := decodes, lastCoverUrl := Some(CoverUrl(cover.s))))
    ensures !r.notified ==> r.client == c
  {
    if !Truthy(cover) || !cover.Str? || !sessionOpen || body.None? then Fetched(c, false)
    else Fetched(c.(playing := c.playing.(coverData := body, coverImage := decodes, lastCoverUrl := Some(CoverUrl(cover.s)))), true)
  }

  /** As written, a stored cover whose URI lacks the scheme is requested again on the next message. */
  lemma CoverRefetchedAsWritten(c: Client, u: string, body: seq<bv8>, decodes: bool)
    requires u != "" && !StartsWith(u, "http") && '%' !in u
    ensures var after := FetchCover(c, Str(u), true, Some(body), decodes).client;
      NeedsCoverAsWritten(Some(Str(u)), after.playing.lastCoverUrl)
  {
    forall i | 0 <= i <= |u|
      ensures !OccursAt(u, "%%", i)
    {
      if i + 2 <= |u| {
        assert u[i..i + 2][0] == u[i];
      }
    }
    ReplaceAbsent(u, "%%", "200x200");
    assert |CoverUrl(u)| > |u|;
  }

  /** With the intended guard, a downloaded cover is not requested again. */
  lemma CoverNotRefetched(c: Client, cover: Value, body: seq<bv8>, decodes: bool)
    requires Truthy(cover)
    ensures var after := FetchCover(c, cover, true, Some(body), decodes).client;
      cover.Str? ==> !NeedsCover(Some(cover), after.playing.lastCoverUrl)
    ensures NeedsCover(Some(cover), None)
  {
  }

  // ------------------------------------------------------------ messages

  /** The outcome of one step: the client, whether the UI was notified, and a cover to download. */
  datatype Step = Step(client: Client, notified: bool, coverRequest: Option<Value>)

  /** Python truthiness of the mirrored state. */
  predicate HasState(c: Client) {
    c.state.Some? && Truthy(c.state.value)
  }

  /** The id a current item stands for: `current.get("playable_id")`. */
  function ItemId(item: Fields): Value {
    if HasKey(item, "playable_id") then Get(item, "playable_id").value else Null
  }

  /** `add` or `discard` of `id` by the truthiness of the item's flag, when the flag is present. */
  function Flag(xs: set<Value>, item: Fields, key: string, id: Value): (r: set<Value>)
    ensures HasKey(item, key) ==> (id in r <==> Truthy(Get(item, key).value))
    ensures !HasKey(item, key) ==> r == xs
    ensures r - {id} == xs - {id}
  {
    if !HasKey(item, key) then xs
    else if Truthy(Get(item, key).value) then xs + {id}
    else xs - {id}
  }

  /**
   * `process_track_data` (lines 205-246) for a picked item: a different id
   * (compared as `str`) replaces the track and resets the cover, the same id
   * deep-merges into it; enriched artists are copied into the track, the
   * like flags update the sets, and the cover is requested as intended: by
   * `NeedsCover`, which compares the normalised URL with the stored one.
   * Line 230 as written compares the raw URI (`NeedsCoverAsWritten`), and
   * `CoverRefetchedAsWritten` shows what that costs.
   */
  function TakeItem(c: Client, item: Fields): (r: Step)
    requires |item| > 0
    ensures r.notified <==> NextTrack(c, item).Some?
    ensures !r.notified ==> r == Step(c, false, None)
    ensures r.notified ==> r.client.playing.track == NextTrack(c, item)
    ensures r.notified && IsNewTrack(c, item) ==>
      r.client.playing.isReady && r.client.playing.coverData.None? && !r.client.playing.coverImage && r.client.playing.lastCoverUrl.None?
    ensures !IsNewTrack(c, item) ==> r.client.playing.lastCoverUrl == c.playing.lastCoverUrl
    ensures r.coverRequest.Some? <==> r.notified && NeedsCover(CoverOf(item), r.client.playing.lastCoverUrl)
    ensures r.coverRequest.Some? ==> r.coverRequest == CoverOf(item)
    ensures r.notified ==>
      r.client.liked == Flag(c.liked, item, "is_liked", ItemId(item))
      && r.client.disliked == Flag(c.disliked, item, "is_disliked", ItemId(item))
    ensures r.client.state == c.state && r.client.conn.token == c.conn.token && r.client.callbacks == c.callbacks && r.client.callbackOrder == c.callbackOrder
  {
    match NextTrack(c, item)
    case None => Step(c, false, None)
    case Some(t) =>
      var isNew := IsNewTrack(c, item);
      var id := ItemId(item);
      var playing := if isNew then Playing(Some(t), None, false, None, true) else c.playing.(track := Some(t));
      Step(c.(playing := playing,
              liked := Flag(c.liked, item, "is_liked", id),
              disliked := Flag(c.disliked, item, "is_disliked", id)),
           true,
           if NeedsCover(CoverOf(item), playing.lastCoverUrl) then CoverOf(item) else None)
  }

  /** The stored track's id as line 216 reads it. */
  function TrackId(c: Client): Option<Value> {
    if c.playing.track.Some? && |c.playing.track.value| > 0 then Get(c.playing.track.value, "playable_id") else None
  }

  /** The item starts a new track: its id differs, as `str`, from the stored one (line 218). */
  predicate IsNewTrack(c: Client, item: Fields) {
    PyStrOpt(Get(item, "playable_id")) != PyStrOpt(TrackId(c))
  }

  /** Line 227: truthy enriched artists are copied into the track. */
  function WithArtists(t: Fields, item: Fields): Fields {
    var artists := Get(item, "artists_enriched");
    if TruthyOpt(artists) then Set(t, "artists", artists.value) else t
  }

  /**
   * The track after lines 218-227: the item itself for a new id, else the
   * item deep-merged into the stored track; `None` for the `TypeError` of
   * merging into a missing track.
   */
  function NextTrack(c: Client, item: Fields): (t: Option<Fields>)
    ensures IsNewTrack(c, item) ==> t.Some?
    ensures t.None? <==> !IsNewTrack(c, item) && c.playing.track.None?
  {
    if IsNewTrack(c, item) then Some(WithArtists(item, item))
    else if c.playing.track.None? then None
    else Some(WithArtists(DeepUpdate(c.playing.track.value, item), item))
  }

  /**
   * `process_track_data` on the mirrored state, with the intended cover
   * guard of `TakeItem`; `notified` says it returned normally.
   */
  function ProcessTrack(c: Client): (r: Step)
    ensures !HasState(c) ==> r == Step(c, true, None)
    ensures r.client.state == c.state && r.client.conn.token == c.conn.token && r.client.callbacks == c.callbacks && r.client.callbackOrder == c.callbackOrder
  {
    if !HasState(c) then Step(c, true, None)
    else
      match PickCurrent(c.state.value)
      case Raised => Step(c, false, None)
      case Nothing => Step(if c.playing.isReady then c.(playing := c.playing.(track := None, isReady := false)) else c, true, None)
      case Picked(item) => TakeItem(c, item)
  }

  /** A socket text frame: not JSON, or the decoded document. */
  datatype Message = Unparsable | Parsed(doc: Value)

  /**
   * `on_api_message` (lines 182-196): any frame clears the rejection flag;
   * the first document becomes the state verbatim, later ones are
   * deep-merged into it; then the track is processed (with the intended
   * cover guard, as in `ProcessTrack`) and the UI notified.  An exception
   * anywhere skips the rest, including the notification.
   */
  function OnApiMessage(c: Client, m: Message): (r: Step)
    ensures !r.client.conn.authError
    ensures m.Unparsable? ==> r == Step(c.(conn := c.conn.(authError := false)), false, None)
    ensures m.Parsed? && !HasState(c) ==> r.client.state == Some(m.doc)
    ensures m.Parsed? && HasState(c) && c.state.value.Obj? && m.doc.Obj? ==>
      r.client.state == Some(Obj(DeepUpdate(c.state.value.fields, m.doc.fields)))
    ensures m.Parsed? && HasState(c) && !(c.state.value.Obj? && m.doc.Obj?) ==>
      r == Step(c.(conn := c.conn.(authError := false)), false, None)
  {
    var c1 := c.(conn := c.conn.(authError := false));
    if m.Unparsable? then Step(c1, false, None)
    else if !HasState(c) then ProcessTrack(c1.(state := Some(m.doc)))
    else if !(c.state.value.Obj? && m.doc.Obj?) then Step(c1, false, None)
    else ProcessTrack(c1.(state := Some(Obj(DeepUpdate(c.state.value.fields, m.doc.fields)))))
  }

  /**
   * A current item with a new id becomes the track (apart from the copied
   * artists), the old cover is forgotten, the client becomes ready, and the
   * item's cover is requested exactly when it has one.
   */
  lemma NewTrackReplaces(c: Client)
    requires HasState(c) && PickCurrent(c.state.value).Picked?
    requires IsNewTrack(c, PickCurrent(c.state.value).item)
    ensures var item := PickCurrent(c.state.value).item;
      var r := ProcessTrack(c);
      r.notified && r.client.playing.isReady && r.client.playing.coverData.None? && !r.client.playing.coverImage
      && r.client.playing.lastCoverUrl.None? && r.client.playing.track.Some?
      && (forall k :: k != "artists" ==> Get(r.client.playing.track.value, k) == Get(item, k))
      && (r.coverRequest.Some? <==> TruthyOpt(CoverOf(item)))
  {
  }

  /** With no current item a ready client drops its track and becomes not ready. */
  lemma NoItemClearsTrack(c: Client)
    requires HasState(c) && PickCurrent(c.state.value) == Nothing
    ensures var r := ProcessTrack(c);
      r.notified && r.client.playing.track == (if c.playing.isReady then None else c.playing.track) && !r.client.playing.isReady
      && r.client.liked == c.liked && r.client.disliked == c.disliked
  {
  }

  /** The like flags of the current item decide membership of its id; other ids keep theirs. */
  lemma FlagsFollowItem(c: Client)
    requires HasState(c) && PickCurrent(c.state.value).Picked?
    requires var item := PickCurrent(c.state.value).item; IsNewTrack(c, item) || c.playing.track.Some?
    ensures var item := PickCurrent(c.state.value).item;
      var r := ProcessTrack(c).client;
      var id := ItemId(item);
      (HasKey(item, "is_liked") ==> (id in r.liked <==> Truthy(Get(item, "is_liked").value)))
      && (HasKey(item, "is_disliked") ==> (id in r.disliked <==> Truthy(Get(item, "is_disliked").value)))
      && r.liked - {id} == c.liked - {id} && r.disliked - {id} == c.disliked - {id}
  {
  }

  /**
   * As intended, once a cover has been downloaded the same state asks for it
   * no more.  As written it asks again (`CoverRefetchedAsWritten`).
   */
  lemma SameMessageNoRefetch(c: Client, body: seq<bv8>, decodes: bool)
    requires HasState(c) && PickCurrent(c.state.value).Picked? && UniqueKeys(PickCurrent(c.state.value).item)
    requires var item := PickCurrent(c.state.value).item;
      var last := if IsNewTrack(c, item) then None else c.playing.lastCoverUrl;
      && (IsNewTrack(c, item) || c.playing.track.Some?)
      && CoverOf(item).Some? && CoverOf(item).value.Str? && NeedsCover(CoverOf(item), last)
    ensures var s := ProcessTrack(c);
      var after := FetchCover(s.client, s.coverRequest.value, true, Some(body), decodes).client;
      ProcessTrack(after).coverRequest.None?
  {
    var s := ProcessTrack(c);
    var item := PickCurrent(c.state.value).item;
    var after := FetchCover(s.client, s.coverRequest.value, true, Some(body), decodes).client;
    assert after.state == c.state && after.playing.track == NextTrack(c, item);
    TrackKeepsId(c, item);
    assert !IsNewTrack(after, item);
  }

  /** A track that comes out of an item carries the item's id. */
  lemma TrackKeepsId(c: Client, item: Fields)
    requires |item| > 0 && UniqueKeys(item) && (c.playing.track.Some? || IsNewTrack(c, item))
    ensures var t := NextTrack(c, item).value;
      |t| > 0 && PyStrOpt(Get(t, "playable_id")) == PyStrOpt(Get(item, "playable_id"))
  {
    if IsNewTrack(c, item) {
      ArtistsKeepId(item, item);
    } else {
      var merged := DeepUpdate(c.playing.track.value, item);
      MergeKeepsId(c.playing.track.value, item);
      ArtistsKeepId(merged, item);
    }
  }

  /** Copying the artists keeps the id and never empties the track. */
  lemma ArtistsKeepId(t: Fields, item: Fields)
    ensures Get(WithArtists(t, item), "playable_id") == Get(t, "playable_id")
    ensures |t| > 0 ==> |WithArtists(t, item)| > 0
  {
    var artists := Get(item, "artists_enriched");
    if TruthyOpt(artists) {
      SetKeys(t, "artists", artists.value);
    }
  }

  /** Merging an item keeps the track non-empty and its id reads as the item's, when the item has one. */
  lemma MergeKeepsId(t: Fields, item: Fields)
    requires |item| > 0 && UniqueKeys(item)
    ensures |DeepUpdate(t, item)| > 0
    ensures var id := Get(DeepUpdate(t, item), "playable_id");
      PyStrOpt(id) == PyStrOpt(if HasKey(item, "playable_id") then Get(item, "playable_id") else Get(t, "playable_id"))
  {
    DeepUpdateSpec(t, item);
    assert item[0].0 in Keys(item);
  }

  // --------------------------------------------------------- is_paused

  /**
   * `is_paused` (lines 289-293): true without state; otherwise the value at
   * `player_state.status.paused`, true when missing.  `None` is the
   * exception of `.get` on a non-dictionary.
   */
  function IsPaused(c: Client): (r: Option<Value>)
    ensures !HasState(c) ==> r == Some(Bool(true))
    ensures HasState(c) && Path(c.state.value, ["player_state", "status", "paused"]).Some? ==>
      r == Path(c.state.value, ["player_state", "status", "paused"])
    ensures HasState(c) ==>
      var ps := Field(c.state.value, "player_state");
      var status := if ps.Some? then Field(ps.value, "status") else None;
      && (c.state.value.Obj? && ps.None? ==> r == Some(Bool(true)))
      && (ps.Some? && ps.value.Obj? && status.None? ==> r == Some(Bool(true)))
      && (status.Some? && status.value.Obj? && Field(status.value, "paused").None? ==> r == Some(Bool(true)))
      && (!c.state.value.Obj? || (ps.Some? && !ps.value.Obj?) || (status.Some? && !status.value.Obj?) ==> r.None?)
  {
    if !HasState(c) then Some(Bool(true))
    else
      var ps :- GetOr(c.state.value, "player_state", Obj([]));
      var status :- GetOr(ps, "status", Obj([]));
      GetOr(status, "paused", Bool(true))
  }

  // ----------------------------------------------------------- commands

  /** The client's commands (`YnisonCommand`, `types.py`). */
  datatype Command = PlayPause | Next | Prev | Like | Dislike | VolumeUp | VolumeDown

  function CommandValue(cmd: Command): string {
    match cmd
    case PlayPause => "play_pause"
    case Next => "next"
    case Prev => "prev"
    case Like => "like"
    case Dislike => "dislike"
    case VolumeUp => "volume_up"
    case VolumeDown => "volume_down"
  }

  const ApiBase := "http://localhost:8000"

  /** A POST to the bridge. */
  datatype Request = Request(url: string, authorization: string)

  datatype Sent = Sent(request: Option<Request>, ok: bool)

  /**
   * `send_command` (lines 276-287): nothing is sent without a token or a
   * session; otherwise `/control/<command>` is posted with a bearer header,
   * and the call succeeds exactly on status 200.
   */
  function SendCommand(c: Client, endpoint: string, sessionOpen: bool, status: Option<int>): (r: Sent)
    ensures !Given(c.conn.token) || !sessionOpen ==> r == Sent(None, false)
    ensures r.request.Some? ==> r.request.value.url == ApiBase + "/control/" + endpoint
    ensures r.ok <==> r.request.Some? && status == Some(200)
  {
    if !Given(c.conn.token) || !sessionOpen then Sent(None, false)
    else Sent(Some(Request(ApiBase + "/control/" + endpoint, "Bearer " + c.conn.token.value)), status == Some(200))
  }

  /**
   * End to end with the bridge: the bearer header yields the client's token
   * (when it has no spaces), and the bridge knows exactly the five playback
   * and like commands; the volume commands come back as unknown actions.
   */
  lemma SendCommandReachesBridge(c: Client, cmd: Command, status: Option<int>)
    requires Given(c.conn.token) && ' ' !in c.conn.token.value
    ensures var r := SendCommand(c, CommandValue(cmd), true, status);
      r.request.Some? && BridgeApi.ControlToken(None, Some(r.request.value.authorization)) == c.conn.token
    ensures BridgeApi.ParseAction(CommandValue(cmd)).Some? <==> cmd != VolumeUp && cmd != VolumeDown
  {
    BridgeApi.BearerToken(c.conn.token.value);
  }
}

=== FILE: plugin_router.dfy ===
/**
 * The plugin process's side of the Stream Deck socket: event routing
 * (`src/core/mixins/router.py`) and the plugin's own handlers
 * (`src/core/plugin.py`).  The routing map, built by reflection in the
 * source, is a given finite map; which handler names the keys and the
 * plugin define is a given set; handlers' own effects are modelled by the
 * members they name (here and in the key module), so routing reports which
 * handler ran.
 */
module PluginRouter {
  import opened Wrappers
  import opened Text
  import opened Json
  import Settings
  import BaseAction
  import MusicClient

  type Key = BaseAction.Key

  /** The plugin: its keys in the order they appeared, one per context, and the last global settings. */
  datatype Plugin = Plugin(keys: seq<Key>, globalSettings: Value)

  /** The plugin as constructed (lines 13-23). */
  const NewPlugin := Plugin([], Null)

  function Contexts(ks: seq<Key>): (cs: seq<string>)
    ensures |cs| == |ks| && forall i :: 0 <= i < |ks| ==> cs[i] == ks[i].context
  {
    seq(|ks|, i requires 0 <= i < |ks| => ks[i].context)
  }

  /** One key per context, as in the source's dictionary. */
  predicate UniqueContexts(ks: seq<Key>) {
    forall i, j :: 0 <= i < j < |ks| ==> ks[i].context != ks[j].context
  }

  /** The keys without the one under a context; the others keep their order. */
  function Without(ks: seq<Key>, context: string): (r: seq<Key>)
    ensures context !in Contexts(r)
    ensures forall c :: c != context ==> (c in Contexts(r) <==> c in Contexts(ks))
    ensures UniqueContexts(ks) ==> UniqueContexts(r)
    ensures |r| <= |ks|
  {
    if |ks| == 0 then []
    else
      var rest := Without(ks[1..], context);
      ContextsCons(ks[0], ks[1..]);
      UniqueHead(ks);
      if ks[0].context == context then rest
      else
        ContextsCons(ks[0], rest);
        ConsUniqueWhen(ks[0], rest);
        [ks[0]] + rest
  }

  /** The contexts of a key put in front of others. */
  lemma ContextsCons(k: Key, ks: seq<Key>)
    ensures Contexts([k] + ks) == [k.context] + Contexts(ks)
  {
  }

  /** Distinct contexts: the first is not among the rest, and the rest are distinct. */
  lemma UniqueHead(ks: seq<Key>)
    requires |ks| > 0
    ensures ks == [ks[0]] + ks[1..]
    ensures UniqueContexts(ks) ==> ks[0].context !in Contexts(ks[1..]) && UniqueContexts(ks[1..])
  {
    if UniqueContexts(ks) {
      forall j | 0 <= j < |ks[1..]|
        ensures Contexts(ks[1..])[j] != ks[0].context
      {
        assert ks[1..][j] == ks[j + 1];
      }
    }
  }

  lemma ConsUniqueWhen(k: Key, ks: seq<Key>)
    ensures k.context !in Contexts(ks) && UniqueContexts(ks) ==> UniqueContexts([k] + ks)
  {
    if k.context !in Contexts(ks) && UniqueContexts(ks) {
      ConsUnique(k, ks);
    }
  }

  /** A key whose context is new can go in front of keys with distinct contexts. */
  lemma ConsUnique(k: Key, ks: seq<Key>)
    requires k.context !in Contexts(ks) && UniqueContexts(ks)
    ensures UniqueContexts([k] + ks)
  {
    forall i, j | 0 <= i < j < |ks| + 1
      ensures ([k] + ks)[i].context != ([k] + ks)[j].context
    {
      if i == 0 {
        assert ([k] + ks)[j].context == Contexts(ks)[j - 1];
      }
    }
  }

  /** Appending a key under a new context keeps the contexts distinct. */
  lemma SnocUnique(ks: seq<Key>, k: Key)
    requires k.context !in Contexts(ks) && UniqueContexts(ks)
    ensures UniqueContexts(ks + [k]) && Contexts(ks + [k]) == Contexts(ks) + [k.context]
  {
    forall i, j | 0 <= i < j < |ks| + 1
      ensures (ks + [k])[i].context != (ks + [k])[j].context
    {
      if j == |ks| {
        assert (ks + [k])[i].context == Contexts(ks)[i];
      }
    }
  }

  // ------------------------------------------------------------ the Ynison client

  /** What `recalculate_ynison_state` asks of the client. */
  datatype ClientCommand = StartClient | StopClient | KeepClient

  const ControlMode: string := "control_mode"

  /** A key's raw settings ask for Ynison. */
  predicate AsksYnison(k: Key) {
    k.settings.Obj? && Get(k.settings.fields, ControlMode) == Some(BaseAction.YnisonMode)
  }

  /**
   * The scan of lines 163-167, in key order: `true` at the first key asking
   * for Ynison; `None` when a key before it holds settings without `.get`.
   */
  function Scan(ks: seq<Key>): (r: Option<bool>)
    ensures r == Some(true) ==> exists i :: 0 <= i < |ks| && AsksYnison(ks[i])
    ensures r == Some(false) ==> forall i :: 0 <= i < |ks| ==> !AsksYnison(ks[i]) && ks[i].settings.Obj?
  {
    if |ks| == 0 then Some(false)
    else if !ks[0].settings.Obj? then None
    else if AsksYnison(ks[0]) then Some(true)
    else
      var r := Scan(ks[1..]);
      assert r == Some(true) ==> exists i :: 1 <= i < |ks| && AsksYnison(ks[i]) by {
        if r == Some(true) {
          var i :| 0 <= i < |ks[1..]| && AsksYnison(ks[1..][i]);
          assert AsksYnison(ks[i + 1]);
        }
      }
      r
  }

  /**
   * `recalculate_ynison_state` (lines 156-176): the client is started when
   * some key asks for Ynison and it is not running, stopped when none asks
   * and it runs, and otherwise left alone.
   */
  function Recalculate(ks: seq<Key>, running: bool): (r: Option<ClientCommand>)
    ensures r == Some(StartClient) ==> !running
    ensures r == Some(StopClient) ==> running
  {
    match Scan(ks)
    case None => None
    case Some(needs) =>
      Some(if needs && !running then StartClient else if !needs && running then StopClient else KeepClient)
  }

  /** Whether any key asks for Ynison, as a plain reference. */
  predicate NeedsYnison(ks: seq<Key>) {
    exists i :: 0 <= i < |ks| && AsksYnison(ks[i])
  }

  /**
   * When every key holds a settings dictionary, the client is needed iff
   * some key asks for Ynison; it is started only if not running and
   * stopped only if running.
   */
  lemma {:induction false} RecalculateSpec(ks: seq<Key>, running: bool)
    requires forall i :: 0 <= i < |ks| ==> ks[i].settings.Obj?
    ensures Recalculate(ks, running) == Some(
      if NeedsYnison(ks) && !running then StartClient
      else if !NeedsYnison(ks) && running then StopClient
      else KeepClient)
  {
    ScanTotal(ks);
  }

  lemma {:induction false} ScanTotal(ks: seq<Key>)
    requires forall i :: 0 <= i < |ks| ==> ks[i].settings.Obj?
    ensures Scan(ks).Some?
    decreases |ks|
  {
    if |ks| > 0 && !AsksYnison(ks[0]) {
      ScanTotal(ks[1..]);
    }
  }

  // ------------------------------------------------------------ new keys

  /** What `_handle_new_action` did: the plugin after it, the new key's token, and whether it raised. */
  datatype Added = Added(plugin: Plugin, key: Option<Key>, token: Option<Value>, raised: bool)

  /**
   * `_handle_new_action` (lines 125-154): a uuid in the registry builds its
   * key from the event's settings (an absent or empty payload gives empty
   * settings) and registers it under the context; an unknown uuid
   * registers nothing.  Construction raises for settings that do not parse.
   */
  function HandleNewAction(p: Plugin, registry: map<string, seq<BaseAction.Mixin>>,
                           uuid: Option<string>, context: string, payload: Option<Fields>): (r: Added)
    ensures r.key.None? ==> r.plugin == p
    ensures r.key.Some? ==> uuid.Some? && uuid.value in registry && !r.raised
    ensures r.key.Some? ==> r.plugin.keys == p.keys + [r.key.value] && r.key.value.context == context
    ensures uuid.None? || uuid.value !in registry ==> r == Added(p, None, None, false)
  {
    if uuid.None? || uuid.value !in registry then Added(p, None, None, false)
    else
      var settings := if payload.Some? && |payload.value| > 0 then At(payload.value, "settings", Obj([])) else Obj([]);
      match BaseAction.NewKey(uuid.value, context, registry[uuid.value], settings, p.globalSettings)
      case None => Added(p, None, None, true)
      case Some(c) => Added(p.(keys := p.keys + [c.key]), Some(c.key), c.token, false)
  }

  // ------------------------------------------------------------ routing

  /** An entry of the routing map: the handler's name and whether it belongs to a key. */
  datatype Route = Route(handler: string, isAction: bool)

  /** A validated event: its name, context, action uuid and payload. */
  datatype Event = Event(name: string, context: Option<string>, uuid: Option<string>, payload: Option<Fields>)

  /** An optional text field: absent or `null` is `None`; any other non-text fails validation. */
  function OptText(fs: Fields, k: string): Option<Option<string>> {
    match Get(fs, k)
    case None => Some(None)
    case Some(Null) => Some(None)
    case Some(Str(s)) => Some(Some(s))
    case Some(_) => None
  }

  /** The event model's validation (`schemas/events.py`): text fields and an object payload. */
  function Validate(name: string, fs: Fields): (r: Option<Event>)
    ensures r.Some? ==> r.value.name == name
  {
    match (OptText(fs, "context"), OptText(fs, "action"), OptText(fs, "device"), Get(fs, "payload"))
    case (Some(c), Some(a), Some(_), None) => Some(Event(name, c, a, None))
    case (Some(c), Some(a), Some(_), Some(Null)) => Some(Event(name, c, a, None))
    case (Some(c), Some(a), Some(_), Some(Obj(p))) => Some(Event(name, c, a, Some(p)))
    case _ => None
  }

  /** What routing a message did, in order. */
  datatype Effect =
    | Created(context: string)
    | TokenGiven(token: Value)
    | RecalcScheduled
    | UnknownUuid
    | KeyHandled(context: string, handler: string)
    | Removed(context: string)
    | Recalculated(command: ClientCommand)
    | PluginHandled(handler: string)
    | Logged

  /** The surroundings routing depends on. */
  datatype Env = Env(
    routes: map<string, Route>,
    registry: map<string, seq<BaseAction.Mixin>>,
    keyHandlers: set<string>,
    pluginHandlers: set<string>,
    handlerRaises: bool,
    running: bool)

  datatype Routed = Routed(plugin: Plugin, effects: seq<Effect>)

  const WillAppear: string := "willAppear"
  const WillDisappear: string := "willDisappear"

  /** A handler call, and the log line when it raises. */
  function Handled(env: Env, e: Effect): seq<Effect> {
    if env.handlerRaises then [e, Logged] else [e]
  }

  /** The event's context, with a missing one read as the empty, falsy text. */
  function ContextOf(ev: Event): string {
    if ev.context.Some? then ev.context.value else ""
  }

  /** Whether the event asks to create a key (`router.py` line 41): a `willAppear` with a context not yet registered. */
  predicate Creates(p: Plugin, ev: Event) {
    ev.name == WillAppear && |ContextOf(ev)| > 0 && ContextOf(ev) !in Contexts(p.keys)
  }

  /** The creation step of `router.py` lines 41-43: the key made, its effects, and whether it raised. */
  function Creation(p: Plugin, env: Env, ev: Event): (r: (Added, seq<Effect>))
    ensures r.0.key.None? ==> r.0.plugin == p
    ensures r.0.key.Some? ==>
      && Creates(p, ev) && r.0.plugin.keys == p.keys + [r.0.key.value]
      && r.0.key.value.context == ContextOf(ev) && |r.1| > 0 && r.1[0] == Created(ContextOf(ev))
    ensures forall c, h :: KeyHandled(c, h) !in r.1
    ensures !Creates(p, ev) ==> r == (Added(p, None, None, false), [])
  {
    if !Creates(p, ev) then (Added(p, None, None, false), [])
    else
      var a := HandleNewAction(p, env.registry, ev.uuid, ContextOf(ev), ev.payload);
      (a, CreationEffects(a, ContextOf(ev)))
  }

  /** The effects of a creation attempt: the key, its token and a recalculation; or the logged failure; or the unknown uuid. */
  function CreationEffects(a: Added, ctx: string): (r: seq<Effect>)
    ensures a.key.Some? ==> |r| > 0 && r[0] == Created(ctx)
    ensures forall c, h :: KeyHandled(c, h) !in r
  {
    if a.key.Some? then
      var token := if a.token.Some? then [TokenGiven(a.token.value)] else [];
      assert forall e | e in token :: e.TokenGiven?;
      [Created(ctx)] + token + [RecalcScheduled]
    else if a.raised then [Logged]
    else [UnknownUuid]
  }

  /**
   * `router.py` lines 45-55 for a registered context: its handler runs, and a
   * `willDisappear` then removes the key and recalculates the client over
   * the remaining keys.
   */
  function Dispatch(p: Plugin, env: Env, ev: Event, handler: string): (r: Routed)
    requires ContextOf(ev) in Contexts(p.keys)
    ensures forall c, h :: KeyHandled(c, h) in r.effects ==> c == ContextOf(ev) && h == handler
    ensures UniqueContexts(p.keys) ==> UniqueContexts(r.plugin.keys)
  {
    var ctx := ContextOf(ev);
    var call := if handler in env.keyHandlers then Handled(env, KeyHandled(ctx, handler)) else [];
    if (handler in env.keyHandlers && env.handlerRaises) || ev.name != WillDisappear then Routed(p, call)
    else
      var p' := p.(keys := Without(p.keys, ctx));
      match Recalculate(p'.keys, env.running)
      case None => Routed(p', call + [Removed(ctx), Logged])
      case Some(cmd) => Routed(p', call + [Removed(ctx), Recalculated(cmd)])
  }

  /**
   * `router.py` lines 38-55: a `willAppear` for an unknown context first creates the
   * key; a registered context then gets its handler.  A failed creation
   * ends the routing.
   */
  function RouteKeyEvent(p: Plugin, env: Env, ev: Event, handler: string): (r: Routed)
  {
    var (a, before) := Creation(p, env, ev);
    var ctx := ContextOf(ev);
    if a.raised || |ctx| == 0 || ctx !in Contexts(a.plugin.keys) then Routed(a.plugin, before)
    else
      var d := Dispatch(a.plugin, env, ev, handler);
      Routed(d.plugin, before + d.effects)
  }

  /** Routing a key event keeps one key per context, and runs key handlers only for registered or newly created contexts. */
  lemma RouteKeyEventSound(p: Plugin, env: Env, ev: Event, handler: string)
    ensures var r := RouteKeyEvent(p, env, ev, handler);
      && (UniqueContexts(p.keys) ==> UniqueContexts(r.plugin.keys))
      && (forall c, h :: KeyHandled(c, h) in r.effects ==> c in Contexts(p.keys) || Created(c) in r.effects)
  {
    var (a, before) := Creation(p, env, ev);
    var ctx := ContextOf(ev);
    if a.key.Some? {
      if UniqueContexts(p.keys) {
        SnocUnique(p.keys, a.key.value);
      }
      assert Contexts(a.plugin.keys) == Contexts(p.keys) + [ctx];
    }
    if !(a.raised || |ctx| == 0 || ctx !in Contexts(a.plugin.keys)) {
      var d := Dispatch(a.plugin, env, ev, handler);
      var r := Routed(d.plugin, before + d.effects);
      forall c, h | KeyHandled(c, h) in r.effects
        ensures c in Contexts(p.keys) || Created(c) in r.effects
      {
        assert KeyHandled(c, h) in d.effects;
        if c !in Contexts(p.keys) {
          assert a.key.Some? && r.effects[0] == before[0];
        }
      }
    }
  }

  /**
   * `route_message` (`router.py` lines 10-62).  `None` is a message that is not JSON.
   * An event name outside the routing map is ignored; one that cannot be
   * looked up (a list or object) raises; every exception is caught and
   * logged, keeping whatever changed before it.
   */
  function RouteMessage(p: Plugin, env: Env, msg: Option<Value>): (r: Routed)
  {
    if msg.None? || !msg.value.Obj? then Routed(p, [Logged])
    else
      var fs := msg.value.fields;
      match Get(fs, "event")
      case Some(Arr(_)) => Routed(p, [Logged])
      case Some(Obj(_)) => Routed(p, [Logged])
      case Some(Str(name)) => RouteNamed(p, env, fs, name)
      case _ => Routed(p, [])
  }

  /** Routing an event whose name is text: ignored outside the map, logged when it does not validate. */
  function RouteNamed(p: Plugin, env: Env, fs: Fields, name: string): (r: Routed)
  {
    if name !in env.routes then Routed(p, [])
    else
      var route := env.routes[name];
      match Validate(name, fs)
      case None => Routed(p, [Logged])
      case Some(ev) =>
        if route.isAction then RouteKeyEvent(p, env, ev, route.handler)
        else if route.handler in env.pluginHandlers then Routed(p, Handled(env, PluginHandled(route.handler)))
        else Routed(p, [])
  }

  /** An event name outside the routing map changes nothing and calls nothing. */
  lemma UnknownEventIgnored(p: Plugin, env: Env, fs: Fields, name: string)
    requires Get(fs, "event") == Some(Str(name)) && name !in env.routes
    ensures RouteMessage(p, env, Some(Obj(fs))) == Routed(p, [])
  {
  }

  /** A message that is not JSON, or not an object, is only logged. */
  lemma MalformedMessageLogged(p: Plugin, env: Env, msg: Option<Value>)
    requires msg.None? || !msg.value.Obj?
    ensures RouteMessage(p, env, msg) == Routed(p, [Logged])
  {
  }

  /**
   * Routing any message keeps one key per context, and a key's handler
   * runs only for a context that was registered or that the same message
   * created.
   */
  lemma RoutingSound(p: Plugin, env: Env, msg: Option<Value>)
    ensures var r := RouteMessage(p, env, msg);
      && (UniqueContexts(p.keys) ==> UniqueContexts(r.plugin.keys))
      && (forall c, h :: KeyHandled(c, h) in r.effects ==> c in Contexts(p.keys) || Created(c) in r.effects)
  {
    var r := RouteMessage(p, env, msg);
    if msg.Some? && msg.value.Obj? && Get(msg.value.fields, "event").Some? && Get(msg.value.fields, "event").value.Str? {
      RouteNamedSound(p, env, msg.value.fields, Get(msg.value.fields, "event").value.s);
    } else {
      assert r.plugin == p && r.effects in {[], [Logged]};
      QuietSound(p, r.effects);
    }
  }

  /** Routing that keeps the plugin and runs no key handler is sound. */
  lemma QuietSound(p: Plugin, effects: seq<Effect>)
    requires forall x :: x in effects ==> !x.KeyHandled?
    ensures forall c, h :: KeyHandled(c, h) in effects ==> c in Contexts(p.keys) || Created(c) in effects
  {
  }

  /** The same for an event whose name is text. */
  lemma RouteNamedSound(p: Plugin, env: Env, fs: Fields, name: string)
    ensures var r := RouteNamed(p, env, fs, name);
      && (UniqueContexts(p.keys) ==> UniqueContexts(r.plugin.keys))
      && (forall c, h :: KeyHandled(c, h) in r.effects ==> c in Contexts(p.keys) || Created(c) in r.effects)
  {
    var r := RouteNamed(p, env, fs, name);
    if name in env.routes && Validate(name, fs).Some? && env.routes[name].isAction {
      RouteKeyEventSound(p, env, Validate(name, fs).value, env.routes[name].handler);
    } else {
      assert r.plugin == p;
      assert forall x :: x in r.effects ==> !x.KeyHandled?;
      QuietSound(p, r.effects);
    }
  }

  /**
   * A `willAppear` for a new context with a known uuid and parsable
   * settings creates the key, then dispatches to it.
   */
  lemma WillAppearCreatesFirst(p: Plugin, env: Env, ev: Event, handler: string)
    requires Creates(p, ev)
    requires handler in env.keyHandlers && !env.handlerRaises
    requires HandleNewAction(p, env.registry, ev.uuid, ContextOf(ev), ev.payload).key.Some?
    ensures var r := RouteKeyEvent(p, env, ev, handler);
      && ContextOf(ev) in Contexts(r.plugin.keys)
      && r.effects[0] == Created(ContextOf(ev))
      && r.effects[|r.effects| - 1] == KeyHandled(ContextOf(ev), handler)
  {
    var a := Creation(p, env, ev).0;
    assert Contexts(a.plugin.keys) == Contexts(p.keys) + [ContextOf(ev)];
  }

  /**
   * A `willDisappear` for a registered context runs the handler, then
   * removes the key and recalculates the client over the remaining keys.
   */
  lemma WillDisappearRemovesAfterHandler(p: Plugin, env: Env, ev: Event, handler: string)
    requires ev.name == WillDisappear && |ContextOf(ev)| > 0 && ContextOf(ev) in Contexts(p.keys)
    requires handler in env.keyHandlers && !env.handlerRaises
    requires forall i :: 0 <= i < |p.keys| ==> p.keys[i].settings.Obj?
    ensures var c := ContextOf(ev);
      var r := RouteKeyEvent(p, env, ev, handler);
      && c !in Contexts(r.plugin.keys)
      && r.effects[..2] == [KeyHandled(c, handler), Removed(c)]
      && r.effects[2].Recalculated?
  {
    var c := ContextOf(ev);
    WithoutKeepsDicts(p.keys, c);
    ScanTotal(Without(p.keys, c));
  }

  lemma {:induction false} WithoutKeepsDicts(ks: seq<Key>, c: string)
    requires forall i :: 0 <= i < |ks| ==> ks[i].settings.Obj?
    ensures forall i :: 0 <= i < |Without(ks, c)| ==> Without(ks, c)[i].settings.Obj?
    decreases |ks|
  {
    if |ks| > 0 {
      WithoutKeepsDicts(ks[1..], c);
    }
  }

  /** A plugin event goes to the plugin's own handler, when it has one, and changes no key. */
  lemma PluginEventsReachPlugin(p: Plugin, env: Env, fs: Fields, name: string)
    requires Get(fs, "event") == Some(Str(name)) && name in env.routes && !env.routes[name].isAction
    requires Validate(name, fs).Some? && !env.handlerRaises
    ensures var h := env.routes[name].handler;
      RouteMessage(p, env, Some(Obj(fs))) == Routed(p, if h in env.pluginHandlers then [PluginHandled(h)] else [])
  {
  }

  // ------------------------------------------------------------ global settings

  /** What the global-settings handler did. */
  datatype GlobalOut = GlobalOut(plugin: Plugin, tokens: seq<Value>, command: Option<ClientCommand>, finished: bool)

  /** Each key's token step, for all keys in order; `false` when one raised. */
  function KeysTokens(n: nat, step: BaseAction.TokenStep): (r: (seq<Value>, bool))
    ensures step.Updates? ==> r == (seq(n, _ => step.token), true)
    ensures step.Skips? ==> r == ([], true)
    ensures step.Raises? ==> r == ([], n == 0)
  {
    match step
    case Raises => ([], n == 0)
    case Skips => ([], true)
    case Updates(t) => (seq(n, _ => t), true)
  }

  /**
   * `on_did_receive_global_settings` (lines 178-188): the settings are
   * stored, every key passes the token on, the plugin passes it on when
   * the settings hold a `"token"`, and the client is recalculated.  An
   * event without a payload raises before anything changes.
   */
  function OnGlobalSettings(p: Plugin, payload: Option<Fields>, running: bool): (r: GlobalOut)
    ensures payload.None? ==> r == GlobalOut(p, [], None, false)
    ensures payload.Some? ==> r.plugin == p.(globalSettings := At(payload.value, "settings", Obj([])))
  {
    if payload.None? then GlobalOut(p, [], None, false)
    else
      var gs := At(payload.value, "settings", Obj([]));
      var p' := p.(globalSettings := gs);
      var (fromKeys, ok) := KeysTokens(|p.keys|, BaseAction.KeyTokenStep(gs));
      if !ok then GlobalOut(p', fromKeys, None, false)
      else
        match BaseAction.TokenIn(gs)
        case None => GlobalOut(p', fromKeys, None, false)
        case Some(has) =>
          if has && !gs.Obj? then GlobalOut(p', fromKeys, None, false)
          else
            var tokens := if has then fromKeys + [Get(gs.fields, "token").value] else fromKeys;
            match Recalculate(p.keys, running)
            case None => GlobalOut(p', tokens, None, false)
            case Some(cmd) => GlobalOut(p', tokens, Some(cmd), true)
  }

  /** The client's token is touched only when the global settings are a dictionary with a `"token"`, and then only with it. */
  lemma TokenOnlyFromTokenKey(p: Plugin, payload: Fields, running: bool)
    ensures var r := OnGlobalSettings(p, Some(payload), running);
      var gs := At(payload, "settings", Obj([]));
      && (|r.tokens| > 0 ==> gs.Obj? && HasKey(gs.fields, "token"))
      && (forall i :: 0 <= i < |r.tokens| ==> Some(r.tokens[i]) == Get(gs.fields, "token"))
  {
    var gs := At(payload, "settings", Obj([]));
    var step := BaseAction.KeyTokenStep(gs);
    var fromKeys := KeysTokens(|p.keys|, step).0;
    assert forall i :: 0 <= i < |fromKeys| ==> step.Updates? && fromKeys[i] == step.token;
  }

  /** Handing a client the same token any number of times leaves it holding that token. */
  lemma {:induction false} RepeatedTokenSettles(c: MusicClient.Client, t: string, n: nat)
    ensures Apply(c, seq(n + 1, _ => Str(t))).conn.token == Some(t)
    decreases n
  {
    var ts := seq(n + 1, _ => Str(t));
    if n > 0 {
      assert ts[1..] == seq(n, _ => Str(t));
      RepeatedTokenSettles(MusicClient.UpdateToken(c, Some(t)), t, n - 1);
    }
  }

  /**
   * The client after a run of token updates. The client keeps its token as
   * text, so a value that is not text is handed over as no token.
   */
  function Apply(c: MusicClient.Client, ts: seq<Value>): MusicClient.Client
    decreases |ts|
  {
    if |ts| == 0 then c
    else Apply(MusicClient.UpdateToken(c, if ts[0].Str? then Some(ts[0].s) else None), ts[1..])
  }

  /**
   * Global settings holding a text token, with keys whose settings are
   * dictionaries, leave the client holding that token and recalculate it.
   */
  lemma GlobalTokenReachesClient(p: Plugin, payload: Fields, running: bool, c: MusicClient.Client, t: string)
    requires var gs := At(payload, "settings", Obj([]));
      gs.Obj? && Get(gs.fields, "token") == Some(Str(t))
    requires forall i :: 0 <= i < |p.keys| ==> p.keys[i].settings.Obj?
    ensures var r := OnGlobalSettings(p, Some(payload), running);
      r.finished && Apply(c, r.tokens).conn.token == Some(t)
  {
    var gs := At(payload, "settings", Obj([]));
    ScanTotal(p.keys);
    assert BaseAction.KeyTokenStep(gs) == BaseAction.Updates(Str(t));
    assert BaseAction.TokenIn(gs) == Some(true);
    var fromKeys := KeysTokens(|p.keys|, BaseAction.KeyTokenStep(gs)).0;
    assert fromKeys == seq(|p.keys|, _ => Str(t));
    var r := OnGlobalSettings(p, Some(payload), running);
    assert r.finished && r.tokens == fromKeys + [Str(t)];
    assert fromKeys + [Str(t)] == seq(|p.keys| + 1, _ => Str(t));
    RepeatedTokenSettles(c, t, |p.keys|);
  }

  // ------------------------------------------------------------ apply settings to all keys

  const ApplyEvent: string := "applySettingsToAll"

  /** What the settings broadcast did: the keys afterwards, the settings saved, the keys that re-registered. */
  datatype Applied = Applied(keys: seq<Key>, saved: seq<(string, Value)>, reregistered: seq<string>, ok: bool)

  /**
   * The loop of lines 202-213 as evidently intended: each key's settings
   * dictionary is updated with the new entries, handed back to the key as
   * received settings, and saved under its context.  A key whose settings
   * are not a dictionary raises and ends the loop.
   */
  function ApplyEach(ks: seq<Key>, update: Fields): (r: Applied)
    ensures |r.keys| == |ks|
    ensures r.ok ==> |r.saved| == |ks|
    decreases |ks|
  {
    if |ks| == 0 then Applied([], [], [], true)
    else if !ks[0].settings.Obj? then Applied(ks, [], [], false)
    else
      var merged := Obj(DictUpdate(ks[0].settings.fields, update));
      var got := BaseAction.DidReceiveSettings(ks[0], Some([("settings", merged), ("coordinates", Obj([]))])).value;
      var rest := ApplyEach(ks[1..], update);
      Applied([got.key] + rest.keys, [(ks[0].context, merged)] + rest.saved,
              (if got.reregistered then [ks[0].context] else []) + rest.reregistered, rest.ok)
  }

  /** One key's settings after the broadcast. */
  lemma ReceivedMerged(k: Key, update: Fields)
    requires k.settings.Obj?
    ensures var merged := Obj(DictUpdate(k.settings.fields, update));
      var got := BaseAction.DidReceiveSettings(k, Some([("settings", merged), ("coordinates", Obj([]))]));
      && got.Some? && got.value.finished
      && got.value.key.settings == merged
      && Some(got.value.key.cfg) == Settings.FromDict(merged)
      && got.value.key.context == k.context
  {
    var merged := Obj(DictUpdate(k.settings.fields, update));
    var p := [("settings", merged), ("coordinates", Obj([]))];
    assert Get(p, "settings") == Some(merged);
  }

  /**
   * One key after the broadcast: same context, settings that read the new
   * value under every broadcast name and the old one elsewhere, parsed
   * settings that follow them, and those settings saved under its context.
   */
  ghost predicate MergedInto(before: Key, after: Key, saved: (string, Value), update: Fields) {
    && after.context == before.context
    && before.settings.Obj? && after.settings.Obj?
    && saved == (before.context, after.settings)
    && (forall n :: Get(after.settings.fields, n)
          == if HasKey(update, n) then Get(update, n) else Get(before.settings.fields, n))
    && Some(after.cfg) == Settings.FromDict(after.settings)
  }

  /** The first key of the broadcast is merged. */
  lemma FirstMerged(ks: seq<Key>, update: Fields)
    requires UniqueKeys(update) && |ks| > 0 && ks[0].settings.Obj?
    ensures MergedInto(ks[0], ApplyEach(ks, update).keys[0], ApplyEach(ks, update).saved[0], update)
  {
    ReceivedMerged(ks[0], update);
    forall n
      ensures Get(DictUpdate(ks[0].settings.fields, update), n)
           == if HasKey(update, n) then Get(update, n) else Get(ks[0].settings.fields, n)
    {
      DictUpdateGet(ks[0].settings.fields, update, n);
    }
  }

  /**
   * As intended: with every key holding a settings dictionary, the broadcast reaches
   * every key in order and merges the new entries into each.
   */
  lemma {:induction false} ApplyEachMerges(ks: seq<Key>, update: Fields)
    requires UniqueKeys(update)
    requires forall i :: 0 <= i < |ks| ==> ks[i].settings.Obj?
    ensures var r := ApplyEach(ks, update);
      && r.ok && |r.saved| == |ks|
      && forall i :: 0 <= i < |ks| ==> MergedInto(ks[i], r.keys[i], r.saved[i], update)
    decreases |ks|
  {
    if |ks| > 0 {
      var r := ApplyEach(ks, update);
      var rest := ApplyEach(ks[1..], update);
      ApplyEachMerges(ks[1..], update);
      FirstMerged(ks, update);
      ApplyEachCons(ks, update);
      MergedShift(ks, r.keys, r.saved, update);
    }
  }

  /** The broadcast over keys whose first holds a dictionary continues with the broadcast over the rest. */
  lemma ApplyEachCons(ks: seq<Key>, update: Fields)
    requires |ks| > 0 && ks[0].settings.Obj?
    ensures var r := ApplyEach(ks, update);
      var rest := ApplyEach(ks[1..], update);
      && r.ok == rest.ok && |r.saved| == |rest.saved| + 1
      && r.keys[1..] == rest.keys && r.saved[1..] == rest.saved
  {
    var rest := ApplyEach(ks[1..], update);
    var r := ApplyEach(ks, update);
    assert r.keys == [r.keys[0]] + rest.keys;
    assert r.saved == [r.saved[0]] + rest.saved;
  }

  /** The keys after the first merged as the broadcast over the rest says. */
  lemma MergedShift(ks: seq<Key>, keys: seq<Key>, saved: seq<(string, Value)>, update: Fields)
    requires 0 < |ks| == |keys| == |saved|
    requires forall i :: 0 <= i < |ks| - 1 ==> MergedInto(ks[1..][i], keys[1..][i], saved[1..][i], update)
    ensures forall i :: 1 <= i < |ks| ==> MergedInto(ks[i], keys[i], saved[i], update)
  {
    forall i | 1 <= i < |ks|
      ensures MergedInto(ks[i], keys[i], saved[i], update)
    {
      assert ks[i] == ks[1..][i - 1] && keys[i] == keys[1..][i - 1] && saved[i] == saved[1..][i - 1];
    }
  }

  /** What the broadcast message did: the plugin, the settings saved, and the client command. */
  datatype Broadcast = Broadcast(plugin: Plugin, saved: seq<(string, Value)>, reregistered: seq<string>, command: Option<ClientCommand>)

  /** The new settings of a broadcast message, when it is one and validates. */
  function BroadcastSettings(payload: Option<Fields>): Option<Fields> {
    if payload.None? || Get(payload.value, "event") != Some(Str(ApplyEvent)) then None
    else
      match At(payload.value, "settings", Obj([]))
      case Obj(fs) => Some(fs)
      case _ => None
  }

  /**
   * `on_send_to_plugin` (lines 194-217) as evidently intended: every key
   * gets the new settings and is saved, then the client is recalculated.
   * Anything else, and any error, is caught with only a warning.
   */
  function SendToPlugin(p: Plugin, payload: Option<Fields>, running: bool): (r: Broadcast)
    ensures BroadcastSettings(payload).None? ==> r == Broadcast(p, [], [], None)
  {
    match BroadcastSettings(payload)
    case None => Broadcast(p, [], [], None)
    case Some(update) =>
      var a := ApplyEach(p.keys, update);
      var p' := p.(keys := a.keys);
      if !a.ok then Broadcast(p', a.saved, a.reregistered, None)
      else Broadcast(p', a.saved, a.reregistered, Recalculate(a.keys, running))
  }

  /**
   * `on_send_to_plugin` as written: line 207 reads `act.action_uuid`, an
   * attribute keys do not have (they keep their uuid as `action`), so the
   * first key's settings dictionary is updated and then the loop raises:
   * nothing is handed back, nothing saved, nothing recalculated.
   */
  function SendToPluginAsWritten(p: Plugin, payload: Option<Fields>, running: bool): (r: Broadcast)
    ensures BroadcastSettings(payload).None? ==> r == Broadcast(p, [], [], None)
  {
    match BroadcastSettings(payload)
    case None => Broadcast(p, [], [], None)
    case Some(update) =>
      if |p.keys| == 0 then Broadcast(p, [], [], Recalculate(p.keys, running))
      else if !p.keys[0].settings.Obj? then Broadcast(p, [], [], None)
      else
        var k := p.keys[0];
        var k' := k.(settings := Obj(DictUpdate(k.settings.fields, update)));
        Broadcast(p.(keys := p.keys[0 := k']), [], [], None)
  }

  /**
   * As written, a broadcast to any keys saves nothing and recalculates
   * nothing, and a local key told to switch to Ynison keeps rendering in
   * local mode while its raw settings already say Ynison.
   */
  lemma BroadcastLostAsWritten(p: Plugin, payload: Fields, running: bool)
    requires |p.keys| > 0 && p.keys[0].settings.Obj? && BaseAction.Mode(p.keys[0]) == BaseAction.LocalMode
    requires BroadcastSettings(Some(payload)) == Some([(ControlMode, BaseAction.YnisonMode)])
    ensures var r := SendToPluginAsWritten(p, Some(payload), running);
      && r.saved == [] && r.command.None?
      && BaseAction.Mode(r.plugin.keys[0]) == BaseAction.LocalMode
      && AsksYnison(r.plugin.keys[0])
      && r.plugin.keys[1..] == p.keys[1..]
  {
    var update := [(ControlMode, BaseAction.YnisonMode)];
    var k := p.keys[0];
    DictUpdateGet(k.settings.fields, update, ControlMode);
  }

  /**
   * As intended, the same broadcast saves every key with the new mode, and
   * with the settings all dictionaries the client is started when it is
   * not running.
   */
  lemma BroadcastReachesAll(p: Plugin, payload: Fields, running: bool)
    requires |p.keys| > 0 && forall i :: 0 <= i < |p.keys| ==> p.keys[i].settings.Obj?
    requires BroadcastSettings(Some(payload)) == Some([(ControlMode, BaseAction.YnisonMode)])
    ensures var r := SendToPlugin(p, Some(payload), running);
      && |r.saved| == |p.keys|
      && (forall i :: 0 <= i < |p.keys| ==> AsksYnison(r.plugin.keys[i]))
      && r.command == Some(if running then KeepClient else StartClient)
  {
    var update := [(ControlMode, BaseAction.YnisonMode)];
    ApplyEachMerges(p.keys, update);
    var a := ApplyEach(p.keys, update);
    forall i | 0 <= i < |p.keys|
      ensures AsksYnison(a.keys[i])
    {
      assert Get(a.keys[i].settings.fields, ControlMode) == Get(update, ControlMode);
    }
    RecalculateSpec(a.keys, running);
    assert AsksYnison(a.keys[0]);
  }

  // ------------------------------------------------------------ the connection loop

  /** How one connection attempt to the Stream Deck host went. */
  datatype Attempt = Refused | Session(end: SessionEnd)

  /** How a session ended: the host closed it, the socket failed, or the stream just ended. */
  datatype SessionEnd = HostClosed | SocketError | StreamEnded

  /** Why the loop stopped. */
  datatype Stop = HostGone | Unreachable | OutOfAttempts

  /** How many attempts the loop made, and why it stopped. */
  datatype Ran = Ran(used: nat, stop: Stop)

  /** Consecutive failures that end the loop (line 67). */
  const MaxRetries := 3

  /** Attempts `from` up to `to` were all refused. */
  predicate Refusals(attempts: seq<Attempt>, from: int, to: int) {
    0 <= from <= to <= |attempts| && forall i :: from <= i < to ==> attempts[i] == Refused
  }

  lemma RefusalsShift(attempts: seq<Attempt>, from: int, to: int)
    requires |attempts| > 0 && Refusals(attempts[1..], from, to)
    ensures Refusals(attempts, from + 1, to + 1)
  {
    forall i | from + 1 <= i < to + 1
      ensures attempts[i] == Refused
    {
      assert attempts[i] == attempts[1..][i - 1];
    }
  }

  /**
   * What a run of the loop from `retries` failures can have done: at most
   * one step per attempt, all of them when it ran out; a host close only as
   * its last attempt and never before; and, when the host was unreachable,
   * the last attempts were refusals: as many as the count still allowed,
   * and a full limit's worth once a session came in between.
   */
  predicate RanFits(attempts: seq<Attempt>, retries: nat, r: Ran) {
    && r.used <= |attempts|
    && (r.stop == OutOfAttempts ==> r.used == |attempts|)
    && (r.stop == HostGone ==> r.used > 0 && attempts[r.used - 1] == Session(HostClosed))
    && (r.stop == Unreachable ==>
          && r.used >= MaxRetries - retries
          && Refusals(attempts, r.used - (MaxRetries - retries), r.used)
          && (r.used > MaxRetries - retries ==> Refusals(attempts, r.used - MaxRetries, r.used)))
    && (forall i :: 0 <= i < r.used - 1 ==> attempts[i] != Session(HostClosed))
  }

  /**
   * The loop of `run` (lines 66-102) from a failure count below the limit:
   * a session resets the count, a host close ends the loop, a refused
   * connection counts and ends the loop once the count reaches the limit.
   * The waits between attempts are left out.
   */
  function RunFrom(attempts: seq<Attempt>, retries: nat): (r: Ran)
    requires retries < MaxRetries
    ensures RanFits(attempts, retries, r)
    decreases |attempts|
  {
    if |attempts| == 0 then Ran(0, OutOfAttempts)
    else
      match attempts[0]
      case Session(HostClosed) => Ran(1, HostGone)
      case Session(_) =>
        var r := RunFrom(attempts[1..], 0);
        AfterSession(attempts, retries, r);
        Ran(r.used + 1, r.stop)
      case Refused =>
        if retries + 1 >= MaxRetries then Ran(1, Unreachable)
        else
          var r := RunFrom(attempts[1..], retries + 1);
          AfterRefusal(attempts, retries, r);
          Ran(r.used + 1, r.stop)
  }

  /** A session that did not close the host, then a run from no failures. */
  lemma AfterSession(attempts: seq<Attempt>, retries: nat, r: Ran)
    requires |attempts| > 0 && attempts[0].Session? && attempts[0] != Session(HostClosed) && retries < MaxRetries
    requires RanFits(attempts[1..], 0, r)
    ensures RanFits(attempts, retries, Ran(r.used + 1, r.stop))
  {
    if r.stop == Unreachable {
      RefusalsShift(attempts, r.used - MaxRetries, r.used);
    }
    ShiftNoClose(attempts, r.used);
    if r.stop == HostGone {
      assert attempts[r.used] == attempts[1..][r.used - 1];
    }
  }

  /** A refusal below the limit, then a run from one more failure. */
  lemma AfterRefusal(attempts: seq<Attempt>, retries: nat, r: Ran)
    requires |attempts| > 0 && attempts[0] == Refused && retries + 1 < MaxRetries
    requires RanFits(attempts[1..], retries + 1, r)
    ensures RanFits(attempts, retries, Ran(r.used + 1, r.stop))
  {
    if r.stop == Unreachable {
      var k := MaxRetries - (retries + 1);
      RefusalsShift(attempts, r.used - k, r.used);
      if r.used > k {
        RefusalsShift(attempts, r.used - MaxRetries, r.used);
      }
    }
    ShiftNoClose(attempts, r.used);
    if r.stop == HostGone {
      assert attempts[r.used] == attempts[1..][r.used - 1];
    }
  }

  /** No host close among the first attempts after the first, read from the first. */
  lemma ShiftNoClose(attempts: seq<Attempt>, used: nat)
    requires |attempts| > 0 && used <= |attempts[1..]|
    requires forall i :: 0 <= i < used - 1 ==> attempts[1..][i] != Session(HostClosed)
    ensures forall i :: 1 <= i < used ==> attempts[i] != Session(HostClosed)
  {
    forall i | 1 <= i < used
      ensures attempts[i] != Session(HostClosed)
    {
      assert attempts[i] == attempts[1..][i - 1];
    }
  }

  /** `run` starts with no failures: an unreachable host means the last three attempts were refused. */
  function Run(attempts: seq<Attempt>): (r: Ran)
    ensures r.stop == Unreachable ==> Refusals(attempts, r.used - MaxRetries, r.used)
  {
    RunFrom(attempts, 0)
  }

  /** Three refused connections in a row from the start end the loop after exactly three attempts. */
  lemma ThreeRefusalsStop(attempts: seq<Attempt>)
    requires |attempts| >= 3 && attempts[0] == Refused && attempts[1] == Refused && attempts[2] == Refused
    ensures Run(attempts) == Ran(3, Unreachable)
  {
    assert attempts[1..][0] == Refused && attempts[1..][1..][0] == Refused;
    assert RunFrom(attempts[1..][1..], 2) == Ran(1, Unreachable);
    assert RunFrom(attempts[1..], 1) == Ran(2, Unreachable);
  }

  /** A session in between resets the count: two refusals, a session and two more refusals do not stop the loop. */
  lemma SessionResetsRetries()
    ensures Run([Refused, Refused, Session(SocketError), Refused, Refused]) == Ran(5, OutOfAttempts)
  {
  }
}

=== FILE: plugin_states.dfy ===
/**
 * The plugin's records of the local player (`src/core/schemas/states.py`)
 * and their decoders from the page script's JSON.  The dataclasses do not
 * check types, so every field holds the decoded value as it came, except the
 * track id, which is passed through `str()`.
 */
module PluginStates {
  import opened Wrappers
  import opened Json

  datatype TrackData = TrackData(title: Value, artist: Value, coverUrl: Value, trackId: string)

  datatype PlaybackData = PlaybackData(isPlaying: Value, currentSec: Value, totalSec: Value, progress: Value, timestamp: real)

  datatype LikeData = LikeData(isLiked: Value)

  datatype DislikeData = DislikeData(isDisliked: Value)

  datatype VolumeData = VolumeData(current: Value, isMuted: Value)

  datatype MediaState = MediaState(
    track: TrackData,
    playback: PlaybackData,
    like: LikeData,
    dislike: DislikeData,
    volume: VolumeData)

  /** The result of a page-script command (`ActionResultData`); `Null` stands for Python `None`. */
  datatype ActionResult = ActionResult(
    success: Value,
    error: Value,
    action: Value,
    newState: Value,
    isPlaying: Value,
    volume: Value,
    isMuted: Value)

  // ------------------------------------------------------------ defaults

  const DefaultTrack := TrackData(Str(""), Str(""), Str(""), "")
  const DefaultPlayback := PlaybackData(Bool(false), Num(0.0), Num(0.0), Num(0.0), 0.0)
  const DefaultVolume := VolumeData(Num(0.0), Bool(false))
  const DefaultMedia := MediaState(DefaultTrack, DefaultPlayback, LikeData(Bool(false)), DislikeData(Bool(false)), DefaultVolume)

  /** A failed result carrying only its error text. */
  function Failure(message: string): (r: ActionResult)
    ensures !Truthy(r.success) && r.error == Str(message)
  {
    ActionResult(Bool(false), Str(message), Null, Null, Null, Null, Null)
  }

  /** `x or 0.0`: a falsy value (missing, `None`, zero, empty) reads as `0.0`. */
  function OrZero(v: Value): (r: Value)
    ensures Truthy(v) ==> r == v
    ensures !Truthy(v) ==> r == Num(0.0)
  {
    if Truthy(v) then v else Num(0.0)
  }

  // ------------------------------------------------------------ decoders
  // `None` stands for the `AttributeError` of `.get` on a truthy non-dictionary.

  /** `TrackData.from_dict` (lines 13-20). */
  function TrackFromDict(data: Value): (r: Option<TrackData>)
    ensures !Truthy(data) ==> r == Some(DefaultTrack)
    ensures r.None? <==> Truthy(data) && !data.Obj?
    ensures r.Some? && data.Obj? ==>
      && r.value.title == At(data.fields, "title", Str(""))
      && r.value.artist == At(data.fields, "artist", Str(""))
      && r.value.coverUrl == At(data.fields, "cover", Str(""))
      && r.value.trackId == (if HasKey(data.fields, "id") then PyStr(Get(data.fields, "id").value) else "")
  {
    if !Truthy(data) then Some(DefaultTrack)
    else if !data.Obj? then None
    else
      var fs := data.fields;
      Some(TrackData(At(fs, "title", Str("")), At(fs, "artist", Str("")), At(fs, "cover", Str("")), PyStr(At(fs, "id", Str("")))))
  }

  /** `PlaybackData.from_dict` (lines 31-39). */
  function PlaybackFromDict(data: Value): (r: Option<PlaybackData>)
    ensures !Truthy(data) ==> r == Some(DefaultPlayback)
    ensures r.None? <==> Truthy(data) && !data.Obj?
    ensures r.Some? && data.Obj? ==>
      r.value == PlaybackData(At(data.fields, "playing", Bool(false)), OrZero(At(data.fields, "now_sec", Null)),
                              OrZero(At(data.fields, "total_sec", Null)), OrZero(At(data.fields, "ratio", Null)), 0.0)
  {
    if !Truthy(data) then Some(DefaultPlayback)
    else if !data.Obj? then None
    else ProgressOf(data.fields, At(data.fields, "playing", Bool(false)))
  }

  /** The playback record from a progress dictionary and a playing flag. */
  function ProgressOf(prog: Fields, playing: Value): (r: Option<PlaybackData>)
    ensures r.Some?
  {
    Some(PlaybackData(playing, OrZero(At(prog, "now_sec", Null)), OrZero(At(prog, "total_sec", Null)),
                      OrZero(At(prog, "ratio", Null)), 0.0))
  }

  /** `VolumeData.from_dict` (lines 66-71). */
  function VolumeFromDict(data: Value): (r: Option<VolumeData>)
    ensures !Truthy(data) ==> r == Some(DefaultVolume)
    ensures r.None? <==> Truthy(data) && !data.Obj?
    ensures r.Some? && data.Obj? ==>
      r.value == VolumeData(OrZero(At(data.fields, "current", Null)), At(data.fields, "is_muted", Bool(false)))
  {
    if !Truthy(data) then Some(DefaultVolume)
    else if !data.Obj? then None
    else Some(VolumeData(OrZero(At(data.fields, "current", Null)), At(data.fields, "is_muted", Bool(false))))
  }

  /** `LikeData.from_dict` and `DislikeData.from_dict` (lines 46-57) read one flag, false when missing. */
  function FlagFromDict(data: Value, key: string): (r: Option<Value>)
    ensures !Truthy(data) ==> r == Some(Bool(false))
    ensures r.None? <==> Truthy(data) && !data.Obj?
    ensures Truthy(data) && data.Obj? && HasKey(data.fields, key) ==> r == Get(data.fields, key)
    ensures Truthy(data) && data.Obj? && !HasKey(data.fields, key) ==> r == Some(Bool(false))
  {
    if !Truthy(data) then Some(Bool(false))
    else if !data.Obj? then None
    else Some(At(data.fields, key, Bool(false)))
  }

  /**
   * `MediaState.from_dict` (lines 82-109): the track from `track`, the
   * playing, liked and disliked flags from `state`, the numbers from
   * `progress`, the volume from `volume`.  The `state` and `progress`
   * sub-values must be dictionaries whenever they are present.
   */
  function MediaFromDict(data: Value): (r: Option<MediaState>)
    ensures !Truthy(data) ==> r == Some(DefaultMedia)
    ensures !Truthy(data) || data.Obj? || r.None?
  {
    if !Truthy(data) then Some(DefaultMedia)
    else if !data.Obj? then None
    else
      var fs := data.fields;
      MediaFrom(At(fs, "track", Obj([])), At(fs, "state", Obj([])), At(fs, "progress", Obj([])), At(fs, "volume", Obj([])))
  }

  /** The media state from the four sub-values of a snapshot. */
  function MediaFrom(track: Value, st: Value, prog: Value, volume: Value): (r: Option<MediaState>)
    ensures r.Some? ==> st.Obj? && prog.Obj?
  {
    if !st.Obj? || !prog.Obj? then None
    else
      var t :- TrackFromDict(track);
      var p :- ProgressOf(prog.fields, At(st.fields, "playing", Bool(false)));
      var v :- VolumeFromDict(volume);
      Some(MediaState(t, p, LikeData(At(st.fields, "liked", Bool(false))),
                      DislikeData(At(st.fields, "disliked", Bool(false))), v))
  }

  /**
   * `ActionResultData.from_dict` (lines 123-133): an empty result is the
   * failure "No data"; `new_state` falls back to `is_disliked` when the
   * result has no `new_state` key.
   */
  function ActionFromDict(data: Value): (r: Option<ActionResult>)
    ensures !Truthy(data) ==> r == Some(Failure("No data"))
    ensures r.None? <==> Truthy(data) && !data.Obj?
    ensures r.Some? && Truthy(data) ==>
      && r.value.success == At(data.fields, "success", Bool(false))
      && r.value.newState == (if HasKey(data.fields, "new_state") then Get(data.fields, "new_state").value
                              else At(data.fields, "is_disliked", Null))
  {
    if !Truthy(data) then Some(Failure("No data"))
    else if !data.Obj? then None
    else
      var fs := data.fields;
      var newState := if HasKey(fs, "new_state") then At(fs, "new_state", Null) else At(fs, "is_disliked", Null);
      Some(ActionResult(At(fs, "success", Bool(false)), At(fs, "error", Null), At(fs, "action", Null), newState,
                        At(fs, "is_playing", Null), At(fs, "volume", Null), At(fs, "is_muted", Null)))
  }

  // ------------------------------------------------------------ encoding

  /** The snapshot shape the page script reports (`getFullState`'s `data`), for a media state. */
  function EncodeMedia(m: MediaState): Value {
    Obj([
      ("track", Obj([("id", Str(m.track.trackId)), ("title", m.track.title), ("artist", m.track.artist),
                     ("cover", m.track.coverUrl)])),
      ("state", Obj([("playing", m.playback.isPlaying), ("liked", m.like.isLiked), ("disliked", m.dislike.isDisliked)])),
      ("progress", Obj([("now_sec", m.playback.currentSec), ("total_sec", m.playback.totalSec),
                        ("ratio", m.playback.progress)])),
      ("volume", Obj([("current", m.volume.current), ("is_muted", m.volume.isMuted)]))])
  }

  /** A number field as decoding leaves it: truthy, or exactly `0.0`. */
  predicate Decoded(v: Value) {
    Truthy(v) || v == Num(0.0)
  }

  /** The states a decoder can produce: numbers normalised and no timestamp yet. */
  predicate Normal(m: MediaState) {
    && Decoded(m.playback.currentSec) && Decoded(m.playback.totalSec) && Decoded(m.playback.progress)
    && Decoded(m.volume.current) && m.playback.timestamp == 0.0
  }

  /** Every decoded state is normal. */
  lemma DecodedIsNormal(data: Value)
    requires MediaFromDict(data).Some?
    ensures Normal(MediaFromDict(data).value)
  {
  }

  /** Decoding the page's snapshot of a normal state gives that state back. */
  lemma MediaRoundTrip(m: MediaState)
    requires Normal(m)
    ensures MediaFromDict(EncodeMedia(m)) == Some(m)
  {
    var e := EncodeMedia(m).fields;
    SnapshotParts(e[0].1, e[1].1, e[2].1, e[3].1);
    PartsRoundTrip(m);
  }

  /** A snapshot decodes through its four parts. */
  lemma SnapshotParts(track: Value, st: Value, prog: Value, volume: Value)
    ensures MediaFromDict(Obj([("track", track), ("state", st), ("progress", prog), ("volume", volume)]))
         == MediaFrom(track, st, prog, volume)
  {
    var fs := [("track", track), ("state", st), ("progress", prog), ("volume", volume)];
    DictParts(fs);
    SnapshotLookups(track, st, prog, volume);
  }

  /** A non-empty dictionary decodes through the values at its four keys. */
  lemma DictParts(fs: Fields)
    requires |fs| > 0
    ensures MediaFromDict(Obj(fs))
         == MediaFrom(At(fs, "track", Obj([])), At(fs, "state", Obj([])), At(fs, "progress", Obj([])), At(fs, "volume", Obj([])))
  {
    var d := Obj(fs);
    assert Truthy(d) && d.Obj? && d.fields == fs;
  }

  lemma SnapshotLookups(track: Value, st: Value, prog: Value, volume: Value)
    ensures var fs := [("track", track), ("state", st), ("progress", prog), ("volume", volume)];
      && At(fs, "track", Obj([])) == track && At(fs, "state", Obj([])) == st
      && At(fs, "progress", Obj([])) == prog && At(fs, "volume", Obj([])) == volume
  {
    var fs := [("track", track), ("state", st), ("progress", prog), ("volume", volume)];
    GetAt(fs, "track", 0);
    GetAt(fs, "state", 1);
    GetAt(fs, "progress", 2);
    GetAt(fs, "volume", 3);
  }

  lemma PartsRoundTrip(m: MediaState)
    requires Normal(m)
    ensures var e := EncodeMedia(m).fields;
      MediaFrom(e[0].1, e[1].1, e[2].1, e[3].1) == Some(m)
  {
    TrackRoundTrip(m.track);
    StateRoundTrip(m);
    ProgressRoundTrip(m.playback);
    VolumeRoundTrip(m.volume);
  }

  lemma TrackRoundTrip(t: TrackData)
    ensures var fs := [("id", Str(t.trackId)), ("title", t.title), ("artist", t.artist), ("cover", t.coverUrl)];
      TrackFromDict(Obj(fs)) == Some(t)
  {
    var fs := [("id", Str(t.trackId)), ("title", t.title), ("artist", t.artist), ("cover", t.coverUrl)];
    GetAt(fs, "id", 0);
    GetAt(fs, "title", 1);
    GetAt(fs, "artist", 2);
    GetAt(fs, "cover", 3);
  }

  lemma StateRoundTrip(m: MediaState)
    ensures var fs := [("playing", m.playback.isPlaying), ("liked", m.like.isLiked), ("disliked", m.dislike.isDisliked)];
      && At(fs, "playing", Bool(false)) == m.playback.isPlaying
      && At(fs, "liked", Bool(false)) == m.like.isLiked
      && At(fs, "disliked", Bool(false)) == m.dislike.isDisliked
  {
    var fs := [("playing", m.playback.isPlaying), ("liked", m.like.isLiked), ("disliked", m.dislike.isDisliked)];
    GetAt(fs, "playing", 0);
    GetAt(fs, "liked", 1);
    GetAt(fs, "disliked", 2);
  }

  lemma ProgressRoundTrip(p: PlaybackData)
    requires Decoded(p.currentSec) && Decoded(p.totalSec) && Decoded(p.progress) && p.timestamp == 0.0
    ensures var fs := [("now_sec", p.currentSec), ("total_sec", p.totalSec), ("ratio", p.progress)];
      ProgressOf(fs, p.isPlaying) == Some(p)
  {
    var fs := [("now_sec", p.currentSec), ("total_sec", p.totalSec), ("ratio", p.progress)];
    GetAt(fs, "now_sec", 0);
    GetAt(fs, "total_sec", 1);
    GetAt(fs, "ratio", 2);
  }

  lemma VolumeRoundTrip(v: VolumeData)
    requires Decoded(v.current)
    ensures VolumeFromDict(Obj([("current", v.current), ("is_muted", v.isMuted)])) == Some(v)
  {
    var fs := [("current", v.current), ("is_muted", v.isMuted)];
    GetAt(fs, "current", 0);
    GetAt(fs, "is_muted", 1);
  }

  /**
   * A toggle result decodes to its new state whichever key the page used:
   * `new_state` from `toggleLike`, `is_disliked` from `toggleDislike`.
   */
  lemma NewStateEitherKey(success: Value, b: bool)
    ensures ActionFromDict(Obj([("success", success), ("new_state", Bool(b))])).value.newState == Bool(b)
    ensures ActionFromDict(Obj([("success", success), ("is_disliked", Bool(b))])).value.newState == Bool(b)
  {
    var liked: Fields := [("success", success), ("new_state", Bool(b))];
    assert Keys(liked) == ["success", "new_state"];
    assert Get(liked, "new_state") == Some(Bool(b));
    var disliked: Fields := [("success", success), ("is_disliked", Bool(b))];
    assert Keys(disliked) == ["success", "is_disliked"];
    assert !HasKey(disliked, "new_state");
    assert Get(disliked, "is_disliked") == Some(Bool(b));
  }
}

=== FILE: progress_renderer.dfy ===
/**
 * The arithmetic of the progress key (`src/core/renderers/progress.py`):
 * the `m:ss` clock text, the progress ratio and the fill of the text bar.
 * Drawing is left out; positions are reals because the caller extrapolates
 * them in floating point.
 */
module ProgressRenderer {
  import opened Wrappers
  import opened Text
  import InjectedApi

  /** The text for a missing time (line 9). */
  const Unknown: string := "0:00"

  /** Whole seconds in a time, Python's `int(ms // 1000)`: floor division, also for negative times. */
  function TotalSeconds(ms: real): (s: int)
    ensures s as real <= ms / 1000.0 < s as real + 1.0
  {
    (ms / 1000.0).Floor
  }

  /**
   * `format_time` (lines 7-13): minutes, a colon and two-digit seconds.
   * Python's `//` and `%` floor, so the seconds are within 0..59 and only
   * the minutes carry a sign; minutes never roll over into hours.
   */
  function FormatTime(ms: Option<real>): (r: string)
    ensures ms.None? ==> r == Unknown
  {
    match ms
    case None => Unknown
    case Some(t) =>
      var s := TotalSeconds(t);
      IntToString(s / 60) + ":" + Pad2(s % 60)
  }

  /** A whole number of milliseconds has as many whole seconds as integer division gives. */
  lemma WholeSeconds(n: int)
    ensures TotalSeconds(n as real) == n / 1000
  {
    var q, r := n / 1000, n % 1000;
    assert n as real / 1000.0 == q as real + r as real / 1000.0;
  }

  /**
   * For a time that is not negative, the clock text is two colon-free
   * parts, the minutes and the two-digit seconds, so even a time past an
   * hour shows only minutes.
   */
  lemma FormatTimeParts(ms: real)
    requires ms >= 0.0
    ensures var s := TotalSeconds(ms);
      Split(FormatTime(Some(ms)), ':') == [NatToString(s / 60), Pad2(s % 60)]
  {
    var s := TotalSeconds(ms);
    var mt, st := NatToString(s / 60), Pad2(s % 60);
    assert FormatTime(Some(ms)) == Join([mt, st], [':']);
    InjectedApi.NoColon(mt);
    InjectedApi.NoColon(st);
    JoinSplit([mt, st], ':');
  }

  /** The page's own clock parser reads the plugin's clock text back as the whole seconds. */
  lemma FormatTimeParses(ms: real)
    requires ms >= 0.0
    ensures InjectedApi.ToSec(FormatTime(Some(ms))) == Some(TotalSeconds(ms))
  {
    var s := TotalSeconds(ms);
    InjectedApi.MinuteClock(s / 60, s % 60, s);
  }

  /** Below an hour the plugin's text is the page's clock text; from an hour on it keeps counting minutes. */
  lemma FormatTimeMatchesPageClock(ms: real)
    requires 0.0 <= ms
    ensures TotalSeconds(ms) < 3600 ==> FormatTime(Some(ms)) == InjectedApi.ClockText(TotalSeconds(ms))
    ensures TotalSeconds(ms) >= 3600 ==> |Split(FormatTime(Some(ms)), ':')| == 2
  {
    FormatTimeParts(ms);
  }

  /** 61 seconds is `1:01`, an hour is `60:00`, and a millisecond before zero is `-1:59`. */
  lemma FormatTimeExamples()
    ensures FormatTime(Some(61000.0)) == "1:01"
    ensures FormatTime(Some(3600000.0)) == "60:00"
    ensures FormatTime(Some(-1.0)) == "-1:59"
  {
    WholeSeconds(61000);
    WholeSeconds(3600000);
    WholeSeconds(-1);
    assert NatToString(60) == NatToString(6) + [DigitChar(0)];
    assert NatToString(59) == NatToString(5) + [DigitChar(9)];
  }

  // ------------------------------------------------------------ ratio and bar

  /** Python's `max(0, min(1, x))`. */
  function Clamp01(x: real): (r: real)
    ensures 0.0 <= r <= 1.0
    ensures 0.0 <= x <= 1.0 ==> r == x
    ensures x < 0.0 ==> r == 0.0
    ensures x > 1.0 ==> r == 1.0
  {
    if x > 1.0 then 1.0 else if x < 0.0 then 0.0 else x
  }

  /** The progress ratio (lines 25-26): the elapsed share, 0 for a duration that is not positive, kept within 0..1. */
  function Ratio(current: real, duration: real): (r: real)
    ensures 0.0 <= r <= 1.0
    ensures duration <= 0.0 ==> r == 0.0
    ensures duration > 0.0 && 0.0 <= current <= duration ==> r * duration == current
    ensures duration > 0.0 && current >= duration ==> r == 1.0
    ensures duration > 0.0 && current <= 0.0 ==> r == 0.0
  {
    if duration > 0.0 then Clamp01(current / duration) else Clamp01(0.0)
  }

  /** The cells of the text bar (line 56). */
  const BarLength := 12

  const Full: char := '█'
  const Empty: char := '░'

  /** `int(bar_len * ratio)`: the filled cells, truncated, of a ratio already within 0..1. */
  function Filled(current: real, duration: real): (n: nat)
    ensures n <= BarLength
    ensures n as real <= BarLength as real * Ratio(current, duration) < n as real + 1.0
  {
    (BarLength as real * Ratio(current, duration)).Floor
  }

  function Repeat(c: char, n: nat): (r: string)
    ensures |r| == n && forall i :: 0 <= i < n ==> r[i] == c
  {
    seq(n, _ => c)
  }

  /** The `bar_cli` text (lines 55-58): the filled cells, then the empty ones, in brackets. */
  function BarText(current: real, duration: real): (r: string)
    ensures |r| == BarLength + 2
    ensures r[0] == '[' && r[BarLength + 1] == ']'
    ensures forall i :: 1 <= i <= BarLength ==> (r[i] == Full <==> i <= Filled(current, duration))
    ensures forall i :: 1 <= i <= BarLength ==> (r[i] == Empty <==> i > Filled(current, duration))
  {
    var n := Filled(current, duration);
    "[" + Repeat(Full, n) + Repeat(Empty, BarLength - n) + "]"
  }

  /** More progress never empties a cell: the fill grows with the elapsed time. */
  lemma FilledMonotone(a: real, b: real, duration: real)
    requires a <= b
    ensures Filled(a, duration) <= Filled(b, duration)
  {
    if duration > 0.0 {
      assert a / duration <= b / duration;
    }
  }

  /** A finished track fills the whole bar and an unstarted one leaves it empty. */
  lemma FilledEnds(duration: real)
    requires duration > 0.0
    ensures Filled(duration, duration) == BarLength
    ensures Filled(0.0, duration) == 0
  {
  }
}

=== FILE: session_manager.dfy ===
/**
 * The bridge's per-token sessions (`api_for_plugin/manager.py`): starting a
 * session against the catalog API, enriching the state documents it
 * broadcasts with like flags and cached artist/cover metadata, the like and
 * dislike toggles, and the token-keyed session registry.
 *
 * The catalog API is a parameter: each call's outcome is passed in.
 */
module SessionManager {
  import opened Wrappers
  import opened Text
  import opened Json
  import YnisonPlayer
  import ModelsCommon

  // ------------------------------------------------------------- session

  /** What the metadata cache keeps per track id. */
  datatype CacheEntry = CacheEntry(artists: string, cover: Value)

  /**
   * One token's session.  `hasClient` says whether the catalog client was
   * created; `player` is the Ynison player of the current connection attempt.
   */
  datatype Session = Session(
    token: string,
    running: bool,
    hasClient: bool,
    liked: set<string>,
    disliked: set<string>,
    cache: map<string, CacheEntry>,
    connected: bool,
    player: Option<YnisonPlayer.Player>)

  /** A session as constructed: nothing started, nothing known. */
  function NewSession(token: string): Session {
    Session(token, false, false, {}, {}, map[], false, None)
  }

  /** How a catalog call failed: a `PermissionError` (rejected token) or any other exception. */
  datatype Failure = Denied | Failed

  /** The outcome of one catalog call. */
  datatype Call<T> = Returned(value: T) | Raised(failure: Failure)

  function SetOf(xs: seq<string>): (r: set<string>)
    ensures forall x :: x in r <==> x in xs
  {
    set x | x in xs
  }

  /** The first failure of client initialisation and the likes download, in that order. */
  function FirstFailure(init: Option<Failure>, likes: Call<seq<string>>): Option<Failure> {
    if init.Some? then init
    else if likes.Raised? then Some(likes.failure)
    else None
  }

  /** The session after `start`, whether the reconnect loop was spawned, whether `start` raised. */
  datatype Started = Started(session: Session, loopStarted: bool, authError: bool)

  /**
   * `YnisonSession.start` (lines 25-49): a running session is left alone.
   * Otherwise a rejected token stops the session and re-raises; any other
   * failure is logged and the loop starts anyway with whatever was loaded.
   * A failed or empty dislikes download keeps the old set.
   */
  function Start(s: Session, init: Option<Failure>, likes: Call<seq<string>>, dislikes: Option<seq<string>>): (r: Started)
    ensures r.authError <==> !s.running && FirstFailure(init, likes) == Some(Denied)
    ensures r.loopStarted <==> !s.running && !r.authError
    ensures r.session.running <==> !r.authError
    ensures !s.running && FirstFailure(init, likes).None? ==> r.session.liked == SetOf(likes.value)
    ensures FirstFailure(init, likes).Some? ==> r.session.liked == s.liked
    ensures r.session.disliked != s.disliked ==>
      && FirstFailure(init, likes).None?
      && dislikes.Some? && |dislikes.value| > 0
      && r.session.disliked == SetOf(dislikes.value)
    ensures r.session.cache == s.cache && r.session.token == s.token
  {
    if s.running then Started(s, false, false)
    else
      var begun := s.(running := true, hasClient := true);
      match FirstFailure(init, likes)
      case Some(Denied) => Started(begun.(running := false), false, true)
      case Some(Failed) => Started(begun, true, false)
      case None =>
        var withLikes := begun.(liked := SetOf(likes.value));
        var withDislikes :=
          if dislikes.Some? && |dislikes.value| > 0 then withLikes.(disliked := SetOf(dislikes.value)) else withLikes;
        Started(withDislikes, true, false)
  }

  /** Starting twice never spawns a second loop and changes nothing the first start did not. */
  lemma StartTwice(s: Session, init: Option<Failure>, likes: Call<seq<string>>, dislikes: Option<seq<string>>,
                   init2: Option<Failure>, likes2: Call<seq<string>>, dislikes2: Option<seq<string>>)
    requires !Start(s, init, likes, dislikes).authError
    ensures var s1 := Start(s, init, likes, dislikes).session;
      Start(s1, init2, likes2, dislikes2) == Started(s1, false, false)
  {
  }

  /** `close` (lines 213-224): the session stops; what it learnt is kept. */
  function Close(s: Session): (r: Session)
    ensures !r.running
    ensures r.liked == s.liked && r.disliked == s.disliked && r.cache == s.cache && r.token == s.token
  {
    s.(running := false)
  }

  /** One connection attempt: the session holding its new player, and the configuration the player connects with. */
  datatype Attempt = Attempt(session: Session, config: YnisonPlayer.PlayerConfig)

  /**
   * One attempt of `run_loop` (lines 53-63): a brand-new player, so nothing
   * of the previous connection's state survives, configured as a shadow
   * remote controller under the device id drawn for this attempt (the
   * `uuid4` of line 54, passed in).
   */
  function Reconnect(s: Session, deviceId: string): (r: Attempt)
    ensures r.session.player.Some? && r.session.player.value.state.None? && r.session.player.value.currentTrack.None?
    ensures r.session == s.(player := r.session.player)
    ensures r.config.deviceId == deviceId && r.config.isShadow
    ensures !r.config.capabilities.canBePlayer && r.config.capabilities.canBeRemoteController
  {
    Attempt(s.(player := Some(YnisonPlayer.Initial)), YnisonPlayer.SessionPlayerConfig(deviceId))
  }

  /**
   * As intended, the first message of every attempt announces the device id
   * drawn for it; as written `connect` raises before sending it.
   */
  lemma ReconnectAnnouncesDevice(s: Session, deviceId: string, env: ModelsCommon.Fresh)
    ensures var m := YnisonPlayer.DefaultStateMessage(Reconnect(s, deviceId).config, env);
      m.updateFullState.device.Plain? && m.updateFullState.device.plain.info.deviceId == deviceId
  {
  }

  /** `handle_close` (lines 120-121). */
  function HandleClose(s: Session): (r: Session)
    ensures !r.connected && r == s.(connected := r.connected)
  {
    s.(connected := false)
  }

  /**
   * A state-socket frame reaching the session's player.  When the frame ends
   * the receive loop, `begin_receive`'s `finally` calls the player's
   * `on_close`, which is the session's `handle_close`, so the waiting loop of
   * lines 72-73 lets go and the next attempt follows.  Without a player there
   * is no socket and nothing arrives.
   */
  function ReceiveFrame(s: Session, env: ModelsCommon.Fresh, frame: YnisonPlayer.Frame, now: int): (r: Session)
    ensures s.player.None? ==> r == s
    ensures s.player.Some? ==> r.player == Some(YnisonPlayer.ProcessFrame(env, s.player.value, frame, now).player)
    ensures r.connected <==> s.connected && !(s.player.Some? && frame.Doc? && YnisonPlayer.Scalar(frame.doc))
    ensures r == s.(player := r.player, connected := r.connected)
  {
    if s.player.None? then s
    else
      var step := YnisonPlayer.ProcessFrame(env, s.player.value, frame, now);
      var s1 := s.(player := Some(step.player));
      if step.ended then HandleClose(s1) else s1
  }

  // --------------------------------------------------------- enrichment

  /** The playable list of a state document and the index of its current item. */
  datatype Current = Current(items: seq<Value>, index: nat)

  /**
   * The guard of `enrich_and_broadcast` and `enrich_state_dict` (lines 97-103,
   * 126-133): a non-empty playable list and a current index inside it, the
   * index defaulting to 0.  Any other shape (or an exception while looking)
   * means the document is left alone.
   */
  function CurrentItem(doc: Value): (r: Option<Current>)
    ensures r.Some? ==> 0 <= r.value.index < |r.value.items|
  {
    var ps :- GetOr(doc, "player_state", Obj([]));
    var queue :- GetOr(ps, "player_queue", Obj([]));
    var items :- GetOr(queue, "playable_list", Arr([]));
    CurrentAt(items, GetOr(queue, "current_playable_index", Num(0.0)).value)
  }

  /** The current item of a list under an index value: a whole number inside a non-empty list. */
  function CurrentAt(items: Value, idx: Value): (r: Option<Current>)
    ensures r.Some? ==> 0 <= r.value.index < |r.value.items|
  {
    if items.Arr? && |items.items| > 0 && idx.Num? && idx.n == idx.n.Floor as real && 0 <= idx.n.Floor < |items.items|
    then Some(Current(items.items, idx.n.Floor))
    else None
  }

  /** The guard read through the keys it looks at. */
  lemma CurrentItemAt(doc: Value, ps: Value, q: Value, items: seq<Value>)
    requires doc.Obj? && Get(doc.fields, "player_state") == Some(ps)
    requires ps.Obj? && Get(ps.fields, "player_queue") == Some(q)
    requires q.Obj? && Get(q.fields, "playable_list") == Some(Arr(items))
    ensures CurrentItem(doc) == CurrentAt(Arr(items), GetOr(q, "current_playable_index", Num(0.0)).value)
  {
  }

  /** The player state, queue and list all sit at their keys when the guard holds. */
  lemma CurrentItemPath(doc: Value)
    requires CurrentItem(doc).Some?
    ensures doc.Obj? && HasKey(doc.fields, "player_state")
    ensures var ps := Get(doc.fields, "player_state").value;
      ps.Obj? && HasKey(ps.fields, "player_queue")
      && var q := Get(ps.fields, "player_queue").value;
      q.Obj? && Get(q.fields, "playable_list") == Some(Arr(CurrentItem(doc).value.items))
  {
  }

  /** The document with the current item replaced and everything else in place. */
  function ReplaceCurrent(doc: Value, item: Value): Value
    requires CurrentItem(doc).Some?
  {
    CurrentItemPath(doc);
    var cur := CurrentItem(doc).value;
    var ps := Get(doc.fields, "player_state").value;
    var q := Get(ps.fields, "player_queue").value;
    Obj(Set(doc.fields, "player_state",
      Obj(Set(ps.fields, "player_queue",
        Obj(Set(q.fields, "playable_list", Arr(cur.items[cur.index := item])))))))
  }

  /** Re-reading the rewritten document finds the same index over the same list, changed at that index only. */
  lemma ReplaceCurrentSpec(doc: Value, item: Value)
    requires CurrentItem(doc).Some?
    ensures var cur := CurrentItem(doc).value;
      CurrentItem(ReplaceCurrent(doc, item)) == Some(Current(cur.items[cur.index := item], cur.index))
    ensures forall k :: k != "player_state" ==> Field(ReplaceCurrent(doc, item), k) == Field(doc, k)
  {
    CurrentItemPath(doc);
    var cur := CurrentItem(doc).value;
    var ps := Get(doc.fields, "player_state").value;
    var q := Get(ps.fields, "player_queue").value;
    var q' := Obj(Set(q.fields, "playable_list", Arr(cur.items[cur.index := item])));
    var ps' := Obj(Set(ps.fields, "player_queue", q'));
    var idx := GetOr(q, "current_playable_index", Num(0.0)).value;
    CurrentItemAt(doc, ps, q, cur.items);
    assert Get(q'.fields, "current_playable_index") == Get(q.fields, "current_playable_index");
    assert GetOr(q', "current_playable_index", Num(0.0)).value == idx;
    CurrentItemAt(ReplaceCurrent(doc, item), ps', q', cur.items[cur.index := item]);
  }

  /**
   * The names of `[a.get("name") for a in artists if a.get("name")]` joined
   * with ", " must be strings; `None` stands for the exception raised by
   * an item that is not a dictionary or a truthy name that is not a string.
   */
  function NamesFrom(items: seq<Value>): (r: Option<seq<string>>)
    ensures r.Some? ==> |r.value| <= |items| && forall i :: 0 <= i < |r.value| ==> |r.value[i]| > 0
  {
    if |items| == 0 then Some([])
    else if !items[0].Obj? then None
    else
      var rest :- NamesFrom(items[1..]);
      var name := Get(items[0].fields, "name");
      if !TruthyOpt(name) then Some(rest)
      else if name.value.Str? then Some([name.value.s] + rest)
      else None
  }

  /** Iterating the `artists` value: a list of artist objects; an empty string or dict iterates nothing. */
  function ArtistNames(artists: Value): Option<seq<string>> {
    match artists
    case Arr(items) => NamesFrom(items)
    case Str(s) => if |s| == 0 then Some([]) else None
    case Obj(fs) => if |fs| == 0 then Some([]) else None
    case _ => None
  }

  /** Joining non-empty names gives the empty string exactly when there are none. */
  lemma {:induction false} JoinEmptyIff(names: seq<string>, sep: string)
    requires forall i :: 0 <= i < |names| ==> |names[i]| > 0
    ensures Join(names, sep) == "" <==> |names| == 0
  {
    if |names| >= 2 {
      assert |Join(names, sep)| >= |names[0]|;
    }
  }

  /**
   * The cache entry built from a catalog answer (lines 145-155): the named
   * artists joined by ", ", the cover from `coverUri` or else `cover_uri`.
   * `None` when the answer is falsy or reading it raises.
   */
  function CacheEntryOf(full: Value): (r: Option<CacheEntry>)
    ensures r.Some? <==> full.Obj? && |full.fields| > 0 && ArtistNames(ArtistsOf(full.fields)).Some?
    ensures r.Some? ==> r.value.artists == Join(ArtistNames(ArtistsOf(full.fields)).value, ", ")
    ensures r.Some? && TruthyOpt(Get(full.fields, "coverUri")) ==> r.value.cover == Get(full.fields, "coverUri").value
    ensures r.Some? && !TruthyOpt(Get(full.fields, "coverUri")) ==> r.value.cover == Get(full.fields, "cover_uri").GetOr(Null)
  {
    if !Truthy(full) || !full.Obj? then None
    else
      var names :- ArtistNames(ArtistsOf(full.fields));
      var primary := Get(full.fields, "coverUri");
      var cover := if TruthyOpt(primary) then primary.value else Get(full.fields, "cover_uri").GetOr(Null);
      Some(CacheEntry(Join(names, ", "), cover))
  }

  /** `full_track.get("artists", [])`. */
  function ArtistsOf(full: Fields): Value {
    Get(full, "artists").GetOr(Arr([]))
  }

  /** The stored artist text is empty exactly when no artist had a name. */
  lemma CacheEntryArtists(full: Value)
    requires CacheEntryOf(full).Some?
    ensures ArtistNames(ArtistsOf(full.fields)).Some?
      && (CacheEntryOf(full).value.artists == "" <==> |ArtistNames(ArtistsOf(full.fields)).value| == 0)
  {
    JoinEmptyIff(ArtistNames(ArtistsOf(full.fields)).value, ", ");
  }

  /** Lines 159-164: each cached value is copied onto the item only when it is truthy. */
  function Attach(item: Fields, e: CacheEntry): (r: Fields)
    ensures Get(r, "artists_enriched") == if |e.artists| > 0 then Some(Str(e.artists)) else Get(item, "artists_enriched")
    ensures Get(r, "cover_uri_enriched") == if Truthy(e.cover) then Some(e.cover) else Get(item, "cover_uri_enriched")
    ensures forall k :: k != "artists_enriched" && k != "cover_uri_enriched" ==> Get(r, k) == Get(item, k)
  {
    var withArtists := if |e.artists| > 0 then Set(item, "artists_enriched", Str(e.artists)) else item;
    if Truthy(e.cover) then Set(withArtists, "cover_uri_enriched", e.cover) else withArtists
  }

  /** Lines 138-139: the item with its id's like flags set and every other key kept. */
  function Flagged(s: Session, item: Fields, tid: string): (r: Fields)
    ensures Get(r, "is_liked") == Some(Bool(tid in s.liked))
    ensures Get(r, "is_disliked") == Some(Bool(tid in s.disliked))
    ensures forall k :: k != "is_liked" && k != "is_disliked" ==> Get(r, k) == Get(item, k)
  {
    Set(Set(item, "is_liked", Bool(tid in s.liked)), "is_disliked", Bool(tid in s.disliked))
  }

  /** The outcome of `get_track` for the current id. */
  datatype Fetch = FetchFailed | Fetched(track: Value)

  /** The enriched document, the cache afterwards, and whether the catalog was asked. */
  datatype Enriched = Enriched(doc: Value, cache: map<string, CacheEntry>, fetched: bool)

  /** The track id of the current item as `str(track.get("playable_id"))`, when the item is a dictionary. */
  function CurrentId(doc: Value): Option<string> {
    var cur :- CurrentItem(doc);
    var track := cur.items[cur.index];
    if track.Obj? then Some(PyStrOpt(Get(track.fields, "playable_id"))) else None
  }

  /**
   * `enrich_state_dict` (lines 123-166): only the current item changes; it
   * gets the like flags, and the metadata of the cache (fetched first when
   * the id is not cached yet and a client exists).
   */
  function Enrich(s: Session, doc: Value, fetch: Fetch): (r: Enriched)
    ensures CurrentId(doc).None? || CurrentId(doc) == Some("") ==> r == Enriched(doc, s.cache, false)
    ensures r.fetched <==> CurrentId(doc).Some? && CurrentId(doc).value != "" && CurrentId(doc).value !in s.cache && s.hasClient
    ensures r.cache != s.cache ==> r.fetched && fetch.Fetched?
    ensures forall t :: t in s.cache ==> t in r.cache && r.cache[t] == s.cache[t]
    ensures r.fetched && fetch.Fetched? && CacheEntryOf(fetch.track).Some? ==>
      r.cache == s.cache[CurrentId(doc).value := CacheEntryOf(fetch.track).value]
    ensures !(r.fetched && fetch.Fetched? && CacheEntryOf(fetch.track).Some?) ==> r.cache == s.cache
  {
    match CurrentItem(doc)
    case None => Enriched(doc, s.cache, false)
    case Some(cur) =>
      var track := cur.items[cur.index];
      if !track.Obj? then Enriched(doc, s.cache, false)
      else
        var tid := PyStrOpt(Get(track.fields, "playable_id"));
        assert CurrentId(doc) == Some(tid);
        if tid == "" then Enriched(doc, s.cache, false)
        else EnrichAt(s, doc, track.fields, tid, if fetch.Fetched? then CacheEntryOf(fetch.track) else None)
  }

  /**
   * Lines 138-164 for the current item `track` with the non-empty id `tid`;
   * `entry` is the cache entry a catalog answer would give.
   */
  function EnrichAt(s: Session, doc: Value, track: Fields, tid: string, entry: Option<CacheEntry>): (r: Enriched)
    requires CurrentItem(doc).Some?
    ensures r.fetched <==> tid !in s.cache && s.hasClient
    ensures forall t :: t in s.cache ==> t in r.cache && r.cache[t] == s.cache[t]
    ensures r.fetched && entry.Some? ==> r.cache == s.cache[tid := entry.value]
    ensures !(r.fetched && entry.Some?) ==> r.cache == s.cache
  {
    var fetching := tid !in s.cache && s.hasClient;
    var cache :=
      if fetching && entry.Some? then CacheKeeps(s.cache, tid, entry.value); s.cache[tid := entry.value]
      else s.cache;
    Enriched(EnrichedDoc(s, doc, track, tid, cache), cache, fetching)
  }

  /** Caching a new id keeps every earlier entry. */
  lemma CacheKeeps(cache: map<string, CacheEntry>, tid: string, e: CacheEntry)
    requires tid !in cache
    ensures forall t :: t in cache ==> t in cache[tid := e] && cache[tid := e][t] == cache[t]
  {
  }

  /** The document with the current item flagged and given the metadata cached under `tid`, if any. */
  function EnrichedDoc(s: Session, doc: Value, track: Fields, tid: string, cache: map<string, CacheEntry>): Value
    requires CurrentItem(doc).Some?
  {
    var flagged := Flagged(s, track, tid);
    ReplaceCurrent(doc, Obj(if tid in cache then Attach(flagged, cache[tid]) else flagged))
  }

  /**
   * The enriched current item carries the like flags for its id, and the
   * other items and the other top-level keys are untouched.
   */
  lemma EnrichSpec(s: Session, doc: Value, fetch: Fetch)
    requires CurrentId(doc).Some? && CurrentId(doc).value != ""
    ensures var cur := CurrentItem(doc).value;
      var tid := CurrentId(doc).value;
      var r := Enrich(s, doc, fetch);
      && CurrentItem(r.doc).Some?
      && var cur' := CurrentItem(r.doc).value;
      && cur'.index == cur.index && |cur'.items| == |cur.items|
      && (forall j :: 0 <= j < |cur.items| && j != cur.index ==> cur'.items[j] == cur.items[j])
      && cur'.items[cur.index].Obj?
      && Get(cur'.items[cur.index].fields, "is_liked") == Some(Bool(tid in s.liked))
      && Get(cur'.items[cur.index].fields, "is_disliked") == Some(Bool(tid in s.disliked))
      && (forall k :: k != "player_state" ==> Field(r.doc, k) == Field(doc, k))
    ensures var cur := CurrentItem(doc).value;
      var tid := CurrentId(doc).value;
      var r := Enrich(s, doc, fetch);
      var flagged := Flagged(s, cur.items[cur.index].fields, tid);
      CurrentItem(r.doc).Some?
      && CurrentItem(r.doc).value.items[cur.index]
         == Obj(if tid in r.cache then Attach(flagged, r.cache[tid]) else flagged)
  {
    var cur := CurrentItem(doc).value;
    var track := cur.items[cur.index];
    var tid := PyStrOpt(Get(track.fields, "playable_id"));
    var flagged := Flagged(s, track.fields, tid);
    var r := Enrich(s, doc, fetch);
    var item := if tid in r.cache then Attach(flagged, r.cache[tid]) else flagged;
    EnrichDocument(s, doc, fetch);
    ReplaceCurrentSpec(doc, Obj(item));
    assert CurrentItem(r.doc) == Some(Current(cur.items[cur.index := Obj(item)], cur.index));
    AttachKeepsFlags(flagged, if tid in r.cache then Some(r.cache[tid]) else None);
    assert Get(item, "is_liked") == Some(Bool(tid in s.liked));
    assert Get(item, "is_disliked") == Some(Bool(tid in s.disliked));
  }

  /** Attaching metadata leaves the like flags alone. */
  lemma AttachKeepsFlags(item: Fields, e: Option<CacheEntry>)
    ensures var r := if e.Some? then Attach(item, e.value) else item;
      Get(r, "is_liked") == Get(item, "is_liked") && Get(r, "is_disliked") == Get(item, "is_disliked")
  {
  }

  /** The enriched document is the original with the current item rewritten from the cache afterwards. */
  lemma EnrichDocument(s: Session, doc: Value, fetch: Fetch)
    requires CurrentId(doc).Some? && CurrentId(doc).value != ""
    ensures var cur := CurrentItem(doc).value;
      var r := Enrich(s, doc, fetch);
      r.doc == EnrichedDoc(s, doc, cur.items[cur.index].fields, CurrentId(doc).value, r.cache)
  {
  }

  /** Once an id is cached, enriching any document whose current item has that id never asks the catalog again. */
  lemma CachedNotRefetched(s: Session, doc: Value, fetch: Fetch, doc2: Value, fetch2: Fetch)
    requires CurrentId(doc).Some? && CurrentId(doc) == CurrentId(doc2)
    requires CurrentId(doc).value in Enrich(s, doc, fetch).cache
    ensures !Enrich(s.(cache := Enrich(s, doc, fetch).cache), doc2, fetch2).fetched
  {
  }

  /** What `enrich_and_broadcast` did: the enrichment and the document broadcast a second time, if any. */
  datatype Rebroadcast = Rebroadcast(enriched: Enriched, sent: Option<Value>)

  /**
   * `enrich_and_broadcast` (lines 94-118): without a current item nothing
   * happens; otherwise the enriched document goes out again when a callback
   * is set.
   */
  function EnrichAndBroadcast(s: Session, doc: Value, fetch: Fetch, hasCallback: bool): (r: Rebroadcast)
    ensures r.sent.Some? <==> CurrentItem(doc).Some? && hasCallback
    ensures r.sent.Some? ==> r.sent.value == r.enriched.doc
    ensures CurrentItem(doc).None? ==> r.enriched == Enriched(doc, s.cache, false)
  {
    if CurrentItem(doc).None? then Rebroadcast(Enriched(doc, s.cache, false), None)
    else
      var e := Enrich(s, doc, fetch);
      Rebroadcast(e, if hasCallback then Some(e.doc) else None)
  }

  // -------------------------------------------------------------- likes

  /** Membership of `x` flipped: removed when present, added when absent. */
  function Toggle(xs: set<string>, x: string): (r: set<string>)
    ensures x in r <==> x !in xs
    ensures forall y :: y != x ==> (y in r <==> y in xs)
  {
    if x in xs then xs - {x} else xs + {x}
  }

  /** Toggling twice restores the set. */
  lemma ToggleTwice(xs: set<string>, x: string)
    ensures Toggle(Toggle(xs, x), x) == xs
  {
    var once := Toggle(xs, x);
    forall y ensures y in Toggle(once, x) <==> y in xs {
      if y == x {
        assert x in once <==> x !in xs;
      }
    }
  }

  /** The id of the player's current track, when there is a player, a track and a non-empty id. */
  function CurrentTrackId(s: Session): (r: Option<string>)
    ensures r.Some? ==> r.value != ""
  {
    if s.player.None? || s.player.value.currentTrack.None? then None
    else
      var tid := s.player.value.currentTrack.value.playableId;
      if tid == "" then None else Some(tid)
  }

  /** The session after a like or dislike and whether the state was handled again. */
  datatype Toggled = Toggled(session: Session, rebroadcast: bool)

  /**
   * `like` (lines 177-193): without a player, a current track, a track id or
   * a client nothing happens; otherwise the id's membership in the liked set
   * flips and the state is handled again when the player holds one. The
   * catalog call's answer plays no part: `like_track` and `unlike_track`
   * catch every error and return a flag that `like` ignores.
   */
  function Like(s: Session): (r: Toggled)
    ensures CurrentTrackId(s).None? || !s.hasClient ==> r == Toggled(s, false)
    ensures CurrentTrackId(s).Some? && s.hasClient ==>
      && r.session.liked == Toggle(s.liked, CurrentTrackId(s).value)
      && r.rebroadcast == s.player.value.state.Some?
    ensures r.session == s.(liked := r.session.liked)
  {
    match CurrentTrackId(s)
    case None => Toggled(s, false)
    case Some(tid) =>
      if !s.hasClient then Toggled(s, false)
      else Toggled(s.(liked := Toggle(s.liked, tid)), s.player.value.state.Some?)
  }

  /** `dislike` (lines 195-211): the same on the disliked set. */
  function Dislike(s: Session): (r: Toggled)
    ensures CurrentTrackId(s).None? || !s.hasClient ==> r == Toggled(s, false)
    ensures CurrentTrackId(s).Some? && s.hasClient ==>
      && r.session.disliked == Toggle(s.disliked, CurrentTrackId(s).value)
      && r.rebroadcast == s.player.value.state.Some?
    ensures r.session == s.(disliked := r.session.disliked)
  {
    match CurrentTrackId(s)
    case None => Toggled(s, false)
    case Some(tid) =>
      if !s.hasClient then Toggled(s, false)
      else Toggled(s.(disliked := Toggle(s.disliked, tid)), s.player.value.state.Some?)
  }

  /** A like flips the current id's membership; two successful likes restore the session. */
  lemma LikeTwice(s: Session)
    requires CurrentTrackId(s).Some? && s.hasClient
    ensures var tid := CurrentTrackId(s).value;
      (tid in Like(s).session.liked <==> tid !in s.liked)
    ensures Like(Like(s).session).session == s
  {
    ToggleTwice(s.liked, CurrentTrackId(s).value);
  }

  /** The same for dislikes. */
  lemma DislikeTwice(s: Session)
    requires CurrentTrackId(s).Some? && s.hasClient
    ensures var tid := CurrentTrackId(s).value;
      (tid in Dislike(s).session.disliked <==> tid !in s.disliked)
    ensures Dislike(Dislike(s).session).session == s
  {
    ToggleTwice(s.disliked, CurrentTrackId(s).value);
  }

  // ------------------------------------------------------------ registry

  /** `SessionManager`: the sessions by token. */
  datatype Manager = Manager(sessions: map<string, Session>)

  datatype SessionError = TokenRequired | StartFailed

  /**
   * `get_session` (lines 232-246): an empty token is refused; a known token
   * gets its session back; an unknown one gets a new session, stored only
   * when `start` did not raise.
   */
  function GetSession(m: Manager, token: string, init: Option<Failure>, likes: Call<seq<string>>, dislikes: Option<seq<string>>)
    : (r: Result<(Manager, Session), SessionError>)
    ensures token == "" ==> r == Err(TokenRequired)
    ensures token != "" && token in m.sessions ==> r == Ok((m, m.sessions[token]))
    ensures r.Ok? ==> r.value.0.sessions == m.sessions[token := r.value.1]
    ensures r == Err(StartFailed) <==>
      token != "" && token !in m.sessions && FirstFailure(init, likes) == Some(Denied)
  {
    if token == "" then Err(TokenRequired)
    else if token in m.sessions then Ok((m, m.sessions[token]))
    else
      var started := Start(NewSession(token), init, likes, dislikes);
      if started.authError then Err(StartFailed)
      else Ok((Manager(m.sessions[token := started.session]), started.session))
  }

  /** After a successful lookup the token is known, and asking again returns the same session. */
  lemma GetSessionStable(m: Manager, token: string, init: Option<Failure>, likes: Call<seq<string>>, dislikes: Option<seq<string>>,
                         init2: Option<Failure>, likes2: Call<seq<string>>, dislikes2: Option<seq<string>>)
    requires GetSession(m, token, init, likes, dislikes).Ok?
    ensures var (m1, s1) := GetSession(m, token, init, likes, dislikes).value;
      GetSession(m1, token, init2, likes2, dislikes2) == Ok((m1, s1))
  {
  }

  /** A newly stored session is running and has started its loop. */
  lemma NewSessionRunning(m: Manager, token: string, init: Option<Failure>, likes: Call<seq<string>>, dislikes: Option<seq<string>>)
    requires token !in m.sessions
    requires GetSession(m, token, init, likes, dislikes).Ok?
    ensures GetSession(m, token, init, likes, dislikes).value.1.running
    ensures Start(NewSession(token), init, likes, dislikes).loopStarted
  {
  }

  /** `shutdown` (lines 252-257): every session closed, the registry emptied. */
  function Shutdown(m: Manager): (r: (Manager, map<string, Session>))
    ensures r.0.sessions == map[]
    ensures r.1.Keys == m.sessions.Keys
    ensures forall t :: t in r.1 ==> !r.1[t].running && r.1[t] == Close(m.sessions[t])
  {
    (Manager(map[]), map t | t in m.sessions :: Close(m.sessions[t]))
  }
}

=== FILE: settings.dfy ===
/**
 * Per-key settings of the plugin (`src/core/schemas/settings.py`) and the
 * proxy that reports every assignment (`src/core/settings_manager.py`).
 * The dataclass does not check types, so every setting is held as the JSON
 * value it was given.
 */
module Settings {
  import opened Wrappers
  import opened Json

  /** `PluginSettings`, the thirteen fields in declaration order. */
  datatype PluginSettings = PluginSettings(
    controlMode: Value,
    displayMode: Value,
    playStyle: Value,
    prevStyle: Value,
    nextStyle: Value,
    likeStyle: Value,
    dislikeStyle: Value,
    progressMode: Value,
    volumeStyle: Value,
    muteStyle: Value,
    showCover: Value,
    showTitle: Value,
    showArtist: Value)

  const FieldCount := 13

  /** The field names, which are also the dictionary keys. */
  const Names: seq<string> := [
    "control_mode", "display_mode", "play_style", "prev_style", "next_style", "like_style",
    "dislike_style", "progress_mode", "volume_style", "mute_style", "show_cover", "show_title",
    "show_artist"]

  /** The defaults of lines 10-23, in the same order. */
  const DefaultValues: seq<Value> := [
    Str("local"), Str("cover_title_artists"), Str("v1"), Str("v1"), Str("v1"), Str("v1"),
    Str("v1"), Str("stacked"), Str("v1"), Str("v1"), Bool(true), Bool(true), Bool(true)]

  /** The fields in declaration order. */
  function ValuesOf(s: PluginSettings): (vs: seq<Value>)
    ensures |vs| == FieldCount
  {
    [s.controlMode, s.displayMode, s.playStyle, s.prevStyle, s.nextStyle, s.likeStyle, s.dislikeStyle,
     s.progressMode, s.volumeStyle, s.muteStyle, s.showCover, s.showTitle, s.showArtist]
  }

  /** Settings from thirteen values in declaration order. */
  function FromValues(vs: seq<Value>): (s: PluginSettings)
    requires |vs| == FieldCount
    ensures ValuesOf(s) == vs
  {
    PluginSettings(vs[0], vs[1], vs[2], vs[3], vs[4], vs[5], vs[6], vs[7], vs[8], vs[9], vs[10], vs[11], vs[12])
  }

  lemma ValuesRoundTrip(s: PluginSettings)
    ensures FromValues(ValuesOf(s)) == s
  {
  }

  /** `PluginSettings()`. */
  function Defaults(): (s: PluginSettings)
    ensures ValuesOf(s) == DefaultValues
  {
    FromValues(DefaultValues)
  }

  /** Entries built from parallel keys and values. */
  function Entries(ks: seq<string>, vs: seq<Value>): (fs: Fields)
    requires |ks| == |vs|
    ensures |fs| == |ks| && Keys(fs) == ks
    ensures forall i :: 0 <= i < |ks| ==> fs[i] == (ks[i], vs[i])
  {
    seq(|ks|, i requires 0 <= i < |ks| => (ks[i], vs[i]))
  }

  /** No name is repeated. */
  lemma NamesDistinct()
    ensures forall i, j :: 0 <= j < i < FieldCount ==> Names[j] != Names[i]
  {
  }

  /** Each name of the settings dictionary reads back its own value. */
  lemma NameReads(vs: seq<Value>, i: nat)
    requires |vs| == FieldCount && i < FieldCount
    ensures Get(Entries(Names, vs), Names[i]) == Some(vs[i])
  {
    NamesDistinct();
    GetAt(Entries(Names, vs), Names[i], i);
  }

  /** `to_dict` (lines 44-46): the thirteen fields under their names, in declaration order. */
  function ToDict(s: PluginSettings): (d: Value)
    ensures d.Obj? && Keys(d.fields) == Names
  {
    Obj(Entries(Names, ValuesOf(s)))
  }

  /**
   * `from_dict` (lines 25-42): an empty or missing dictionary gives the
   * defaults; otherwise each field is read with its default.  `None` is the
   * exception `.get` raises on a truthy value that is not a dictionary.
   */
  function FromDict(data: Value): (r: Option<PluginSettings>)
    ensures !Truthy(data) ==> r == Some(Defaults())
    ensures r.None? <==> Truthy(data) && !data.Obj?
  {
    if !Truthy(data) then Some(Defaults())
    else if !data.Obj? then None
    else Some(FromValues(ReadAll(data.fields)))
  }

  /** Every field read with its default, in declaration order. */
  function ReadAll(fs: Fields): (vs: seq<Value>)
    ensures |vs| == FieldCount
    ensures forall i :: 0 <= i < FieldCount ==> vs[i] == At(fs, Names[i], DefaultValues[i])
  {
    seq(FieldCount, i requires 0 <= i < FieldCount => At(fs, Names[i], DefaultValues[i]))
  }

  /** Each field of a decoded dictionary is the value under its name, or its default when absent. */
  lemma FromDictReads(data: Fields, i: nat)
    requires |data| > 0 && i < FieldCount
    ensures ValuesOf(FromDict(Obj(data)).value)[i] == At(data, Names[i], DefaultValues[i])
  {
    var vs := ReadAll(data);
    Decoded(data, vs);
    assert vs[i] == At(data, Names[i], DefaultValues[i]);
  }

  lemma Decoded(data: Fields, vs: seq<Value>)
    requires |data| > 0 && vs == ReadAll(data)
    ensures ValuesOf(FromDict(Obj(data)).value) == vs
  {
    assert Truthy(Obj(data));
  }

  /** Reading the saved entries gives the saved values. */
  lemma ReadAllEntries(vs: seq<Value>)
    requires |vs| == FieldCount
    ensures ReadAll(Entries(Names, vs)) == vs
  {
    forall i | 0 <= i < FieldCount
      ensures ReadAll(Entries(Names, vs))[i] == vs[i]
    {
      NameReads(vs, i);
    }
  }

  /** Saving and loading settings gives them back, whatever values they hold. */
  lemma DictRoundTrip(s: PluginSettings)
    ensures FromDict(ToDict(s)) == Some(s)
  {
    var d := ToDict(s);
    assert Truthy(d) by { assert |d.fields| == FieldCount; }
    assert FromDict(d) == Some(FromValues(ReadAll(d.fields)));
    ReadAllEntries(ValuesOf(s));
    ValuesRoundTrip(s);
  }

  /**
   * Loading a stored dictionary and saving it again keeps every setting it
   * named, fills the missing ones with defaults and drops unknown keys.
   */
  lemma DictNormalises(data: Fields, i: nat)
    requires |data| > 0 && i < FieldCount
    ensures Get(ToDict(FromDict(Obj(data)).value).fields, Names[i]) == Some(At(data, Names[i], DefaultValues[i]))
  {
    FromDictReads(data, i);
    NameReads(ValuesOf(FromDict(Obj(data)).value), i);
  }

  // ------------------------------------------------------------ proxy

  /** The position of an attribute name; `None` for a name the slotted class lacks. */
  function NameIndex(name: string): (r: Option<nat>)
    ensures r.Some? ==> r.value < FieldCount && Names[r.value] == name
    ensures r.None? ==> name !in Names
  {
    FirstOf(Names, name, 0)
  }

  function FirstOf(ks: seq<string>, k: string, i: nat): (r: Option<nat>)
    requires i <= |ks|
    ensures r.Some? ==> i <= r.value < |ks| && ks[r.value] == k
    ensures r.None? ==> k !in ks[i..]
    decreases |ks| - i
  {
    if i == |ks| then None
    else if ks[i] == k then Some(i)
    else FirstOf(ks, k, i + 1)
  }

  /** `SettingsProxy`: the wrapped settings; the change callback is the list of saves it was handed. */
  datatype Proxy = Proxy(wrapped: PluginSettings)

  /** `__getattr__` (`settings_manager.py` lines 15-16); `None` is the `AttributeError` of an unknown name. */
  function GetAttr(p: Proxy, name: string): (r: Option<Value>)
    ensures r.Some? <==> name in Names
  {
    match NameIndex(name)
    case Some(i) => Some(ValuesOf(p.wrapped)[i])
    case None => None
  }

  /** The proxy after an assignment and the settings handed to the change callback. */
  datatype Assigned = Assigned(proxy: Proxy, saved: PluginSettings)

  /**
   * `__setattr__` (`settings_manager.py` lines 18-20): the attribute is set on the wrapped
   * settings and the callback receives them.  An unknown name raises
   * before the callback runs, because the class has slots.
   */
  function SetAttr(p: Proxy, name: string, v: Value): (r: Option<Assigned>)
    ensures r.Some? <==> name in Names
    ensures r.Some? ==> r.value.saved == r.value.proxy.wrapped
  {
    match NameIndex(name)
    case Some(i) =>
      var s := FromValues(ValuesOf(p.wrapped)[i := v]);
      Some(Assigned(Proxy(s), s))
    case None => None
  }

  /** `to_dict` (`settings_manager.py` lines 22-26): the wrapped settings' own dictionary. */
  function ProxyToDict(p: Proxy): (d: Value)
    ensures d == ToDict(p.wrapped)
  {
    ToDict(p.wrapped)
  }

  /** An assignment reads back and the callback sees a dictionary holding the new value. */
  lemma SetThenGet(p: Proxy, name: string, v: Value)
    requires name in Names
    ensures var a := SetAttr(p, name, v).value;
      GetAttr(a.proxy, name) == Some(v) && Get(ToDict(a.saved).fields, name) == Some(v)
  {
    var i := NameIndex(name).value;
    NameReads(ValuesOf(SetAttr(p, name, v).value.saved), i);
  }

  /** An assignment leaves every other setting alone. */
  lemma SetKeepsOthers(p: Proxy, name: string, v: Value, other: string)
    requires name in Names && other != name
    ensures GetAttr(SetAttr(p, name, v).value.proxy, other) == GetAttr(p, other)
  {
    var i := NameIndex(name).value;
    var vs := ValuesOf(p.wrapped);
    assert ValuesOf(SetAttr(p, name, v).value.proxy.wrapped) == vs[i := v];
    match NameIndex(other)
    case Some(j) =>
      assert j != i;
    case None =>
  }

  /** Assigning the value a setting already has changes nothing, though the callback still runs. */
  lemma SetSameValue(p: Proxy, name: string)
    requires name in Names
    ensures SetAttr(p, name, GetAttr(p, name).value) == Some(Assigned(p, p.wrapped))
  {
    var i := NameIndex(name).value;
    var vs := ValuesOf(p.wrapped);
    assert vs[i := vs[i]] == vs;
    ValuesRoundTrip(p.wrapped);
  }
}

=== FILE: task_map.dfy ===
/**
 * The named background tasks of an action (`src/core/mixins/task.py`).
 * A task is known by its identity, a number handed out in creation order;
 * the event loop is left out, so a task finishing is an explicit step that
 * runs the done-callback registered for it.  The map is created empty
 * instead of on first use: a missing map and an empty one behave alike.
 */
module TaskMap {
  /**
   * The tasks of one action: the live name map, the name each task was
   * started under, which tasks have finished, which were asked to cancel,
   * and the next identity.
   */
  datatype Tasks = Tasks(
    bg: map<string, nat>,
    nameOf: map<nat, string>,
    done: set<nat>,
    cancelled: set<nat>,
    nextId: nat)

  /** No task yet. */
  const NoTasks := Tasks(map[], map[], {}, {}, 0)

  /** Every mapped task was started under the name it is mapped by, and every known task was created. */
  predicate Valid(w: Tasks)
  {
    && (forall n :: n in w.bg ==> w.bg[n] in w.nameOf && w.nameOf[w.bg[n]] == n)
    && (forall t :: t in w.nameOf ==> t < w.nextId)
    && w.done <= w.nameOf.Keys
    && w.cancelled <= w.nameOf.Keys
  }

  /**
   * `cancel_task` (lines 30-38): a mapped task that has not finished is
   * asked to cancel, and the name is dropped either way; an unknown name
   * changes nothing.
   */
  function CancelTask(w: Tasks, name: string): (r: Tasks)
    ensures name !in r.bg && r.bg == w.bg - {name}
    ensures name !in w.bg ==> r == w
    ensures name in w.bg ==> r.cancelled == w.cancelled + (if w.bg[name] in w.done then {} else {w.bg[name]})
    ensures r.nameOf == w.nameOf && r.done == w.done && r.nextId == w.nextId
  {
    if name in w.bg then
      var t := w.bg[name];
      var cancelled := if t in w.done then w.cancelled else w.cancelled + {t};
      w.(bg := w.bg - {name}, cancelled := cancelled)
    else w
  }

  /** The map after a start, and the identity of the task it created. */
  datatype Started = Started(tasks: Tasks, task: nat)

  /**
   * `start_task` (lines 12-28): the task already under the name is
   * cancelled and dropped, then a new task is created and mapped under the
   * name, with a done-callback that remembers the name.
   */
  function StartTask(w: Tasks, name: string): (r: Started)
    requires Valid(w)
    ensures Valid(r.tasks)
    ensures r.tasks.bg == w.bg[name := r.task]
    ensures r.task !in w.nameOf && r.task !in r.tasks.done && r.task !in r.tasks.cancelled
    ensures name in w.bg && w.bg[name] !in w.done ==> w.bg[name] in r.tasks.cancelled
    ensures r.tasks.cancelled <= w.cancelled + (if name in w.bg then {w.bg[name]} else {})
  {
    var c := CancelTask(w, name);
    var t := w.nextId;
    Started(c.(bg := c.bg[name := t], nameOf := c.nameOf[t := name], nextId := t + 1), t)
  }

  /**
   * A task finishing (lines 24-26): its done-callback removes the entry
   * only when the name still maps to this very task.
   */
  function Finish(w: Tasks, t: nat): (r: Tasks)
    requires t in w.nameOf && t !in w.done
    ensures r.done == w.done + {t}
    ensures var n := w.nameOf[t];
      && (n in w.bg && w.bg[n] == t ==> r.bg == w.bg - {n})
      && (!(n in w.bg && w.bg[n] == t) ==> r.bg == w.bg)
    ensures r.nameOf == w.nameOf && r.cancelled == w.cancelled && r.nextId == w.nextId
  {
    var n := w.nameOf[t];
    var bg := if n in w.bg && w.bg[n] == t then w.bg - {n} else w.bg;
    w.(bg := bg, done := w.done + {t})
  }

  /**
   * `cancel_all_tasks` (lines 40-45): every name is cancelled in turn.
   * The source walks the names in insertion order; the outcome does not
   * depend on the order.
   */
  method CancelAll(w: Tasks) returns (r: Tasks)
    ensures r.bg == map[]
    ensures r.cancelled == w.cancelled + (set n | n in w.bg && w.bg[n] !in w.done :: w.bg[n])
    ensures r.nameOf == w.nameOf && r.done == w.done && r.nextId == w.nextId
  {
    r := w;
    while r.bg != map[]
      invariant r.bg.Keys <= w.bg.Keys
      invariant forall n :: n in r.bg ==> r.bg[n] == w.bg[n]
      invariant r.cancelled == w.cancelled + (set n | n in w.bg && n !in r.bg && w.bg[n] !in w.done :: w.bg[n])
      invariant r.nameOf == w.nameOf && r.done == w.done && r.nextId == w.nextId
      decreases |r.bg|
    {
      var n :| n in r.bg;
      var before := r;
      r := CancelTask(r, n);
      assert r.bg.Keys == before.bg.Keys - {n};
      CancelledGrows(w, before.bg.Keys, r.bg.Keys, n);
    }
  }

  /** The cancel requests the loop of `CancelAll` has made, one name further on. */
  lemma CancelledGrows(w: Tasks, before: set<string>, after: set<string>, n: string)
    requires n in before && n in w.bg && after == before - {n}
    ensures (set m | m in w.bg && m !in after && w.bg[m] !in w.done :: w.bg[m])
         == (set m | m in w.bg && m !in before && w.bg[m] !in w.done :: w.bg[m])
            + (if w.bg[n] in w.done then {} else {w.bg[n]})
  {
  }

  // ------------------------------------------------------------ properties

  /** Cancelling keeps the map well formed. */
  lemma CancelValid(w: Tasks, name: string)
    requires Valid(w)
    ensures Valid(CancelTask(w, name))
  {
  }

  /** A finishing task keeps the map well formed and is no longer mapped under any name. */
  lemma FinishValid(w: Tasks, t: nat)
    requires Valid(w) && t in w.nameOf && t !in w.done
    ensures Valid(Finish(w, t))
    ensures forall n :: n in Finish(w, t).bg ==> Finish(w, t).bg[n] != t
  {
  }

  /** A task that ends on its own while still current removes its name. */
  lemma FinishedTaskLeaves(w: Tasks, name: string)
    requires Valid(w)
    ensures var s := StartTask(w, name);
      name !in Finish(s.tasks, s.task).bg
  {
  }

  /**
   * A replaced task that finishes late never removes its successor: the
   * name still maps to the newer task.
   */
  lemma ReplacedTaskKeepsSuccessor(w: Tasks, name: string)
    requires Valid(w)
    ensures var first := StartTask(w, name);
      var second := StartTask(first.tasks, name);
      && first.task in second.tasks.cancelled
      && Finish(second.tasks, first.task).bg[name] == second.task
  {
  }

  /**
   * Starting two names maps both to distinct tasks; cancelling everything
   * then leaves no task mapped and asks both tasks to stop.
   */
  method TwoTasksThenCancelAll(name1: string, name2: string) returns (started: Tasks, cancelled: Tasks)
    requires name1 != name2
    ensures started.bg.Keys == {name1, name2} && started.bg[name1] != started.bg[name2]
    ensures cancelled.bg == map[]
    ensures started.bg[name1] in cancelled.cancelled && started.bg[name2] in cancelled.cancelled
  {
    var s1 := StartTask(NoTasks, name1);
    var s2 := StartTask(s1.tasks, name2);
    started := s2.tasks;
    cancelled := CancelAll(started);
  }
}

=== FILE: text.dfy ===
/**
 * String helpers with the semantics of the Python and JavaScript built-ins the
 * system relies on: decimal rendering, `str.replace`, `str.strip`,
 * `str.startswith`, `split` on one character, `join` and ASCII `upper()`.
 */
module Text {

  // ---------------------------------------------------------------- digits

  predicate IsDigit(c: char) {
    '0' <= c <= '9'
  }

  predicate IsDigits(s: string) {
    forall i :: 0 <= i < |s| ==> IsDigit(s[i])
  }

  function DigitChar(d: nat): (c: char)
    requires d < 10
    ensures IsDigit(c)
  {
    ('0' as int + d) as char
  }

  function DigitValue(c: char): (d: nat)
    requires IsDigit(c)
    ensures d < 10
  {
    c as int - '0' as int
  }

  /** The value of a string of decimal digits; the empty string is worth 0. */
  function DigitsValue(s: string): nat
    requires IsDigits(s)
  {
    if |s| == 0 then 0 else DigitsValue(s[..|s| - 1]) * 10 + DigitValue(s[|s| - 1])
  }

  /** Decimal rendering of a natural number without leading zeros (Python `str(n)`). */
  function NatToString(n: nat): (r: string)
    ensures |r| > 0 && IsDigits(r)
    ensures |r| > 1 ==> r[0] != '0'
  {
    if n < 10 then [DigitChar(n)] else NatToString(n / 10) + [DigitChar(n % 10)]
  }

  /** Decimal rendering of an integer, with a leading `-` when negative (Python `str(i)`). */
  function IntToString(i: int): (r: string)
    ensures |r| > 0
    ensures i >= 0 ==> r == NatToString(i)
    ensures i < 0 ==> r == "-" + NatToString(-i)
  {
    if i < 0 then "-" + NatToString(-i) else NatToString(i)
  }

  /** Reading back a rendered number gives the number. */
  lemma {:induction false} NatToStringRoundTrip(n: nat)
    ensures DigitsValue(NatToString(n)) == n
  {
    if n >= 10 {
      var prefix := NatToString(n / 10);
      var r := prefix + [DigitChar(n % 10)];
      assert r[..|r| - 1] == prefix;
      NatToStringRoundTrip(n / 10);
    }
  }

  /** Python's `f"{n:02d}"` for a number below 100: always exactly two digits. */
  function Pad2(n: nat): (r: string)
    requires n < 100
    ensures |r| == 2 && IsDigits(r)
    ensures DigitsValue(r) == n
  {
    NatToStringRoundTrip(n);
    if n < 10 then
      var r := "0" + NatToString(n);
      assert r[..1] == "0";
      assert DigitsValue(r[..1]) == 0;
      r
    else NatToString(n)
  }

  // ------------------------------------------------------------ searching

  predicate StartsWith(s: string, prefix: string) {
    |prefix| <= |s| && s[..|prefix|] == prefix
  }

  /** `pat` occurs in `s` starting at position `i`. */
  predicate OccursAt(s: string, pat: string, i: int) {
    0 <= i && i + |pat| <= |s| && s[i..i + |pat|] == pat
  }

  /** `pat` occurs in `s` at some position. */
  predicate Contains(s: string, pat: string) {
    exists i :: 0 <= i <= |s| && OccursAt(s, pat, i)
  }

  lemma ContainsTail(s: string, pat: string)
    requires |s| > 0 && Contains(s[1..], pat)
    ensures Contains(s, pat)
  {
    var i :| 0 <= i <= |s[1..]| && OccursAt(s[1..], pat, i);
    assert s[i + 1..i + 1 + |pat|] == s[1..][i..i + |pat|];
    assert OccursAt(s, pat, i + 1);
  }

  // ------------------------------------------------------------- replace

  /**
   * Python `s.replace(pat, rep)`: one left-to-right pass replacing
   * non-overlapping occurrences.  The pass does not rescan its own output,
   * so the result may still contain `pat`.
   */
  function ReplaceAll(s: string, pat: string, rep: string): string
    requires |pat| > 0
    decreases |s|
  {
    if |s| < |pat| then s
    else if s[..|pat|] == pat then rep + ReplaceAll(s[|pat|..], pat, rep)
    else [s[0]] + ReplaceAll(s[1..], pat, rep)
  }

  /** A string without the pattern comes back unchanged. */
  lemma {:induction false} ReplaceAbsent(s: string, pat: string, rep: string)
    requires |pat| > 0 && !Contains(s, pat)
    ensures ReplaceAll(s, pat, rep) == s
    decreases |s|
  {
    if |s| >= |pat| {
      assert !OccursAt(s, pat, 0);
      if Contains(s[1..], pat) { ContainsTail(s, pat); }
      ReplaceAbsent(s[1..], pat, rep);
      assert [s[0]] + s[1..] == s;
    }
  }

  /** A leading occurrence is replaced and the rest is processed on its own. */
  lemma ReplaceLeading(pat: string, rest: string, rep: string)
    requires |pat| > 0
    ensures ReplaceAll(pat + rest, pat, rep) == rep + ReplaceAll(rest, pat, rep)
  {
    assert (pat + rest)[..|pat|] == pat;
    assert (pat + rest)[|pat|..] == rest;
  }

  /** A prefix that lacks the pattern's first character passes through unchanged. */
  lemma {:induction false} ReplaceSkipsPrefix(pre: string, rest: string, pat: string, rep: string)
    requires |pat| > 0 && pat[0] !in pre
    ensures ReplaceAll(pre + rest, pat, rep) == pre + ReplaceAll(rest, pat, rep)
    decreases |pre|
  {
    if |pre| > 0 {
      var s := pre + rest;
      assert s[1..] == pre[1..] + rest;
      ReplaceSkipsPrefix(pre[1..], rest, pat, rep);
      if |s| >= |pat| {
        assert s[..|pat|][0] == pre[0] != pat[0];
        calc {
          ReplaceAll(s, pat, rep);
          [s[0]] + ReplaceAll(s[1..], pat, rep);
          [pre[0]] + (pre[1..] + ReplaceAll(rest, pat, rep));
          { assert [pre[0]] + pre[1..] == pre; }
          pre + ReplaceAll(rest, pat, rep);
        }
      } else {
        assert ReplaceAll(rest, pat, rep) == rest;
      }
    } else {
      assert pre + rest == rest;
    }
  }

  /** Removing a pattern never lengthens the string. */
  lemma {:induction false} ReplaceWithEmptyShrinks(s: string, pat: string)
    requires |pat| > 0
    ensures |ReplaceAll(s, pat, "")| <= |s|
    decreases |s|
  {
    if |s| < |pat| {
    } else if s[..|pat|] == pat {
      ReplaceWithEmptyShrinks(s[|pat|..], pat);
    } else {
      ReplaceWithEmptyShrinks(s[1..], pat);
    }
  }

  // --------------------------------------------------------------- strip

  function StripLeft(s: string, c: char): (r: string)
    ensures |r| <= |s| && r == s[|s| - |r|..]
    ensures |r| == 0 || r[0] != c
  {
    if |s| > 0 && s[0] == c then StripLeft(s[1..], c) else s
  }

  function StripRight(s: string, c: char): (r: string)
    ensures |r| <= |s| && r == s[..|r|]
    ensures |r| == 0 || (r[|r| - 1] != c && (s[0] != c ==> r[0] != c))
  {
    if |s| > 0 && s[|s| - 1] == c then StripRight(s[..|s| - 1], c) else s
  }

  /** Python `s.strip(c)` for a single character: a slice of `s` that neither starts nor ends with `c`. */
  function Strip(s: string, c: char): (r: string)
    ensures |r| <= |s|
    ensures |r| == 0 || (r[0] != c && r[|r| - 1] != c)
    ensures (|s| == 0 || (s[0] != c && s[|s| - 1] != c)) ==> r == s
  {
    StripRight(StripLeft(s, c), c)
  }

  // -------------------------------------------------------- split / join

  /** `parts` joined with `sep` between consecutive parts (Python `sep.join(parts)`). */
  function Join(parts: seq<string>, sep: string): string {
    if |parts| == 0 then ""
    else if |parts| == 1 then parts[0]
    else parts[0] + sep + Join(parts[1..], sep)
  }

  /** JavaScript `s.split(sep)` for a one-character separator; never returns an empty list. */
  function Split(s: string, sep: char): (parts: seq<string>)
    ensures |parts| >= 1
    ensures forall k :: 0 <= k < |parts| ==> sep !in parts[k]
  {
    if |s| == 0 then [""]
    else
      var rest := Split(s[1..], sep);
      if s[0] == sep then [""] + rest
      else [[s[0]] + rest[0]] + rest[1..]
  }

  /** Splitting loses nothing: joining the parts back gives the original string. */
  lemma {:induction false} SplitJoin(s: string, sep: char)
    ensures Join(Split(s, sep), [sep]) == s
  {
    if |s| > 0 {
      var rest := Split(s[1..], sep);
      SplitJoin(s[1..], sep);
      if s[0] == sep {
        assert Split(s, sep) == [""] + rest;
        assert Join([""] + rest, [sep]) == "" + [sep] + Join(rest, [sep]);
      } else {
        var parts := [[s[0]] + rest[0]] + rest[1..];
        if |rest| == 1 {
          assert parts == [[s[0]] + rest[0]];
        } else {
          assert parts[1..] == rest[1..];
          assert Join(rest, [sep]) == rest[0] + [sep] + Join(rest[1..], [sep]);
        }
      }
    }
  }

  /** Splitting a joined list gives the list back when no part contains the separator. */
  lemma {:induction false} JoinSplit(parts: seq<string>, sep: char)
    requires |parts| >= 1
    requires forall k :: 0 <= k < |parts| ==> sep !in parts[k]
    ensures Split(Join(parts, [sep]), sep) == parts
    decreases |parts|, |parts[0]|, 1
  {
    if |parts[0]| > 0 {
      JoinSplitLetter(parts, sep);
    } else if |parts| > 1 {
      JoinSplitEmptyHead(parts, sep);
    } else {
      assert parts == [""];
    }
  }

  /** An empty first part: the joined text opens with the separator. */
  lemma {:induction false} JoinSplitEmptyHead(parts: seq<string>, sep: char)
    requires |parts| > 1 && |parts[0]| == 0
    requires forall k :: 0 <= k < |parts| ==> sep !in parts[k]
    ensures Split(Join(parts, [sep]), sep) == parts
    decreases |parts|, |parts[0]|, 0
  {
    var j := Join(parts[1..], [sep]);
    JoinSplit(parts[1..], sep);
    assert Join(parts, [sep]) == [sep] + j;
    SplitCons(sep, j, sep);
    assert [""] + parts[1..] == parts;
  }

  /** A non-empty first part: the joined text opens with its first letter. */
  lemma {:induction false} JoinSplitLetter(parts: seq<string>, sep: char)
    requires |parts| >= 1 && |parts[0]| > 0
    requires forall k :: 0 <= k < |parts| ==> sep !in parts[k]
    ensures Split(Join(parts, [sep]), sep) == parts
    decreases |parts|, |parts[0]|, 0
  {
    var c := parts[0][0];
    var shorter := [parts[0][1..]] + parts[1..];
    assert sep !in shorter[0] by { assert forall x :: x in parts[0][1..] ==> x in parts[0]; }
    assert forall k :: 1 <= k < |shorter| ==> shorter[k] == parts[k];
    JoinSplit(shorter, sep);
    JoinFirstLetter(parts, sep);
    SplitCons(c, Join(shorter, [sep]), sep);
    assert [c] + parts[0][1..] == parts[0];
    assert [[c] + shorter[0]] + shorter[1..] == parts;
  }

  /** Joining parts whose first is non-empty writes its first letter, then the rest joined. */
  lemma {:induction false} JoinFirstLetter(parts: seq<string>, sep: char)
    requires |parts| >= 1 && |parts[0]| > 0
    ensures Join(parts, [sep]) == [parts[0][0]] + Join([parts[0][1..]] + parts[1..], [sep])
  {
    var p0, t := parts[0], parts[0][1..];
    var shorter := [t] + parts[1..];
    assert p0 == [p0[0]] + t;
    if |parts| == 1 {
      assert shorter == [t];
    } else {
      var j := Join(parts[1..], [sep]);
      assert shorter[1..] == parts[1..];
      assert Join(shorter, [sep]) == t + [sep] + j;
      assert Join(parts, [sep]) == p0 + [sep] + j;
      assert p0 + [sep] + j == [p0[0]] + (t + [sep] + j);
    }
  }

  /** Splitting text that opens with one character. */
  lemma SplitCons(c: char, s: string, sep: char)
    ensures var rest := Split(s, sep);
      Split([c] + s, sep) == if c == sep then [""] + rest else [[c] + rest[0]] + rest[1..]
  {
    assert ([c] + s)[1..] == s;
  }

  // ---------------------------------------------------------------- case

  /**
   * Python's `c.upper()` for every character whose upper case is ASCII: the
   * ASCII letters, the dotless i (U+0131), the long s (U+017F), the sharp s
   * (U+00DF) and the Latin ligatures U+FB00-U+FB06.  Every other character
   * is kept as it is.  For a non-ASCII one Python's result differs but holds
   * a non-ASCII character just the same, so a comparison with ASCII text
   * comes out as in Python.
   */
  function UpperOf(c: char): (r: string)
    ensures |r| > 0
    ensures c as int < 0x80 ==> |r| == 1
  {
    if 'a' <= c <= 'z' then [(c as int - 32) as char]
    else if c == '\U{131}' then "I"
    else if c == '\U{17F}' then "S"
    else if c == '\U{DF}' then "SS"
    else if c == '\U{FB00}' then "FF"
    else if c == '\U{FB01}' then "FI"
    else if c == '\U{FB02}' then "FL"
    else if c == '\U{FB03}' then "FFI"
    else if c == '\U{FB04}' then "FFL"
    else if c == '\U{FB05}' || c == '\U{FB06}' then "ST"
    else [c]
  }

  /** The pieces of text one after another. */
  function Concat(parts: seq<string>): string {
    if |parts| == 0 then "" else parts[0] + Concat(parts[1..])
  }

  /** `s.upper()`, character by character, as far as `UpperOf` describes it. */
  function Upper(s: string): string {
    Concat(seq(|s|, i requires 0 <= i < |s| => UpperOf(s[i])))
  }

  /** Pieces that are each one character of `s` make up `s`. */
  lemma {:induction false} ConcatSingles(s: string, parts: seq<string>)
    requires |parts| == |s|
    requires forall i :: 0 <= i < |s| ==> parts[i] == [s[i]]
    ensures Concat(parts) == s
  {
    if |s| > 0 {
      ConcatSingles(s[1..], parts[1..]);
      assert [s[0]] + s[1..] == s;
    }
  }

  /** An upper-case letter, a digit or an underscore: the characters of the enum values. */
  predicate UpperWord(c: char) {
    'A' <= c <= 'Z' || '0' <= c <= '9' || c == '_'
  }

  /** Text made of upper-case letters, digits and underscores is its own upper-case form. */
  lemma UpperFixed(s: string)
    requires forall i :: 0 <= i < |s| ==> UpperWord(s[i])
    ensures Upper(s) == s
  {
    ConcatSingles(s, seq(|s|, i requires 0 <= i < |s| => UpperOf(s[i])));
  }

  /** The two strings are equal once both are upper-cased, as `a.upper() == b.upper()` tests. */
  predicate EqualsIgnoreCase(a: string, b: string) {
    Upper(a) == Upper(b)
  }
}

=== FILE: validation.dfy ===
/**
 * Field readers with the semantics of the pydantic models the bridge declares
 * (validation from a decoded JSON object) and the dump side
 * (`model_dump` / `.dict()` with the `by_alias` and `exclude_none` options).
 *
 * A decoder returns `None` where pydantic raises a validation error.
 * Strict types are assumed: a `str` field takes a JSON string, an `int` field
 * an integral number, a `float` field any number, a `bool` field a boolean.
 */
module Validation {
  import opened Wrappers
  import opened Json

  // ------------------------------------------------------------- scalars

  function IntOf(v: Value): (r: Option<int>)
    ensures r.Some? <==> v.Num? && v.n == v.n.Floor as real
    ensures r.Some? ==> r.value as real == v.n
  {
    if v.Num? && v.n == v.n.Floor as real then Some(v.n.Floor) else None
  }

  function RealOf(v: Value): (r: Option<real>)
    ensures r.Some? <==> v.Num?
  {
    if v.Num? then Some(v.n) else None
  }

  function StrOf(v: Value): (r: Option<string>)
    ensures r.Some? <==> v.Str?
  {
    if v.Str? then Some(v.s) else None
  }

  function BoolOf(v: Value): (r: Option<bool>)
    ensures r.Some? <==> v.Bool?
  {
    if v.Bool? then Some(v.b) else None
  }

  /** The JSON form of an `int` field; reading it back gives the integer. */
  function IntValue(i: int): (v: Value)
    ensures IntOf(v) == Some(i)
  {
    Num(i as real)
  }

  // -------------------------------------------------------------- fields

  /** A validated object: its entries as a dictionary. */
  type Dict = map<string, Value>

  /** A field without a default: missing fails, present must validate. */
  function Required<T>(m: Dict, k: string, dec: Value -> Option<T>): (r: Option<T>)
    ensures k !in m ==> r.None?
    ensures k in m ==> r == dec(m[k])
  {
    if k in m then dec(m[k]) else None
  }

  /** A present key whose value decodes is read by `Required`. */
  lemma RequiredAt<T>(dec: Value -> Option<T>, m: Dict, k: string, v: Value, y: T)
    requires k in m && m[k] == v && dec(v) == Some(y)
    ensures Required(m, k, dec) == Some(y)
  {
  }

  /** A field with a default: missing takes the default, present (even `null`) must validate. */
  function Defaulted<T>(m: Dict, k: string, dec: Value -> Option<T>, default: T): (r: Option<T>)
    ensures k !in m ==> r == Some(default)
    ensures k in m ==> r == dec(m[k])
  {
    if k in m then dec(m[k]) else Some(default)
  }

  /** An `Optional[...] = None` field: missing or `null` reads as `None`. */
  function Optional<T>(m: Dict, k: string, dec: Value -> Option<T>): (r: Option<Option<T>>)
    ensures k !in m || m[k] == Null ==> r == Some(None)
    ensures k in m && m[k] != Null ==> (r.Some? <==> dec(m[k]).Some?)
    ensures r.Some? && r.value.Some? ==> k in m && dec(m[k]) == r.value
  {
    if k !in m || m[k] == Null then Some(None)
    else
      match dec(m[k])
      case None => None
      case Some(x) => Some(Some(x))
  }

  /** A present key holding `null` reads as `None`, and one holding a decodable value as that value. */
  lemma OptionalAt<T>(dec: Value -> Option<T>, m: Dict, k: string, v: Value, y: Option<T>)
    requires k in m && m[k] == v
    requires y.None? ==> v == Null
    requires y.Some? ==> v != Null && dec(v) == y
    ensures Optional(m, k, dec) == Some(y)
  {
  }

  /** Reading a field whose stored value validates to `x`. */
  lemma ReadRequired<T>(m: Dict, k: string, dec: Value -> Option<T>, x: T)
    requires k in m && dec(m[k]) == Some(x)
    ensures Required(m, k, dec) == Some(x) && Defaulted(m, k, dec, x) == Some(x)
  {
  }

  /** Reading an optional field that holds `null` for `None` and a validating value otherwise. */
  lemma ReadOptional<T>(m: Dict, k: string, dec: Value -> Option<T>, x: Option<T>)
    requires k in m
    requires x.None? ==> m[k] == Null
    requires x.Some? ==> m[k] != Null && dec(m[k]) == x
    ensures Optional(m, k, dec) == Some(x)
  {
  }

  /** The object a nested model field must hold, as a dictionary. */
  function ObjOf(v: Value): (r: Option<Dict>)
    ensures r.Some? <==> v.Obj?
    ensures r.Some? ==> r.value == ToMap(v.fields)
  {
    if v.Obj? then Some(ToMap(v.fields)) else None
  }

  /** A `List[...]` value: an array whose every element validates. */
  function ListOf<T>(v: Value, dec: Value -> Option<T>): Option<seq<T>> {
    if v.Arr? then ItemsOf(v.items, dec) else None
  }

  function ItemsOf<T>(items: seq<Value>, dec: Value -> Option<T>): Option<seq<T>> {
    if |items| == 0 then Some([])
    else
      var head :- dec(items[0]);
      var tail :- ItemsOf(items[1..], dec);
      Some([head] + tail)
  }

  /** A list validates exactly when every element does, and then element by element. */
  lemma {:induction false} ItemsOfSpec<T>(items: seq<Value>, dec: Value -> Option<T>)
    ensures ItemsOf(items, dec).Some? <==> forall i :: 0 <= i < |items| ==> dec(items[i]).Some?
    ensures ItemsOf(items, dec).Some? ==> |ItemsOf(items, dec).value| == |items|
    ensures ItemsOf(items, dec).Some? ==>
      forall i :: 0 <= i < |items| ==> dec(items[i]) == Some(ItemsOf(items, dec).value[i])
  {
    if |items| > 0 {
      ItemsOfSpec(items[1..], dec);
      assert forall i :: 1 <= i < |items| ==> items[i] == items[1..][i - 1];
    }
  }

  // ---------------------------------------------------------------- dump

  /** `model_dump` options: field names or aliases as keys, and whether `None` fields are dropped. */
  datatype DumpOptions = DumpOptions(byAlias: bool, excludeNone: bool)

  /** `model_dump(by_alias=True)`, as the bridge broadcasts the state. */
  const ByAlias := DumpOptions(true, false)
  /** `model_dump()` / `.dict()`: field names, `None` kept. */
  const ByName := DumpOptions(false, false)
  /** `model_dump_json(exclude_none=True, by_alias=True)`. */
  const Compact := DumpOptions(true, true)

  /** The entries of a dumped model: fields whose value is `None` are dropped under `exclude_none`. */
  function Emit(o: DumpOptions, entries: Fields): (r: Fields)
  {
    if o.excludeNone then DropNulls(entries) else entries
  }

  function DropNulls(entries: Fields): (r: Fields)
  {
    if |entries| == 0 then []
    else if entries[0].1.Null? then DropNulls(entries[1..])
    else [entries[0]] + DropNulls(entries[1..])
  }

  function OptValue<T>(x: Option<T>, enc: T -> Value): Value {
    match x
    case None => Null
    case Some(v) => enc(v)
  }

  /** The JSON array of a `List[...]` field: each element dumped in order. */
  function ListValue<T>(xs: seq<T>, enc: T -> Value): Value {
    Arr(seq(|xs|, i requires 0 <= i < |xs| => enc(xs[i])))
  }

  /** A dumped list validates back element by element. */
  lemma ListRoundTrip<T>(xs: seq<T>, enc: T -> Value, dec: Value -> Option<T>)
    requires forall x :: dec(enc(x)) == Some(x)
    ensures ListOf(ListValue(xs, enc), dec) == Some(xs)
  {
    ItemsRoundTrip(xs, enc, dec);
  }

  lemma {:induction false} ItemsRoundTrip<T>(xs: seq<T>, enc: T -> Value, dec: Value -> Option<T>)
    requires forall x :: dec(enc(x)) == Some(x)
    ensures ItemsOf(ListValue(xs, enc).items, dec) == Some(xs)
  {
    if |xs| > 0 {
      ItemsRoundTrip(xs[1..], enc, dec);
      assert ListValue(xs, enc).items[1..] == ListValue(xs[1..], enc).items;
      assert xs == [xs[0]] + xs[1..];
    }
  }

}

=== FILE: wrappers.dfy ===
/** Failure-carrying wrappers shared by every module of the model. */
module Wrappers {

  /** A value that may be absent: Python's `None`, a missing key, JavaScript's `undefined`. */
  datatype Option<+T> = None | Some(value: T) {

    /** The wrapped value, or `default` when absent. */
    function GetOr(default: T): T {
      match this
      case Some(v) => v
      case None => default
    }

    predicate IsFailure() {
      None?
    }

    function PropagateFailure<U>(): Option<U>
      requires None?
    {
      None
    }

    function Extract(): T
      requires Some?
    {
      value
    }
  }

  /** The outcome of an operation that can raise: either a value or the error it raised. */
  datatype Result<+T, +E> = Ok(value: T) | Err(error: E)
}

=== FILE: ynison_client.dfy ===
/**
 * The opening handshake of the Ynison WebSocket (`api_for_plugin/ynison/client.py`):
 * the JSON blob of connection parameters carried in the
 * `Sec-WebSocket-Protocol` header (section 4.1 of RFC 6455) and the headers
 * and sub-protocols sent with it.  The socket itself is not modelled.
 */
module YnisonClient {
  import opened Wrappers
  import opened Text
  import opened JsonText

  /** The credentials a socket is built from (`utils/auth.py`). */
  datatype AuthStorage = AuthStorage(token: string, userId: string, deviceId: string)

  /** The dataclass defaults: user "0", device "python". */
  function DefaultStorage(token: string): (r: AuthStorage)
    ensures r.token == token && r.userId == "0" && r.deviceId == "python"
  {
    AuthStorage(token, "0", "python")
  }

  /** Python truthiness of an optional string. */
  predicate Given(o: Option<string>) {
    o.Some? && |o.value| > 0
  }

  /** First value stored under `k` in an ordered list of string entries. */
  function Lookup(entries: seq<(string, string)>, k: string): Option<string> {
    if |entries| == 0 then None
    else if entries[0].0 == k then Some(entries[0].1)
    else Lookup(entries[1..], k)
  }

  function KeysOf(entries: seq<(string, string)>): (ks: seq<string>)
    ensures |ks| == |entries| && forall i :: 0 <= i < |entries| ==> ks[i] == entries[i].0
  {
    seq(|entries|, i requires 0 <= i < |entries| => entries[i].0)
  }

  // ---------------------------------------------------------- device info

  const AppNameKey := "app_name"
  const AppVersionKey := "app_version"
  const TypeKey := "type"
  const AppName := "Desktop"
  const AppVersion := "5.79.7"

  /**
   * The fixed device description `{app_name: "Desktop", app_version: "5.79.7", type: 1}`
   * as it goes on the wire (lines 28-34).
   */
  const DeviceInfoText :=
    "{" + ("\"" + AppNameKey + "\"" + ":" + ("\"" + AppName + "\""))
    + "," + (("\"" + AppVersionKey + "\"" + ":" + ("\"" + AppVersion + "\""))
    + "," + ("\"" + TypeKey + "\"" + ":" + "1")) + "}"

  /** The wire text is what `json.dumps` with compact separators writes for that dictionary. */
  lemma DeviceInfoIsCompact()
    ensures DeviceInfoText == CompactObject([(AppNameKey, Quote(AppName)), (AppVersionKey, Quote(AppVersion)), (TypeKey, "1")])
  {
    QuotedAppNameKey();
    QuotedAppName();
    QuotedAppVersionKey();
    QuotedAppVersion();
    QuotedTypeKey();
    CompactObjectThree(AppNameKey, Quote(AppName), AppVersionKey, Quote(AppVersion), TypeKey, "1");
  }

  // The escaping of each fixed name is checked on its own.
  lemma QuotedAppNameKey() ensures Quote(AppNameKey) == "\"" + AppNameKey + "\"" { QuotePlain(AppNameKey); }
  lemma QuotedAppName() ensures Quote(AppName) == "\"" + AppName + "\"" { QuotePlain(AppName); }
  lemma QuotedAppVersionKey() ensures Quote(AppVersionKey) == "\"" + AppVersionKey + "\"" { QuotePlain(AppVersionKey); }
  lemma QuotedAppVersion() ensures Quote(AppVersion) == "\"" + AppVersion + "\"" { QuotePlain(AppVersion); }
  lemma QuotedTypeKey() ensures Quote(TypeKey) == "\"" + TypeKey + "\"" { QuotePlain(TypeKey); }

  // ------------------------------------------------------------- protocol

  const DeviceIdKey := "Ynison-Device-Id"
  const TicketKey := "Ynison-Redirect-Ticket"
  const SessionKey := "Ynison-Session-Id"
  const DeviceInfoKey := "Ynison-Device-Info"
  const AuthorizationKey := "authorization"
  const UserIdKey := "X-Yandex-Music-Multi-Auth-User-Id"

  /**
   * `_get_protocol_data` (lines 27-51) before serialisation: the device id
   * first, the ticket and the session id only when given, then the device
   * description, the OAuth authorisation and the user id.
   */
  function ProtocolEntries(storage: AuthStorage, deviceId: string, ticket: Option<string>, sessionId: Option<string>)
    : seq<(string, string)>
  {
    [(DeviceIdKey, deviceId)]
    + (if Given(ticket) then [(TicketKey, ticket.value)] else [])
    + (if Given(sessionId) then [(SessionKey, sessionId.value)] else [])
    + [(DeviceInfoKey, DeviceInfoText), (AuthorizationKey, "OAuth " + storage.token), (UserIdKey, storage.userId)]
  }

  /** The serialised blob. */
  function ProtocolData(storage: AuthStorage, deviceId: string, ticket: Option<string>, sessionId: Option<string>): string {
    StringObject(ProtocolEntries(storage, deviceId, ticket, sessionId))
  }

  /** The order of the keys: the optional pair sits between the device id and the fixed tail. */
  lemma ProtocolKeys(storage: AuthStorage, deviceId: string, ticket: Option<string>, sessionId: Option<string>)
    ensures KeysOf(ProtocolEntries(storage, deviceId, ticket, sessionId))
      == [DeviceIdKey]
      + (if Given(ticket) then [TicketKey] else [])
      + (if Given(sessionId) then [SessionKey] else [])
      + [DeviceInfoKey, AuthorizationKey, UserIdKey]
  {
  }

  /** The first entry with a key is the one found. */
  lemma {:induction false} LookupAt(e: seq<(string, string)>, i: nat)
    requires i < |e|
    requires forall j :: 0 <= j < i ==> e[j].0 != e[i].0
    ensures Lookup(e, e[i].0) == Some(e[i].1)
  {
    if i > 0 {
      LookupAt(e[1..], i - 1);
    }
  }

  /** A key no entry has is not found. */
  lemma {:induction false} LookupAbsent(e: seq<(string, string)>, k: string)
    requires forall j :: 0 <= j < |e| ==> e[j].0 != k
    ensures Lookup(e, k).None?
  {
    if |e| > 0 {
      LookupAbsent(e[1..], k);
    }
  }

  /** The fixed keys are pairwise different. */
  predicate DistinctKeys(e: seq<(string, string)>) {
    forall i, j :: 0 <= i < j < |e| ==> e[i].0 != e[j].0
  }

  /** Every protocol key is one of the six names, and no name occurs twice. */
  lemma ProtocolEntriesDistinct(storage: AuthStorage, deviceId: string, ticket: Option<string>, sessionId: Option<string>)
    ensures DistinctKeys(ProtocolEntries(storage, deviceId, ticket, sessionId))
  {
    var e := ProtocolEntries(storage, deviceId, ticket, sessionId);
    var ks := KeysOf(e);
    ProtocolKeys(storage, deviceId, ticket, sessionId);
    forall i, j | 0 <= i < j < |e| ensures e[i].0 != e[j].0 {
      assert |ks[i]| != |ks[j]|;
    }
  }

  /** Each key carries its value, and the ticket and session keys are present exactly when given. */
  lemma ProtocolValues(storage: AuthStorage, deviceId: string, ticket: Option<string>, sessionId: Option<string>)
    ensures var e := ProtocolEntries(storage, deviceId, ticket, sessionId);
      && Lookup(e, DeviceIdKey) == Some(deviceId)
      && Lookup(e, TicketKey) == (if Given(ticket) then Some(ticket.value) else None)
      && Lookup(e, SessionKey) == (if Given(sessionId) then Some(sessionId.value) else None)
      && Lookup(e, DeviceInfoKey) == Some(DeviceInfoText)
      && Lookup(e, AuthorizationKey) == Some("OAuth " + storage.token)
      && Lookup(e, UserIdKey) == Some(storage.userId)
  {
    var e := ProtocolEntries(storage, deviceId, ticket, sessionId);
    ProtocolEntriesDistinct(storage, deviceId, ticket, sessionId);
    var n := |e|;
    var t := if Given(ticket) then 1 else 0;
    var sn := if Given(sessionId) then 1 else 0;
    assert n == 4 + t + sn;
    LookupAt(e, 0);
    LookupAt(e, n - 3);
    LookupAt(e, n - 2);
    LookupAt(e, n - 1);
    if Given(ticket) { LookupAt(e, 1); } else { LookupAbsent(e, TicketKey); }
    if Given(sessionId) { LookupAt(e, 1 + t); } else { LookupAbsent(e, SessionKey); }
  }

  /**
   * The blob always opens with the device id, and the id reads back
   * unchanged from its escaped form.
   */
  lemma ProtocolDataStartsWithDeviceId(storage: AuthStorage, deviceId: string, ticket: Option<string>, sessionId: Option<string>)
    ensures var first := "{" + Member(DeviceIdKey, Quote(deviceId));
      var text := ProtocolData(storage, deviceId, ticket, sessionId);
      |first| <= |text| && text[..|first|] == first
    ensures Unescape(Quote(deviceId)[1..|Quote(deviceId)| - 1]) == Some(deviceId)
  {
    var e := ProtocolEntries(storage, deviceId, ticket, sessionId);
    var quoted := seq(|e|, i requires 0 <= i < |e| => (e[i].0, Quote(e[i].1)));
    assert quoted[0] == (DeviceIdKey, Quote(deviceId));
    CompactObjectStart(quoted);
    UnescapeEscape(deviceId);
  }

  // ------------------------------------------------------------ handshake

  /** What `connect` sends: the headers and the offered sub-protocols. */
  datatype Handshake = Handshake(url: string, headers: seq<(string, string)>, protocols: seq<string>)

  const Origin := "https://music.yandex.ru"
  const UserAgent := "Mozilla/5.0 (Windows NT 10.0; Win64; x64) AppleWebKit/537.36 (KHTML, like Gecko) Chrome/120.0.0.0 Safari/537.36"

  /** The headers `connect` sends around a given blob. */
  function Headers(token: string, data: string): seq<(string, string)> {
    [("Origin", Origin),
     ("Authorization", "OAuth " + token),
     ("Sec-WebSocket-Protocol", "Bearer, v2, " + data),
     ("User-Agent", UserAgent)]
  }

  /** `connect` (lines 53-85): the blob is built for the storage's own device id. */
  function Connect(storage: AuthStorage, url: string, ticket: Option<string>, sessionId: Option<string>): Handshake {
    var data := ProtocolData(storage, storage.deviceId, ticket, sessionId);
    Handshake(url, Headers(storage.token, data), ["Bearer", "v2", data])
  }

  /** The protocol header lists the offered sub-protocols, joined by ", "; the authorisation header carries the token. */
  lemma HeadersSpec(token: string, data: string)
    ensures Lookup(Headers(token, data), "Sec-WebSocket-Protocol") == Some(Join(["Bearer", "v2", data], ", "))
    ensures Lookup(Headers(token, data), "Authorization") == Some("OAuth " + token)
  {
    var h := Headers(token, data);
    JoinThree("Bearer", "v2", data, ", ");
    assert "Bearer" + ", " + ("v2" + ", " + data) == "Bearer, v2, " + data;
    assert |h[0].0| != |h[2].0| && |h[1].0| != |h[2].0|;
    LookupAt(h, 1);
    LookupAt(h, 2);
  }

  /**
   * The `Sec-WebSocket-Protocol` header is the offered sub-protocols joined
   * by ", ", the last of them the blob, which names the storage's device.
   */
  lemma ConnectSpec(storage: AuthStorage, url: string, ticket: Option<string>, sessionId: Option<string>)
    ensures var h := Connect(storage, url, ticket, sessionId);
      && Lookup(h.headers, "Sec-WebSocket-Protocol") == Some(Join(h.protocols, ", "))
      && h.protocols == ["Bearer", "v2", ProtocolData(storage, storage.deviceId, ticket, sessionId)]
      && Lookup(h.headers, "Authorization") == Some("OAuth " + storage.token)
  {
    HeadersSpec(storage.token, ProtocolData(storage, storage.deviceId, ticket, sessionId));
  }

  lemma JoinThree(a: string, b: string, c: string, sep: string)
    ensures Join([a, b, c], sep) == a + sep + (b + sep + c)
  {
    assert [b, c][1..] == [c];
    assert Join([b, c], sep) == b + sep + c;
    assert [a, b, c][1..] == [b, c];
  }
}

=== FILE: ynison_player.dfy ===
/**
 * The Ynison player of the bridge (`ynison/player.py`): where the state
 * service lives, how a connection opens, how incoming frames update the
 * device list and the player state, which track is current, and the command
 * payloads sent back.  Wall-clock readings, uuids and the outcome of every
 * socket operation are parameters.
 */
module YnisonPlayer {
  import opened Wrappers
  import opened Text
  import opened Json
  import opened Validation
  import opened ModelsCommon
  import opened ModelsQueue
  import opened ModelsPlayerState
  import opened ModelsDevice
  import opened ModelsMessages
  import opened ModelsState
  import opened ModelsRedirect

  // ------------------------------------------------------------ addresses

  const StateServicePath := "/ynison_state.YnisonStateService/PutYnisonState"

  /** The redirect host with `wss://`, then `https://` removed, and surrounding `/` stripped. */
  function CleanHost(host: string): (r: string)
    ensures |r| == 0 || (r[0] != '/' && r[|r| - 1] != '/')
  {
    Strip(ReplaceAll(ReplaceAll(host, "wss://", ""), "https://", ""), '/')
  }

  /** The state-service address built from a redirect host. */
  function StateUrl(host: string): (r: string)
    ensures StartsWith(r, "wss://")
    ensures |r| == 6 + |CleanHost(host)| + |StateServicePath|
    ensures r[6..|r| - |StateServicePath|] == CleanHost(host)
    ensures r[|r| - |StateServicePath|..] == StateServicePath
  {
    var r := "wss://" + CleanHost(host) + StateServicePath;
    assert r[..6] == "wss://";
    r
  }

  /** A host name as the redirector is expected to send it: no scheme, no surrounding `/`. */
  predicate BareHost(h: string) {
    && !Contains(h, "wss://")
    && !Contains(h, "https://")
    && (|h| == 0 || (h[0] != '/' && h[|h| - 1] != '/'))
  }

  /** A bare host, or one behind either scheme, cleans to the bare host. */
  lemma CleanHostBare(h: string)
    requires BareHost(h)
    ensures CleanHost(h) == h
    ensures CleanHost("wss://" + h) == h
    ensures CleanHost("https://" + h) == h
  {
    ReplaceAbsent(h, "wss://", "");
    ReplaceAbsent(h, "https://", "");
    ReplaceLeading("wss://", h, "");
    assert ReplaceAll("wss://" + h, "wss://", "") == h;
    ReplaceSkipsPrefix("https://", h, "wss://", "");
    ReplaceLeading("https://", h, "");
  }

  // -------------------------------------------------------------- connect

  /** What the redirector socket delivered: nothing, text that is not JSON, or a decoded document. */
  datatype Reply = NoReply | NotJson | Received(doc: Value)

  datatype ConnectError =
    | RedirectorUnavailable
    | ReceiveFailed
    | ServerError(message: string)
    | Malformed
    | StateSocketUnavailable
    | InitialStateFailed

  /** The device a player announces and the capabilities it claims. */
  datatype PlayerConfig = PlayerConfig(
    deviceId: string,
    appName: string,
    appVersion: string,
    deviceType: string,
    title: string,
    capabilities: DeviceCapabilities,
    isShadow: bool)

  /**
   * The configuration a bridge session uses (`manager.py`): the player's
   * default device info, a remote controller that is not a player, and a
   * shadow device.
   */
  function SessionPlayerConfig(deviceId: string): (c: PlayerConfig)
    ensures c.deviceId == deviceId && c.isShadow
    ensures !c.capabilities.canBePlayer && c.capabilities.canBeRemoteController
  {
    PlayerConfig(deviceId, "Yandex Music API", "0.0.1", "WEB", "Deck Player", DeviceCapabilities(false, true, 16), true)
  }

  /** The open connection: the state-service address, the redirect it came from and the first payload sent. */
  datatype Connection = Connection(stateUrl: string, redirect: Redirect, initialState: Value)

  /** The message of a server error object: its `message` (or "Unknown") and its `grpc_code`. */
  function ServerErrorMessage(err: Fields): string {
    "Ynison Server Error: "
      + (match Get(err, "message") case Some(m) => PyStr(m) case None => "Unknown")
      + " (Code: " + PyStrOpt(Get(err, "grpc_code")) + ")"
  }

  /** A reply that is an object carrying an `error` key. */
  predicate IsErrorReply(reply: Reply) {
    reply.Received? && reply.doc.Obj? && "error" in Keys(reply.doc.fields)
  }

  /**
   * The redirect step of `connect`: the redirector must answer, the answer
   * must not be an error object and must validate as a redirect.  Any
   * exception other than a server error (an `error` that is not an object, a
   * document of another shape) surfaces as `Malformed`.
   */
  function Redirected(redirectorUp: bool, reply: Reply): (r: Result<Redirect, ConnectError>)
    ensures r.Ok? <==> redirectorUp && reply.Received? && !IsErrorReply(reply) && DecodeRedirect(reply.doc).Some?
    ensures r.Ok? ==> r.value == DecodeRedirect(reply.doc).value
    ensures r.Err? && r.error.ServerError? ==> redirectorUp && IsErrorReply(reply)
  {
    if !redirectorUp then Err(RedirectorUnavailable)
    else
      match reply
      case NoReply => Err(ReceiveFailed)
      case NotJson => Err(Malformed)
      case Received(doc) =>
        if IsErrorReply(reply) then
          var e := Get(doc.fields, "error").value;
          if e.Obj? then Err(ServerError(ServerErrorMessage(e.fields))) else Err(Malformed)
        else
          match DecodeRedirect(doc)
          case None => Err(Malformed)
          case Some(rd) => Ok(rd)
  }

  /**
   * `connect` as intended: after the redirect step the state socket opens
   * with the redirect's ticket and session, and the default full state is
   * the first payload.
   */
  function Connect(cfg: PlayerConfig, env: Fresh, redirectorUp: bool, reply: Reply, stateSocketUp: bool)
    : (r: Result<Connection, ConnectError>)
    ensures r.Ok? <==> Redirected(redirectorUp, reply).Ok? && stateSocketUp
    ensures r.Ok? ==>
      && r.value.redirect == Redirected(redirectorUp, reply).value
      && r.value.stateUrl == StateUrl(r.value.redirect.host)
      && r.value.initialState == DefaultStatePayload(cfg, env)
  {
    match Redirected(redirectorUp, reply)
    case Err(e) => Err(e)
    case Ok(rd) =>
      if stateSocketUp then Ok(Connection(StateUrl(rd.host), rd, DefaultStatePayload(cfg, env)))
      else Err(StateSocketUnavailable)
  }

  /**
   * `connect` as written: `_default_state` names a message class the module
   * never imports, so building the first payload raises once the state socket
   * is open.
   */
  function ConnectAsWritten(redirectorUp: bool, reply: Reply, stateSocketUp: bool): (r: Result<Connection, ConnectError>)
    ensures Redirected(redirectorUp, reply).Err? ==> r == Err(Redirected(redirectorUp, reply).error)
  {
    match Redirected(redirectorUp, reply)
    case Err(e) => Err(e)
    case Ok(_) =>
      if stateSocketUp then Err(InitialStateFailed) else Err(StateSocketUnavailable)
  }

  /** As written, no input makes `connect` succeed; exactly the inputs the intended version accepts fail late. */
  lemma ConnectAsWrittenNeverConnects(cfg: PlayerConfig, env: Fresh, redirectorUp: bool, reply: Reply, stateSocketUp: bool)
    ensures ConnectAsWritten(redirectorUp, reply, stateSocketUp).Err?
    ensures ConnectAsWritten(redirectorUp, reply, stateSocketUp) == Err(InitialStateFailed)
        <==> Connect(cfg, env, redirectorUp, reply, stateSocketUp).Ok?
  {
  }

  // ---------------------------------------------------------- first state

  /** The version the first payload carries: the player's device id and version "0". */
  function InitialVersion(cfg: PlayerConfig, env: Fresh): Version {
    Version(cfg.deviceId, VStr("0"), env.nowMs)
  }

  /**
   * The full-state message `_default_state` means to send: the configured
   * device with volume 0, an empty queue and a zero status, inactive.
   */
  function DefaultStateMessage(cfg: PlayerConfig, env: Fresh): (m: UpdateFullStateMessage)
    ensures m.updateFullState.device.Plain?
    ensures m.updateFullState.device.plain.info.deviceId == cfg.deviceId
    ensures !m.updateFullState.isCurrentlyActive
    ensures TrackOf(m.updateFullState.playerState).None?
  {
    var version := InitialVersion(cfg, env);
    var queue := PlayerQueue(-1, None, Various, BasedOnEntityByDefault, DefaultQueueOptions, [], None, None, Some(version));
    var status := Status(0, true, 1.0, 0, Some(version));
    var info := DeviceInfo(cfg.deviceId, cfg.deviceType, cfg.title, cfg.appName, cfg.appVersion);
    var device := Device(info, cfg.capabilities, VolumeInfo(0.0, None), cfg.isShadow);
    UpdateFullStateMessage(env.uuid, DoNotIntercept, env.nowMs,
      FullState(PlayerState(queue, status), Plain(device), false))
  }

  /** The first payload: the message dumped by alias without `None` fields. */
  function DefaultStatePayload(cfg: PlayerConfig, env: Fresh): Value {
    DumpUpdateFullStateMessage(DefaultStateMessage(cfg, env), Compact)
  }

  /** As intended, the first message validates back to itself once dumped with its `None` fields kept. */
  lemma DefaultStateValidates(cfg: PlayerConfig, env: Fresh, env': Fresh)
    ensures DecodeUpdateFullStateMessage(env', DumpUpdateFullStateMessage(DefaultStateMessage(cfg, env), ByAlias))
         == Some(DefaultStateMessage(cfg, env))
  {
    UpdateFullStateMessageRoundTrip(env', DefaultStateMessage(cfg, env), ByAlias);
  }

  // -------------------------------------------------------- current track

  /** The queue's current item: `playable_list[current_playable_index]` when the index is in range. */
  function TrackOf(ps: PlayerState): (r: Option<PlayableItem>)
    ensures var q := ps.playerQueue;
      r.Some? <==> 0 <= q.currentPlayableIndex < |q.playableList|
    ensures r.Some? ==> r.value == ps.playerQueue.playableList[ps.playerQueue.currentPlayableIndex]
  {
    var q := ps.playerQueue;
    var idx := q.currentPlayableIndex;
    if idx < 0 || idx >= |q.playableList| then None else Some(q.playableList[idx])
  }

  /** `_update_current_track`: no state means no track. */
  function CurrentTrackOf(st: Option<State>): (r: Option<PlayableItem>)
    ensures st.None? ==> r.None?
    ensures r.Some? ==> r.value in st.value.playerState.playerQueue.playableList
  {
    if st.None? then None else TrackOf(st.value.playerState)
  }

  // --------------------------------------------------------------- devices

  /** The device as the state keeps it: a full device stays as it is, a plain one takes its volume from `volume_info`. */
  function ToFull(dev: AnyDevice): (d: DeviceFull)
    ensures d.info == (match dev case Full(f) => f.info case Plain(p) => p.info)
  {
    match dev
    case Full(f) => f
    case Plain(p) => DeviceFull(p.info, p.capabilities, p.volumeInfo, p.isShadow, None, p.volumeInfo.volume, None)
  }

  /** `model_dump()` of the announced device, with `volume` added from `volume_info` when the dump lacks it. */
  function DeviceData(dev: AnyDevice): Value {
    match dev
    case Full(f) => DumpDeviceFull(f, ByName)
    case Plain(p) => Obj(Set(DumpDevice(p, ByName).fields, "volume", Num(p.volumeInfo.volume)))
  }

  /** The by-name dump of a plain device, plus its volume, as a dictionary. */
  lemma PlainDeviceEntries(p: Device)
    ensures ToMap(DeviceData(Plain(p)).fields) == DeviceEntries(p, ByName)["volume" := Num(p.volumeInfo.volume)]
  {
    DeviceDict(p, ByName);
    SetToMap(DumpDevice(p, ByName).fields, "volume", Num(p.volumeInfo.volume));
  }

  /** Revalidating the device data as a full device (lines 204-209) always succeeds, with the converted device. */
  lemma DeviceDataValidates(env: Fresh, dev: AnyDevice)
    ensures DecodeDeviceFull(env, DeviceData(dev)) == Some(ToFull(dev))
  {
    match dev
    case Full(f) =>
      DeviceFullRoundTrip(env, f, ByName);
    case Plain(p) =>
      PlainDeviceEntries(p);
      PlainDeviceFields(env, p);
  }

  /** The plain device's dictionary, with `volume` added, validates as the converted device. */
  lemma PlainDeviceFields(env: Fresh, p: Device)
    ensures DeviceFullFromDict(env, DeviceEntries(p, ByName)["volume" := Num(p.volumeInfo.volume)]) == Some(ToFull(Plain(p)))
  {
    DeviceReadsInfo(env, p, ByName);
    DeviceReadsCapabilities(env, p, ByName);
    DeviceReadsVolumeInfo(env, p, ByName);
    DeviceReadsIsShadow(env, p, ByName);
    assert "session" !in DeviceEntries(p, ByName) && "is_offline" !in DeviceEntries(p, ByName);
  }

  /** The device ids in list order. */
  function DeviceIds(devs: seq<DeviceFull>): (ids: seq<string>)
    ensures |ids| == |devs|
    ensures forall i :: 0 <= i < |devs| ==> ids[i] == devs[i].info.deviceId
  {
    seq(|devs|, i requires 0 <= i < |devs| => devs[i].info.deviceId)
  }

  /** No two devices share a device id. */
  predicate UniqueIds(devs: seq<DeviceFull>) {
    forall i, j :: 0 <= i < j < |devs| ==> devs[i].info.deviceId != devs[j].info.deviceId
  }

  /** The position of the first device with the given id. */
  function IndexOfDevice(devs: seq<DeviceFull>, id: string): (r: Option<nat>)
    ensures r.Some? ==> r.value < |devs| && devs[r.value].info.deviceId == id
    ensures r.Some? ==> forall j :: 0 <= j < r.value ==> devs[j].info.deviceId != id
    ensures r.None? ==> forall j :: 0 <= j < |devs| ==> devs[j].info.deviceId != id
  {
    if |devs| == 0 then None
    else if devs[0].info.deviceId == id then Some(0)
    else
      match IndexOfDevice(devs[1..], id)
      case None => None
      case Some(i) => Some(i + 1)
  }

  /** Lines 221-228: the first device with the new device's id is replaced in place, else the device is appended. */
  function UpsertDevice(devs: seq<DeviceFull>, nd: DeviceFull): seq<DeviceFull> {
    if |devs| == 0 then [nd]
    else if devs[0].info.deviceId == nd.info.deviceId then [nd] + devs[1..]
    else [devs[0]] + UpsertDevice(devs[1..], nd)
  }

  /** Replace-or-append agrees with its positional description. */
  lemma {:induction false} UpsertDeviceSpec(devs: seq<DeviceFull>, nd: DeviceFull)
    ensures match IndexOfDevice(devs, nd.info.deviceId)
      case Some(i) => UpsertDevice(devs, nd) == devs[i := nd]
      case None => UpsertDevice(devs, nd) == devs + [nd]
  {
    if |devs| > 0 && devs[0].info.deviceId != nd.info.deviceId {
      UpsertDeviceSpec(devs[1..], nd);
      match IndexOfDevice(devs[1..], nd.info.deviceId)
      case Some(i) =>
        assert [devs[0]] + devs[1..][i := nd] == devs[i + 1 := nd];
      case None =>
        assert [devs[0]] + (devs[1..] + [nd]) == devs + [nd];
    }
  }

  /**
   * Replace-or-append keeps ids unique, holds the new device, keeps every
   * device with another id, and grows the list only for a new id.
   */
  lemma UpsertDeviceKeeps(devs: seq<DeviceFull>, nd: DeviceFull)
    ensures var r := UpsertDevice(devs, nd);
      && nd in r
      && (forall d :: d in devs && d.info.deviceId != nd.info.deviceId ==> d in r)
      && (forall d :: d in r ==> d == nd || d in devs)
      && |r| == (if nd.info.deviceId in DeviceIds(devs) then |devs| else |devs| + 1)
      && (UniqueIds(devs) ==> UniqueIds(r))
  {
    var r := UpsertDevice(devs, nd);
    UpsertDeviceSpec(devs, nd);
    match IndexOfDevice(devs, nd.info.deviceId)
    case Some(i) =>
      assert r[i] == nd;
      forall d | d in devs && d.info.deviceId != nd.info.deviceId ensures d in r {
        var k :| 0 <= k < |devs| && devs[k] == d;
        assert r[k] == d;
      }
      forall d | d in r ensures d == nd || d in devs {
        var k :| 0 <= k < |r| && r[k] == d;
        if k != i { assert devs[k] == d; }
      }
      assert nd.info.deviceId == DeviceIds(devs)[i];
    case None =>
      assert r[|devs|] == nd;
      forall d | d in devs ensures d in r {
        var k :| 0 <= k < |devs| && devs[k] == d;
        assert r[k] == d;
      }
      assert nd.info.deviceId !in DeviceIds(devs);
  }

  // ---------------------------------------------------------------- frames

  /** The player's mutable part: the state, the cached current track, the time of the last frame. */
  datatype Player = Player(state: Option<State>, currentTrack: Option<PlayableItem>, lastUpdate: int)

  /** The player before any frame. */
  const Initial := Player(None, None, 0)

  /** The cached track is the one the state designates. */
  predicate TrackCached(p: Player) {
    p.currentTrack == CurrentTrackOf(p.state)
  }

  /** A frame from the state socket: text that is not JSON, or a decoded document. */
  datatype Frame = Garbled | Doc(doc: Value)

  /**
   * The player after a frame, the state handed to `on_receive`, if any, and
   * whether an exception escaped the handler and so ended the receive loop.
   */
  datatype Step = Step(player: Player, notified: Option<State>, ended: bool)

  /** The player takes a new state, recomputes its track and notifies. */
  function Install(p: Player, st: State): (r: Step)
    ensures r.player.state == Some(st) && r.notified == Some(st) && TrackCached(r.player)
  {
    Step(Player(Some(st), CurrentTrackOf(Some(st)), p.lastUpdate), Some(st), false)
  }

  /**
   * As intended: the state after a valid full-state message, before and after
   * the first one (lines 211-231). As written line 199 never gets here.
   */
  function MergeFullState(prev: Option<State>, msg: UpdateFullStateMessage, env: Fresh): (st: State)
    ensures st.playerState == msg.updateFullState.playerState
  {
    var nd := ToFull(msg.updateFullState.device);
    var pats := msg.playerActionTimestampMs;
    match prev
    case None =>
      State(msg.rid, [nd], msg.updateFullState.playerState, if pats != 0 then pats as real else env.nowMs as real)
    case Some(s) =>
      State(s.rid, UpsertDevice(s.devices, nd), msg.updateFullState.playerState, if pats != 0 then pats as real else s.timestampMs)
  }

  /** The `update_full_state` branch as intended (lines 199-236); a message that fails validation changes nothing. */
  function ApplyFullState(env: Fresh, p: Player, doc: Value): Step {
    match DecodeUpdateFullStateMessage(env, doc)
    case None => Step(p, None, false)
    case Some(msg) => Install(p, MergeFullState(p.state, msg, env))
  }

  /**
   * The bare `player_state` branch (lines 241-258): a frame that validates as
   * a whole state replaces it; otherwise, with a state present, only the
   * player state is replaced; otherwise nothing happens.
   */
  function ApplyBare(env: Fresh, p: Player, doc: Value): Step {
    match DecodeState(env, doc)
    case Some(st) => Install(p, st)
    case None =>
      if p.state.None? then Step(p, None, false)
      else
        match Field(doc, "player_state")
        case None => Step(p, None, false)
        case Some(psv) =>
          match DecodePlayerState(env, psv)
          case None => Step(p, None, false)
          case Some(ps) => Install(p, p.state.value.(playerState := ps))
  }

  /** A document that is an object with the given key. */
  predicate HasKeyDoc(doc: Value, k: string) {
    doc.Obj? && k in Keys(doc.fields)
  }

  /**
   * A document on which Python's `in` raises `TypeError`: a number, a
   * boolean or `null`.  Text and lists support `in` (a substring or element
   * test), and whatever either branch then tries on them raises inside a
   * handler that catches it.
   */
  predicate Scalar(doc: Value) {
    doc.Null? || doc.Bool? || doc.Num?
  }

  /**
   * `_process_ws_message` as intended.  A frame that is not JSON changes
   * nothing; any other frame stamps the time of the update first.  On a
   * scalar document the key test at line 196 raises a `TypeError` that only
   * the `begin_receive` loop's `finally` sees (client.py lines 97-108): the
   * loop ends.  Other documents that are not objects never reach a
   * successful validation, so they change nothing further.
   */
  function ProcessFrame(env: Fresh, p: Player, frame: Frame, now: int): (r: Step)
    ensures frame.Garbled? ==> r == Step(p, None, false)
    ensures frame.Doc? ==> r.player.lastUpdate == now
    ensures r.ended <==> frame.Doc? && Scalar(frame.doc)
    ensures r.ended ==> r == Step(p.(lastUpdate := now), None, true)
    ensures r.notified.Some? ==> r.notified == r.player.state
    ensures r.notified.None? ==> r.player == p.(lastUpdate := r.player.lastUpdate)
  {
    match frame
    case Garbled => Step(p, None, false)
    case Doc(doc) =>
      var p1 := p.(lastUpdate := now);
      if Scalar(doc) then Step(p1, None, true)
      else if HasKeyDoc(doc, "update_full_state") then ApplyFullState(env, p1, doc)
      else if HasKeyDoc(doc, "player_state") then ApplyBare(env, p1, doc)
      else Step(p1, None, false)
  }

  /**
   * `_process_ws_message` as written: the full-state branch raises on the
   * missing message class and the handler swallows it, so such a frame only
   * stamps the time.  Scalar documents end the loop as in `ProcessFrame`.
   */
  function ProcessFrameAsWritten(env: Fresh, p: Player, frame: Frame, now: int): (r: Step)
    ensures frame.Doc? && HasKeyDoc(frame.doc, "update_full_state") ==> r == Step(p.(lastUpdate := now), None, false)
    ensures r.ended <==> frame.Doc? && Scalar(frame.doc)
  {
    match frame
    case Garbled => Step(p, None, false)
    case Doc(doc) =>
      var p1 := p.(lastUpdate := now);
      if Scalar(doc) then Step(p1, None, true)
      else if HasKeyDoc(doc, "update_full_state") then Step(p1, None, false)
      else if HasKeyDoc(doc, "player_state") then ApplyBare(env, p1, doc)
      else Step(p1, None, false)
  }

  /** As written and as intended, only the full-state branch differs. */
  lemma ProcessFrameAgreesOffFullState(env: Fresh, p: Player, frame: Frame, now: int)
    requires !(frame.Doc? && HasKeyDoc(frame.doc, "update_full_state"))
    ensures ProcessFrameAsWritten(env, p, frame, now) == ProcessFrame(env, p, frame, now)
  {
  }

  /** Text and lists, even ones naming a key, only stamp the time and keep the loop running. */
  lemma TextOrListFrameIsQuiet(env: Fresh, p: Player, doc: Value, now: int)
    requires doc.Str? || doc.Arr?
    ensures ProcessFrame(env, p, Doc(doc), now) == Step(p.(lastUpdate := now), None, false)
  {
  }

  /** A valid full-state frame is lost as written but installs a state as intended. */
  lemma FullStateFrameLostAsWritten(env: Fresh, p: Player, doc: Value, now: int)
    requires HasKeyDoc(doc, "update_full_state") && DecodeUpdateFullStateMessage(env, doc).Some?
    ensures ProcessFrameAsWritten(env, p, Doc(doc), now).player.state == p.state
    ensures ProcessFrameAsWritten(env, p, Doc(doc), now).notified.None?
    ensures ProcessFrame(env, p, Doc(doc), now).notified.Some?
  {
  }

  /** Every frame keeps the cached track equal to the one the state designates. */
  lemma ProcessFrameKeepsTrack(env: Fresh, p: Player, frame: Frame, now: int)
    requires TrackCached(p)
    ensures TrackCached(ProcessFrame(env, p, frame, now).player)
  {
  }

  /** As intended, the first full-state frame creates the state with exactly the announced device. */
  lemma FirstFullState(env: Fresh, p: Player, doc: Value, now: int)
    requires p.state.None? && HasKeyDoc(doc, "update_full_state")
    requires DecodeUpdateFullStateMessage(env, doc).Some?
    ensures var msg := DecodeUpdateFullStateMessage(env, doc).value;
      var st := ProcessFrame(env, p, Doc(doc), now).player.state;
      && st.Some?
      && st.value.devices == [ToFull(msg.updateFullState.device)]
      && st.value.rid == msg.rid
      && st.value.playerState == msg.updateFullState.playerState
  {
  }

  /**
   * As intended, a later full-state frame replaces the player state, replaces the device
   * with the same id in place or appends it, keeps the request id, and moves
   * the timestamp only for a nonzero action timestamp.
   */
  lemma LaterFullState(env: Fresh, p: Player, doc: Value, now: int)
    requires p.state.Some? && HasKeyDoc(doc, "update_full_state")
    requires DecodeUpdateFullStateMessage(env, doc).Some?
    ensures var msg := DecodeUpdateFullStateMessage(env, doc).value;
      var prev := p.state.value;
      var st := ProcessFrame(env, p, Doc(doc), now).player.state.value;
      && st.playerState == msg.updateFullState.playerState
      && st.devices == UpsertDevice(prev.devices, ToFull(msg.updateFullState.device))
      && st.rid == prev.rid
      && (st.timestampMs != prev.timestampMs ==> msg.playerActionTimestampMs != 0)
      && (msg.playerActionTimestampMs != 0 ==> st.timestampMs == msg.playerActionTimestampMs as real)
  {
  }

  /**
   * A bare frame that is not a whole state but carries a valid player state
   * replaces only the player state of an existing state; with no state it
   * changes nothing and notifies no one.
   */
  lemma BarePlayerStateFrame(env: Fresh, p: Player, doc: Value, now: int)
    requires !HasKeyDoc(doc, "update_full_state") && HasKeyDoc(doc, "player_state")
    requires DecodeState(env, doc).None?
    ensures var r := ProcessFrame(env, p, Doc(doc), now);
      && (p.state.None? ==> r.player.state.None? && r.notified.None?)
      && (p.state.Some? && r.notified.Some? ==>
            r.player.state == Some(p.state.value.(playerState := r.player.state.value.playerState)))
      && (p.state.Some? && r.notified.None? ==> r.player.state == p.state)
  {
  }

  // -------------------------------------------------------------- progress

  /** Python `int(x)`: truncation toward zero. */
  function Trunc(x: real): int {
    if x >= 0.0 then x.Floor else -((-x).Floor)
  }

  /**
   * `calculate_current_progress` (lines 386-399), with the time elapsed since
   * the last frame in ms as a parameter: a paused status reports its
   * progress, a playing one extrapolates at its speed and never goes below 0.
   */
  function CurrentProgress(st: Option<State>, elapsedMs: real): (r: int)
    ensures st.None? ==> r == 0
    ensures st.Some? && st.value.playerState.status.paused ==> r == st.value.playerState.status.progressMs
    ensures st.Some? && !st.value.playerState.status.paused ==> r >= 0
  {
    if st.None? then 0
    else
      var s := st.value.playerState.status;
      if s.paused then s.progressMs
      else
        var v := Trunc(s.progressMs as real + elapsedMs * s.playbackSpeed);
        if v < 0 then 0 else v
  }

  /** Clamping at 0 makes truncation and flooring agree. */
  lemma ClampedTruncIsFloor(x: real)
    ensures (if Trunc(x) < 0 then 0 else Trunc(x)) == (if x.Floor < 0 then 0 else x.Floor)
  {
    if x < 0.0 {
      assert (-x).Floor >= 0;
      assert x.Floor < 0;
    }
  }

  /** Scaling by a non-negative factor and adding a base keeps the order. */
  lemma ScaleMonotone(base: real, a: real, b: real, c: real)
    requires a <= b && c >= 0.0
    ensures base + a * c <= base + b * c
  {
    assert b * c - a * c == (b - a) * c;
  }

  /** With a non-negative speed, a later reading never reports less progress. */
  lemma ProgressMonotone(st: Option<State>, e1: real, e2: real)
    requires e1 <= e2
    requires st.Some? ==> st.value.playerState.status.playbackSpeed >= 0.0
    ensures CurrentProgress(st, e1) <= CurrentProgress(st, e2)
  {
    if st.Some? && !st.value.playerState.status.paused {
      var s := st.value.playerState.status;
      var x1 := s.progressMs as real + e1 * s.playbackSpeed;
      var x2 := s.progressMs as real + e2 * s.playbackSpeed;
      ScaleMonotone(s.progressMs as real, e1, e2, s.playbackSpeed);
      assert x1 <= x2;
      ClampedTruncIsFloor(x1);
      ClampedTruncIsFloor(x2);
      FloorMonotone(x1, x2);
    }
  }

  lemma FloorMonotone(x: real, y: real)
    requires x <= y
    ensures x.Floor <= y.Floor
  {
  }

  // -------------------------------------------------------------- commands

  /** One queue item as the command payloads list it; `withIds` keeps the navigation and action ids. */
  function ItemPayload(item: PlayableItem, withIds: bool): Value {
    Obj([
      ("album_id_optional", OptStr(item.albumId)),
      ("from", Str(item.from)),
      ("playable_id", Str(item.playableId)),
      ("playable_type", Str(PlayableItemTypeName(item.playableType))),
      ("title", OptStr(item.title)),
      ("cover_url_optional", OptStr(item.coverUrl)),
      ("navigation_id_optional", if withIds then OptStr(item.navigationId) else Null),
      ("playback_action_id_optional", if withIds then OptStr(item.playbackActionId) else Null)])
  }

  /** The queue's items, in order. */
  function ListPayload(items: seq<PlayableItem>, withIds: bool): (v: Value)
    ensures v.Arr? && |v.items| == |items|
  {
    Arr(seq(|items|, i requires 0 <= i < |items| => ItemPayload(items[i], withIds)))
  }

  /** The list payload carries every item's id and type at the item's own position. */
  lemma ListPayloadInOrder(items: seq<PlayableItem>, withIds: bool)
    ensures var v := ListPayload(items, withIds);
      forall i :: 0 <= i < |items| ==>
        && Field(v.items[i], "playable_id") == Some(Str(items[i].playableId))
        && Field(v.items[i], "from") == Some(Str(items[i].from))
  {
    var v := ListPayload(items, withIds);
    forall i | 0 <= i < |items|
      ensures Field(v.items[i], "playable_id") == Some(Str(items[i].playableId))
      ensures Field(v.items[i], "from") == Some(Str(items[i].from))
    {
      ItemPayloadIds(items[i], withIds);
    }
  }

  /** Where an item payload keeps the item's origin and id. */
  lemma ItemPayloadIds(item: PlayableItem, withIds: bool)
    ensures Field(ItemPayload(item, withIds), "playable_id") == Some(Str(item.playableId))
    ensures Field(ItemPayload(item, withIds), "from") == Some(Str(item.from))
  {
    var fs := ItemPayload(item, withIds).fields;
    GetAt(fs, "playable_id", 2);
    GetAt(fs, "from", 1);
  }

  /** The version every command carries: a device id, the command's `time_ns` stamp, timestamp 0. */
  function VersionPayload(deviceId: string, ts: int): Value {
    Obj([("device_id", Str(deviceId)), ("version", IntValue(ts)), ("timestamp_ms", IntValue(0))])
  }

  /** The queue as `toggle_play_pause` and `update_state` send it, at the given index. */
  function FullQueuePayload(pq: PlayerQueue, index: int, withIds: bool, version: Value): Value {
    Obj([
      ("entity_id", OptStr(pq.entityId)),
      ("entity_type", Str(EntityTypeName(pq.entityType))),
      ("current_playable_index", IntValue(index)),
      ("playable_list", ListPayload(pq.playableList, withIds)),
      ("shuffle_optional", Null),
      ("options", DumpQueueOptions(pq.options, ByName)),
      ("entity_context", Str(EntityContextName(pq.entityContext))),
      ("from_optional", OptStr(pq.fromOptional)),
      ("initial_entity_optional", Null),
      ("adding_options_optional", Null),
      ("queue", if pq.queue.Some? then DumpQueue(pq.queue.value, ByName) else Null),
      ("version", version)])
  }

  /** The queue as `next` and `prev` send it, at the given index. */
  function ShortQueuePayload(pq: PlayerQueue, index: int, version: Value): Value {
    Obj([
      ("entity_id", OptStr(pq.entityId)),
      ("entity_type", Str(EntityTypeName(pq.entityType))),
      ("current_playable_index", IntValue(index)),
      ("playable_list", ListPayload(pq.playableList, true)),
      ("options", DumpQueueOptions(pq.options, ByName)),
      ("entity_context", Str(EntityContextName(pq.entityContext))),
      ("version", version)])
  }

  /** A status as `toggle_play_pause` and `update_state` send it. */
  function StatusPayload(durationMs: int, progressMs: int, paused: bool, speed: real, version: Value): Value {
    Obj([
      ("duration_ms", IntValue(durationMs)),
      ("progress_ms", IntValue(progressMs)),
      ("paused", Bool(paused)),
      ("playback_speed", Num(speed)),
      ("version", version)])
  }

  /** The status `next` and `prev` send: playing from the start at normal speed. */
  function RestartStatusPayload(version: Value): Value {
    Obj([
      ("duration_ms", IntValue(0)),
      ("paused", Bool(false)),
      ("playback_speed", Num(1.0)),
      ("progress_ms", IntValue(0)),
      ("version", version)])
  }

  /** `{"update_player_state": {"player_state": {...}}}` followed by the top-level extras. */
  function Envelope(queue: Value, status: Value, statusFirst: bool, extra: Fields): Value {
    var inner := if statusFirst then [("status", status), ("player_queue", queue)] else [("player_queue", queue), ("status", status)];
    Obj([("update_player_state", Obj([("player_state", Obj(inner))]))] + extra)
  }

  const QueuePath := ["update_player_state", "player_state", "player_queue"]
  const StatusPath := ["update_player_state", "player_state", "status"]

  /** The queue and the status sit at their paths whatever the order and the extras. */
  lemma EnvelopePaths(queue: Value, status: Value, statusFirst: bool, extra: Fields, rest: seq<string>)
    ensures Path(Envelope(queue, status, statusFirst, extra), QueuePath + rest) == Path(queue, rest)
    ensures Path(Envelope(queue, status, statusFirst, extra), StatusPath + rest) == Path(status, rest)
  {
    var inner := if statusFirst then [("status", status), ("player_queue", queue)] else [("player_queue", queue), ("status", status)];
    var ps := [("player_state", Obj(inner))];
    var top := [("update_player_state", Obj(ps))] + extra;
    assert QueuePath + rest == [top[0].0] + ([ps[0].0] + (["player_queue"] + rest));
    assert StatusPath + rest == [top[0].0] + ([ps[0].0] + (["status"] + rest));
    PathAt(top, 0, [ps[0].0] + (["player_queue"] + rest));
    PathAt(top, 0, [ps[0].0] + (["status"] + rest));
    PathAt(ps, 0, ["player_queue"] + rest);
    PathAt(ps, 0, ["status"] + rest);
    if statusFirst {
      PathAt(inner, 1, rest);
      PathAt(inner, 0, rest);
    } else {
      PathAt(inner, 0, rest);
      PathAt(inner, 1, rest);
    }
  }

  /**
   * `toggle_play_pause` (lines 271-340): nothing without a state; otherwise the
   * flipped `paused` flag, the unchanged index and, when pausing, the
   * extrapolated progress.  The state itself is not touched, so two toggles
   * without a frame in between send the same flag.
   */
  function TogglePayload(st: Option<State>, elapsedMs: real, nowNs: int, tempId: string): (r: Option<Value>)
    ensures st.None? <==> r.None?
  {
    if st.None? then None
    else
      var s := st.value.playerState.status;
      var pq := st.value.playerState.playerQueue;
      var pausing := !s.paused;
      var progress := if pausing then CurrentProgress(st, elapsedMs) else s.progressMs;
      var version := VersionPayload(tempId, nowNs);
      Some(Envelope(
        FullQueuePayload(pq, pq.currentPlayableIndex, true, version),
        StatusPayload(s.durationMs, progress, pausing, s.playbackSpeed, version),
        false,
        [("player_action_timestamp_ms", IntValue(nowNs)), ("activity_interception_type", Str(DoNotIntercept))]))
  }

  /** The toggle flips the flag, keeps the index and the list, and reports extrapolated progress only when pausing. */
  lemma TogglePayloadSpec(st: Option<State>, elapsedMs: real, nowNs: int, tempId: string)
    requires st.Some?
    ensures var p := TogglePayload(st, elapsedMs, nowNs, tempId).value;
      var s := st.value.playerState.status;
      var pq := st.value.playerState.playerQueue;
      && Path(p, StatusPath + ["paused"]) == Some(Bool(!s.paused))
      && Path(p, StatusPath + ["progress_ms"]) == Some(IntValue(if s.paused then s.progressMs else CurrentProgress(st, elapsedMs)))
      && Path(p, QueuePath + ["current_playable_index"]) == Some(IntValue(pq.currentPlayableIndex))
      && Path(p, QueuePath + ["playable_list"]) == Some(ListPayload(pq.playableList, true))
  {
    var s := st.value.playerState.status;
    var pq := st.value.playerState.playerQueue;
    var version := VersionPayload(tempId, nowNs);
    var pausing := !s.paused;
    var progress := if pausing then CurrentProgress(st, elapsedMs) else s.progressMs;
    var q := FullQueuePayload(pq, pq.currentPlayableIndex, true, version);
    var sv := StatusPayload(s.durationMs, progress, pausing, s.playbackSpeed, version);
    var extra := [("player_action_timestamp_ms", IntValue(nowNs)), ("activity_interception_type", Str(DoNotIntercept))];
    EnvelopePaths(q, sv, false, extra, ["paused"]);
    EnvelopePaths(q, sv, false, extra, ["progress_ms"]);
    EnvelopePaths(q, sv, false, extra, ["current_playable_index"]);
    EnvelopePaths(q, sv, false, extra, ["playable_list"]);
    StatusPayloadPaths(s.durationMs, progress, pausing, s.playbackSpeed, version);
    FullQueuePayloadIndex(pq, pq.currentPlayableIndex, true, version);
    FullQueuePayloadList(pq, pq.currentPlayableIndex, true, version);
  }

  /** Where the status payload keeps the flag and the progress. */
  lemma StatusPayloadPaths(durationMs: int, progressMs: int, paused: bool, speed: real, version: Value)
    ensures Path(StatusPayload(durationMs, progressMs, paused, speed, version), ["paused"]) == Some(Bool(paused))
    ensures Path(StatusPayload(durationMs, progressMs, paused, speed, version), ["progress_ms"]) == Some(IntValue(progressMs))
  {
    var fs := StatusPayload(durationMs, progressMs, paused, speed, version).fields;
    PathAt(fs, 2, []);
    PathAt(fs, 1, []);
  }

  /** Where the full queue payload keeps the index. */
  lemma FullQueuePayloadIndex(pq: PlayerQueue, index: int, withIds: bool, version: Value)
    ensures Path(FullQueuePayload(pq, index, withIds, version), ["current_playable_index"]) == Some(IntValue(index))
  {
    PathAt(FullQueuePayload(pq, index, withIds, version).fields, 2, []);
  }

  /** Where the full queue payload keeps the list. */
  lemma FullQueuePayloadList(pq: PlayerQueue, index: int, withIds: bool, version: Value)
    ensures Path(FullQueuePayload(pq, index, withIds, version), ["playable_list"]) == Some(ListPayload(pq.playableList, withIds))
  {
    PathAt(FullQueuePayload(pq, index, withIds, version).fields, 3, []);
  }

  /** The index `prev` asks for: one back, but never below zero. */
  function PrevIndex(current: int): (r: int)
    ensures r >= 0
    ensures current >= 1 ==> r == current - 1
    ensures current <= 0 ==> r == 0
  {
    if current - 1 < 0 then 0 else current - 1
  }

  /** The `next`/`prev` command asking for the given index, restarting playback there. */
  function StepPayload(pq: PlayerQueue, index: int, nowNs: int, tempId: string): Value {
    var version := VersionPayload(tempId, nowNs);
    Envelope(ShortQueuePayload(pq, index, version), RestartStatusPayload(version), false, [])
  }

  /** Where the short queue payload keeps the index. */
  lemma ShortQueuePayloadIndex(pq: PlayerQueue, index: int, version: Value)
    ensures Path(ShortQueuePayload(pq, index, version), ["current_playable_index"]) == Some(IntValue(index))
  {
    PathAt(ShortQueuePayload(pq, index, version).fields, 2, []);
  }

  /** Where the short queue payload keeps the list. */
  lemma ShortQueuePayloadList(pq: PlayerQueue, index: int, version: Value)
    ensures Path(ShortQueuePayload(pq, index, version), ["playable_list"]) == Some(ListPayload(pq.playableList, true))
  {
    PathAt(ShortQueuePayload(pq, index, version).fields, 3, []);
  }

  /** The restart status: not paused, at position zero, at normal speed. */
  lemma RestartStatusPaths(version: Value)
    ensures Path(RestartStatusPayload(version), ["paused"]) == Some(Bool(false))
    ensures Path(RestartStatusPayload(version), ["progress_ms"]) == Some(IntValue(0))
    ensures Path(RestartStatusPayload(version), ["playback_speed"]) == Some(Num(1.0))
  {
    RestartPaused(version);
    RestartProgress(version);
    RestartSpeed(version);
  }

  lemma RestartPaused(version: Value)
    ensures Path(RestartStatusPayload(version), ["paused"]) == Some(Bool(false))
  {
    PathOne(RestartStatusPayload(version).fields, 1, "paused");
  }

  lemma RestartProgress(version: Value)
    ensures Path(RestartStatusPayload(version), ["progress_ms"]) == Some(IntValue(0))
  {
    PathOne(RestartStatusPayload(version).fields, 3, "progress_ms");
  }

  lemma RestartSpeed(version: Value)
    ensures Path(RestartStatusPayload(version), ["playback_speed"]) == Some(Num(1.0))
  {
    PathOne(RestartStatusPayload(version).fields, 2, "playback_speed");
  }

  /** A step command asks for exactly the given index over the unchanged list, playing from the start. */
  lemma StepPayloadSpec(pq: PlayerQueue, index: int, nowNs: int, tempId: string)
    ensures var p := StepPayload(pq, index, nowNs, tempId);
      && Path(p, QueuePath + ["current_playable_index"]) == Some(IntValue(index))
      && Path(p, QueuePath + ["playable_list"]) == Some(ListPayload(pq.playableList, true))
      && Path(p, StatusPath + ["paused"]) == Some(Bool(false))
      && Path(p, StatusPath + ["progress_ms"]) == Some(IntValue(0))
  {
    var version := VersionPayload(tempId, nowNs);
    var q := ShortQueuePayload(pq, index, version);
    var sv := RestartStatusPayload(version);
    EnvelopePaths(q, sv, false, [], ["current_playable_index"]);
    EnvelopePaths(q, sv, false, [], ["playable_list"]);
    EnvelopePaths(q, sv, false, [], ["paused"]);
    EnvelopePaths(q, sv, false, [], ["progress_ms"]);
    ShortQueuePayloadIndex(pq, index, version);
    ShortQueuePayloadList(pq, index, version);
    RestartStatusPaths(version);
  }

  /**
   * `next` (lines 401-459): nothing without a state; otherwise a step to one
   * past the current index.  Past the end of the list the source only logs a
   * warning and still sends the out-of-range index.
   */
  function NextPayload(st: Option<State>, nowNs: int, tempId: string): (r: Option<Value>)
    ensures st.None? <==> r.None?
  {
    if st.None? then None
    else
      var pq := st.value.playerState.playerQueue;
      Some(StepPayload(pq, pq.currentPlayableIndex + 1, nowNs, tempId))
  }

  /** `prev` (lines 461-518): nothing without a state; otherwise a step one back, clamped at zero. */
  function PrevPayload(st: Option<State>, nowNs: int, tempId: string): (r: Option<Value>)
    ensures st.None? <==> r.None?
  {
    if st.None? then None
    else
      var pq := st.value.playerState.playerQueue;
      Some(StepPayload(pq, PrevIndex(pq.currentPlayableIndex), nowNs, tempId))
  }

  /** `next` asks for the following index, `prev` for the preceding one but never a negative one; both restart playback. */
  lemma NextPrevSpec(st: Option<State>, nowNs: int, tempId: string)
    requires st.Some?
    ensures var i := st.value.playerState.playerQueue.currentPlayableIndex;
      && Path(NextPayload(st, nowNs, tempId).value, QueuePath + ["current_playable_index"]) == Some(IntValue(i + 1))
      && Path(NextPayload(st, nowNs, tempId).value, StatusPath + ["paused"]) == Some(Bool(false))
      && Path(PrevPayload(st, nowNs, tempId).value, QueuePath + ["current_playable_index"]) == Some(IntValue(if i >= 1 then i - 1 else 0))
      && Path(PrevPayload(st, nowNs, tempId).value, StatusPath + ["paused"]) == Some(Bool(false))
  {
    var pq := st.value.playerState.playerQueue;
    StepPayloadSpec(pq, pq.currentPlayableIndex + 1, nowNs, tempId);
    StepPayloadSpec(pq, PrevIndex(pq.currentPlayableIndex), nowNs, tempId);
  }

  /**
   * `update_state` (lines 520-584): the stored state sent back as it is, with
   * the player's own device id in the version, the queue items stripped of
   * their navigation and action ids, a fresh request id and the time stamp.
   */
  function UpdateStatePayload(st: Option<State>, deviceId: string, nowNs: int, rid: string): (r: Option<Value>)
    ensures st.None? <==> r.None?
  {
    if st.None? then None
    else
      var s := st.value.playerState.status;
      var pq := st.value.playerState.playerQueue;
      var version := VersionPayload(deviceId, nowNs);
      Some(Envelope(
        FullQueuePayload(pq, pq.currentPlayableIndex, false, version),
        StatusPayload(s.durationMs, s.progressMs, s.paused, s.playbackSpeed, version),
        true,
        [("rid", Str(rid)), ("player_action_timestamp_ms", IntValue(nowNs)), ("activity_interception_type", Str(DoNotIntercept))]))
  }

  /** `update_state` re-sends the flag, the progress, the index and the id-less list it holds. */
  lemma UpdateStatePayloadSpec(st: Option<State>, deviceId: string, nowNs: int, rid: string)
    requires st.Some?
    ensures var p := UpdateStatePayload(st, deviceId, nowNs, rid).value;
      var s := st.value.playerState.status;
      var pq := st.value.playerState.playerQueue;
      && Path(p, StatusPath + ["paused"]) == Some(Bool(s.paused))
      && Path(p, StatusPath + ["progress_ms"]) == Some(IntValue(s.progressMs))
      && Path(p, QueuePath + ["current_playable_index"]) == Some(IntValue(pq.currentPlayableIndex))
      && Path(p, QueuePath + ["playable_list"]) == Some(ListPayload(pq.playableList, false))
  {
    var s := st.value.playerState.status;
    var pq := st.value.playerState.playerQueue;
    var version := VersionPayload(deviceId, nowNs);
    var q := FullQueuePayload(pq, pq.currentPlayableIndex, false, version);
    var sv := StatusPayload(s.durationMs, s.progressMs, s.paused, s.playbackSpeed, version);
    var extra := [("rid", Str(rid)), ("player_action_timestamp_ms", IntValue(nowNs)), ("activity_interception_type", Str(DoNotIntercept))];
    EnvelopePaths(q, sv, true, extra, ["paused"]);
    EnvelopePaths(q, sv, true, extra, ["progress_ms"]);
    EnvelopePaths(q, sv, true, extra, ["current_playable_index"]);
    EnvelopePaths(q, sv, true, extra, ["playable_list"]);
    StatusPayloadPaths(s.durationMs, s.progressMs, s.paused, s.playbackSpeed, version);
    FullQueuePayloadIndex(pq, pq.currentPlayableIndex, false, version);
    FullQueuePayloadList(pq, pq.currentPlayableIndex, false, version);
  }

  /** Without ids, every listed item sends null navigation and action ids. */
  lemma ListPayloadWithoutIds(items: seq<PlayableItem>)
    ensures var v := ListPayload(items, false);
      forall i :: 0 <= i < |items| ==>
        && Field(v.items[i], "navigation_id_optional") == Some(Null)
        && Field(v.items[i], "playback_action_id_optional") == Some(Null)
  {
    var v := ListPayload(items, false);
    forall i | 0 <= i < |items|
      ensures Field(v.items[i], "navigation_id_optional") == Some(Null)
      ensures Field(v.items[i], "playback_action_id_optional") == Some(Null)
    {
      ItemPayloadWithoutIds(items[i]);
    }
  }

  /** An item payload without ids carries null navigation and action ids. */
  lemma ItemPayloadWithoutIds(item: PlayableItem)
    ensures Field(ItemPayload(item, false), "navigation_id_optional") == Some(Null)
    ensures Field(ItemPayload(item, false), "playback_action_id_optional") == Some(Null)
  {
    ItemPayloadWithoutNavigationId(item);
    ItemPayloadWithoutPlaybackActionId(item);
  }

  lemma ItemPayloadWithoutNavigationId(item: PlayableItem)
    ensures Field(ItemPayload(item, false), "navigation_id_optional") == Some(Null)
  {
    NoNavigationId(ItemPayload(item, false).fields);
  }

  lemma ItemPayloadWithoutPlaybackActionId(item: PlayableItem)
    ensures Field(ItemPayload(item, false), "playback_action_id_optional") == Some(Null)
  {
    NoPlaybackActionId(ItemPayload(item, false).fields);
  }

  /** The seventh entry of an item payload is its navigation id. */
  lemma NoNavigationId(fs: Fields)
    requires |fs| == 8 && fs[6] == ("navigation_id_optional", Null)
    requires forall j :: 0 <= j < 6 ==> |fs[j].0| != |"navigation_id_optional"|
    ensures Get(fs, "navigation_id_optional") == Some(Null)
  {
    GetAt(fs, "navigation_id_optional", 6);
  }

  /** The eighth entry of an item payload is its playback action id. */
  lemma NoPlaybackActionId(fs: Fields)
    requires |fs| == 8 && fs[7] == ("playback_action_id_optional", Null)
    requires forall j :: 0 <= j < 7 ==> |fs[j].0| != |"playback_action_id_optional"|
    ensures Get(fs, "playback_action_id_optional") == Some(Null)
  {
    GetAt(fs, "playback_action_id_optional", 7);
  }

  /** The one-item queue `play_track` sends: the track at index 0 of a `VARIOUS` entity. */
  function PlayTrackQueue(trackId: string, version: Value): Value {
    Obj([
      ("current_playable_index", IntValue(0)),
      ("entity_id", Str("")),
      ("entity_type", Str(EntityTypeName(Various))),
      ("playable_list", Arr([Obj([("playable_id", Str(trackId)), ("playable_type", Str(PlayableItemTypeName(Track)))])])),
      ("options", Obj([("repeat_mode", Str("NONE"))])),
      ("entity_context", Str(EntityContextName(BasedOnEntityByDefault))),
      ("version", version)])
  }

  /** `play_track` (lines 342-383): replace the queue by the one track and play it from the start. */
  function PlayTrackPayload(trackId: string, nowNs: int, tempId: string): Value {
    var version := VersionPayload(tempId, nowNs);
    Envelope(PlayTrackQueue(trackId, version), RestartStatusPayload(version), false, [])
  }

  /** The single listed item is the requested track, at index 0, and playback starts unpaused at zero. */
  lemma PlayTrackPayloadSpec(trackId: string, nowNs: int, tempId: string)
    ensures var p := PlayTrackPayload(trackId, nowNs, tempId);
      && Path(p, QueuePath + ["current_playable_index"]) == Some(IntValue(0))
      && Path(p, QueuePath + ["playable_list"]) == Some(Arr([Obj([("playable_id", Str(trackId)), ("playable_type", Str("TRACK"))])]))
      && Path(p, StatusPath + ["paused"]) == Some(Bool(false))
      && Path(p, StatusPath + ["progress_ms"]) == Some(IntValue(0))
  {
    var version := VersionPayload(tempId, nowNs);
    var q := PlayTrackQueue(trackId, version);
    var sv := RestartStatusPayload(version);
    EnvelopePaths(q, sv, false, [], ["current_playable_index"]);
    EnvelopePaths(q, sv, false, [], ["playable_list"]);
    EnvelopePaths(q, sv, false, [], ["paused"]);
    EnvelopePaths(q, sv, false, [], ["progress_ms"]);
    PlayTrackQueuePaths(trackId, version);
    RestartStatusPaths(version);
  }

  /** Where the one-item queue keeps its index and its list. */
  lemma PlayTrackQueuePaths(trackId: string, version: Value)
    ensures Path(PlayTrackQueue(trackId, version), ["current_playable_index"]) == Some(IntValue(0))
    ensures Path(PlayTrackQueue(trackId, version), ["playable_list"])
        == Some(Arr([Obj([("playable_id", Str(trackId)), ("playable_type", Str("TRACK"))])]))
  {
    var fs := PlayTrackQueue(trackId, version).fields;
    PathAt(fs, 0, []);
    PathAt(fs, 3, []);
  }

  // -------------------------------------------------------- one-off sends

  /** What a one-off command connection did with its payload. */
  datatype OneOff = NotSent | Sent(stateUrl: string, redirect: Redirect, payload: Value)

  /**
   * `_send_one_off_command` (lines 136-173): a throw-away connection under a
   * random device id.  The redirect answer is validated directly (an error
   * object simply fails validation); every failure is logged and swallowed.
   */
  function OneOffCommand(redirectorUp: bool, reply: Reply, stateSocketUp: bool, payload: Value): (r: OneOff)
    ensures r.Sent? <==> redirectorUp && reply.Received? && DecodeRedirect(reply.doc).Some? && stateSocketUp
    ensures r.Sent? ==> r.payload == payload && r.stateUrl == StateUrl(r.redirect.host)
  {
    if !redirectorUp then NotSent
    else
      match reply
      case Received(doc) =>
        (match DecodeRedirect(doc)
         case Some(rd) => if stateSocketUp then Sent(StateUrl(rd.host), rd, payload) else NotSent
         case None => NotSent)
      case _ => NotSent
  }

  /** Whenever the player's own connection would reach the state service, a one-off command reaches the same address. */
  lemma OneOffFollowsConnect(cfg: PlayerConfig, env: Fresh, redirectorUp: bool, reply: Reply, stateSocketUp: bool, payload: Value)
    requires Connect(cfg, env, redirectorUp, reply, stateSocketUp).Ok?
    ensures OneOffCommand(redirectorUp, reply, stateSocketUp, payload).Sent?
    ensures OneOffCommand(redirectorUp, reply, stateSocketUp, payload).stateUrl
        == Connect(cfg, env, redirectorUp, reply, stateSocketUp).value.stateUrl
  {
  }
}
